=== FILE: README.md ===
# Design System Manager — a verified model of its services and stores

Design System Manager is a Vue single-page dashboard for a design system
(the ant-design component library). The dashboard has:

- a component catalogue;
- a design audit;
- component requests with votes;
- an issue tracker;
- a contribution workflow with branches and reviews;
- analytics;
- an assistant chat panel.

Its data comes from two sources. One is the GitHub and npm public APIs,
read through a time-limited cache in the browser's local storage. The
other is local fixtures, persisted in the same local storage.

This project models the core of the application in Dafny and proves
properties of the model:

- **Services.** The cache (`Cache`) and the persisted storage (`Storage`)
  share one browser store, a map from keys to stored texts (`LocalStore`).
  The cache-through fetch protocol of the two API clients is `Remote`.
  The clients themselves are `GitHub` and `Npm`, with the typed payloads in
  `ApiTypes`. The data mapper that turns API payloads into dashboard view
  models is `DataMapper`, over the view types in `Types`.
- **Stores.** Each Pinia store is a class with its state as fields:
  - the audit (`Audit`);
  - requests (`Requests`);
  - the component catalogue (`ComponentLibrary`, over the fixture and
    `getComponentById` in `ComponentsData`);
  - the issue tracker (`IssueTracker`);
  - contributions (`ContributionWorkflow`);
  - analytics (`Analytics`);
  - the chat panel (`Chat`).

  The issue and contribution lists are persisted through `Persistence`.
- **Common.** Common holds the JavaScript string and array operations the
  code relies on. Examples are `trim`, `split`, `includes`, `filter`,
  `findIndex`, a stable sort and a group-by fold. Each is stated with the
  properties the model uses.

Each store action is a method that modifies its store. Its postcondition
states every field it changes, the selection and what storage holds, in
terms of functions on the old state. Where an action saves a list, storage
holds the saved list when the browser accepts the write (`writable`) and
is unchanged when it refuses it, while the list in memory changes either
way. Lemmas
then prove the properties the dashboard relies on, for example:

- statistics partition the list;
- a filter narrows the list;
- a vote toggles;
- a save round-trips;
- a cached answer is served unchanged until it expires.

Clocks, random numbers, the network and the browser's storage quota are
parameters of the operations that use them: `now` and `millis` for
`Date.now()`, `net` for the API server, and `writable` for a write the
browser refuses.

## Model

| member | source | states |
|---|---|---|
| Common.FilterCounts | src/stores/requests.ts:16-24 | a filter keeps every copy of a passing element and no copy of a failing one, which the filtered lists of every store rely on |
| Common.SortDescStable | src/services/dataMapper.ts:333 | the descending sort by key is stable: the elements with any one key appear in their original order |
| Common.SortAscStable | src/services/dataMapper.ts:188 | the ascending sort by key is stable: the elements with any one key appear in their original order |
| LocalStore.Prefixed | src/services/cache.ts:51-54 | the keys a prefix-clear visits are exactly the stored keys that start with the prefix |
| LocalStore.Unprefixed | src/services/storage.ts:46-53 | after a prefix-clear, exactly the keys without the prefix remain, with their texts unchanged |
| Cache.PhysicalKey | src/services/cache.ts:12-14 | the stored key is the prefix followed by the logical key |
| Cache.KeyInjective | src/services/cache.ts:12-14 | two logical keys under one prefix never share a stored key |
| Cache.Lookup | src/services/cache.ts:16-32 | a read yields data exactly when the text parses to an entry whose expiry is not before now; absent, empty, unparsable and non-entry texts yield null |
| Cache.AfterLookup | src/services/cache.ts:23-26 | a read removes the entry only when it is past expiry, and changes nothing else |
| Cache.Put | src/services/cache.ts:34-45 | a write stores an entry holding the data, stamped now and expiring ttl later, and leaves every other key unchanged |
| Cache.CacheService.constructor | src/services/cache.ts:8-10 | the service uses the given prefix, by default "dsm_cache_" |
| Cache.CacheService.Key | src/services/cache.ts:12-14 | the service's key is its prefix followed by the logical key |
| Cache.CacheService.Get | src/services/cache.ts:16-32 | returns the lookup's answer, and the store after it is the store with an expired entry evicted |
| Cache.CacheService.Set | src/services/cache.ts:34-45 | a write that the browser accepts stores the entry; a refused write is swallowed and leaves the store unchanged |
| Cache.CacheService.Remove | src/services/cache.ts:47-49 | exactly the key's stored entry is removed |
| Cache.CacheService.Clear | src/services/cache.ts:51-54 | the loop removes every key with the prefix and keeps every other key unchanged |
| Cache.CacheService.IsExpired | src/services/cache.ts:56-66 | true exactly for an absent, empty, unparsable or past-expiry text; it agrees with Get on entries and never deletes anything |
| Cache.PutThenLookup | src/services/cache.ts:16-45 | a written entry reads back up to and including its expiry instant, and not one millisecond later |
| Cache.PutIsolated | src/services/cache.ts:34-45 | writing one key leaves every other key's reading unchanged |
| Cache.LookupDeletesOnlyDead | src/services/cache.ts:16-32 | the eviction a read performs never changes what any later read answers |
| Cache.ClearedLookup | src/services/cache.ts:51-54 | after clear, no key under the prefix answers a read |
| Storage.Read | src/services/storage.ts:11-19 | a read yields the parsed document of a non-empty parsable text, and the default value otherwise |
| Storage.PersistentStorage.constructor | src/services/storage.ts:7 | the storage service works on the given browser store |
| Storage.PersistentStorage.Get | src/services/storage.ts:11-19 | the value under "dsm_" + key, or the default (null when none is given) |
| Storage.PersistentStorage.Set | src/services/storage.ts:24-30 | an accepted write stores the value's JSON under "dsm_" + key; a failed write leaves the store unchanged |
| Storage.PersistentStorage.Remove | src/services/storage.ts:35-41 | exactly "dsm_" + key is removed |
| Storage.PersistentStorage.Clear | src/services/storage.ts:46-53 | every key that starts with "dsm_" is removed and every other key is kept unchanged |
| Storage.SetThenGet | src/services/storage.ts:11-30 | a written value reads back unchanged, whatever default the reader passes |
| Storage.RemoveIsolated | src/services/storage.ts:35-41 | removing one key leaves every other key's reading unchanged |
| Storage.CachePrefixUnderStorage | src/services/storage.ts:5 | "dsm_" is a prefix of the cache's "dsm_cache_" |
| Storage.StorageClearWipesCache | src/services/storage.ts:46-53 | so clearing storage also deletes every cache entry |
| Storage.CacheClearKeepsStorage | src/services/cache.ts:51-54 | clearing the cache keeps every storage key that does not begin with "cache_" |
| Storage.StorageKeysSurviveCacheClear | src/services/storage.ts:57-62 | every declared storage key survives a cache clear |
| Storage.ThemeSurvivesClear | src/stores/theme.ts:8-32 | the theme key "dsm-theme" uses a hyphen, so storage clear keeps it |
| Remote.Served | src/services/github.ts:29-32 | the cache serves a body exactly when the lookup finds an unexpired entry whose data is truthy |
| Remote.FetchOutcome | src/services/github.ts:27-54 | a served body is returned as is; otherwise the call answers what the request answers |
| Remote.HitShortCircuits | src/services/github.ts:29-32 | a cache hit answers the cached body and leaves the store as it was |
| Remote.FailureNeverWrites | src/services/github.ts:41-46 | a failed request writes nothing: every entry afterwards was there before, unchanged |
| Remote.SuccessThenHit | src/services/github.ts:48-53 | a truthy successful body is cached, and any call for the same key within the TTL is answered from the cache with that body and without a request |
| Remote.FetchIsolated | src/services/github.ts:27-54 | a call touches no key but its own |
| GitHub.CacheKey | src/services/github.ts:56-151 | every query's cache key starts with "github_"; page sizes are told apart (KeysDistinctByPageSize), label lists are not (LabelKeysCollide) |
| GitHub.LabelKeysCollide | src/services/github.ts:115-121 | the label queries ["a_b"] and ["a", "b"] are different queries with the same cache key |
| GitHub.LabelQueryKey | src/services/github.ts:115-121 | the corrected label-query key starts with the same "github_issues_labels_" stem |
| GitHub.LabelQueryKeyInjective | src/services/github.ts:115-121 | with the corrected key, equal keys mean the same labels in the same order and the same page size |
| GitHub.Interpret | src/services/github.ts:41-48 | 2xx is success with the body; 403 is the rate-limit error; any other status is a generic error carrying the status |
| GitHub.Fetch | src/services/github.ts:27-54 | a request is issued exactly when the cache serves nothing; the answer and the new store follow the cache-through protocol with a ten-minute TTL |
| GitHub.ComponentFolders | src/services/github.ts:77-79 | keeps exactly the directories whose name is not excluded, in listing order |
| GitHub.ListingOf | src/services/github.ts:70-80 | a listing body is filtered; a failure passes through; any other body is malformed |
| GitHub.ComponentsList | src/services/github.ts:70-80 | the cache keeps the unfiltered listing; the caller gets the filtered folders |
| GitHub.ClearCache | src/services/github.ts:178-187 | removes exactly the eight fixed keys and nothing else |
| GitHub.ClearedAreDefaultQueries | src/services/github.ts:178-187 | the eight keys are those of the parameterless queries and of the others at their default page sizes |
| GitHub.StemInjective | src/services/github.ts:85-130 | two keys with the same stem differ when their page sizes do |
| GitHub.KeysDistinctByPageSize | src/services/github.ts:85-150 | different page sizes of one endpoint use different cache entries |
| GitHub.LabelKeyShape | src/services/github.ts:115-121 | a label query's key reads "github_issues_l" at its start |
| GitHub.SurvivesClearCache | src/services/github.ts:178-187 | clearCache spares the 50-issue bug query and every label query |
| GitHub.ClearCacheKeeps | src/services/github.ts:178-187 | so an entry under a spared key is still in the store after clearCache |
| Npm.CacheKey | src/services/npm.ts:39-74 | every query's cache key starts with "npm_" |
| Npm.Interpret | src/services/npm.ts:23-27 | 2xx is success with the body; every other status is a generic error carrying the status; 403 is not singled out |
| Npm.Fetch | src/services/npm.ts:14-33 | the same cache-through protocol as the GitHub client, with a ten-minute TTL |
| Npm.PackageOf | src/services/npm.ts:39-44 | a package body is the package; any other body is malformed; a failure passes through |
| Npm.LatestVersion | src/services/npm.ts:79-82 | the latest dist-tag of the fetched package document |
| Npm.Dated | src/services/npm.ts:93-94 | keeps exactly the versions that have a time entry |
| Npm.NewestFirst | src/services/npm.ts:95-99 | the dated versions with their times, sorted newest first, as a permutation of the dated list |
| Npm.RecentVersions | src/services/npm.ts:87-101 | at most count entries, each a dated version with its own date, newest first |
| Npm.RecentVersionsNewest | src/services/npm.ts:87-101 | with 0 <= count <= the dated versions, exactly count entries are listed, and no dated version left out is newer than a listed one |
| Npm.NewestFirstCut | src/services/npm.ts:95-99 | no dated version outside the first n of the newest-first order is newer than one inside it |
| Npm.RecentVersionsComplete | src/services/npm.ts:87-101 | when count covers them all, every dated version is listed |
| Npm.RecentVersionsOf | src/services/npm.ts:87-101 | fetches the package document and lists its recent versions, or passes the failure on |
| Npm.ClearCache | src/services/npm.ts:106-111 | removes exactly the four fixed keys and nothing else |
| Npm.ClearedAreAllQueries | src/services/npm.ts:106-111 | the four cleared keys cover every npm query |
| Npm.NoCrossClientCollision | src/services/npm.ts:39-74 | the npm and GitHub clients never share a cache key |
| DataMapper.Capitalize | src/services/dataMapper.ts:35 | the first character is upper-cased and the rest is kept; the length and the presence of spaces are unchanged |
| DataMapper.CapitalizeAll | src/services/dataMapper.ts:35 | capitalises every segment, in order |
| DataMapper.FormatComponentWords | src/services/dataMapper.ts:32-37 | a folder name without spaces formats to one word per hyphen segment: splitting the display name at spaces gives back the capitalised segments |
| DataMapper.CategoryOf | src/services/dataMapper.ts:40-52 | foundations exactly for the foundation names, patterns exactly for the pattern names, components otherwise, compared in lower case; never templates |
| DataMapper.Wrap32 | src/services/dataMapper.ts:79-80 | the 32-bit two's-complement value congruent to x modulo 2^32 |
| DataMapper.NameHash | src/services/dataMapper.ts:77-81 | the hash always fits in a signed 32-bit integer |
| DataMapper.HashStepIsTimes31 | src/services/dataMapper.ts:79-80 | the shift-and-subtract step is hash * 31 + code in 32-bit arithmetic |
| DataMapper.TruncRem | src/services/dataMapper.ts:82 | JavaScript's % keeps the sign of the dividend and stays strictly inside (-d, d) |
| DataMapper.Abs | src/services/dataMapper.ts:82 | the magnitude of x |
| DataMapper.UsageCount | src/services/dataMapper.ts:56-83 | a popular name (in lower case) gets its table count; any other name gets a count between 100 and 2099 |
| DataMapper.GenerateUsageCount | src/services/dataMapper.ts:56-83 | the hash loop computes UsageCount, so the result is at least 100 |
| DataMapper.FamilyTags | src/services/dataMapper.ts:90-105 | each family tag is present exactly when its keyword test holds; only family tags appear, at most six |
| DataMapper.GenerateTags | src/services/dataMapper.ts:86-111 | the family tags the lower-cased name mentions, each exactly when one of its keywords occurs, followed by the lower-cased name; never empty |
| DataMapper.LatestVersion | src/services/dataMapper.ts:121-122 | "5.0.0" without releases; a first tag "v"+t with t non-empty gives t, a tag without "v" is used as is, a bare "v" gives "5.0.0"; never empty |
| DataMapper.LastUpdated | src/services/dataMapper.ts:143-150 | the whole text before the first "T" of the first release's publication time when that text is non-empty, otherwise today |
| DataMapper.StatusOf | src/services/dataMapper.ts:128-137 | deprecated exactly for the two retired folders; otherwise beta exactly below 200 uses, else stable |
| DataMapper.NeedsUpdate | src/services/dataMapper.ts:140 | an empty name never needs an update (NaN % 5 is not 0) |
| DataMapper.ToComponent | src/services/dataMapper.ts:124-164 | id "antd-" + folder, formatted name, category, status from usage, the shared version and date, web only |
| DataMapper.ComponentsInOrder | src/services/dataMapper.ts:124-164 | maps every folder, in input order |
| DataMapper.MapToDesignComponents | src/services/dataMapper.ts:117-166 | every folder mapped, most used first, as a permutation of the mapped list |
| DataMapper.IdNamesFolder | src/services/dataMapper.ts:153 | the component id determines the folder name |
| DataMapper.DesignComponentIdsDistinct | src/services/dataMapper.ts:117-166 | folders with distinct names give components with distinct ids |
| DataMapper.WeekDay | src/services/dataMapper.ts:179 | getDay of a day number: between 0 (Sunday) and 6 |
| DataMapper.WeekStartIsMonday | src/services/dataMapper.ts:176-181 | the week start is a Monday: at most five days back for Monday to Saturday, and the next day for a Sunday |
| DataMapper.WeekStartShared | src/services/dataMapper.ts:176-181 | the Sunday before a Monday and that Monday to Saturday all share the Monday as week start |
| DataMapper.MapToUsageMetrics | src/services/dataMapper.ts:171-189 | the loop sums downloads per week start in a record and lists the record sorted by date |
| DataMapper.UsageMetricsEntries | src/services/dataMapper.ts:183-188 | every chart point is an entry of the weekly record with its accumulated sum |
| DataMapper.UsageMetricsAscending | src/services/dataMapper.ts:186-188 | one point per distinct week, strictly increasing in date |
| DataMapper.UsageMetricsValues | src/services/dataMapper.ts:175-188 | every point is dated on a Monday and holds exactly the downloads of the days of that week |
| DataMapper.WeeklyTotalsSum | src/services/dataMapper.ts:175-184 | the weekly record's totals add up to the downloads of all the days: no day is lost or counted twice |
| DataMapper.UsageMetricsTotal | src/services/dataMapper.ts:171-189 | the chart's points add up to the downloads of all the days |
| DataMapper.UsageMetricsCover | src/services/dataMapper.ts:175-184 | every day's week appears on the chart |
| DataMapper.Trend | src/services/dataMapper.ts:201 | between -3 and 6, and undefined (NaN) exactly for an empty name |
| DataMapper.MapToComponentUsage | src/services/dataMapper.ts:194-203 | the first ten components, in order, with id, name, count and trend copied |
| DataMapper.MapToAnalyticsStats | src/services/dataMapper.ts:208-229 | active projects are the downloads divided by 100000, rounded down; the other fields are copied |
| DataMapper.ToVersionEntry | src/services/dataMapper.ts:235-241 | tag, prerelease flag and author copied; the name falls back to the tag; the date is the whole text before the first "T", or empty |
| DataMapper.MapToVersionHistory | src/services/dataMapper.ts:234-242 | every release, in order |
| DataMapper.LabelNames | src/services/dataMapper.ts:251 | the label names lower-cased, in order |
| DataMapper.SeverityOf | src/services/dataMapper.ts:250-257 | critical exactly when a label mentions a critical word; high exactly when none does and one mentions a high word; otherwise medium |
| DataMapper.IssueKind | src/services/dataMapper.ts:260-269 | the first of style, type, accessibility and docs that a label mentions; otherwise bug report |
| DataMapper.ComponentOfLabels | src/services/dataMapper.ts:272-275 | the first "component:" label with the first "Component:" and then the first "component:" removed and trimmed; "General" without one |
| DataMapper.ShortTitle | src/services/dataMapper.ts:281 | a title over the limit is cut to limit - 3 characters plus "...", so it is never longer than the limit |
| DataMapper.Describe | src/services/dataMapper.ts:282 | a non-empty body cut to n characters, otherwise "No description provided" |
| DataMapper.Frame | src/services/dataMapper.ts:286 | never empty; "No labels" when there are no labels; a single label gives its name, or "No labels" when that name is empty; a non-empty first label name begins the text |
| DataMapper.ToAuditIssue | src/services/dataMapper.ts:277-292 | id "gh-" + number, severity, type, short title, auto-fixable exactly for easy labels, file from the component label, never fixed |
| DataMapper.MapToAuditIssues | src/services/dataMapper.ts:247-294 | every bug report mapped, in order, none fixed |
| DataMapper.AuditIssueIdsDistinct | src/services/dataMapper.ts:278 | distinct issue numbers give distinct finding ids |
| DataMapper.ProjectGroup | src/services/dataMapper.ts:304-310 | the first "component:" or "comp:" label with that prefix cut off and trimmed; "Other" without one |
| DataMapper.Coverage | src/services/dataMapper.ts:328 | max(100 - 5n, 50) |
| DataMapper.ToProject | src/services/dataMapper.ts:321-331 | the index-th group as project "proj-(index+1)" with its issue count and coverage |
| DataMapper.ProjectsInOrder | src/services/dataMapper.ts:320-332 | every group as a project, in record order |
| DataMapper.MapToAuditProjects | src/services/dataMapper.ts:299-335 | the grouping loop builds the record, then the projects are numbered, sorted by issue count and cut to ten |
| DataMapper.ProjectGroupsExact | src/services/dataMapper.ts:303-316 | each group holds exactly the issues of its name, at least one |
| DataMapper.AuditProjectsSorted | src/services/dataMapper.ts:333-334 | at most ten projects, most issues first |
| DataMapper.AuditProjectCoverage | src/services/dataMapper.ts:328-329 | every project has at least one issue and a coverage between 50 and 95 |
| DataMapper.AuditProjectIdsDistinct | src/services/dataMapper.ts:326 | no two projects share an id |
| DataMapper.PriorityOf | src/services/dataMapper.ts:343-352 | the first of critical, high and low whose words a label mentions; otherwise medium |
| DataMapper.RequestStatusOf | src/services/dataMapper.ts:355-362 | the first of under review, in development and ready whose words a label mentions; otherwise submitted |
| DataMapper.Voters | src/services/dataMapper.ts:378 | n voters "user-1" to "user-n" |
| DataMapper.VotersDistinct | src/services/dataMapper.ts:378 | the generated voters are all different |
| DataMapper.AffectedProjects | src/services/dataMapper.ts:387 | the vote count divided by three, rounded up |
| DataMapper.ToRequest | src/services/dataMapper.ts:341-390 | votes are the comment count, at least one, with one voter per vote; priority and status from labels; short title; user story from the title |
| DataMapper.MapToComponentRequests | src/services/dataMapper.ts:340-391 | every issue mapped, in order |
| DataMapper.MappedRequestConsistent | src/services/dataMapper.ts:365-387 | a mapped request has as many distinct voters as votes, and affects at least one project |
| DataMapper.ReleaseAlert | src/services/dataMapper.ts:415-429 | the release alert exists exactly when the latest release date parses and is at most seven days before now |
| DataMapper.BugAlerts | src/services/dataMapper.ts:405-412 | the bug warning exists exactly above fifty open bugs, and names the count |
| DataMapper.StarAlerts | src/services/dataMapper.ts:432-440 | the star note exists exactly from ninety thousand stars |
| DataMapper.ReleaseAlerts | src/services/dataMapper.ts:415-429 | the release alert as a list of zero or one |
| DataMapper.GenerateAlerts | src/services/dataMapper.ts:396-443 | the bug, release and star alerts, each when its condition holds, in that order |
| DataMapper.AlertsExactlyWhen | src/services/dataMapper.ts:396-443 | each alert appears exactly when its condition holds, and no alert id appears twice |
| DataMapper.StarMilestone | src/services/dataMapper.ts:432 | the milestone is the star count rounded down to a thousand, and at least ninety thousand |
| DataMapper.CountTitleMentions | src/services/dataMapper.ts:458-463 | the inner loop adds one mention for each component the title names |
| DataMapper.CountMentions | src/services/dataMapper.ts:455-464 | the nested loops build the mention record: ids in order of first mention, each with its count |
| DataMapper.MentionCountExact | src/services/dataMapper.ts:455-464 | a recorded count is exactly the number of mentions of that id, at least one |
| DataMapper.TopMentioned | src/services/dataMapper.ts:467-469 | exactly min(3, number of counted ids) entries, sorted by count descending, a sub-multiset of the record, and no entry left out has a higher count than one kept |
| DataMapper.UpdateRec | src/services/dataMapper.ts:471-480 | the update advice for an entry carries its component id and the name of the first component with that id |
| DataMapper.UpdateRecs | src/services/dataMapper.ts:470-482 | exactly one update advice per top entry with at least three mentions whose component is known, in the order of the top entries, and none for any other entry; each names a component of the library |
| DataMapper.DeprecationRecs | src/services/dataMapper.ts:485-497 | the deprecation advice for the first two deprecated components (fewer when there are fewer), in library order |
| DataMapper.PromotionRecs | src/services/dataMapper.ts:500-512 | the promotion advice for the first two beta components used more than 500 times (fewer when there are fewer), in library order |
| DataMapper.DeprecationAdviceJustified | src/services/dataMapper.ts:485-497 | every deprecation advice names a deprecated component |
| DataMapper.PromotionAdviceJustified | src/services/dataMapper.ts:500-512 | every promotion advice names a beta component with over 500 uses |
| DataMapper.GenerateRecommendations | src/services/dataMapper.ts:448-515 | the loops compute update, then deprecation, then promotion advice, cut to five |
| DataMapper.RecommendationsShape | src/services/dataMapper.ts:448-515 | at most five advices, kinds in the order update, deprecate, promote, and at most three, two and two of each |
| DataMapper.UpdateAdviceJustified | src/services/dataMapper.ts:455-482 | every update advice names a known component that issue titles mention at least three times, and its id is among the three most-mentioned entries |
| DataMapper.UpdateAdviceFromTop | src/services/dataMapper.ts:466-482 | every update advice among the recommendations is built from the three most-mentioned entries |
| Audit.IssueList.constructor | src/stores/audit.ts:9 | the findings array holds the given findings |
| Audit.FilteredIssues | src/stores/audit.ts:20-36 | the open findings, in order, that have the selected severity and, when a project with the selected id exists, whose file mentions the first word of its name, ignoring case; every such finding is listed |
| Audit.FilteredWithoutSelection | src/stores/audit.ts:20-36 | with no selection, or a project id no project carries, every open finding is listed |
| Audit.IssuesBySeverity | src/stores/audit.ts:38-42 | exactly the open findings of that severity, in order |
| Audit.AutoFixableIssues | src/stores/audit.ts:56-58 | exactly the listed findings that can be fixed automatically |
| Audit.RoundedMean | src/stores/audit.ts:52 | the quotient rounded to the nearest integer, a half upwards |
| Audit.OpenPartition | src/stores/audit.ts:46-49 | the open count is the sum of the three severity counts |
| Audit.AutoFixableAreOpen | src/stores/audit.ts:46-50 | no more fixable open findings than open findings |
| Audit.Stats | src/stores/audit.ts:44-54 | every count is of the unfixed findings only: the total, one count per severity, and the auto-fixable ones; total = critical + high + medium, auto-fixable within the total, the rounded mean coverage, 0 without projects |
| Audit.FixFirst | src/stores/audit.ts:69-74 | the first finding with the id is marked fixed; every other finding is unchanged; an unknown id changes nothing |
| Audit.FixIdempotent | src/stores/audit.ts:69-74 | fixing twice is fixing once |
| Audit.FixOpenCount | src/stores/audit.ts:69-74 | a fix lowers the open count by one exactly when the finding it reaches was open |
| Audit.FixAllAutoFixable | src/stores/audit.ts:76-82 | every automatically fixable finding ends fixed; the others are untouched |
| Audit.FixAllIdempotent | src/stores/audit.ts:76-82 | fixing all twice is fixing all once |
| Audit.FixAllLeavesNothing | src/stores/audit.ts:76-82 | afterwards the auto-fixable count and list are empty under every selection |
| Audit.IgnoreFirst | src/stores/audit.ts:84-89 | the first finding with the id is removed and the others keep their order; an unknown id changes nothing |
| Audit.BugIssuesOf | src/stores/audit.ts:105-114 | a fetched issue list is used; any other body, or a failure, becomes the error |
| Audit.AuditStore.constructor | src/stores/audit.ts:9-17 | the fixture findings and projects, no filters, not loading, no error, mock source |
| Audit.AuditStore.SetSeverityFilter | src/stores/audit.ts:61-63 | sets the severity selection and nothing else |
| Audit.AuditStore.SetProjectFilter | src/stores/audit.ts:65-67 | sets the project selection and nothing else |
| Audit.AuditStore.FixIssue | src/stores/audit.ts:69-74 | the shown array becomes FixFirst of its old contents |
| Audit.AuditStore.FixAll | src/stores/audit.ts:76-82 | the loop leaves the shown array equal to FixAllAutoFixable of its old contents |
| Audit.AuditStore.IgnoreIssue | src/stores/audit.ts:84-89 | the shown array becomes IgnoreFirst of its old contents |
| Audit.AuditStore.ClearFilters | src/stores/audit.ts:91-94 | both selections cleared, nothing else changed |
| Audit.AuditStore.AdoptList | src/stores/audit.ts:108-111 | a new array with the mapped findings, the grouped projects, API source, no error |
| Audit.AuditStore.AdoptFailure | src/stores/audit.ts:112-119 | the error is recorded and the fixture is shown again |
| Audit.AuditStore.FetchAuditData | src/stores/audit.ts:99-123 | the network is asked exactly when the cache serves nothing live; the cache is updated as the GitHub client does; a usable list is shown mapped, anything else falls back to the fixture; loading ends false |
| Audit.AuditStore.UseMockData | src/stores/audit.ts:128-133 | the fixture array and projects, mock source, no error |
| Audit.AuditStore.RefreshData | src/stores/audit.ts:138-141 | as written: the load that follows clearing only the client's default keys |
| Audit.AuditStore.RefreshDataFresh | src/stores/audit.ts:138-141 | as intended: every refresh asks the network and shows what it answered |
| Audit.RefreshServesCachedBugs | src/stores/audit.ts:138-141 | clearing the default keys does not change what the cache serves for the bug query |
| Audit.StaleRefreshWitness | src/stores/audit.ts:138-141 | a bug list cached a minute earlier is served again after the refresh's clear |
| Audit.FixThenReset | src/stores/audit.ts:128-133 | while the fixture is shown, a fix survives a reset to the fixture, since both act on the same array |
| Requests.FilteredRequests | src/stores/requests.ts:15-25 | exactly the requests that pass both selections, in order |
| Requests.UnfilteredIsAll | src/stores/requests.ts:15-25 | without a selection every request is listed |
| Requests.ByStatus | src/stores/requests.ts:27-32 | exactly the requests in that status, in order |
| Requests.StatusPartition | src/stores/requests.ts:27-32 | every request is in exactly one of the four columns |
| Requests.Stats | src/stores/requests.ts:34-41 | the total is the number of requests and the sum of the four column sizes |
| Requests.TopVoted | src/stores/requests.ts:43-47 | at most five requests, most votes first, drawn from the board, and none left out has more votes than one shown |
| Requests.AddVoter | src/stores/requests.ts:58-64 | a new voter is appended and adds one vote; an existing voter changes nothing |
| Requests.Without | src/stores/requests.ts:70 | every voter but the given one, and only those |
| Requests.DropVoter | src/stores/requests.ts:66-72 | a listed voter is removed and takes one vote away; anyone else changes nothing |
| Requests.UpdateFirst | src/stores/requests.ts:59-67 | only the first request with the id is changed; an unknown id changes nothing |
| Requests.VoteIn | src/stores/requests.ts:58-64 | the board after a vote keeps every id in its place |
| Requests.RemoveVoteIn | src/stores/requests.ts:66-72 | the board after a withdrawal keeps every id in its place |
| Requests.VoteEffect | src/stores/requests.ts:58-64 | only the first request with the id, when the user has not voted on it, gains the vote and the voter |
| Requests.VoteIdempotent | src/stores/requests.ts:60 | voting twice is voting once |
| Requests.VoteThenRemove | src/stores/requests.ts:58-72 | a vote withdrawn right after it was cast leaves the board as it was |
| Requests.VotesKeepBalance | src/stores/requests.ts:58-72 | while no request lists a voter twice, votes and withdrawals keep that, and keep each request's votes minus voters unchanged |
| Requests.RequestId | src/stores/requests.ts:96 | "req-" followed by the number, at least three digits |
| Requests.NoLeadingZero | src/stores/requests.ts:96 | a positive number prints without a leading zero |
| Requests.RequestIdInjective | src/stores/requests.ts:96 | different request numbers give different ids |
| Requests.NewRequest | src/stores/requests.ts:95-118 | the next id, submitted, one vote by the current user, dated today, title and priority from the draft or their defaults, never zero affected projects |
| Requests.NumberedIdsDistinct | src/stores/requests.ts:96-120 | requests numbered by distinct numbers have distinct ids |
| Requests.NextNumberFree | src/stores/requests.ts:96 | a number past the count is not yet taken |
| Requests.PrependNext | src/stores/requests.ts:96-120 | putting the next-numbered request in front keeps the board numbered |
| Requests.SubmitKeepsNumbering | src/stores/requests.ts:95-122 | while the board is numbered and nothing is removed, a submission's id is new and the numbering is kept |
| Requests.VotesKeepNumbering | src/stores/requests.ts:58-72 | votes and withdrawals keep the numbering |
| Requests.Merge | src/stores/requests.ts:91-93 | for each of the seven fields, the update's value when it carries one and the draft's otherwise; an empty update keeps the draft |
| Requests.MergeTwice | src/stores/requests.ts:91-93 | two updates in a row are one update with the later fields winning |
| Requests.RequestStore.constructor | src/stores/requests.ts:8-12 | the fixtures, no filters, wizard at step 0 with an empty draft |
| Requests.RequestStore.SetStatusFilter | src/stores/requests.ts:50-52 | sets the status selection and nothing else |
| Requests.RequestStore.SetPriorityFilter | src/stores/requests.ts:54-56 | sets the priority selection and nothing else |
| Requests.RequestStore.VoteForRequest | src/stores/requests.ts:58-64 | the board becomes VoteIn of the old board |
| Requests.RequestStore.RemoveVote | src/stores/requests.ts:66-72 | the board becomes RemoveVoteIn of the old board |
| Requests.RequestStore.NextWizardStep | src/stores/requests.ts:74-78 | one step on, but not past step 3; the step stays in range |
| Requests.RequestStore.PrevWizardStep | src/stores/requests.ts:80-84 | one step back, but not before step 0; the step stays in range |
| Requests.RequestStore.ResetWizard | src/stores/requests.ts:86-89 | step 0 and an empty draft |
| Requests.RequestStore.UpdateNewRequest | src/stores/requests.ts:91-93 | the draft becomes Merge of the old draft and the update |
| Requests.RequestStore.SubmitRequest | src/stores/requests.ts:95-122 | the drafted request goes first on the board, which grows by one, and the wizard is reset |
| Requests.RequestStore.ClearFilters | src/stores/requests.ts:124-127 | both selections cleared, nothing else changed |
| Requests.WizardWalk | src/stores/requests.ts:74-84 | any sequence of forward and back moves keeps the step between 0 and 3 and leaves the board alone |
| ComponentLibrary.FilteredComponents | src/stores/components.ts:18-48 | exactly the components that pass every filter that is set (search in name, description or a tag ignoring case; any selected platform; a selected category; a selected status), in order |
| ComponentLibrary.UnfilteredIsAll | src/stores/components.ts:18-48 | with the filters cleared every component is listed |
| ComponentLibrary.CategoryPartition | src/stores/components.ts:75-80 | the four category counts add up to the catalogue's size |
| ComponentLibrary.StatusPartition | src/stores/components.ts:65-69 | the three status counts add up to the catalogue's size |
| ComponentLibrary.Stats | src/stores/components.ts:65-73 | the size, the count per status summing to it, the number of components whose needsUpdate flag is set, and the fixed coverage 84 and 13 open issues |
| ComponentLibrary.CategoryStats | src/stores/components.ts:75-80 | the count per category, summing to the catalogue's size |
| ComponentLibrary.IndexOf | src/stores/components.ts:88 | no index exactly when the value is absent; otherwise the first position holding it |
| ComponentLibrary.Toggled | src/stores/components.ts:87-94 | an absent value is appended; a present one is removed once |
| ComponentLibrary.ToggledFlips | src/stores/components.ts:87-112 | on a list without repetitions a toggle flips the value's membership, keeps every other value's, and keeps the list free of repetitions |
| ComponentLibrary.ToggleTwice | src/stores/components.ts:87-112 | two toggles restore the contents, and the list itself when the value was absent |
| ComponentLibrary.IndexOfLast | src/stores/components.ts:88-90 | a value appended to a list that lacked it is found at the end |
| ComponentLibrary.GroupedByCategory | src/stores/components.ts:50-63 | each group holds, in order, exactly the listed components of its category, and the four together hold every listed component |
| ComponentLibrary.GroupByCategory | src/stores/components.ts:50-63 | the push loop builds exactly GroupedByCategory |
| ComponentLibrary.ComponentStore.constructor | src/stores/components.ts:8-15 | the catalogue fixture, nothing selected, empty filters |
| ComponentLibrary.ComponentStore.ComponentsByCategory | src/stores/components.ts:50-63 | the listed components grouped by category |
| ComponentLibrary.ComponentStore.SetSearch | src/stores/components.ts:83-85 | only the search text changes |
| ComponentLibrary.ComponentStore.TogglePlatform | src/stores/components.ts:87-94 | the platform list is toggled and stays free of repetitions; nothing else changes |
| ComponentLibrary.ComponentStore.ToggleCategory | src/stores/components.ts:96-103 | the category list is toggled and stays free of repetitions; nothing else changes |
| ComponentLibrary.ComponentStore.ToggleStatus | src/stores/components.ts:105-112 | the status list is toggled and stays free of repetitions; nothing else changes |
| ComponentLibrary.ComponentStore.ClearFilters | src/stores/components.ts:114-121 | empty filters, which list the whole catalogue |
| ComponentLibrary.ComponentStore.LoadComponent | src/stores/components.ts:123-125 | the selection is the catalogue lookup of the id, nothing when it is unknown |
| ComponentLibrary.ComponentStore.ClearSelectedComponent | src/stores/components.ts:127-129 | nothing selected |
| ComponentsData.Ids | src/data/components.ts:511-512 | the ids of the entries, in order |
| ComponentsData.Dress | src/data/components.ts:515-518 | the detail's documentation with the entry's own fields over it; the detail's preview only when the entry has none |
| ComponentsData.Lookup | src/data/components.ts:511-519 | nothing exactly when no entry has the id; otherwise a detail carrying the id from an entry with it |
| ComponentsData.LookupMisses | src/data/components.ts:511-519 | the lookup misses exactly the ids no entry has |
| ComponentsData.GetComponentById | src/data/components.ts:511-519 | nothing exactly for an id outside the twenty-four catalogue ids; otherwise a detail with that id |
| ComponentsData.FixtureIds | src/data/components.ts:3-323 | the catalogue's ids are the twenty-four listed ids |
| ComponentsData.FixtureIdListDistinct | src/data/components.ts:3-323 | the listed ids are all different |
| ComponentsData.FixtureIdsDistinct | src/data/components.ts:3-323 | no two catalogue entries share an id |
| ComponentsData.LookupDistinct | src/data/components.ts:511-519 | with distinct ids the lookup of an entry's id dresses that very entry |
| ComponentsData.GetComponentByIdIsTheEntry | src/data/components.ts:511-519 | every catalogue entry's id looks up that entry, dressed with the shared documentation |
| Persistence.Slot | src/services/storage.ts:5-26 | the physical key is "dsm_" followed by the logical key |
| Persistence.KeyAsWritten | src/services/storage.ts:57-62 | a declared table name gives one of the four declared keys; any other name reads as "undefined" |
| Persistence.SharedSlot | src/stores/issues.ts:8-26 | as written: the issue, branch and contribution lists all use the key "dsm_undefined" |
| Persistence.IssueSaveOverwritesBranches | src/stores/contributions.ts:8-30 | as written: after the branches and then the issues are saved, the branch key holds the issue list |
| Persistence.PersistedKeysDistinct | src/services/storage.ts:57-62 | as intended: the declared keys and the three list keys are all different |
| Persistence.SlotInjective | src/services/storage.ts:5 | different keys have different physical keys |
| Persistence.LoadIssues | src/stores/issues.ts:7-10 | as intended: the saved issue list under the issue key when one is stored, otherwise a copy of the fixture |
| Persistence.LoadBranches | src/stores/contributions.ts:7-10 | as intended: the saved branch list under the branch key when one is stored, otherwise a copy of the fixture |
| Persistence.LoadContributions | src/stores/contributions.ts:12-15 | as intended: the saved contribution list under the contribution key when one is stored, otherwise a copy of the fixture |
| Persistence.IssuesRoundTrip | src/stores/issues.ts:7-27 | as intended: a saved issue list loads back as saved and leaves the other two lists' loads unchanged |
| Persistence.BranchesRoundTrip | src/stores/contributions.ts:7-31 | as intended: a saved branch list loads back as saved and leaves the other two lists' loads unchanged |
| Persistence.ContributionsRoundTrip | src/stores/contributions.ts:12-35 | as intended: a saved contribution list loads back as saved and leaves the other two lists' loads unchanged |
| IssueTracker.FilteredIssues | src/stores/issues.ts:30-45 | exactly the issues that pass every set filter (type, status, priority, component, query in title, description or a label ignoring case), in order |
| IssueTracker.UnfilteredIsAll | src/stores/issues.ts:30-45 | with no filter set every issue is listed |
| IssueTracker.ByStatus | src/stores/issues.ts:47-52 | exactly the issues in that status, in order |
| IssueTracker.StatusPartition | src/stores/issues.ts:47-52 | every issue has exactly one of the four statuses |
| IssueTracker.ActiveBounds | src/stores/issues.ts:60-62 | the open bugs and enhancements, and the open critical issues, are among the issues that are not closed |
| IssueTracker.Stats | src/stores/issues.ts:54-63 | the total, the four status counts summing to it, and the bug, enhancement and critical counts among the issues not closed |
| IssueTracker.IssuesForComponent | src/stores/issues.ts:184-186 | exactly the issues of that component, in order |
| IssueTracker.EntryKeys | src/stores/issues.ts:65-75 | the keys of a record, in order |
| IssueTracker.ComponentRecordKeys | src/stores/issues.ts:65-75 | the record's keys are non-empty, distinct, and cover every component an issue names |
| IssueTracker.IssuesByComponent | src/stores/issues.ts:65-75 | one entry per named component, each key once, in order of first mention |
| IssueTracker.ByComponentEntry | src/stores/issues.ts:65-75 | each entry lists exactly what getIssuesForComponent returns for its key |
| IssueTracker.ComponentRecordSnoc | src/stores/issues.ts:67-72 | one more issue adds to the record only when it names a component: to its entry, or as a new last entry |
| IssueTracker.GroupByComponent | src/stores/issues.ts:65-75 | the forEach loop builds exactly IssuesByComponent |
| IssueTracker.IssueById | src/stores/issues.ts:106-110 | nothing exactly when no issue has the id; otherwise the first listed issue with it |
| IssueTracker.IssueIdInjective | src/stores/issues.ts:116 | issues created at different instants get different ids |
| IssueTracker.NewIssue | src/stores/issues.ts:112-120 | the input's fields, the id from the clock, both dates now, no comments |
| IssueTracker.Patched | src/stores/issues.ts:129-134 | every field the update carries replaces the issue's; the others are kept; the update time is now |
| IssueTracker.PatchNothing | src/stores/issues.ts:129-134 | an empty update only touches the update time |
| IssueTracker.PatchStatus | src/stores/issues.ts:142-144 | a status update changes the status and the update time only |
| IssueTracker.PatchTwice | src/stores/issues.ts:129-134 | applying an update twice is applying it once, at the later time |
| IssueTracker.UpdatedIn | src/stores/issues.ts:126-140 | only the first issue with the id is updated; an unknown id changes nothing |
| IssueTracker.CloseCounts | src/stores/issues.ts:165-167 | closing an issue that is not closed moves it from its status count to the closed count, with the total unchanged |
| IssueTracker.WithComment | src/stores/issues.ts:159-160 | one comment appended, the update time set, nothing else changed |
| IssueTracker.CommentedIn | src/stores/issues.ts:150-163 | only the first issue with the id gains the comment; every issue keeps its id and earlier comments |
| IssueTracker.CommentAddsOne | src/stores/issues.ts:150-163 | a comment on an existing issue adds exactly one to the list's comment total, and an unknown id adds none |
| IssueTracker.DeletedIn | src/stores/issues.ts:173-182 | the first issue with the id is removed; every other issue stays |
| IssueTracker.DeleteRemovesId | src/stores/issues.ts:173-182 | with distinct ids the deleted id is gone and the ids stay distinct |
| IssueTracker.ReplaceKeepsSelection | src/stores/issues.ts:130-137 | replacing an issue by one with the same id keeps the ids distinct and the refreshed selection listed |
| IssueTracker.RemoveKeepsSelection | src/stores/issues.ts:176-179 | removing an issue keeps the ids distinct and any other selected issue listed |
| IssueTracker.IssueStore.constructor | src/stores/issues.ts:12-21 | as intended: the list saved under the issue key or the fixture, nothing selected, no filters |
| IssueTracker.IssueStore.SaveIssues | src/stores/issues.ts:25-27 | as intended: the list is written under the issue key when the browser accepts the write; a refused write leaves storage as it was |
| IssueTracker.IssueStore.SetTypeFilter | src/stores/issues.ts:78-80 | only the type filter changes |
| IssueTracker.IssueStore.SetStatusFilter | src/stores/issues.ts:82-84 | only the status filter changes |
| IssueTracker.IssueStore.SetPriorityFilter | src/stores/issues.ts:86-88 | only the priority filter changes |
| IssueTracker.IssueStore.SetComponentFilter | src/stores/issues.ts:90-92 | only the component filter changes |
| IssueTracker.IssueStore.SetSearch | src/stores/issues.ts:94-96 | only the query changes |
| IssueTracker.IssueStore.ClearFilters | src/stores/issues.ts:98-104 | no filter set, so every issue is listed |
| IssueTracker.IssueStore.SelectIssue | src/stores/issues.ts:106-110 | a missing or empty id selects nothing; otherwise the first issue with the id, if any; the selection is always a listed issue |
| IssueTracker.IssueStore.CreateIssue | src/stores/issues.ts:112-124 | the new issue goes first, the list is saved, and a fresh id keeps the ids distinct |
| IssueTracker.IssueStore.UpdateIssue | src/stores/issues.ts:126-140 | the list becomes UpdatedIn of the old list, the open issue is refreshed, the list is saved only when the id was found |
| IssueTracker.IssueStore.UpdateStatus | src/stores/issues.ts:142-144 | an update of the status alone |
| IssueTracker.IssueStore.AssignIssue | src/stores/issues.ts:146-148 | an update of the assignee alone, which may clear it |
| IssueTracker.IssueStore.CloseIssue | src/stores/issues.ts:165-167 | a status update to closed: the first issue with the id patched, the open issue resynced and the issues saved; nothing changes (selection and storage included) when no issue has the id |
| IssueTracker.IssueStore.ReopenIssue | src/stores/issues.ts:169-171 | a status update to open: the first issue with the id patched, the open issue resynced and the issues saved; nothing changes (selection and storage included) when no issue has the id |
| IssueTracker.IssueStore.AddComment | src/stores/issues.ts:150-163 | the list becomes CommentedIn of the old list, saved only when the id was found |
| IssueTracker.IssueStore.DeleteIssue | src/stores/issues.ts:173-182 | the list becomes DeletedIn of the old list, the detail view closes when it showed that issue, saved only when the id was found |
| IssueTracker.IssueStore.ByComponent | src/stores/issues.ts:65-75 | the issues grouped by component |
| ContributionWorkflow.FilteredContributions | src/stores/contributions.ts:38-45 | exactly the contributions that pass every set filter (status, component, author name), in order |
| ContributionWorkflow.UnfilteredIsAll | src/stores/contributions.ts:38-45 | with no filter set every contribution is listed |
| ContributionWorkflow.ByStatus | src/stores/contributions.ts:47-53 | exactly the contributions in that status, in order |
| ContributionWorkflow.StatusPartition | src/stores/contributions.ts:47-53 | every contribution has exactly one of the five statuses |
| ContributionWorkflow.Stats | src/stores/contributions.ts:55-61 | the total and the pending, approved, merged and rejected counts; the rest are drafts |
| ContributionWorkflow.ActiveBranches | src/stores/contributions.ts:63-65 | exactly the branches that are not a default branch, in order |
| ContributionWorkflow.BranchesForComponent | src/stores/contributions.ts:195-197 | exactly the component's branches, in order |
| ContributionWorkflow.ContributionsForComponent | src/stores/contributions.ts:199-201 | exactly the component's contributions, in order |
| ContributionWorkflow.PendingForComponent | src/stores/contributions.ts:203-208 | exactly the component's contributions pending review or approved, in order |
| ContributionWorkflow.PendingNarrowsComponent | src/stores/contributions.ts:199-208 | the pending ones are the component's contributions narrowed to those awaiting a merge |
| ContributionWorkflow.NewBranch | src/stores/contributions.ts:92-98 | the input's fields, the id from the clock, created now, never a default branch |
| ContributionWorkflow.CreatedBranchIsActive | src/stores/contributions.ts:92-101 | a created branch is listed last among the active branches |
| ContributionWorkflow.WithoutBranch | src/stores/contributions.ts:187-191 | the first branch with the id is spliced out; an unknown id changes nothing |
| ContributionWorkflow.WithoutBranchRemovesId | src/stores/contributions.ts:187-191 | with distinct ids, exactly the branches with another id remain |
| ContributionWorkflow.NewContribution | src/stores/contributions.ts:104-112 | the input's fields, the id from the clock, both dates now, no reviews |
| ContributionWorkflow.Patched | src/stores/contributions.ts:122-126 | every field the update carries replaces the contribution's; the others are kept; the update time is now |
| ContributionWorkflow.PatchStatus | src/stores/contributions.ts:134-136 | a status update changes the status and the update time only |
| ContributionWorkflow.ContributionById | src/stores/contributions.ts:86-90 | nothing exactly when no contribution has the id; otherwise the first listed one with it |
| ContributionWorkflow.UpdatedIn | src/stores/contributions.ts:118-132 | only the first contribution with the id is updated; an unknown id changes nothing |
| ContributionWorkflow.StatusAfterReview | src/stores/contributions.ts:149-157 | a change request sends the contribution to review; a comment keeps the status; an approval approves exactly when every review approves |
| ContributionWorkflow.Reviewed | src/stores/contributions.ts:141-157 | the review appended with its id and time, the update time set, the status settled by the reviews, nothing else changed |
| ContributionWorkflow.ApprovalNeedsUnanimity | src/stores/contributions.ts:150-154 | an approval approves when every earlier review approved, and otherwise leaves the status alone |
| ContributionWorkflow.ReviewedIn | src/stores/contributions.ts:138-161 | only the first contribution with the id is reviewed; every contribution keeps its id and earlier reviews |
| ContributionWorkflow.DecisionSticks | src/stores/contributions.ts:163-179 | after approve or reject the contribution has the decided status and one more review, whatever the review did to the status |
| ContributionWorkflow.BranchesAfterMerge | src/stores/contributions.ts:184-192 | the branch of the merged contribution is spliced out; nothing changes when the id is unknown |
| ContributionWorkflow.MergeRemovesBranch | src/stores/contributions.ts:181-193 | merging marks the contribution merged and removes the first branch with its branch id |
| ContributionWorkflow.ReplaceKeepsSelection | src/stores/contributions.ts:122-129 | replacing a contribution by one with the same id keeps the ids distinct and the refreshed selection listed |
| ContributionWorkflow.ContributionStore.constructor | src/stores/contributions.ts:18-26 | as intended: each list saved under its own key, or its fixture; nothing selected; no filters |
| ContributionWorkflow.ContributionStore.SaveBranches | src/stores/contributions.ts:29-31 | as intended: the branch list is written under the branch key when the browser accepts the write; a refused write leaves storage as it was |
| ContributionWorkflow.ContributionStore.SaveContributions | src/stores/contributions.ts:33-35 | as intended: the contribution list is written under the contribution key when the browser accepts the write; a refused write leaves storage as it was |
| ContributionWorkflow.ContributionStore.SetStatusFilter | src/stores/contributions.ts:68-70 | only the status filter changes |
| ContributionWorkflow.ContributionStore.SetComponentFilter | src/stores/contributions.ts:72-74 | only the component filter changes |
| ContributionWorkflow.ContributionStore.SetAuthorFilter | src/stores/contributions.ts:76-78 | only the author filter changes |
| ContributionWorkflow.ContributionStore.ClearFilters | src/stores/contributions.ts:80-84 | no filter set, so every contribution is listed |
| ContributionWorkflow.ContributionStore.SelectContribution | src/stores/contributions.ts:86-90 | a missing or empty id selects nothing; otherwise the first contribution with the id, if any; the selection is always listed |
| ContributionWorkflow.ContributionStore.CreateBranch | src/stores/contributions.ts:92-102 | the new branch goes last, is active, and the branches are saved |
| ContributionWorkflow.ContributionStore.CreateContribution | src/stores/contributions.ts:104-116 | the new contribution goes first, the list is saved, and a fresh id keeps the ids distinct |
| ContributionWorkflow.ContributionStore.UpdateContribution | src/stores/contributions.ts:118-132 | the list becomes UpdatedIn of the old list, the open one is refreshed, saved only when the id was found |
| ContributionWorkflow.ContributionStore.SubmitForReview | src/stores/contributions.ts:134-136 | a status update to pending review: the first contribution with the id patched, the open one resynced and the contributions saved; selection and storage unchanged when none has the id |
| ContributionWorkflow.ContributionStore.AddReview | src/stores/contributions.ts:138-161 | the list becomes ReviewedIn of the old list, saved only when the id was found |
| ContributionWorkflow.ContributionStore.ApproveContribution | src/stores/contributions.ts:163-170 | an approving review, then the status approved; the open contribution resynced to the final record and storage holding the final list (the second save overwrites the first); selection and storage unchanged when none has the id |
| ContributionWorkflow.ContributionStore.RejectContribution | src/stores/contributions.ts:172-179 | a review requesting changes, then the status rejected; the open contribution resynced to the final record and storage holding the final list; selection and storage unchanged when none has the id |
| ContributionWorkflow.ContributionStore.MergeContribution | src/stores/contributions.ts:181-193 | the contribution marked merged, then its branch spliced out of the branches; storage holds the saved contributions and, when its branch was found, the saved branches too; selection and storage unchanged when none has the id |
| Analytics.AlertList.constructor | src/stores/analytics.ts:41 | the shared alert array holds the fixture's alerts |
| Analytics.PlatformEntry | src/stores/analytics.ts:31 | nothing exactly when no usage record has the platform; otherwise the first record of that platform |
| Analytics.FilteredTopComponents | src/stores/analytics.ts:28-35 | every top component without a platform, or for a platform without a record; otherwise exactly those its record lists, in order |
| Common.SubsequenceRefl | src/stores/analytics.ts:28-32 | a list is a subsequence of itself, which is what the two early returns give |
| Analytics.FilterKeepsCovered | src/stores/analytics.ts:34 | a platform record listing every top component keeps the full list |
| Analytics.Charts | src/stores/analytics.ts:50-69 | four label/value series taken point by point from the fixture; the usage chart shows the first eight top components; platform labels are upper-cased |
| Analytics.Dismissed | src/stores/analytics.ts:91-96 | the first alert with the id spliced out, or every alert when none has it |
| Analytics.DismissRemovesId | src/stores/analytics.ts:91-96 | with distinct ids the dismissed alert is gone, every other alert stays, and a second dismissal changes nothing |
| Analytics.AnalyticsStore.constructor | src/stores/analytics.ts:18-23 | the default date range and no platform or team filter |
| Analytics.AnalyticsStore.SetDateRange | src/stores/analytics.ts:74-76 | only the date range changes |
| Analytics.AnalyticsStore.SetPlatformFilter | src/stores/analytics.ts:78-80 | only the platform filter changes |
| Analytics.AnalyticsStore.SetTeamFilter | src/stores/analytics.ts:82-84 | only the team filter changes |
| Analytics.AnalyticsStore.ClearFilters | src/stores/analytics.ts:86-89 | both filters cleared, which lists every top component; the date range is kept |
| Analytics.AnalyticsStore.DismissAlert | src/stores/analytics.ts:91-96 | the shared array becomes Dismissed of its old contents |
| Analytics.DismissSeenByAll | src/stores/analytics.ts:91-96 | a dismissal made through one store is seen by every reader of the fixture |
| Chat.MatchingTriggers | src/stores/chat.ts:47-53 | nothing for input without a leading slash; otherwise exactly the triggers whose command starts with the input's lower-cased first space-separated word, in order |
| Chat.SlashListsAll | src/stores/chat.ts:47-53 | a lone slash lists every trigger |
| Chat.CommandsAreTriggers | src/stores/chat.ts:402-438 | a command has a handler exactly when it is one of the nine trigger commands |
| Chat.ParseCommand | src/stores/chat.ts:397-400 | the command is the first whitespace-separated word, lower-cased; the arguments are the other words joined by single spaces, absent exactly when there are none |
| Chat.JoinOfWords | src/stores/chat.ts:400 | trimming the joined words changes nothing and never empties them |
| Chat.NavigateRoute | src/stores/chat.ts:282-322 | a route exactly for a non-empty target whose lower-cased form is one of the nine route names; every route path starts with a slash |
| Chat.NavigateIgnoresCase | src/stores/chat.ts:296 | a target and its lower-cased form reach the same route |
| Chat.IntentFrom | src/stores/chat.ts:342-371 | the first keyword group from the given position on that the text mentions, if any |
| Chat.FreeTextIntent | src/stores/chat.ts:339-383 | no intent exactly when the lower-cased text mentions no keyword group; otherwise the first group it mentions |
| Chat.EarlierGroupWins | src/stores/chat.ts:342-371 | a group mentioned before any other is the intent, whatever later groups also match |
| Chat.RespondChoosesHandler | src/stores/chat.ts:394-441 | slash input gets its command's handler, or the unknown-command reply naming a command that is no trigger; other input gets its intent's handler, or the default reply when there is none |
| Chat.RouteOf | src/stores/chat.ts:422-427 | a route only for the navigate command, and then the route of its arguments |
| Chat.RouteComesWithReply | src/stores/chat.ts:424-429 | whenever a route is returned the reply is the navigate command's |
| Chat.NavigateCommandRoutes | src/stores/chat.ts:424-429 | "/navigate" with one route name, in any case, returns that route's path |
| Chat.BareNavigateStays | src/stores/chat.ts:295-322 | "/navigate" without arguments returns no route |
| Chat.Summary | src/stores/chat.ts:472-481 | the first user message's first 40 characters as title, the default title when there is none or it is empty; as preview, the first 60 characters of the last message (all of it when shorter); the message count |
| Chat.ChatStore.constructor | src/stores/chat.ts:13-22 | inactive, no messages, not typing, no open conversation, the four fixture conversations |
| Chat.ChatStore.SendMessage | src/stores/chat.ts:386-450 | a blank message changes nothing; otherwise the trimmed user message and the reply Respond chooses are appended, typing ends, and the route RouteOf gives is returned |
| Chat.ChatStore.Activate | src/stores/chat.ts:453-455 | the assistant is open; nothing else changes |
| Chat.ChatStore.Deactivate | src/stores/chat.ts:457-459 | the assistant is closed; nothing else changes |
| Chat.ChatStore.Toggle | src/stores/chat.ts:461-463 | the open state is flipped; nothing else changes |
| Chat.ChatStore.ClearMessages | src/stores/chat.ts:465-468 | no messages and no open conversation |
| Chat.ChatStore.NewConversation | src/stores/chat.ts:470-485 | an unsaved, non-empty conversation is put first as its Summary; the messages and the open conversation are cleared |
| Chat.ChatStore.SelectConversation | src/stores/chat.ts:487-491 | the conversation is open and the messages are cleared |
| Chat.ChatStore.DeleteConversation | src/stores/chat.ts:493-499 | exactly the other conversations remain, in order; the open one is closed and its messages cleared when it was the one deleted |

## Left out

- Network I/O is not modelled: `fetch`, request headers and `response.json()`. The API server is the parameter `net`, which answers each query with data or an HTTP status.
- `getComponentReadme` (src/services/github.ts:156-173) is not modelled: it reads a file over the network and has no cache logic.
- The browser's local storage is a map from keys to stored texts. A stored text is blank, unparsable, or a parsed document, and JSON serialisation is taken to round-trip exactly. A write the browser refuses (over quota) is the parameter `writable`, and the refusal is swallowed as the source does. Logging to the console is left out.
- IssueTracker.IssueStore.SaveIssues: the issue and contribution stores persist each list under a key of its own (`ISSUES_KEY`, `BRANCHES_KEY`, `CONTRIBUTIONS_KEY`), as intended. The source writes all three to "dsm_undefined", and that cross-list overwrite is captured only at the level of keys, by Persistence.SharedSlot and Persistence.IssueSaveOverwritesBranches. The same holds for SaveBranches, SaveContributions, the loads of Persistence and every store action that saves.
- ContributionWorkflow.ContributionStore.ApproveContribution: an action that saves twice (approve, reject, merge) takes one `writable` for both writes, so the model does not cover a browser that refuses one of the two writes and accepts the other.
- A cache text that parses to something other than a cache entry reads as a miss; in JavaScript `get` would return that document's `data` property, normally `undefined`.
- The clock is the parameter `now` in milliseconds. Ids built from `Date.now()` take the parameter `millis`, and ISO timestamps and dates are the string parameters `now`, `today`, `reviewedAt` and `updatedAt`. Two reads of the clock inside one action are taken to agree: approve and reject stamp the review and the status change with one `now`.
- Random parts of chat message ids and the typing delay (src/stores/chat.ts:58, 444) are left out; message ids are parameters.
- Asynchronous interleaving is not modelled. Each load runs to completion, so overlapping `fetchAuditData` calls and the typing indicator's intermediate state are not captured.
- Time zones are not modelled. Days are counted from 1970-01-01 and the week of a day is found with `getDay` on that count, as if local time were UTC.
- Npm.RecentVersions: each version's time carries its instant in milliseconds, already parsed, and the sort compares those integers. In the source the comparator parses both texts with `new Date(...)`. An unparsable time makes the comparison NaN, which leaves the order the engine produces unspecified; the model cannot express such a time.
- DataMapper.CountMentions: the mention record is a map with ids kept in order of first mention. In JavaScript it is a plain object, so two behaviours are not captured. `Object.entries` lists integer-like ids (such as "10") first, in ascending order, which changes which entries tie-break into the top three. An id that is an inherited property (such as "constructor") reads the inherited function, so `|| 0` never fires and the count becomes a text. Neither can happen with the ids the dashboard uses (such as "btn-001" or "antd-button"). GenerateRecommendations inherits both gaps.
- DataMapper.ReleaseAlert: parsing the release time (`new Date(...)`) is the parameter `parseDate`. An unparsable time (NaN) gives no alert.
- DataMapper.Grouped: `toLocaleString` is modelled as en-US grouping with commas.
- Floating point is left out: `avgImplementationTime` and its `toFixed` (src/stores/analytics.ts:45-48), and the fixed 2.3 figure of `mapToAnalyticsStats` (src/services/dataMapper.ts:219).
- The pass-through getters of the analytics store are left out, because they return fixtures unchanged: `filteredAdoption`, `filteredProjectCoverage`, `stats`, `activeRecommendations` and `graph` (src/stores/analytics.ts:26, 37-43, 71).
- Case mapping (`toLowerCase`, `toUpperCase`) is modelled one character to one character, for the Basic Latin letters and the Latin-1 letters whose other case is in the same block. Every other character is left unchanged. Whitespace for `trim` and `split(/\s+/)` is the ECMAScript set.
- DataMapper.Capitalize: its "same length" clause holds for the model's case mapping, not for JavaScript's, which upper-cases 'ß' to "SS", 'ÿ' to 'Ÿ' and 'µ' to 'Μ'. The model leaves those three unchanged.
- Strings are sequences of Unicode code points, whereas JavaScript counts and cuts them in UTF-16 code units. A character outside the Basic Multilingual Plane is one character here and two units there, so the contracts below count or hash differently for such text.
- DataMapper.ShortTitle: the 80- and 60-character limits and the cut at 77 or 57 are counted in code points, not UTF-16 units; JavaScript can also split a surrogate pair at the cut.
- DataMapper.Describe: the 200- and 300-character cuts are counted in code points, not UTF-16 units.
- Chat.Summary: the 40-character title and the 60-character preview are counted in code points, not UTF-16 units.
- DataMapper.NameHash: each character adds its code point, whereas `charCodeAt` adds UTF-16 units; for a character outside the Basic Multilingual Plane JavaScript adds its two surrogates in two steps, so the hash differs for such names.
- DataMapper.UsageCount: the hashing loop reads code points where the source's `charCodeAt` reads UTF-16 units, with the same consequence as for NameHash.
- DataMapper.NeedsUpdate: the first character's code point is taken modulo 5, whereas `charCodeAt(0)` gives the high surrogate for a name starting outside the Basic Multilingual Plane.
- DataMapper.Trend: the first character's code point is taken modulo 10, whereas `charCodeAt(0)` gives the high surrogate for a name starting outside the Basic Multilingual Plane.
- DataMapper.UsageCount: the popular-name table is a map here. In JavaScript it is a plain object, so a name whose lower case is a property every object inherits ("constructor" or "__proto__") reads that inherited value. That value (a function, or the object prototype) is truthy, so the source returns it instead of a count. The model gives such names the hashed count.
- DataMapper.MapToAuditProjects: the groups are a map with names listed in order of first appearance. In JavaScript they are a plain object, so two behaviours are not captured. `Object.entries` lists integer-like names (such as "10") first, in ascending order, which changes the ids and the order among projects with equal issue counts. A group name that is an inherited property (such as "constructor") makes `push` throw a TypeError. The model groups such names like any other.
- Vue and Pinia reactivity is not modelled: a `ref` is a field and a `computed` is a function of the fields.
- The selected issue and the selected contribution are values kept in step by id. The source keeps the same object, which in-place changes (`addComment`, `addReview`) also reach.
- The fixtures of audit findings, requests, issues, branches, contributions and analytics are constructor parameters; only the component catalogue is spelled out.
- A persisted document of the wrong kind under a list's key loads as absent, so the fixture is used. JavaScript would load whatever array is stored there.
- DataMapper.NeedsUpdate: its contract states only that an empty name never needs an update; for other names it is the character-code test itself.
- Chat:
  - reply wording, markdown, actions and data are not modelled; `SendMessage` takes the assistant's text as a parameter and records which reply (`Respond`) it is;
  - the other stores the handlers read are not modelled;
  - the free-text query extraction with regular expressions (src/stores/chat.ts:344, 366) is not modelled;
  - the quick suggestions (src/stores/chat.ts:38-42) and the trigger descriptions are not modelled;
  - a navigate target that names a property every JavaScript object inherits (such as `constructor`) finds a table entry without a path: the source replies as if navigating and returns no route, and the model, whose reply text is a parameter, returns no route either.
- The theme store (src/stores/theme.ts) is used only for its storage key, and the router and build configuration are not part of this model.

## Findings

| source | as written | input that shows it | evidently intended | confidence | as-written member | corrected member |
|---|---|---|---|---|---|---|
| src/stores/audit.ts:138-141 | `refreshData` clears only the GitHub client's default keys, which do not include `github_bugs_50`, the key of the query the audit loads with (line 105), and then loads | a bug list cached one minute before the refresh (cached at 0 with the ten-minute lifetime, refresh at 60000): the refresh serves it again and asks the network nothing | a refresh fetches the bug list from the API again | not executed | Audit.AuditStore.RefreshData, Audit.StaleRefreshWitness | Audit.AuditStore.RefreshDataFresh |
| src/services/storage.ts:57-62 | the issue and contribution stores use `STORAGE_KEYS.ISSUES`, `.BRANCHES` and `.CONTRIBUTIONS`, which the key table does not declare, so all three lists live under `dsm_undefined` | save a branch list, then an issue list: the branch key now holds the issue list | each list has a key of its own, and saving one list leaves the other two unchanged | not executed | Persistence.SharedSlot, Persistence.IssueSaveOverwritesBranches | Persistence.IssuesRoundTrip, Persistence.BranchesRoundTrip |
| src/services/github.ts:119 | the label query's cache key joins the labels with "_" | the label list ["a_b"] and the list ["a", "b"], both with page size 5: both keys read `github_issues_labels_a_b_5`, so whichever is fetched first is served for the other for the ten-minute cache lifetime | different label lists get different cache entries | not executed | GitHub.CacheKey, GitHub.LabelKeysCollide | GitHub.LabelQueryKey, GitHub.LabelQueryKeyInjective |

=== FILE: analytics.dfy ===
/** `useAnalyticsStore`: the analytics dashboard over the analytics
    fixture. It holds a date range and a platform and a team filter; the
    platform filter narrows the most-used components. The alert list is the
    fixture's own array, shared with every reader, and dismissing an alert
    removes it from that array. */
module Analytics {
  import opened Common
  import opened Types

  datatype DateRange = DateRange(start: string, end: string)

  const DEFAULT_RANGE: DateRange := DateRange("2025-07-01", "2026-01-31")

  /** The series the dashboard fixture supplies. */
  datatype AnalyticsData = AnalyticsData(
    adoption: seq<UsageMetric>,
    topComponents: seq<ComponentUsage>,
    projectCoverage: seq<ProjectCoverage>,
    platformUsage: seq<PlatformUsage>)

  /** One chart: a label and a value per point. */
  datatype Series = Series(labels: seq<string>, data: seq<int>)

  datatype ChartData = ChartData(adoption: Series, topComponents: Series, coverage: Series, platform: Series)

  /** How many components the usage chart shows. */
  const TOP_CHART_SIZE: nat := 8

  /** The fixture's alert array; the store and every other reader hold the
      same array. */
  class AlertList {
    var items: seq<Alert>

    constructor (items: seq<Alert>)
      ensures this.items == items
    {
      this.items := items;
    }
  }

  // ---------------------------------------------------------------------------
  // Getters

  function PlatformIs(platform: Platform): PlatformUsage -> bool {
    (u: PlatformUsage) => u.platform == platform
  }

  /** The first usage record of `platform` (`find`). */
  function PlatformEntry(usage: seq<PlatformUsage>, platform: Platform): (r: Option<PlatformUsage>)
    ensures r.None? <==> forall u :: u in usage ==> u.platform != platform
    ensures r.Some? ==> r.value in usage && r.value.platform == platform
    ensures r.Some? ==> exists k :: 0 <= k < |usage| && r.value == usage[k]
                          && forall j :: 0 <= j < k ==> usage[j].platform != platform
  {
    match FindIndex(PlatformIs(platform), usage)
    case None => None
    case Some(k) => Some(usage[k])
  }

  function UsedOn(entry: PlatformUsage): ComponentUsage -> bool {
    (c: ComponentUsage) => c.componentId in entry.components
  }

  /** `filteredTopComponents`: every top component without a platform, or
      for a platform without a usage record; otherwise those the platform's
      record lists, in order. */
  function FilteredTopComponents(top: seq<ComponentUsage>, usage: seq<PlatformUsage>, selected: Option<Platform>)
    : (r: seq<ComponentUsage>)
    ensures selected.None? ==> r == top
    ensures selected.Some? && PlatformEntry(usage, selected.value).None? ==> r == top
    ensures Subsequence(r, top)
    ensures selected.Some? && PlatformEntry(usage, selected.value).Some? ==>
              forall c :: c in r <==> c in top && c.componentId in PlatformEntry(usage, selected.value).value.components
  {
    if selected.None? then
      SubsequenceRefl(top);
      top
    else match PlatformEntry(usage, selected.value)
      case None =>
        SubsequenceRefl(top);
        top
      case Some(entry) => Filter(UsedOn(entry), top)
  }

  /** A platform record that lists every top component keeps the full
      list. */
  lemma FilterKeepsCovered(top: seq<ComponentUsage>, usage: seq<PlatformUsage>, platform: Platform)
    requires PlatformEntry(usage, platform).Some?
    requires forall c :: c in top ==> c.componentId in PlatformEntry(usage, platform).value.components
    ensures FilteredTopComponents(top, usage, Some(platform)) == top
  {
    FilterAll(UsedOn(PlatformEntry(usage, platform).value), top);
  }

  /** The label `toUpperCase` gives a platform. */
  function PlatformLabel(p: Platform): string {
    match p
    case IOS => "IOS"
    case Android => "ANDROID"
    case Web => "WEB"
  }

  /** `chartData`: four label/value series; the usage chart shows the first
      eight top components. */
  function Charts(d: AnalyticsData): (r: ChartData)
    ensures |r.adoption.labels| == |r.adoption.data| == |d.adoption|
    ensures forall k :: 0 <= k < |d.adoption| ==>
              r.adoption.labels[k] == d.adoption[k].date && r.adoption.data[k] == d.adoption[k].value
    ensures |r.topComponents.labels| == |r.topComponents.data| == Min(TOP_CHART_SIZE, |d.topComponents|)
    ensures forall k :: 0 <= k < |r.topComponents.labels| ==>
              r.topComponents.labels[k] == d.topComponents[k].componentName && r.topComponents.data[k] == d.topComponents[k].usageCount
    ensures |r.coverage.labels| == |r.coverage.data| == |d.projectCoverage|
    ensures forall k :: 0 <= k < |d.projectCoverage| ==>
              r.coverage.labels[k] == d.projectCoverage[k].projectName && r.coverage.data[k] == d.projectCoverage[k].coverage
    ensures |r.platform.labels| == |r.platform.data| == |d.platformUsage|
    ensures forall k :: 0 <= k < |d.platformUsage| ==>
              r.platform.labels[k] == PlatformLabel(d.platformUsage[k].platform) && r.platform.data[k] == d.platformUsage[k].usage
  {
    var top := Take(d.topComponents, TOP_CHART_SIZE);
    ChartData(
      Series(MapSeq(d.adoption, (m: UsageMetric) => m.date), MapSeq(d.adoption, (m: UsageMetric) => m.value)),
      Series(MapSeq(top, (c: ComponentUsage) => c.componentName), MapSeq(top, (c: ComponentUsage) => c.usageCount)),
      Series(MapSeq(d.projectCoverage, (p: ProjectCoverage) => p.projectName),
             MapSeq(d.projectCoverage, (p: ProjectCoverage) => p.coverage)),
      Series(MapSeq(d.platformUsage, (u: PlatformUsage) => PlatformLabel(u.platform)),
             MapSeq(d.platformUsage, (u: PlatformUsage) => u.usage)))
  }

  function Min(a: nat, b: nat): nat {
    if a <= b then a else b
  }

  // ---------------------------------------------------------------------------
  // Alerts

  function AlertIdIs(id: string): Alert -> bool {
    (a: Alert) => a.id == id
  }

  /** The alerts after `dismissAlert(id)`: the first alert with the id spliced
      out, or all of them when none has it. */
  function Dismissed(alerts: seq<Alert>, id: string): (r: seq<Alert>)
    ensures FindIndex(AlertIdIs(id), alerts).None? ==> r == alerts
    ensures FindIndex(AlertIdIs(id), alerts).Some? ==>
              |r| == |alerts| - 1 && r == RemoveAt(alerts, FindIndex(AlertIdIs(id), alerts).value)
  {
    match FindIndex(AlertIdIs(id), alerts)
    case None => alerts
    case Some(k) => RemoveAt(alerts, k)
  }

  predicate AlertIdsDistinct(alerts: seq<Alert>) {
    forall j, k :: 0 <= j < k < |alerts| ==> alerts[j].id != alerts[k].id
  }

  /** With distinct ids, a dismissed alert is gone, every other alert stays,
      and dismissing it again changes nothing. */
  lemma DismissRemovesId(alerts: seq<Alert>, id: string)
    requires AlertIdsDistinct(alerts)
    ensures forall a :: a in Dismissed(alerts, id) <==> a in alerts && a.id != id
    ensures AlertIdsDistinct(Dismissed(alerts, id))
    ensures Dismissed(Dismissed(alerts, id), id) == Dismissed(alerts, id)
  {
    var r := Dismissed(alerts, id);
    match FindIndex(AlertIdIs(id), alerts)
    case None =>
    case Some(k) =>
      forall a | a in r
        ensures a in alerts && a.id != id
      {
        var j :| 0 <= j < |r| && r[j] == a;
        if j >= k {
          assert r[j] == alerts[j + 1];
        }
      }
      forall a | a in alerts && a.id != id
        ensures a in r
      {
        var j :| 0 <= j < |alerts| && alerts[j] == a;
        if j < k {
          assert r[j] == a;
        } else {
          assert r[j - 1] == a;
        }
      }
  }

  // ---------------------------------------------------------------------------
  // The store

  class AnalyticsStore {
    const data: AnalyticsData
    const alerts: AlertList
    var dateRange: DateRange
    var selectedPlatform: Option<Platform>
    var selectedTeam: Option<string>

    constructor (data: AnalyticsData, alerts: AlertList)
      ensures this.data == data && this.alerts == alerts
      ensures dateRange == DEFAULT_RANGE && selectedPlatform.None? && selectedTeam.None?
    {
      this.data := data;
      this.alerts := alerts;
      dateRange := DEFAULT_RANGE;
      selectedPlatform := None;
      selectedTeam := None;
    }

    function TopComponents(): seq<ComponentUsage>
      reads this
    {
      FilteredTopComponents(data.topComponents, data.platformUsage, selectedPlatform)
    }

    /** `activeAlerts`: the shared array itself. */
    function ActiveAlerts(): seq<Alert>
      reads this, alerts
    {
      alerts.items
    }

    method SetDateRange(start: string, end: string)
      modifies this
      ensures dateRange == DateRange(start, end)
      ensures selectedPlatform == old(selectedPlatform) && selectedTeam == old(selectedTeam)
    {
      dateRange := DateRange(start, end);
    }

    method SetPlatformFilter(platform: Option<Platform>)
      modifies this
      ensures selectedPlatform == platform
      ensures dateRange == old(dateRange) && selectedTeam == old(selectedTeam)
    {
      selectedPlatform := platform;
    }

    method SetTeamFilter(team: Option<string>)
      modifies this
      ensures selectedTeam == team
      ensures dateRange == old(dateRange) && selectedPlatform == old(selectedPlatform)
    {
      selectedTeam := team;
    }

    /** Clears both filters, which lists every top component again. */
    method ClearFilters()
      modifies this
      ensures selectedPlatform.None? && selectedTeam.None? && TopComponents() == data.topComponents
      ensures dateRange == old(dateRange)
    {
      selectedPlatform := None;
      selectedTeam := None;
    }

    /** Splices the first alert with the id out of the shared array. */
    method DismissAlert(alertId: string)
      modifies alerts
      ensures alerts.items == Dismissed(old(alerts.items), alertId)
    {
      var index := FindIndex(AlertIdIs(alertId), alerts.items);
      if index.Some? {
        alerts.items := RemoveAt(alerts.items, index.value);
      }
    }
  }

  /** Two readers of the fixture see a dismissal made through one of them. */
  method DismissSeenByAll(store: AnalyticsStore, other: AnalyticsStore, alertId: string)
    requires store.alerts == other.alerts
    modifies store.alerts
    ensures other.ActiveAlerts() == Dismissed(old(store.ActiveAlerts()), alertId)
  {
    store.DismissAlert(alertId);
  }
}

=== FILE: apitypes.dfy ===
/** The parts of the GitHub REST and npm registry payloads that the
    application reads. Fields it never reads are not modelled. */
module ApiTypes {
  import opened Common

  datatype GitHubUser = GitHubUser(login: string, avatarUrl: string)

  datatype GitHubLabel = GitHubLabel(name: string, color: string)

  datatype ContentType = File | Dir

  /** One entry of a directory listing. */
  datatype GitHubContent = GitHubContent(name: string, path: string, contentType: ContentType)

  datatype GitHubIssue = GitHubIssue(
    id: int,
    number: int,
    title: string,
    createdAt: string,
    updatedAt: string,
    labels: seq<GitHubLabel>,
    user: GitHubUser,
    body: Option<string>,
    comments: int)

  datatype GitHubRelease = GitHubRelease(
    tagName: string,
    name: string,
    prerelease: bool,
    publishedAt: Option<string>,
    author: GitHubUser)

  datatype GitHubRepoInfo = GitHubRepoInfo(
    name: string,
    stars: int,
    forks: int,
    openIssues: int)

  /** A `time` entry of the registry document: its text and the instant
      (milliseconds) that `new Date(text)` parses it to. */
  datatype NpmTime = NpmTime(text: string, millis: int)

  /** `versions` is given by its keys in `Object.keys` order. */
  datatype NpmPackageInfo = NpmPackageInfo(
    name: string,
    latest: string,
    versions: seq<string>,
    time: map<string, NpmTime>)

  datatype NpmDownloadPoint = NpmDownloadPoint(downloads: int, start: string, end: string, package: string)

  /** A day of downloads; `day` counts days since 1970-01-01. */
  datatype NpmDailyDownload = NpmDailyDownload(downloads: int, day: int)

  datatype NpmDownloadRange = NpmDownloadRange(downloads: seq<NpmDailyDownload>, start: string, end: string, package: string)

  /** A decoded response body, as cached. `Falsy` is a body that decodes to
      `null`, `false`, `0` or `""`. */
  datatype ApiData =
    | RepoInfo(info: GitHubRepoInfo)
    | Contents(items: seq<GitHubContent>)
    | Issues(issues: seq<GitHubIssue>)
    | Labels(labels: seq<GitHubLabel>)
    | Releases(releases: seq<GitHubRelease>)
    | PackageInfo(pkg: NpmPackageInfo)
    | DownloadPoint(point: NpmDownloadPoint)
    | DownloadRange(range: NpmDownloadRange)
    | Falsy

  /** JavaScript truthiness of a decoded body: arrays and objects are truthy. */
  predicate Truthy(d: ApiData) {
    !d.Falsy?
  }

  /** What the network answers for one request. `Unreachable` is a request
      that rejects before any response arrives. */
  datatype Response =
    | Reply(status: int, statusText: string, body: ApiData)
    | Unreachable

  /** `response.ok`: a status in the range 200-299. */
  predicate IsOk(status: int) {
    200 <= status <= 299
  }

  /** The errors a remote call raises. `Malformed` is a body of a shape the
      caller cannot use (a property access on it throws). */
  datatype FetchError =
    | RateLimited
    | HttpError(status: int, statusText: string)
    | NetworkError
    | Malformed

  datatype Outcome<T> = Success(value: T) | Failure(error: FetchError)
}

=== FILE: audit.dfy ===
/** `useAuditStore`: the design-audit page. It holds the findings and the
    audited projects, a severity and a project selection, and where the data
    came from. The findings start out as the fixture module's own array, so
    fixes and removals made while the fixture is shown change that array. */
module Audit {
  import opened Common
  import opened ApiTypes
  import opened Types
  import LocalStore
  import Cache
  import Remote
  import GitHub
  import DataMapper

  /** The bug query the page reads: fifty issues per page. */
  const BUG_QUERY: GitHub.Query := GitHub.GetBugIssues(50)

  datatype DataSource = FromMock | FromApi

  datatype AuditStats = AuditStats(
    totalIssues: int,
    critical: int,
    high: int,
    medium: int,
    autoFixable: int,
    avgCoverage: int)

  /** A findings array that more than one holder can reference: the fixture
      module's array and the store's `issues`. */
  class IssueList {
    var items: seq<AuditIssue>

    constructor (items: seq<AuditIssue>)
      ensures this.items == items
    {
      this.items := items;
    }
  }

  // ---------------------------------------------------------------------------
  // Getters

  predicate Unfixed(i: AuditIssue) {
    !i.fixed
  }

  /** Open findings of one severity. */
  function OpenOf(severity: IssueSeverity): AuditIssue -> bool {
    (i: AuditIssue) => i.severity == severity && !i.fixed
  }

  predicate OpenAutoFixable(i: AuditIssue) {
    i.autoFixable && !i.fixed
  }

  function ProjectIs(id: string): AuditProject -> bool {
    (p: AuditProject) => p.id == id
  }

  /** The first space-separated word of a project name. */
  function ProjectPrefix(name: string): string {
    Split(name, ' ')[0]
  }

  /** The project selection keeps a finding unless a project with the
      selected id exists and the finding's file does not mention, ignoring
      case, the first word of that project's name. An empty id selects
      nothing. */
  predicate InSelectedProject(projects: seq<AuditProject>, project: Option<string>, issue: AuditIssue) {
    match project
    case None => true
    case Some(pid) =>
      pid == "" ||
      match FindIndex(ProjectIs(pid), projects)
      case None => true
      case Some(k) => Includes(ToLower(issue.location.file), ToLower(ProjectPrefix(projects[k].name)))
  }

  predicate Shown(projects: seq<AuditProject>, severity: Option<IssueSeverity>, project: Option<string>,
                  issue: AuditIssue) {
    (severity.None? || issue.severity == severity.value)
    && InSelectedProject(projects, project, issue)
    && !issue.fixed
  }

  /** `filteredIssues`: the open findings that pass both selections, in
      order. */
  function FilteredIssues(issues: seq<AuditIssue>, projects: seq<AuditProject>,
                          severity: Option<IssueSeverity>, project: Option<string>): (r: seq<AuditIssue>)
    ensures Subsequence(r, issues)
    ensures forall x :: x in r ==> !x.fixed && (severity.Some? ==> x.severity == severity.value)
    ensures forall x :: x in r ==> InSelectedProject(projects, project, x)
    ensures forall x :: x in issues && Shown(projects, severity, project, x) ==> x in r
  {
    Filter((i: AuditIssue) => Shown(projects, severity, project, i), issues)
  }

  /** With no selection, or with a project id no project carries, the list
      is every open finding. */
  lemma FilteredWithoutSelection(issues: seq<AuditIssue>, projects: seq<AuditProject>, pid: string)
    requires forall k :: 0 <= k < |projects| ==> projects[k].id != pid
    ensures FilteredIssues(issues, projects, None, None) == Filter(Unfixed, issues)
    ensures FilteredIssues(issues, projects, None, Some(pid)) == Filter(Unfixed, issues)
  {
    FilterAgree((i: AuditIssue) => Shown(projects, None, None, i), Unfixed, issues);
    FilterAgree((i: AuditIssue) => Shown(projects, None, Some(pid), i), Unfixed, issues);
  }

  /** `issuesBySeverity[severity]`: the open findings of that severity. */
  function IssuesBySeverity(issues: seq<AuditIssue>, severity: IssueSeverity): (r: seq<AuditIssue>)
    ensures Subsequence(r, issues)
    ensures forall x :: x in r <==> x in issues && x.severity == severity && !x.fixed
  {
    Filter(OpenOf(severity), issues)
  }

  /** `autoFixableIssues`: the listed findings that can be fixed
      automatically. */
  function AutoFixableIssues(issues: seq<AuditIssue>, projects: seq<AuditProject>,
                             severity: Option<IssueSeverity>, project: Option<string>): (r: seq<AuditIssue>)
    ensures forall x :: x in r <==> x in FilteredIssues(issues, projects, severity, project) && x.autoFixable
  {
    Filter((i: AuditIssue) => i.autoFixable, FilteredIssues(issues, projects, severity, project))
  }

  function Coverage(p: AuditProject): int {
    p.coverage
  }

  /** `Math.round(total / n)` for a positive `n`: the nearest integer, a
      half rounded up. */
  function RoundedMean(total: int, n: int): (r: int)
    requires n > 0
    ensures 2 * n * r <= 2 * total + n < 2 * n * (r + 1)
  {
    (2 * total + n) / (2 * n)
  }

  /** Every open finding has exactly one of the three severities. */
  lemma {:induction false} OpenPartition(s: seq<AuditIssue>)
    ensures |Filter(Unfixed, s)|
         == |Filter(OpenOf(Critical), s)| + |Filter(OpenOf(High), s)| + |Filter(OpenOf(Medium), s)|
    decreases |s|
  {
    if |s| > 0 {
      OpenPartition(s[1..]);
    }
  }

  lemma {:induction false} AutoFixableAreOpen(s: seq<AuditIssue>)
    ensures |Filter(OpenAutoFixable, s)| <= |Filter(Unfixed, s)|
    decreases |s|
  {
    if |s| > 0 {
      AutoFixableAreOpen(s[1..]);
    }
  }

  /** `stats`: counts of the open findings and the rounded mean project
      coverage, 0 without projects. */
  function Stats(issues: seq<AuditIssue>, projects: seq<AuditProject>): (s: AuditStats)
    ensures s.totalIssues == |Filter(Unfixed, issues)|
    ensures s.critical == |Filter(OpenOf(Critical), issues)| && s.high == |Filter(OpenOf(High), issues)|
    ensures s.medium == |Filter(OpenOf(Medium), issues)|
    ensures s.autoFixable == |Filter(OpenAutoFixable, issues)|
    ensures s.totalIssues == s.critical + s.high + s.medium
    ensures 0 <= s.autoFixable <= s.totalIssues <= |issues|
    ensures s.critical >= 0 && s.high >= 0 && s.medium >= 0
    ensures |projects| == 0 ==> s.avgCoverage == 0
    ensures |projects| > 0 ==> s.avgCoverage == RoundedMean(SumOf(projects, Coverage), |projects|)
  {
    OpenPartition(issues);
    AutoFixableAreOpen(issues);
    AuditStats(
      |Filter(Unfixed, issues)|,
      |Filter(OpenOf(Critical), issues)|,
      |Filter(OpenOf(High), issues)|,
      |Filter(OpenOf(Medium), issues)|,
      |Filter(OpenAutoFixable, issues)|,
      if |projects| > 0 then RoundedMean(SumOf(projects, Coverage), |projects|) else 0)
  }

  // ---------------------------------------------------------------------------
  // Changes to the findings

  function HasIssueId(id: string): AuditIssue -> bool {
    (i: AuditIssue) => i.id == id
  }

  /** The findings after `fixIssue(id)`: the first finding with that id is
      marked fixed, and nothing else changes. */
  function FixFirst(items: seq<AuditIssue>, id: string): (r: seq<AuditIssue>)
    ensures |r| == |items|
    ensures forall j :: 0 <= j < |r| ==> r[j] == items[j] || (items[j].id == id && r[j] == items[j].(fixed := true))
    ensures forall j :: 0 <= j < |r| && items[j].id == id && (forall k :: 0 <= k < j ==> items[k].id != id) ==> r[j].fixed
    ensures forall j, k :: 0 <= k < j < |r| && items[k].id == id ==> r[j] == items[j]
    ensures (forall j :: 0 <= j < |items| ==> items[j].id != id) ==> r == items
  {
    match FindIndex(HasIssueId(id), items)
    case None => items
    case Some(k) => items[k := items[k].(fixed := true)]
  }

  /** Fixing twice is fixing once. */
  lemma FixIdempotent(items: seq<AuditIssue>, id: string)
    ensures FixFirst(FixFirst(items, id), id) == FixFirst(items, id)
  {
    var r := FixFirst(items, id);
    assert forall j :: 0 <= j < |r| ==> r[j].id == items[j].id;
  }

  /** A fix lowers the open count by one when the first finding with that
      id was open, and leaves it as it was otherwise. */
  lemma FixOpenCount(items: seq<AuditIssue>, id: string)
    ensures match FindIndex(HasIssueId(id), items)
            case None => |Filter(Unfixed, FixFirst(items, id))| == |Filter(Unfixed, items)|
            case Some(k) =>
              |Filter(Unfixed, FixFirst(items, id))| == |Filter(Unfixed, items)| - (if items[k].fixed then 0 else 1)
  {
    match FindIndex(HasIssueId(id), items)
    case None =>
    case Some(k) =>
      FilterUpdateCount(Unfixed, items, k, items[k].(fixed := true));
  }

  /** What `fixAllAutoFixable` does to one finding. */
  function FixIfAutoFixable(i: AuditIssue): AuditIssue {
    if i.autoFixable && !i.fixed then i.(fixed := true) else i
  }

  /** The findings after `fixAllAutoFixable`: every automatically fixable
      finding is fixed; the others are untouched. */
  function FixAllAutoFixable(items: seq<AuditIssue>): (r: seq<AuditIssue>)
    ensures |r| == |items|
    ensures forall j :: 0 <= j < |r| ==> (r[j].autoFixable ==> r[j].fixed)
    ensures forall j :: 0 <= j < |r| && !items[j].autoFixable ==> r[j] == items[j]
    ensures forall j :: 0 <= j < |r| ==> r[j] == items[j] || r[j] == items[j].(fixed := true)
  {
    MapSeq(items, FixIfAutoFixable)
  }

  /** Fixing all twice is fixing all once. */
  lemma FixAllIdempotent(items: seq<AuditIssue>)
    ensures FixAllAutoFixable(FixAllAutoFixable(items)) == FixAllAutoFixable(items)
  {
  }

  /** Afterwards no open finding can be fixed automatically. */
  lemma FixAllLeavesNothing(items: seq<AuditIssue>, projects: seq<AuditProject>)
    ensures Stats(FixAllAutoFixable(items), projects).autoFixable == 0
    ensures forall severity, project :: AutoFixableIssues(FixAllAutoFixable(items), projects, severity, project) == []
  {
    var r := FixAllAutoFixable(items);
    FilterNone(OpenAutoFixable, r);
  }

  /** The findings after `ignoreIssue(id)`: the first finding with that id is
      removed and the others keep their order; an unknown id changes
      nothing. */
  function IgnoreFirst(items: seq<AuditIssue>, id: string): (r: seq<AuditIssue>)
    ensures (forall j :: 0 <= j < |items| ==> items[j].id != id) ==> r == items
    ensures (exists j :: 0 <= j < |items| && items[j].id == id) ==>
              exists k :: 0 <= k < |items| && items[k].id == id && (forall j :: 0 <= j < k ==> items[j].id != id)
                          && r == items[..k] + items[k + 1..]
                          && multiset(r) + multiset{items[k]} == multiset(items)
  {
    match FindIndex(HasIssueId(id), items)
    case None => items
    case Some(k) =>
      SplitAround(items, k, items[k]);
      RemoveAt(items, k)
  }

  // ---------------------------------------------------------------------------
  // Loading

  /** The bug list a fetch outcome yields; a body that is not an issue list
      makes the mapping throw. */
  function BugIssuesOf(o: Outcome<ApiData>): (r: Outcome<seq<GitHubIssue>>)
    ensures o.Success? && o.value.Issues? ==> r == Success(o.value.issues)
    ensures o.Success? && !o.value.Issues? ==> r == Failure(Malformed)
    ensures o.Failure? ==> r == Failure(o.error)
  {
    match o
    case Failure(e) => Failure(e)
    case Success(Issues(list)) => Success(list)
    case Success(_) => Failure(Malformed)
  }

  /** What a load of the bug query yields from store `items` at `now`. */
  function LoadOutcome(items: map<string, LocalStore.Stored<ApiData>>, prefix: string,
                       net: GitHub.Query -> Response, now: int): Outcome<seq<GitHubIssue>> {
    BugIssuesOf(Remote.FetchOutcome(items, Cache.PhysicalKey(prefix, GitHub.CacheKey(BUG_QUERY)), now,
                                    GitHub.Interpret(net(BUG_QUERY))))
  }

  class AuditStore {
    /** The fixture module's findings and projects. */
    const mockIssues: IssueList
    const mockProjects: seq<AuditProject>

    var issues: IssueList
    var projects: seq<AuditProject>
    var selectedSeverity: Option<IssueSeverity>
    var selectedProject: Option<string>
    var loading: bool
    var error: Option<FetchError>
    var dataSource: DataSource

    constructor (mockIssues: IssueList, mockProjects: seq<AuditProject>)
      ensures this.mockIssues == mockIssues && this.mockProjects == mockProjects
      ensures issues == mockIssues && projects == mockProjects
      ensures selectedSeverity.None? && selectedProject.None?
      ensures !loading && error.None? && dataSource == FromMock
    {
      this.mockIssues := mockIssues;
      this.mockProjects := mockProjects;
      issues := mockIssues;
      projects := mockProjects;
      selectedSeverity := None;
      selectedProject := None;
      loading := false;
      error := None;
      dataSource := FromMock;
    }

    function Listed(): seq<AuditIssue>
      reads this, issues
    {
      FilteredIssues(issues.items, projects, selectedSeverity, selectedProject)
    }

    method SetSeverityFilter(severity: Option<IssueSeverity>)
      modifies this
      ensures selectedSeverity == severity
      ensures issues == old(issues) && projects == old(projects) && selectedProject == old(selectedProject)
      ensures loading == old(loading) && error == old(error) && dataSource == old(dataSource)
    {
      selectedSeverity := severity;
    }

    method SetProjectFilter(projectId: Option<string>)
      modifies this
      ensures selectedProject == projectId
      ensures issues == old(issues) && projects == old(projects) && selectedSeverity == old(selectedSeverity)
      ensures loading == old(loading) && error == old(error) && dataSource == old(dataSource)
    {
      selectedProject := projectId;
    }

    /** Marks the first finding with `id` fixed, in the array the store
        currently shows (the fixture's own array while it is shown). */
    method FixIssue(id: string)
      modifies issues
      ensures issues.items == FixFirst(old(issues.items), id)
    {
      var k := FindIndex(HasIssueId(id), issues.items);
      if k.Some? {
        issues.items := issues.items[k.value := issues.items[k.value].(fixed := true)];
      }
    }

    /** Fixes, one by one, every open finding that can be fixed
        automatically. */
    method FixAll()
      modifies issues
      ensures issues.items == FixAllAutoFixable(old(issues.items))
    {
      for i := 0 to |issues.items|
        invariant |issues.items| == |old(issues.items)|
        invariant forall j :: 0 <= j < i ==> issues.items[j] == FixIfAutoFixable(old(issues.items)[j])
        invariant forall j :: i <= j < |issues.items| ==> issues.items[j] == old(issues.items)[j]
      {
        if issues.items[i].autoFixable && !issues.items[i].fixed {
          issues.items := issues.items[i := issues.items[i].(fixed := true)];
        }
      }
    }

    /** Removes the first finding with `id` from the array the store
        currently shows. */
    method IgnoreIssue(id: string)
      modifies issues
      ensures issues.items == IgnoreFirst(old(issues.items), id)
    {
      var k := FindIndex(HasIssueId(id), issues.items);
      if k.Some? {
        issues.items := RemoveAt(issues.items, k.value);
      }
    }

    method ClearFilters()
      modifies this
      ensures selectedSeverity.None? && selectedProject.None?
      ensures issues == old(issues) && projects == old(projects)
      ensures loading == old(loading) && error == old(error) && dataSource == old(dataSource)
    {
      selectedSeverity := None;
      selectedProject := None;
    }

    /** The store shows a list loaded from the API: its mapped findings and
        their projects. */
    ghost predicate ShowsApi(list: seq<GitHubIssue>, today: string)
      reads this, issues
    {
      issues.items == DataMapper.MapToAuditIssues(list) && projects == DataMapper.AuditProjects(list, today)
      && dataSource == FromApi && error.None?
    }

    /** The store shows the fixture after error `e`. */
    predicate ShowsMock(e: FetchError)
      reads this
    {
      issues == mockIssues && projects == mockProjects && dataSource == FromMock && error == Some(e)
    }

    /** The store shows what a load yielded. */
    ghost predicate Shows(r: Outcome<seq<GitHubIssue>>, today: string)
      reads this, issues
    {
      (r.Success? ==> ShowsApi(r.value, today)) && (r.Failure? ==> ShowsMock(r.error))
    }

    /** The `try` part of `fetchAuditData` once the list has been mapped:
        a new findings array and the projects. */
    method AdoptList(mapped: seq<AuditIssue>, grouped: seq<AuditProject>)
      modifies this
      ensures fresh(issues) && issues.items == mapped && projects == grouped
      ensures dataSource == FromApi && error.None? && !loading
      ensures selectedSeverity == old(selectedSeverity) && selectedProject == old(selectedProject)
    {
      issues := new IssueList(mapped);
      projects := grouped;
      dataSource := FromApi;
      error := None;
      loading := false;
    }

    /** The `catch` part of `fetchAuditData`: the fixture is shown again. */
    method AdoptFailure(e: FetchError)
      modifies this
      ensures ShowsMock(e)
      ensures !loading
      ensures selectedSeverity == old(selectedSeverity) && selectedProject == old(selectedProject)
    {
      error := Some(e);
      issues := mockIssues;
      projects := mockProjects;
      dataSource := FromMock;
      loading := false;
    }

    /** `fetchAuditData`: loads the bug query through the GitHub client's
        cache. A usable list replaces the findings (with a new array) and
        the projects; any failure records the error and falls back to the
        fixture. `requested` tells whether the network was asked. */
    method FetchAuditData(cache: Cache.CacheService<ApiData>, net: GitHub.Query -> Response, now: int,
                          writable: bool, today: string)
      returns (requested: bool)
      modifies this, cache.store
      ensures requested <==> Remote.Served(old(cache.store.items), cache.Key(GitHub.CacheKey(BUG_QUERY)), now).None?
      ensures cache.store.items ==
                Remote.FetchStore(old(cache.store.items), cache.Key(GitHub.CacheKey(BUG_QUERY)), now,
                                  GitHub.Interpret(net(BUG_QUERY)), GitHub.CACHE_TTL, writable)
      ensures Shows(LoadOutcome(old(cache.store.items), cache.prefix, net, now), today)
      ensures LoadOutcome(old(cache.store.items), cache.prefix, net, now).Success? ==> fresh(issues)
      ensures !loading
      ensures selectedSeverity == old(selectedSeverity) && selectedProject == old(selectedProject)
      ensures unchanged(mockIssues)
    {
      ghost var before := cache.store.items;
      loading := true;
      error := None;
      var o;
      o, requested := GitHub.Fetch(cache, net, BUG_QUERY, now, writable);
      assert selectedSeverity == old(selectedSeverity) && selectedProject == old(selectedProject);
      assert unchanged(mockIssues);
      assert BugIssuesOf(o) == LoadOutcome(before, cache.prefix, net, now);
      match BugIssuesOf(o)
      case Success(list) =>
        var mapped := DataMapper.MapToAuditIssues(list);
        var grouped := DataMapper.MapToAuditProjects(list, today);
        AdoptList(mapped, grouped);
      case Failure(e) => AdoptFailure(e);
    }

    /** `useMockData`: shows the fixture array again, with whatever fixes
        and removals were made to it. */
    method UseMockData()
      modifies this
      ensures issues == mockIssues && projects == mockProjects
      ensures dataSource == FromMock && error.None?
      ensures selectedSeverity == old(selectedSeverity) && selectedProject == old(selectedProject)
      ensures loading == old(loading)
    {
      issues := mockIssues;
      projects := mockProjects;
      dataSource := FromMock;
      error := None;
    }

    /** `refreshData` as written: clears the GitHub client's default keys,
        then loads. */
    method RefreshData(cache: Cache.CacheService<ApiData>, net: GitHub.Query -> Response, now: int,
                       writable: bool, today: string)
      returns (requested: bool)
      modifies this, cache.store
      ensures var cleared := old(cache.store.items) - Cache.PhysicalKeys(cache.prefix, GitHub.CLEARED_KEYS);
              requested <==> Remote.Served(cleared, cache.Key(GitHub.CacheKey(BUG_QUERY)), now).None?
      ensures Shows(LoadOutcome(old(cache.store.items) - Cache.PhysicalKeys(cache.prefix, GitHub.CLEARED_KEYS),
                                cache.prefix, net, now), today)
      ensures !loading
    {
      GitHub.ClearCache(cache);
      requested := FetchAuditData(cache, net, now, writable, today);
    }

    /** `refreshData` with the bug query's own entry cleared as well: every
        refresh asks the network. */
    method RefreshDataFresh(cache: Cache.CacheService<ApiData>, net: GitHub.Query -> Response, now: int,
                            writable: bool, today: string)
      returns (requested: bool)
      modifies this, cache.store
      ensures requested
      ensures Shows(BugIssuesOf(GitHub.Interpret(net(BUG_QUERY))), today)
      ensures !loading
    {
      GitHub.ClearCache(cache);
      cache.Remove(GitHub.CacheKey(BUG_QUERY));
      requested := FetchAuditData(cache, net, now, writable, today);
    }
  }

  /** Clearing the client's default keys leaves what a read of the bug
      query serves exactly as it was: a list cached less than ten minutes
      ago is shown again by `refreshData`, without a request. */
  lemma RefreshServesCachedBugs(items: map<string, LocalStore.Stored<ApiData>>, prefix: string, now: int)
    ensures var k := Cache.PhysicalKey(prefix, GitHub.CacheKey(BUG_QUERY));
            Remote.Served(items - Cache.PhysicalKeys(prefix, GitHub.CLEARED_KEYS), k, now) == Remote.Served(items, k, now)
  {
    GitHub.SurvivesClearCache(BUG_QUERY);
    GitHub.ClearCacheKeeps(items, prefix, GitHub.CacheKey(BUG_QUERY));
  }

  /** A concrete store in which the refresh asks nothing: the bug list was
      cached one minute before. */
  lemma StaleRefreshWitness(prefix: string, list: seq<GitHubIssue>)
    ensures var k := Cache.PhysicalKey(prefix, GitHub.CacheKey(BUG_QUERY));
            var items := map[k := LocalStore.Json(LocalStore.CacheRecord(Issues(list), 0, GitHub.CACHE_TTL))];
            Remote.Served(items - Cache.PhysicalKeys(prefix, GitHub.CLEARED_KEYS), k, 60000) == Some(Issues(list))
  {
    var k := Cache.PhysicalKey(prefix, GitHub.CacheKey(BUG_QUERY));
    var items := map[k := LocalStore.Json(LocalStore.CacheRecord(Issues(list), 0, GitHub.CACHE_TTL))];
    RefreshServesCachedBugs(items, prefix, 60000);
  }

  /** While the fixture is shown, a fix followed by a reset to the fixture
      keeps the fix: both act on the same array. */
  method FixThenReset(store: AuditStore, id: string)
    requires store.issues == store.mockIssues
    modifies store, store.issues
    ensures store.issues == store.mockIssues
    ensures store.mockIssues.items == FixFirst(old(store.mockIssues.items), id)
  {
    store.FixIssue(id);
    store.UseMockData();
  }
}

=== FILE: cache.dfy ===
/** `CacheService`: a time-to-live cache over the shared browser store.
    Every entry records when it expires; a read after that moment deletes the
    entry. Keys are namespaced by a prefix, and `Clear` only touches keys
    carrying that prefix. The clock is the `now` parameter (milliseconds). */
module Cache {
  import opened Common
  import opened LocalStore

  /** Five minutes, in milliseconds. */
  const DEFAULT_TTL: int := 5 * 60 * 1000
  const DEFAULT_PREFIX: string := "dsm_cache_"

  /** The physical key under which `key` is stored. */
  function PhysicalKey(prefix: string, key: string): (k: string)
    ensures StartsWith(k, prefix) && k[|prefix|..] == key
  {
    prefix + key
  }

  /** The physical keys of `keys` under `prefix`. */
  function PhysicalKeys(prefix: string, keys: seq<string>): (r: set<string>)
    ensures forall k :: k in keys ==> PhysicalKey(prefix, k) in r
    ensures forall p :: p in r ==> exists k :: k in keys && p == PhysicalKey(prefix, k)
    decreases |keys|
  {
    if |keys| == 0 then {}
    else PhysicalKeys(prefix, keys[..|keys| - 1]) + {PhysicalKey(prefix, keys[|keys| - 1])}
  }

  /** Removing the next key of `keys` extends the removed prefix by one. */
  lemma RemoveNext<D>(items: map<string, Stored<D>>, prefix: string, keys: seq<string>, i: nat)
    requires i < |keys|
    ensures (items - PhysicalKeys(prefix, keys[..i])) - {PhysicalKey(prefix, keys[i])}
         == items - PhysicalKeys(prefix, keys[..i + 1])
  {
    assert keys[..i + 1][..i] == keys[..i];
  }

  /** A stored text that parses to a cache entry. */
  predicate IsEntry<D>(items: map<string, Stored<D>>, k: string) {
    k in items && items[k].Json? && items[k].doc.CacheRecord?
  }

  /** An entry whose expiry time lies strictly before `now`. */
  predicate PastExpiry<D>(items: map<string, Stored<D>>, k: string, now: int) {
    IsEntry(items, k) && now > items[k].doc.expiresAt
  }

  /** What a read at `now` answers for physical key `k`: the data of an
      entry that has not expired, and nothing for an absent, empty,
      unparsable or non-entry text. */
  function Lookup<D>(items: map<string, Stored<D>>, k: string, now: int): (r: Option<D>)
    ensures r.Some? <==> IsEntry(items, k) && now <= items[k].doc.expiresAt
    ensures r.Some? ==> r.value == items[k].doc.data
  {
    if k !in items then None
    else match items[k]
      case Json(CacheRecord(data, _, expiresAt)) =>
        if now > expiresAt then None else Some(data)
      case _ => None
  }

  /** The store after a read at `now`: an expired entry is gone, and nothing
      else has changed. */
  function AfterLookup<D>(items: map<string, Stored<D>>, k: string, now: int): (r: map<string, Stored<D>>)
    ensures PastExpiry(items, k, now) ==> k !in r && r.Keys == items.Keys - {k}
    ensures !PastExpiry(items, k, now) ==> r == items
    ensures forall j :: j in r ==> j in items && r[j] == items[j]
  {
    if PastExpiry(items, k, now) then items - {k} else items
  }

  /** The store after writing an entry for `data` at `now` that lives `ttl`
      milliseconds. */
  function Put<D>(items: map<string, Stored<D>>, k: string, data: D, now: int, ttl: int): (r: map<string, Stored<D>>)
    ensures IsEntry(r, k) && r[k].doc.data == data
    ensures r[k].doc.timestamp == now && r[k].doc.expiresAt == now + ttl
    ensures r.Keys == items.Keys + {k}
    ensures forall j :: j in items && j != k ==> r[j] == items[j]
  {
    items[k := Json(CacheRecord(data, now, now + ttl))]
  }

  class CacheService<D> {
    const prefix: string
    const store: Store<D>

    constructor (store: Store<D>, prefix: string := DEFAULT_PREFIX)
      ensures this.store == store && this.prefix == prefix
    {
      this.store := store;
      this.prefix := prefix;
    }

    function Key(key: string): (k: string)
      ensures StartsWith(k, prefix) && k[|prefix|..] == key
    {
      PhysicalKey(prefix, key)
    }

    /** Reads `key` at time `now`; an entry found past its expiry is removed. */
    method Get(key: string, now: int) returns (r: Option<D>)
      modifies store
      ensures r == Lookup(old(store.items), Key(key), now)
      ensures store.items == AfterLookup(old(store.items), Key(key), now)
    {
      var k := Key(key);
      if k !in store.items {
        return None;
      }
      match store.items[k]
      case Blank =>
        return None;
      case Garbled =>
        return None;
      case Json(Plain(_)) =>
        return None;
      case Json(CacheRecord(data, _, expiresAt)) =>
        if now > expiresAt {
          Remove(key);
          return None;
        }
        return Some(data);
    }

    /** Writes an entry that expires `ttl` milliseconds after `now`. When the
        store refuses the write (`writable` is false, as on a full quota) the
        failure is swallowed and the store is unchanged. */
    method Set(key: string, data: D, now: int, writable: bool, ttl: int := DEFAULT_TTL)
      modifies store
      ensures store.items == if writable then Put(old(store.items), Key(key), data, now, ttl) else old(store.items)
    {
      if writable {
        store.items := store.items[Key(key) := Json(CacheRecord(data, now, now + ttl))];
      }
    }

    method Remove(key: string)
      modifies store
      ensures store.items == old(store.items) - {Key(key)}
    {
      store.items := store.items - {Key(key)};
    }

    /** Removes every key that starts with the prefix, one by one. */
    method Clear()
      modifies store
      ensures store.items == Unprefixed(old(store.items), prefix)
    {
      var keys := Prefixed(store.items, prefix);
      ghost var all := keys;
      while keys != {}
        invariant keys <= all
        invariant store.items == old(store.items) - (all - keys)
        decreases keys
      {
        var k :| k in keys;
        store.items := store.items - {k};
        keys := keys - {k};
      }
    }

    /** Whether `key` is absent, unreadable or past expiry at `now`. Unlike
        `Get`, it never deletes anything. */
    function IsExpired(key: string, now: int): (b: bool)
      reads store
      ensures b <==> Key(key) !in store.items || store.items[Key(key)].Blank?
                     || store.items[Key(key)].Garbled? || PastExpiry(store.items, Key(key), now)
      ensures b ==> Lookup(store.items, Key(key), now).None?
      ensures IsEntry(store.items, Key(key)) ==> (b <==> Lookup(store.items, Key(key), now).None?)
    {
      var k := Key(key);
      if k !in store.items then true
      else match store.items[k]
        case Blank => true
        case Garbled => true
        case Json(Plain(_)) => false
        case Json(CacheRecord(_, _, expiresAt)) => now > expiresAt
    }
  }

  /** Keys are injective: two logical keys under one prefix never collide. */
  lemma KeyInjective(prefix: string, a: string, b: string)
    requires PhysicalKey(prefix, a) == PhysicalKey(prefix, b)
    ensures a == b
  {
    assert a == PhysicalKey(prefix, a)[|prefix|..];
  }

  /** A written entry is readable up to and including its expiry moment and
      gone one millisecond later. */
  lemma PutThenLookup<D>(items: map<string, Stored<D>>, k: string, data: D, now: int, ttl: int, later: int)
    ensures later <= now + ttl ==> Lookup(Put(items, k, data, now, ttl), k, later) == Some(data)
    ensures later > now + ttl ==> Lookup(Put(items, k, data, now, ttl), k, later) == None
    ensures Lookup(Put(items, k, data, now, ttl), k, now + ttl) == Some(data)
  {
  }

  /** Writing one key leaves every other key's reading unchanged. */
  lemma PutIsolated<D>(items: map<string, Stored<D>>, k: string, j: string, data: D, now: int, ttl: int, at: int)
    requires j != k
    ensures Lookup(Put(items, k, data, now, ttl), j, at) == Lookup(items, j, at)
  {
  }

  /** A read never changes what a later read of any key answers at the same
      moment or later: the only entry it deletes was already unreadable. */
  lemma LookupDeletesOnlyDead<D>(items: map<string, Stored<D>>, k: string, j: string, now: int, later: int)
    requires now <= later
    ensures Lookup(AfterLookup(items, k, now), j, later) == Lookup(items, j, later)
  {
  }

  /** After `Clear`, no key under the prefix answers a read. */
  lemma ClearedLookup<D>(items: map<string, Stored<D>>, prefix: string, key: string, now: int)
    ensures Lookup(Unprefixed(items, prefix), PhysicalKey(prefix, key), now) == None
  {
  }
}

=== FILE: chat.dfy ===
/** `useChatStore`: the assistant panel. A message that starts with "/" is a
    command: its first white-space separated word, lower-cased, picks a
    handler and the remaining words are its argument. Any other message is
    free text, answered by the first keyword group it mentions. The store
    also keeps a list of saved conversations.

    The handlers' replies read the other stores and are worded in Spanish
    markdown. Here a reply is the handler that gives it and the argument it
    receives (`Reply`), and its text is a parameter of `SendMessage`. */
module Chat {
  import opened Common

  datatype Role = User | Assistant

  /** The handlers a message can reach. */
  datatype Topic = Components | Issues | Analytics | Audit | Requests | Contributions | Status | Navigate | Help

  /** Which handler answers a message, and with what argument. */
  datatype Reply =
    | CommandReply(topic: Topic, args: Option<string>)  // a known command
    | UnknownCommand(command: string)                   // a "/" word no handler takes
    | IntentReply(topic: Topic)                         // free text naming a topic
    | DefaultReply                                      // free text naming none

  datatype ChatMessage = ChatMessage(id: string, role: Role, content: string, timestamp: int, reply: Option<Reply>)

  datatype ChatTrigger = ChatTrigger(command: string, icon: string, example: string)

  datatype ChatConversation = ChatConversation(id: string, title: string, preview: string, timestamp: int, messageCount: nat)

  /** The commands the panel offers, in the order it lists them. */
  const TRIGGERS: seq<ChatTrigger> := [
    ChatTrigger("/components", "Box", "/components button"),
    ChatTrigger("/issues", "Bug", "/issues critical"),
    ChatTrigger("/analytics", "BarChart3", "/analytics"),
    ChatTrigger("/audit", "AlertTriangle", "/audit"),
    ChatTrigger("/requests", "GitPullRequest", "/requests"),
    ChatTrigger("/contributions", "GitMerge", "/contributions"),
    ChatTrigger("/status", "Activity", "/status"),
    ChatTrigger("/navigate", "ArrowRight", "/navigate analytics"),
    ChatTrigger("/help", "HelpCircle", "/help")
  ]

  // ---------------------------------------------------------------------------
  // Trigger suggestions

  function CommandStartsWith(prefix: string): ChatTrigger -> bool {
    (t: ChatTrigger) => StartsWith(t.command, prefix)
  }

  /** `matchingTriggers(input)`: nothing unless the input starts with "/";
      otherwise the triggers whose command starts with the input's first
      space-separated piece, lower-cased, in their listed order. */
  function MatchingTriggers(input: string): (r: seq<ChatTrigger>)
    ensures !StartsWith(input, "/") ==> r == []
    ensures Subsequence(r, TRIGGERS)
    ensures forall t :: t in r <==>
              t in TRIGGERS && StartsWith(input, "/") && StartsWith(t.command, BeforeFirst(ToLower(input), ' '))
  {
    if !StartsWith(input, "/") then []
    else Filter(CommandStartsWith(BeforeFirst(ToLower(input), ' ')), TRIGGERS)
  }

  /** A lone "/" suggests every command. */
  lemma SlashListsAll()
    ensures MatchingTriggers("/") == TRIGGERS
  {
    var cmd := BeforeFirst(ToLower("/"), ' ');
    assert cmd == "/";
    forall t | t in TRIGGERS
      ensures CommandStartsWith(cmd)(t)
    {
    }
    FilterAll(CommandStartsWith(cmd), TRIGGERS);
  }

  // ---------------------------------------------------------------------------
  // Commands

  /** The handler the `switch` of `sendMessage` runs for a command word. */
  function CommandTopic(command: string): (r: Option<Topic>) {
    match command
    case "/components" => Some(Components)
    case "/issues" => Some(Issues)
    case "/analytics" => Some(Analytics)
    case "/audit" => Some(Audit)
    case "/requests" => Some(Requests)
    case "/contributions" => Some(Contributions)
    case "/status" => Some(Status)
    case "/navigate" => Some(Navigate)
    case "/help" => Some(Help)
    case _ => None
  }

  /** The commands the handler switch knows are exactly the listed
      triggers. */
  lemma CommandsAreTriggers(command: string)
    ensures CommandTopic(command).Some? <==> exists t :: t in TRIGGERS && t.command == command
  {
    if CommandTopic(command).Some? {
      var k := CommandIndex(command);
      assert TRIGGERS[k] in TRIGGERS;
    } else {
      forall k | 0 <= k < |TRIGGERS|
        ensures TRIGGERS[k].command != command
      {
        KnownTriggerCommand(k);
      }
    }
  }

  /** Where a known command word stands in the trigger list. */
  function CommandIndex(command: string): (k: nat)
    requires CommandTopic(command).Some?
    ensures k < |TRIGGERS| && TRIGGERS[k].command == command
  {
    match command
    case "/components" => 0
    case "/issues" => 1
    case "/analytics" => 2
    case "/audit" => 3
    case "/requests" => 4
    case "/contributions" => 5
    case "/status" => 6
    case "/navigate" => 7
    case "/help" => 8
  }

  lemma KnownTriggerCommand(k: nat)
    requires k < |TRIGGERS|
    ensures CommandTopic(TRIGGERS[k].command).Some?
  {
  }

  /** A command's word and its argument text. */
  datatype Parsed = Parsed(command: string, args: Option<string>)

  /** `trimmed.split(/\s+/)`: the first word lower-cased is the command;
      the other words joined by one space, trimmed, are the argument, absent
      when that text is empty. */
  function ParseCommand(trimmed: string): (r: Parsed)
    requires StartsWith(trimmed, "/")
    ensures |Words(trimmed)| >= 1
    ensures r.command == ToLower(Words(trimmed)[0]) && r.command[0] == '/'
    ensures r.args.None? <==> |Words(trimmed)| == 1
    ensures r.args.Some? ==> r.args.value == Join(Words(trimmed)[1..], " ")
  {
    SlashFirstWord(trimmed);
    var parts := Words(trimmed);
    var rest := Trim(Join(parts[1..], " "));
    assert |parts| > 1 ==> Trim(Join(parts[1..], " ")) == Join(parts[1..], " ") != "" by {
      if |parts| > 1 {
        JoinOfWords(parts[1..]);
      }
    }
    Parsed(ToLower(parts[0]), if rest == "" then None else Some(rest))
  }

  /** A string that opens with a slash has a first word, and it opens with
      the slash in any case. */
  lemma {:induction false} SlashFirstWord(trimmed: string)
    requires StartsWith(trimmed, "/")
    ensures |Words(trimmed)| >= 1
    ensures ToLower(Words(trimmed)[0])[0] == '/'
  {
    assert trimmed[0] == trimmed[..1][0] == '/';
    assert TrimStart(trimmed) == trimmed;
    var w := FirstWord(trimmed);
    assert Words(trimmed)[0] == w;
    assert w[0] == '/';
    assert LowerChar('/') == '/';
  }

  /** Words joined by single spaces have no white space at either end, so
      trimming keeps them. */
  lemma {:induction false} JoinOfWords(parts: seq<string>)
    requires |parts| >= 1
    requires forall k :: 0 <= k < |parts| ==> IsWord(parts[k])
    ensures Trim(Join(parts, " ")) == Join(parts, " ") != ""
    decreases |parts|
  {
    var j := Join(parts, " ");
    assert forall k :: 0 <= k < |parts| ==> |parts[k]| > 0 && forall c :: c in parts[k] ==> !IsSpace(c);
    JoinEnds(parts);
    assert TrimStart(j) == j;
    assert TrimEnd(j) == j;
  }

  lemma {:induction false} JoinEnds(parts: seq<string>)
    requires |parts| >= 1
    requires forall k :: 0 <= k < |parts| ==> |parts[k]| > 0 && forall c :: c in parts[k] ==> !IsSpace(c)
    ensures |Join(parts, " ")| > 0
    ensures Join(parts, " ")[0] == parts[0][0]
    ensures Join(parts, " ")[|Join(parts, " ")| - 1] == parts[|parts| - 1][|parts[|parts| - 1]| - 1]
    ensures !IsSpace(Join(parts, " ")[0]) && !IsSpace(Join(parts, " ")[|Join(parts, " ")| - 1])
    decreases |parts|
  {
    var last := parts[|parts| - 1];
    assert last[|last| - 1] in last;
    assert parts[0][0] in parts[0];
    if |parts| > 1 {
      JoinEnds(parts[1..]);
    }
  }

  // ---------------------------------------------------------------------------
  // Navigation

  datatype Route = Route(path: string, title: string)

  /** The section names `/navigate` understands, by lower-case name. */
  const ROUTES: map<string, Route> := map[
    "dashboard" := Route("/", "Dashboard"),
    "home" := Route("/", "Dashboard"),
    "components" := Route("/", "Component Library"),
    "issues" := Route("/issues", "Issues"),
    "contributions" := Route("/contributions", "Contributions"),
    "audit" := Route("/audit", "Design Audit"),
    "requests" := Route("/requests", "Component Requests"),
    "analytics" := Route("/analytics", "Analytics"),
    "docs" := Route("/docs", "Documentation")
  ]

  /** The route `handleNavigate(target)` returns: the path of the section the
      lower-cased target names, none for a missing or empty target or an
      unknown name. */
  function NavigateRoute(target: Option<string>): (r: Option<string>)
    ensures r.Some? <==> target.Some? && target.value != "" && ToLower(target.value) in ROUTES
    ensures r.Some? ==> r.value == ROUTES[ToLower(target.value)].path && StartsWith(r.value, "/")
  {
    if target.None? || target.value == "" then None
    else
      var name := ToLower(target.value);
      if name in ROUTES then Some(ROUTES[name].path) else None
  }

  /** Lower-casing twice is lower-casing once. */
  lemma LowerIdempotent(s: string)
    ensures ToLower(ToLower(s)) == ToLower(s)
  {
  }

  /** Section names are matched without regard to case. */
  lemma NavigateIgnoresCase(target: string)
    ensures NavigateRoute(Some(target)) == NavigateRoute(Some(ToLower(target)))
  {
    LowerIdempotent(target);
  }

  // ---------------------------------------------------------------------------
  // Free text

  /** The keyword groups of `handleFreeText`, in the order they are tried. */
  const KEYWORD_GROUPS: seq<(Topic, seq<string>)> := [
    (Components, ["componente", "component", "bot\U{00F3}n", "button"]),
    (Issues, ["issue", "bug", "error"]),
    (Analytics, ["analytic", "m\U{00E9}trica", "adopci\U{00F3}n", "adoption"]),
    (Audit, ["audit", "inconsistencia"]),
    (Requests, ["request", "solicitud", "pedido"]),
    (Contributions, ["contribuci\U{00F3}n", "contribution", "pr ", "pull request"]),
    (Status, ["estado", "status", "resumen", "overview"]),
    (Navigate, ["navegar", "ir a", "navigate", "go to"]),
    (Help, ["ayuda", "help", "comando"])
  ]

  predicate Mentions(text: string, keywords: seq<string>) {
    exists w :: w in keywords && Includes(text, w)
  }

  /** The first group from `from` on that the text mentions. */
  function IntentFrom(text: string, from: nat): (r: Option<nat>)
    requires from <= |KEYWORD_GROUPS|
    ensures r.None? <==> forall k :: from <= k < |KEYWORD_GROUPS| ==> !Mentions(text, KEYWORD_GROUPS[k].1)
    ensures r.Some? ==> from <= r.value < |KEYWORD_GROUPS| && Mentions(text, KEYWORD_GROUPS[r.value].1)
    ensures r.Some? ==> forall k :: from <= k < r.value ==> !Mentions(text, KEYWORD_GROUPS[k].1)
    decreases |KEYWORD_GROUPS| - from
  {
    if from == |KEYWORD_GROUPS| then None
    else if Mentions(text, KEYWORD_GROUPS[from].1) then Some(from)
    else IntentFrom(text, from + 1)
  }

  /** `handleFreeText`: the topic of the first keyword group the lower-cased
      text mentions, none when it mentions no group. */
  function FreeTextIntent(text: string): (r: Option<Topic>)
    ensures r.None? <==> forall k :: 0 <= k < |KEYWORD_GROUPS| ==> !Mentions(ToLower(text), KEYWORD_GROUPS[k].1)
    ensures r.Some? ==> exists k :: (0 <= k < |KEYWORD_GROUPS| && KEYWORD_GROUPS[k].0 == r.value &&
              Mentions(ToLower(text), KEYWORD_GROUPS[k].1) &&
              forall j :: 0 <= j < k ==> !Mentions(ToLower(text), KEYWORD_GROUPS[j].1))
  {
    match IntentFrom(ToLower(text), 0)
    case None => None
    case Some(k) => Some(KEYWORD_GROUPS[k].0)
  }

  /** Each topic heads exactly one group, so the group a topic answers for
      is determined by the topic. */
  lemma GroupsDistinct()
    ensures forall j, k :: 0 <= j < k < |KEYWORD_GROUPS| ==> KEYWORD_GROUPS[j].0 != KEYWORD_GROUPS[k].0
  {
  }

  /** A text that mentions a group is answered by that group's topic or an
      earlier one; never by a later group. */
  lemma EarlierGroupWins(text: string, k: nat)
    requires k < |KEYWORD_GROUPS|
    requires Mentions(ToLower(text), KEYWORD_GROUPS[k].1)
    ensures FreeTextIntent(text).Some?
    ensures exists j :: 0 <= j <= k && KEYWORD_GROUPS[j].0 == FreeTextIntent(text).value
  {
  }

  // ---------------------------------------------------------------------------
  // Answering a message

  /** The argument a handler receives: `/components`, `/issues` and
      `/navigate` take the argument text, the others take none. */
  function HandlerArgs(topic: Topic, args: Option<string>): Option<string> {
    if topic == Components || topic == Issues || topic == Navigate then args else None
  }

  /** The reply a non-blank trimmed message gets. */
  function Respond(trimmed: string): Reply {
    if StartsWith(trimmed, "/") then
      var p := ParseCommand(trimmed);
      match CommandTopic(p.command)
      case None => UnknownCommand(p.command)
      case Some(topic) => CommandReply(topic, HandlerArgs(topic, p.args))
    else
      match FreeTextIntent(trimmed)
      case None => DefaultReply
      case Some(topic) => IntentReply(topic)
  }

  /** A slash message gets its command's handler, or the unknown-command
      reply when no trigger has the command; other text gets the handler of
      the intent it shows, or the default reply when it shows none. */
  lemma RespondChoosesHandler(trimmed: string)
    ensures StartsWith(trimmed, "/") ==> Respond(trimmed).CommandReply? || Respond(trimmed).UnknownCommand?
    ensures !StartsWith(trimmed, "/") ==> Respond(trimmed).IntentReply? || Respond(trimmed).DefaultReply?
    ensures Respond(trimmed).UnknownCommand? ==> forall t :: t in TRIGGERS ==> t.command != Respond(trimmed).command
    ensures Respond(trimmed).CommandReply? ==> exists t :: t in TRIGGERS && t.command == ParseCommand(trimmed).command
    ensures Respond(trimmed).IntentReply? ==> FreeTextIntent(trimmed) == Some(Respond(trimmed).topic)
    ensures Respond(trimmed).DefaultReply? ==> FreeTextIntent(trimmed).None?
  {
    if StartsWith(trimmed, "/") {
      CommandsAreTriggers(ParseCommand(trimmed).command);
    }
  }

  /** The route `sendMessage` returns: only `/navigate` yields one. */
  function RouteOf(trimmed: string): (r: Option<string>)
    ensures r.Some? ==> StartsWith(trimmed, "/") && ParseCommand(trimmed).command == "/navigate"
    ensures r.Some? ==> r == NavigateRoute(ParseCommand(trimmed).args)
  {
    if !StartsWith(trimmed, "/") then None
    else
      var p := ParseCommand(trimmed);
      if p.command == "/navigate" then NavigateRoute(p.args) else None
  }

  /** A message that navigates is answered by the navigation handler, with
      the target it navigates to. */
  lemma RouteComesWithReply(trimmed: string)
    requires RouteOf(trimmed).Some?
    ensures Respond(trimmed) == CommandReply(Navigate, ParseCommand(trimmed).args)
  {
    var p := ParseCommand(trimmed);
    NavigateIsKnown();
    assert CommandTopic(p.command) == Some(Navigate);
  }

  lemma NavigateIsKnown()
    ensures CommandTopic("/navigate") == Some(Navigate)
  {
  }

  /** "/navigate Analytics" goes to the analytics page: a navigation command
      whose argument names a section returns that section's path. */
  lemma NavigateCommandRoutes(trimmed: string)
    requires StartsWith(trimmed, "/") && ParseCommand(trimmed).command == "/navigate"
    requires |Words(trimmed)| == 2 && ToLower(Words(trimmed)[1]) in ROUTES
    ensures RouteOf(trimmed) == Some(ROUTES[ToLower(Words(trimmed)[1])].path)
  {
    var target := Words(trimmed)[1];
    assert Words(trimmed)[1..] == [target];
    assert ParseCommand(trimmed).args == Some(target);
    assert RouteOf(trimmed) == NavigateRoute(Some(target));
  }

  /** A bare "/navigate" has no target and goes nowhere. */
  lemma BareNavigateStays(trimmed: string)
    requires StartsWith(trimmed, "/") && |Words(trimmed)| == 1
    ensures RouteOf(trimmed).None?
  {
  }

  // ---------------------------------------------------------------------------
  // Conversations

  function IsUserMessage(m: ChatMessage): bool {
    m.role == User
  }

  const UNTITLED: string := "Nueva conversaci\U{00F3}n"

  /** The conversation `newConversation` saves for the current messages: the
      first user message's first 40 characters as title, or the default
      title when there is none or it is empty; the last message's first 60
      characters as preview; the message count. */
  function Summary(messages: seq<ChatMessage>, id: string, timestamp: int): (r: ChatConversation)
    requires |messages| > 0
    ensures r.id == id && r.timestamp == timestamp && r.messageCount == |messages|
    ensures 0 < |r.title| <= 40 && |r.preview| <= 60
    ensures (forall m :: m in messages ==> m.role != User) ==> r.title == UNTITLED
    ensures forall k :: 0 <= k < |messages| && messages[k].role == User && (forall j :: 0 <= j < k ==> messages[j].role != User) ==>
              r.title == if messages[k].content == "" then UNTITLED else Prefix(messages[k].content, 40)
    ensures StartsWith(messages[|messages| - 1].content, r.preview)
    ensures |r.preview| == if |messages[|messages| - 1].content| < 60 then |messages[|messages| - 1].content| else 60
  {
    var first := FindIndex(IsUserMessage, messages);
    var title := if first.Some? then Prefix(messages[first.value].content, 40) else "";
    var last := messages[|messages| - 1].content;
    ChatConversation(id, if title == "" then UNTITLED else title, Prefix(last, 60), timestamp, |messages|)
  }

  function ConversationIdIsNot(id: string): ChatConversation -> bool {
    (c: ChatConversation) => c.id != id
  }

  /** The fixture conversations, dated back from `now` in milliseconds. */
  function InitialConversations(now: int): seq<ChatConversation> {
    [ChatConversation("conv-1", "Estado del sistema", "Resumen general de componentes...", now - 3600000 * 2, 4),
     ChatConversation("conv-2", "Audit de dise\U{00F1}o", "Issues de inconsistencia pendientes...", now - 3600000 * 24, 6),
     ChatConversation("conv-3", "B\U{00FA}squeda de componentes", "Buscar button, input, modal...", now - 3600000 * 48, 3),
     ChatConversation("conv-4", "M\U{00E9}tricas de adopci\U{00F3}n", "Analytics de uso del design system...", now - 3600000 * 72, 5)]
  }

  predicate Falsy(id: Option<string>) {
    id.None? || id.value == ""
  }

  class ChatStore {
    var isActive: bool
    var messages: seq<ChatMessage>
    var isTyping: bool
    var currentConversationId: Option<string>
    var conversations: seq<ChatConversation>

    constructor (now: int)
      ensures !isActive && messages == [] && !isTyping && currentConversationId.None?
      ensures conversations == InitialConversations(now)
    {
      isActive := false;
      messages := [];
      isTyping := false;
      currentConversationId := None;
      conversations := InitialConversations(now);
    }

    function HasMessages(): bool
      reads this
    {
      |messages| > 0
    }

    /** `sendMessage(text)`: a blank message changes nothing; otherwise the
        trimmed text and then the reply are appended, and the route of a
        navigation command is returned. */
    method SendMessage(text: string, userMessageId: string, replyId: string, now: int, replyText: string)
      returns (navigateTo: Option<string>)
      modifies this
      ensures Trim(text) == "" ==> messages == old(messages) && navigateTo.None? && isTyping == old(isTyping)
      ensures Trim(text) != "" ==>
                messages == old(messages) + [ChatMessage(userMessageId, User, Trim(text), now, None),
                                             ChatMessage(replyId, Assistant, replyText, now, Some(Respond(Trim(text))))]
      ensures Trim(text) != "" ==> navigateTo == RouteOf(Trim(text)) && !isTyping
      ensures isActive == old(isActive) && currentConversationId == old(currentConversationId)
      ensures conversations == old(conversations)
    {
      var trimmed := Trim(text);
      if trimmed == "" {
        return None;
      }
      var question := ChatMessage(userMessageId, User, trimmed, now, None);
      var before := messages;
      messages := messages + [question];
      var reply := Respond(trimmed);
      navigateTo := RouteOf(trimmed);
      isTyping := true;
      isTyping := false;
      var answer := ChatMessage(replyId, Assistant, replyText, now, Some(reply));
      messages := messages + [answer];
      AppendTwo(before, question, answer);
    }

    method Activate()
      modifies this
      ensures isActive
      ensures messages == old(messages) && isTyping == old(isTyping)
      ensures currentConversationId == old(currentConversationId) && conversations == old(conversations)
    {
      isActive := true;
    }

    method Deactivate()
      modifies this
      ensures !isActive
      ensures messages == old(messages) && isTyping == old(isTyping)
      ensures currentConversationId == old(currentConversationId) && conversations == old(conversations)
    {
      isActive := false;
    }

    method Toggle()
      modifies this
      ensures isActive == !old(isActive)
      ensures messages == old(messages) && isTyping == old(isTyping)
      ensures currentConversationId == old(currentConversationId) && conversations == old(conversations)
    {
      isActive := !isActive;
    }

    method ClearMessages()
      modifies this
      ensures messages == [] && currentConversationId.None?
      ensures isActive == old(isActive) && isTyping == old(isTyping) && conversations == old(conversations)
    {
      messages := [];
      currentConversationId := None;
    }

    /** `newConversation`: unsaved messages are saved as a conversation at the
        head of the list; then the panel starts empty. */
    method NewConversation(millis: nat, now: int)
      modifies this
      ensures |old(messages)| > 0 && Falsy(old(currentConversationId)) ==>
                conversations == [Summary(old(messages), "conv-" + NatToString(millis), now)] + old(conversations)
      ensures !(|old(messages)| > 0 && Falsy(old(currentConversationId))) ==> conversations == old(conversations)
      ensures messages == [] && currentConversationId.None?
      ensures isActive == old(isActive) && isTyping == old(isTyping)
    {
      if |messages| > 0 && Falsy(currentConversationId) {
        conversations := [Summary(messages, "conv-" + NatToString(millis), now)] + conversations;
      }
      messages := [];
      currentConversationId := None;
    }

    method SelectConversation(id: string)
      modifies this
      ensures currentConversationId == Some(id) && messages == []
      ensures isActive == old(isActive) && isTyping == old(isTyping) && conversations == old(conversations)
    {
      currentConversationId := Some(id);
      messages := [];
    }

    /** `deleteConversation(id)`: every conversation with the id goes, the
        rest keep their order; the open one is closed. */
    method DeleteConversation(id: string)
      modifies this
      ensures forall c :: c in conversations <==> c in old(conversations) && c.id != id
      ensures Subsequence(conversations, old(conversations))
      ensures old(currentConversationId) == Some(id) ==> messages == [] && currentConversationId.None?
      ensures old(currentConversationId) != Some(id) ==>
                messages == old(messages) && currentConversationId == old(currentConversationId)
      ensures isActive == old(isActive) && isTyping == old(isTyping)
    {
      conversations := Filter(ConversationIdIsNot(id), conversations);
      if currentConversationId == Some(id) {
        messages := [];
        currentConversationId := None;
      }
    }
  }
}

=== FILE: common.dfy ===
/** Helpers shared by every module of the model: the optional value, the
    JavaScript string and array operations the application relies on
    (lower/upper casing, `startsWith`, `includes`, `split`, `join`, `trim`,
    `slice`, `padStart`, `String(n)`), a stable sort by an integer key and
    the subsequence relation used to state what a filter returns. */
module Common {

  datatype Option<+T> = None | Some(value: T)

  /** The value if present, else the default (`x ?? d`). */
  function Or<T>(x: Option<T>, d: T): T {
    if x.Some? then x.value else d
  }

  // ---------------------------------------------------------------------------
  // Characters

  /** `toLowerCase` on one character, for the Basic Latin and Latin-1
      letters (the Spanish accented capitals included). */
  function LowerChar(c: char): char {
    if 'A' <= c <= 'Z' || ('\U{00C0}' <= c <= '\U{00DE}' && c != '\U{00D7}') then (c as int + 32) as char else c
  }

  /** `toUpperCase` on one character, for the Basic Latin and Latin-1 letters
      whose capital is one character of the same block. */
  function UpperChar(c: char): char {
    if 'a' <= c <= 'z' || ('\U{00E0}' <= c <= '\U{00FE}' && c != '\U{00F7}') then (c as int - 32) as char else c
  }

  /** The characters `String.prototype.trim` and `/\s/` treat as white space:
      the ECMAScript WhiteSpace and LineTerminator code points. */
  predicate IsSpace(c: char) {
    c == ' ' || c == '\t' || c == '\n' || c == '\r' || c == '\U{000B}' || c == '\U{000C}'
    || c == '\U{00A0}' || c == '\U{1680}' || ('\U{2000}' <= c <= '\U{200A}')
    || c == '\U{2028}' || c == '\U{2029}' || c == '\U{202F}' || c == '\U{205F}'
    || c == '\U{3000}' || c == '\U{FEFF}'
  }

  predicate IsDigit(c: char) { '0' <= c <= '9' }

  // ---------------------------------------------------------------------------
  // Strings

  function ToLower(s: string): (r: string)
    ensures |r| == |s|
    ensures forall i :: 0 <= i < |s| ==> r[i] == LowerChar(s[i])
  {
    seq(|s|, i requires 0 <= i < |s| => LowerChar(s[i]))
  }

  function ToUpper(s: string): (r: string)
    ensures |r| == |s|
    ensures forall i :: 0 <= i < |s| ==> r[i] == UpperChar(s[i])
  {
    seq(|s|, i requires 0 <= i < |s| => UpperChar(s[i]))
  }

  predicate StartsWith(s: string, prefix: string) {
    |prefix| <= |s| && s[..|prefix|] == prefix
  }

  /** `s.includes(sub)`. */
  predicate Includes(s: string, sub: string)
    decreases |s|
  {
    StartsWith(s, sub) || (|s| > 0 && Includes(s[1..], sub))
  }

  /** `s.substring(0, n)` for n >= 0. */
  function Prefix(s: string, n: nat): (r: string)
    ensures |r| == if n <= |s| then n else |s|
    ensures r <= s
    ensures Includes(s, r) || r == ""
  {
    if n <= |s| then s[..n] else s
  }

  /** `s.split(sep)` for a one-character separator: the pieces between
      separators, empty pieces included; "" splits into [""]. */
  function Split(s: string, sep: char): (r: seq<string>)
    ensures |r| >= 1
    ensures forall k :: 0 <= k < |r| ==> sep !in r[k]
  {
    if |s| == 0 then [""]
    else
      var rest := Split(s[1..], sep);
      if s[0] == sep then [""] + rest
      else [[s[0]] + rest[0]] + rest[1..]
  }

  /** `parts.join(sep)`. */
  function Join(parts: seq<string>, sep: string): string
    decreases |parts|
  {
    if |parts| == 0 then ""
    else if |parts| == 1 then parts[0]
    else parts[0] + sep + Join(parts[1..], sep)
  }

  /** `s.split(c)[0]`: everything before the first `c`. */
  function BeforeFirst(s: string, c: char): (r: string)
    ensures |r| <= |s| && r == s[..|r|]
    ensures c !in r
    ensures |r| < |s| ==> s[|r|] == c
  {
    if |s| == 0 || s[0] == c then "" else [s[0]] + BeforeFirst(s[1..], c)
  }

  function TrimStart(s: string): (r: string)
    ensures |r| <= |s| && r == s[|s| - |r|..]
    ensures |r| > 0 ==> !IsSpace(r[0])
  {
    if |s| > 0 && IsSpace(s[0]) then TrimStart(s[1..]) else s
  }

  function TrimEnd(s: string): (r: string)
    ensures |r| <= |s| && r == s[..|r|]
    ensures |r| > 0 ==> !IsSpace(r[|r| - 1])
  {
    if |s| > 0 && IsSpace(s[|s| - 1]) then TrimEnd(s[..|s| - 1]) else s
  }

  /** `s.trim()`. */
  function Trim(s: string): (r: string)
    ensures |r| <= |s|
    ensures |r| > 0 ==> !IsSpace(r[0]) && !IsSpace(r[|r| - 1])
  {
    TrimEnd(TrimStart(s))
  }

  /** `s.replace(pattern, "")` with a string pattern: the first occurrence is
      removed, nothing happens when there is none. */
  function RemoveFirst(s: string, pattern: string): (r: string)
    decreases |s|
    ensures |r| <= |s|
    ensures !Includes(s, pattern) ==> r == s
  {
    if StartsWith(s, pattern) then s[|pattern|..]
    else if |s| == 0 then s
    else [s[0]] + RemoveFirst(s[1..], pattern)
  }

  // ---------------------------------------------------------------------------
  // Numbers as text

  function DigitChar(d: nat): (c: char)
    requires d < 10
    ensures IsDigit(c)
  {
    "0123456789"[d]
  }

  /** `String(n)` for a non-negative integer: its decimal digits. */
  function NatToString(n: nat): (r: string)
    ensures |r| >= 1
    ensures forall k :: 0 <= k < |r| ==> IsDigit(r[k])
  {
    if n < 10 then [DigitChar(n)] else NatToString(n / 10) + [DigitChar(n % 10)]
  }

  lemma {:induction false} DigitCharInjective(a: nat, b: nat)
    requires a < 10 && b < 10 && DigitChar(a) == DigitChar(b)
    ensures a == b
  {
  }

  /** Distinct numbers print differently. */
  lemma {:induction false} NatToStringInjective(a: nat, b: nat)
    requires NatToString(a) == NatToString(b)
    ensures a == b
  {
    var sa, sb := NatToString(a), NatToString(b);
    if a < 10 && b < 10 {
      DigitCharInjective(a, b);
    } else if a >= 10 && b >= 10 {
      assert sa[|sa| - 1] == DigitChar(a % 10);
      assert sb[|sb| - 1] == DigitChar(b % 10);
      DigitCharInjective(a % 10, b % 10);
      assert sa[..|sa| - 1] == NatToString(a / 10);
      assert sb[..|sb| - 1] == NatToString(b / 10);
      NatToStringInjective(a / 10, b / 10);
    } else {
      assert false;
    }
  }

  /** `String(n).padStart(width, '0')`. */
  function PadStart(s: string, width: nat, fill: char): (r: string)
    ensures |r| == if |s| >= width then |s| else width
    ensures r[|r| - |s|..] == s
    ensures forall k :: 0 <= k < |r| - |s| ==> r[k] == fill
  {
    if |s| >= width then s else seq(width - |s|, _ => fill) + s
  }

  // ---------------------------------------------------------------------------
  // Sequences

  /** The end index of `a.slice(0, end)` on an array of length `len`: a
      negative end counts back from the length. */
  function SliceEnd(len: nat, end: int): (r: nat)
    ensures r <= len
    ensures end >= 0 ==> r == if end <= len then end else len
  {
    if end >= 0 then (if end <= len then end else len)
    else if len + end >= 0 then len + end else 0
  }

  /** `a.slice(0, n)` for n >= 0. */
  function Take<T>(s: seq<T>, n: nat): (r: seq<T>)
    ensures |r| == if n <= |s| then n else |s|
    ensures r == s[..|r|]
  {
    if n <= |s| then s[..n] else s
  }

  /** `a` can be obtained from `b` by deleting elements. */
  ghost predicate Subsequence<T>(a: seq<T>, b: seq<T>)
    decreases |b|
  {
    |a| == 0 || (|b| > 0 && if a[0] == b[0] then Subsequence(a[1..], b[1..]) else Subsequence(a, b[1..]))
  }

  /** Every sequence is a subsequence of itself. */
  lemma {:induction false} SubsequenceRefl<T>(s: seq<T>)
    ensures Subsequence(s, s)
    decreases |s|
  {
    if |s| > 0 {
      SubsequenceRefl(s[1..]);
    }
  }

  /** `a.filter(p)`. */
  function Filter<T(==)>(p: T -> bool, s: seq<T>): (r: seq<T>)
    ensures |r| <= |s|
    ensures forall x :: x in r ==> x in s && p(x)
    ensures forall x :: x in s && p(x) ==> x in r
    ensures Subsequence(r, s)
  {
    if |s| == 0 then []
    else if p(s[0]) then [s[0]] + Filter(p, s[1..])
    else Filter(p, s[1..])
  }

  /** The filter keeps every copy of an element that passes and no copy of
      one that fails, so duplicates are neither merged nor dropped. */
  lemma {:induction false} FilterCounts<T>(p: T -> bool, s: seq<T>)
    ensures forall x :: multiset(Filter(p, s))[x] == if p(x) then multiset(s)[x] else 0
  {
    if |s| > 0 {
      FilterCounts(p, s[1..]);
      assert s == [s[0]] + s[1..];
    }
  }

  lemma {:induction false} FilterAll<T>(p: T -> bool, s: seq<T>)
    requires forall x :: x in s ==> p(x)
    ensures Filter(p, s) == s
  {
    if |s| > 0 {
      FilterAll(p, s[1..]);
    }
  }

  lemma {:induction false} FilterNone<T>(p: T -> bool, s: seq<T>)
    requires forall x :: x in s ==> !p(x)
    ensures Filter(p, s) == []
  {
    if |s| > 0 {
      FilterNone(p, s[1..]);
    }
  }

  /** A prefix has no more matches than the whole. */
  lemma {:induction false} FilterPrefix<T>(p: T -> bool, s: seq<T>, k: nat)
    requires k <= |s|
    ensures |Filter(p, s[..k])| <= |Filter(p, s)|
  {
    assert s == s[..k] + s[k..];
    FilterConcat(p, s[..k], s[k..]);
  }

  lemma {:induction false} FilterConcat<T>(p: T -> bool, a: seq<T>, b: seq<T>)
    ensures Filter(p, a + b) == Filter(p, a) + Filter(p, b)
  {
    if |a| == 0 {
      assert a + b == b;
    } else {
      assert (a + b)[1..] == a[1..] + b;
      FilterConcat(p, a[1..], b);
    }
  }

  /** Dropping the element just appended. */
  lemma {:induction false} SnocPrefix<T>(s: seq<T>, x: T)
    ensures (s + [x])[..|s|] == s
  {
    assert |(s + [x])[..|s|]| == |s|;
    forall j | 0 <= j < |s|
      ensures (s + [x])[..|s|][j] == s[j]
    {
    }
  }

  /** A prefix one element longer. */
  lemma {:induction false} PrefixSnoc<T>(s: seq<T>, i: nat)
    requires i < |s|
    ensures s[..i + 1] == s[..i] + [s[i]]
  {
    assert |s[..i + 1]| == |s[..i] + [s[i]]|;
    forall j | 0 <= j < i + 1
      ensures s[..i + 1][j] == (s[..i] + [s[i]])[j]
    {
    }
  }

  /** Filtering a sequence one element longer. */
  lemma {:induction false} FilterSnoc<T>(p: T -> bool, s: seq<T>, x: T)
    ensures Filter(p, s + [x]) == Filter(p, s) + if p(x) then [x] else []
  {
    FilterConcat(p, s, [x]);
    assert [x][1..] == [];
  }

  /** Two tests that agree on every element select the same elements. */
  lemma {:induction false} FilterAgree<T>(p: T -> bool, q: T -> bool, s: seq<T>)
    requires forall x :: x in s ==> p(x) == q(x)
    ensures Filter(p, s) == Filter(q, s)
    decreases |s|
  {
    if |s| > 0 {
      FilterAgree(p, q, s[1..]);
    }
  }

  /** Filtering by `p` and then by `q` is filtering by their conjunction. */
  lemma {:induction false} FilterTwice<T>(p: T -> bool, q: T -> bool, both: T -> bool, s: seq<T>)
    requires forall x :: x in s ==> both(x) == (p(x) && q(x))
    ensures Filter(q, Filter(p, s)) == Filter(both, s)
    decreases |s|
  {
    if |s| > 0 {
      FilterTwice(p, q, both, s[1..]);
    }
  }

  /** Replacing one element changes the number of matches by what the old
      and the new element contribute. */
  lemma {:induction false} FilterUpdateCount<T>(p: T -> bool, s: seq<T>, k: nat, y: T)
    requires k < |s|
    ensures |Filter(p, s[k := y])| == |Filter(p, s)| - (if p(s[k]) then 1 else 0) + (if p(y) then 1 else 0)
    decreases |s|
  {
    if k == 0 {
      assert s[k := y][1..] == s[1..];
    } else {
      assert s[k := y][1..] == s[1..][k - 1 := y];
      FilterUpdateCount(p, s[1..], k - 1, y);
    }
  }

  /** Index of the first element satisfying `p` (`findIndex`), if any. */
  function FindIndex<T>(p: T -> bool, s: seq<T>): (r: Option<nat>)
    ensures r.Some? ==> r.value < |s| && p(s[r.value])
    ensures r.Some? ==> forall k :: 0 <= k < r.value ==> !p(s[k])
    ensures r.None? ==> forall k :: 0 <= k < |s| ==> !p(s[k])
  {
    if |s| == 0 then None
    else if p(s[0]) then Some(0)
    else match FindIndex(p, s[1..])
      case None => None
      case Some(i) => Some(i + 1)
  }

  /** `a.splice(i, 1)`. */
  function RemoveAt<T>(s: seq<T>, i: nat): (r: seq<T>)
    requires i < |s|
    ensures |r| == |s| - 1
    ensures forall k :: 0 <= k < i ==> r[k] == s[k]
    ensures forall k :: i <= k < |r| ==> r[k] == s[k + 1]
  {
    s[..i] + s[i + 1..]
  }

  // ---------------------------------------------------------------------------
  // Stable sort by an integer key (Array.prototype.sort is stable)

  ghost predicate SortedDesc<T>(s: seq<T>, key: T -> int) {
    forall i, j :: 0 <= i < j < |s| ==> key(s[i]) >= key(s[j])
  }

  ghost predicate SortedAsc<T>(s: seq<T>, key: T -> int) {
    forall i, j :: 0 <= i < j < |s| ==> key(s[i]) <= key(s[j])
  }

  /** Puts `x` in front of the first element whose key is not larger. */
  function InsertDesc<T(==)>(x: T, s: seq<T>, key: T -> int): (r: seq<T>)
    requires SortedDesc(s, key)
    ensures SortedDesc(r, key)
    ensures multiset(r) == multiset(s) + multiset{x}
    ensures |r| == |s| + 1
    ensures forall k :: 0 <= k < |r| ==> r[k] == x || r[k] in s
  {
    if |s| == 0 || key(x) >= key(s[0]) then
      assert forall y :: y in s ==> key(x) >= key(y) by {
        if |s| > 0 {
          HeadBoundsDesc(s, key);
        }
      }
      ConsDesc(x, s, key);
      [x] + s
    else
      var rest := InsertDesc(x, s[1..], key);
      InsertDescStep(x, s, rest, key);
      [s[0]] + rest
  }

  /** The head goes back in front of the tail `x` was inserted into. */
  lemma {:induction false} InsertDescStep<T>(x: T, s: seq<T>, rest: seq<T>, key: T -> int)
    requires |s| > 0 && SortedDesc(s, key) && key(s[0]) > key(x)
    requires SortedDesc(rest, key) && multiset(rest) == multiset(s[1..]) + multiset{x}
    requires forall k :: 0 <= k < |rest| ==> rest[k] == x || rest[k] in s[1..]
    ensures SortedDesc([s[0]] + rest, key)
    ensures multiset([s[0]] + rest) == multiset(s) + multiset{x}
    ensures forall k :: 0 <= k < |rest| + 1 ==> ([s[0]] + rest)[k] == x || ([s[0]] + rest)[k] in s
  {
    assert s == [s[0]] + s[1..];
    HeadBoundsDesc(s, key);
    forall y | y in rest
      ensures key(s[0]) >= key(y)
    {
      var k :| 0 <= k < |rest| && rest[k] == y;
      assert y == x || y in s;
    }
    ConsDesc(s[0], rest, key);
    forall k | 0 <= k < |rest| + 1
      ensures ([s[0]] + rest)[k] == x || ([s[0]] + rest)[k] in s
    {
      if k > 0 {
        assert ([s[0]] + rest)[k] == rest[k - 1];
      }
    }
  }

  /** The head of a sorted sequence bounds every element. */
  lemma {:induction false} HeadBoundsDesc<T>(s: seq<T>, key: T -> int)
    requires |s| > 0
    ensures SortedDesc(s, key) ==> forall y :: y in s ==> key(s[0]) >= key(y)
  {
    if SortedDesc(s, key) {
      forall y | y in s
        ensures key(s[0]) >= key(y)
      {
        var m :| 0 <= m < |s| && s[m] == y;
        if m > 0 {
          assert key(s[0]) >= key(s[m]);
        }
      }
    }
  }

  /** A head that bounds a sorted tail gives a sorted sequence. */
  lemma {:induction false} ConsDesc<T>(h: T, t: seq<T>, key: T -> int)
    requires SortedDesc(t, key) && forall y :: y in t ==> key(h) >= key(y)
    ensures SortedDesc([h] + t, key)
  {
    var r := [h] + t;
    forall i, j | 0 <= i < j < |r|
      ensures key(r[i]) >= key(r[j])
    {
      assert r[j] == t[j - 1];
      if i > 0 {
        assert r[i] == t[i - 1];
      }
    }
  }

  /** `[...s].sort((a, b) => key(b) - key(a))`: largest key first, ties in
      their original order. */
  function SortDesc<T(==)>(s: seq<T>, key: T -> int): (r: seq<T>)
    ensures SortedDesc(r, key)
    ensures multiset(r) == multiset(s)
    ensures |r| == |s|
  {
    if |s| == 0 then []
    else
      assert s == [s[0]] + s[1..];
      InsertDesc(s[0], SortDesc(s[1..], key), key)
  }

  /** Puts `x` in front of the first element whose key is not smaller. */
  function InsertAsc<T(==)>(x: T, s: seq<T>, key: T -> int): (r: seq<T>)
    requires SortedAsc(s, key)
    ensures SortedAsc(r, key)
    ensures multiset(r) == multiset(s) + multiset{x}
    ensures |r| == |s| + 1
    ensures forall k :: 0 <= k < |r| ==> r[k] == x || r[k] in s
  {
    if |s| == 0 || key(x) <= key(s[0]) then
      assert forall y :: y in s ==> key(x) <= key(y) by {
        if |s| > 0 {
          HeadBoundsAsc(s, key);
        }
      }
      ConsAsc(x, s, key);
      [x] + s
    else
      var rest := InsertAsc(x, s[1..], key);
      InsertAscStep(x, s, rest, key);
      [s[0]] + rest
  }

  /** The head goes back in front of the tail `x` was inserted into. */
  lemma {:induction false} InsertAscStep<T>(x: T, s: seq<T>, rest: seq<T>, key: T -> int)
    requires |s| > 0 && SortedAsc(s, key) && key(s[0]) < key(x)
    requires SortedAsc(rest, key) && multiset(rest) == multiset(s[1..]) + multiset{x}
    requires forall k :: 0 <= k < |rest| ==> rest[k] == x || rest[k] in s[1..]
    ensures SortedAsc([s[0]] + rest, key)
    ensures multiset([s[0]] + rest) == multiset(s) + multiset{x}
    ensures forall k :: 0 <= k < |rest| + 1 ==> ([s[0]] + rest)[k] == x || ([s[0]] + rest)[k] in s
  {
    assert s == [s[0]] + s[1..];
    HeadBoundsAsc(s, key);
    forall y | y in rest
      ensures key(s[0]) <= key(y)
    {
      var k :| 0 <= k < |rest| && rest[k] == y;
      assert y == x || y in s;
    }
    ConsAsc(s[0], rest, key);
    forall k | 0 <= k < |rest| + 1
      ensures ([s[0]] + rest)[k] == x || ([s[0]] + rest)[k] in s
    {
      if k > 0 {
        assert ([s[0]] + rest)[k] == rest[k - 1];
      }
    }
  }

  /** The head of a sorted sequence bounds every element. */
  lemma {:induction false} HeadBoundsAsc<T>(s: seq<T>, key: T -> int)
    requires |s| > 0
    ensures SortedAsc(s, key) ==> forall y :: y in s ==> key(s[0]) <= key(y)
  {
    if SortedAsc(s, key) {
      forall y | y in s
        ensures key(s[0]) <= key(y)
      {
        var m :| 0 <= m < |s| && s[m] == y;
        if m > 0 {
          assert key(s[0]) <= key(s[m]);
        }
      }
    }
  }

  /** A head that bounds a sorted tail gives a sorted sequence. */
  lemma {:induction false} ConsAsc<T>(h: T, t: seq<T>, key: T -> int)
    requires SortedAsc(t, key) && forall y :: y in t ==> key(h) <= key(y)
    ensures SortedAsc([h] + t, key)
  {
    var r := [h] + t;
    forall i, j | 0 <= i < j < |r|
      ensures key(r[i]) <= key(r[j])
    {
      assert r[j] == t[j - 1];
      if i > 0 {
        assert r[i] == t[i - 1];
      }
    }
  }

  /** `[...s].sort((a, b) => key(a) - key(b))`. */
  function SortAsc<T(==)>(s: seq<T>, key: T -> int): (r: seq<T>)
    ensures SortedAsc(r, key)
    ensures multiset(r) == multiset(s)
    ensures |r| == |s|
  {
    if |s| == 0 then []
    else
      assert s == [s[0]] + s[1..];
      InsertAsc(s[0], SortAsc(s[1..], key), key)
  }

  // ---------------------------------------------------------------------------
  // Stability: elements with equal keys keep their order

  /** Filtering a sequence that starts with `x`. */
  lemma FilterCons<T>(p: T -> bool, x: T, t: seq<T>)
    ensures Filter(p, [x] + t) == (if p(x) then [x] else []) + Filter(p, t)
  {
    assert ([x] + t)[0] == x && ([x] + t)[1..] == t;
  }

  /** Inserting `x` keeps, among the elements with any one key, the order
      of `x` in front of `s`. */
  lemma {:induction false} InsertDescStable<T>(x: T, s: seq<T>, key: T -> int, k: int)
    requires SortedDesc(s, key)
    ensures Filter(KeyIs(key, k), InsertDesc(x, s, key)) == Filter(KeyIs(key, k), [x] + s)
    decreases |s|
  {
    var p := KeyIs(key, k);
    if |s| > 0 && key(x) < key(s[0]) {
      var rest := InsertDesc(x, s[1..], key);
      assert InsertDesc(x, s, key) == [s[0]] + rest;
      InsertDescStable(x, s[1..], key, k);
      FilterCons(p, s[0], rest);
      FilterCons(p, x, s[1..]);
      FilterCons(p, x, s);
      FilterCons(p, s[0], s[1..]);
      assert s == [s[0]] + s[1..];
    }
  }

  /** `SortDesc` is stable: the elements with any one key appear in the
      order they had. */
  lemma {:induction false} SortDescStable<T>(s: seq<T>, key: T -> int, k: int)
    ensures Group(SortDesc(s, key), key, k) == Group(s, key, k)
    decreases |s|
  {
    if |s| > 0 {
      var p := KeyIs(key, k);
      var sorted := SortDesc(s[1..], key);
      InsertDescStable(s[0], sorted, key, k);
      FilterCons(p, s[0], sorted);
      SortDescStable(s[1..], key, k);
      FilterCons(p, s[0], s[1..]);
      assert s == [s[0]] + s[1..];
    }
  }

  /** Inserting `x` keeps, among the elements with any one key, the order
      of `x` in front of `s`. */
  lemma {:induction false} InsertAscStable<T>(x: T, s: seq<T>, key: T -> int, k: int)
    requires SortedAsc(s, key)
    ensures Filter(KeyIs(key, k), InsertAsc(x, s, key)) == Filter(KeyIs(key, k), [x] + s)
    decreases |s|
  {
    var p := KeyIs(key, k);
    if |s| > 0 && key(x) > key(s[0]) {
      var rest := InsertAsc(x, s[1..], key);
      assert InsertAsc(x, s, key) == [s[0]] + rest;
      InsertAscStable(x, s[1..], key, k);
      FilterCons(p, s[0], rest);
      FilterCons(p, x, s[1..]);
      FilterCons(p, x, s);
      FilterCons(p, s[0], s[1..]);
      assert s == [s[0]] + s[1..];
    }
  }

  /** `SortAsc` is stable: the elements with any one key appear in the
      order they had. */
  lemma {:induction false} SortAscStable<T>(s: seq<T>, key: T -> int, k: int)
    ensures Group(SortAsc(s, key), key, k) == Group(s, key, k)
    decreases |s|
  {
    if |s| > 0 {
      var p := KeyIs(key, k);
      var sorted := SortAsc(s[1..], key);
      InsertAscStable(s[0], sorted, key, k);
      FilterCons(p, s[0], sorted);
      SortAscStable(s[1..], key, k);
      FilterCons(p, s[0], s[1..]);
      assert s == [s[0]] + s[1..];
    }
  }

  lemma {:induction false} TakeSortedDesc<T>(s: seq<T>, n: nat, key: T -> int)
    requires SortedDesc(s, key)
    ensures SortedDesc(Take(s, n), key)
  {
  }

  /** What is left of a concatenation once its first part is taken away. */
  lemma {:induction false} MultisetRest<T>(a: seq<T>, b: seq<T>)
    ensures multiset(a) <= multiset(a + b)
    ensures multiset(a + b) - multiset(a) == multiset(b)
  {
    assert multiset(a + b) == multiset(a) + multiset(b);
  }

  /** What a cut of a sorted sequence leaves out ranks no higher than what
      it keeps. */
  lemma {:induction false} TakeIsTop<T>(s: seq<T>, n: nat, key: T -> int)
    requires SortedDesc(s, key)
    ensures multiset(Take(s, n)) <= multiset(s)
    ensures forall i, x :: 0 <= i < |Take(s, n)| && x in multiset(s) - multiset(Take(s, n)) ==> key(x) <= key(Take(s, n)[i])
  {
    var r := Take(s, n);
    var rest := s[|r|..];
    assert s == r + rest;
    MultisetRest(r, rest);
    forall i, x | 0 <= i < |r| && x in multiset(s) - multiset(r)
      ensures key(x) <= key(r[i])
    {
      assert x in rest;
      var j :| 0 <= j < |rest| && rest[j] == x;
      assert s[|r| + j] == x;
    }
  }

  lemma {:induction false} MultisetMembers<T>(a: seq<T>, b: seq<T>)
    requires multiset(a) == multiset(b)
    ensures forall x :: x in a <==> x in b
  {
    forall x ensures x in a <==> x in b {
      assert x in a <==> x in multiset(a);
      assert x in b <==> x in multiset(b);
    }
  }

  // ---------------------------------------------------------------------------
  // More text helpers

  /** `String(n)` for an integer. */
  function IntToString(n: int): (r: string)
    ensures |r| >= 1
    ensures n >= 0 ==> r == NatToString(n)
  {
    if n >= 0 then NatToString(n) else "-" + NatToString(-n)
  }

  /** Distinct integers print differently. */
  lemma {:induction false} IntToStringInjective(a: int, b: int)
    requires IntToString(a) == IntToString(b)
    ensures a == b
  {
    var sa, sb := IntToString(a), IntToString(b);
    assert (a >= 0) == (b >= 0) by {
      assert a >= 0 ==> IsDigit(sa[0]);
      assert b >= 0 ==> IsDigit(sb[0]);
      assert a < 0 ==> sa[0] == '-';
      assert b < 0 ==> sb[0] == '-';
    }
    if a >= 0 {
      NatToStringInjective(a, b);
    } else {
      assert sa[1..] == NatToString(-a);
      assert sb[1..] == NatToString(-b);
      NatToStringInjective(-a, -b);
    }
  }

  /** The leading run of non-space characters of `s`. */
  function FirstWord(s: string): (r: string)
    ensures |r| <= |s| && r == s[..|r|]
    ensures forall c :: c in r ==> !IsSpace(c)
    ensures |r| < |s| ==> IsSpace(s[|r|])
    ensures |s| > 0 && !IsSpace(s[0]) ==> |r| > 0
  {
    if |s| == 0 || IsSpace(s[0]) then "" else [s[0]] + FirstWord(s[1..])
  }

  /** A non-empty run of non-space characters. */
  predicate IsWord(w: string) {
    |w| > 0 && forall c :: c in w ==> !IsSpace(c)
  }

  /** `s.split(/\s+/)` for a string with no white space at either end (the
      only kind it is applied to): the maximal runs of non-space
      characters, in order. */
  function Words(s: string): (r: seq<string>)
    ensures forall k :: 0 <= k < |r| ==> IsWord(r[k])
    decreases |s|
  {
    var t := TrimStart(s);
    if |t| == 0 then []
    else
      var w := FirstWord(t);
      assert 0 < |w| <= |t| <= |s|;
      assert IsWord(w);
      [w] + Words(t[|w|..])
  }

  // ---------------------------------------------------------------------------
  // Sums and distinct elements

  /** The sum of `f` over `s` (`reduce((acc, x) => acc + f(x), 0)`). */
  function SumOf<T>(s: seq<T>, f: T -> int): int
    decreases |s|
  {
    if |s| == 0 then 0 else SumOf(s[..|s| - 1], f) + f(s[|s| - 1])
  }

  lemma {:induction false} SumConcat<T>(a: seq<T>, b: seq<T>, f: T -> int)
    ensures SumOf(a + b, f) == SumOf(a, f) + SumOf(b, f)
    decreases |b|
  {
    if |b| == 0 {
      assert a + b == a;
    } else {
      assert (a + b)[..|a + b| - 1] == a + b[..|b| - 1];
      SumConcat(a, b[..|b| - 1], f);
    }
  }

  /** Replacing one element changes the sum by the difference. */
  lemma {:induction false} SumUpdate<T>(s: seq<T>, i: nat, x: T, f: T -> int)
    requires i < |s|
    ensures SumOf(s[i := x], f) == SumOf(s, f) - f(s[i]) + f(x)
  {
    SplitAround(s, i, x);
    SumConcat(s[..i] + [s[i]], s[i + 1..], f);
    SumConcat(s[..i] + [x], s[i + 1..], f);
    SumConcat(s[..i], [s[i]], f);
    SumConcat(s[..i], [x], f);
  }

  /** Taking one element out of a sequence: its sum and its multiset. */
  lemma {:induction false} SumRemove<T>(t: seq<T>, j: nat, f: T -> int)
    requires j < |t|
    ensures SumOf(t, f) == SumOf(t[..j] + t[j + 1..], f) + f(t[j])
    ensures multiset(t[..j] + t[j + 1..]) == multiset(t) - multiset{t[j]}
  {
    var a, x, b := t[..j], t[j], t[j + 1..];
    assert t == (a + [x]) + b;
    SumConcat(a + [x], b, f);
    SumConcat(a, [x], f);
    SumConcat(a, b, f);
    assert multiset(t) == multiset(a) + multiset{x} + multiset(b);
  }

  /** Reordering does not change a sum. */
  lemma {:induction false} SumPermutation<T>(s: seq<T>, t: seq<T>, f: T -> int)
    requires multiset(s) == multiset(t)
    ensures SumOf(s, f) == SumOf(t, f)
    decreases |s|
  {
    if |s| > 0 {
      var x := s[|s| - 1];
      var init := s[..|s| - 1];
      assert s == init + [x];
      assert multiset(s) == multiset(init) + multiset{x};
      assert x in multiset(t);
      var j :| 0 <= j < |t| && t[j] == x;
      SumRemove(t, j, f);
      SumPermutation(init, t[..j] + t[j + 1..], f);
      SumConcat(init, [x], f);
    }
  }

  predicate Distinct<T(==)>(s: seq<T>) {
    forall i, j :: 0 <= i < j < |s| ==> s[i] != s[j]
  }

  /** A position at which a member of a sequence sits. */
  lemma {:induction false} PositionOf<T>(s: seq<T>, x: T) returns (k: nat)
    requires x in s
    ensures k < |s| && s[k] == x
  {
    k :| 0 <= k < |s| && s[k] == x;
  }

  /** In a sequence without repetitions, equal elements sit at one index. */
  lemma {:induction false} DistinctIndex<T>(s: seq<T>, i: nat, j: nat)
    requires Distinct(s) && i < |s| && j < |s| && s[i] == s[j]
    ensures i == j
  {
  }

  /** A sequence around one of its positions, and with that position
      replaced. */
  lemma {:induction false} SplitAround<T>(s: seq<T>, k: nat, y: T)
    requires k < |s|
    ensures s == s[..k] + [s[k]] + s[k + 1..]
    ensures s[k := y] == s[..k] + [y] + s[k + 1..]
  {
    var whole, replaced := s[..k] + [s[k]] + s[k + 1..], s[..k] + [y] + s[k + 1..];
    assert |whole| == |s| == |replaced|;
    forall j | 0 <= j < |s|
      ensures whole[j] == s[j] && replaced[j] == s[k := y][j]
    {
      if j > k {
        assert whole[j] == s[k + 1..][j - k - 1];
        assert replaced[j] == s[k + 1..][j - k - 1];
      }
    }
  }

  /** Two distinct sequences with no element in common concatenate to a
      distinct sequence. */
  lemma {:induction false} DistinctConcat<T>(a: seq<T>, b: seq<T>)
    requires Distinct(a) && Distinct(b)
    requires forall x :: x in a ==> x !in b
    ensures Distinct(a + b)
  {
    forall i, j | 0 <= i < j < |a + b|
      ensures (a + b)[i] != (a + b)[j]
    {
      if i < |a| && |a| <= j {
        assert (a + b)[j] == b[j - |a|];
        assert (a + b)[i] in a;
      }
    }
  }

  lemma {:induction false} DistinctCount<T>(s: seq<T>, x: T)
    requires Distinct(s)
    ensures multiset(s)[x] <= 1
    decreases |s|
  {
    if |s| > 0 {
      assert s == [s[0]] + s[1..];
      DistinctCount(s[1..], x);
      if s[0] == x {
        assert x !in s[1..];
      }
    }
  }

  /** A permutation of a sequence without repetitions has none either. */
  lemma {:induction false} DistinctPermutation<T>(a: seq<T>, b: seq<T>)
    requires multiset(a) == multiset(b) && Distinct(b)
    ensures Distinct(a)
  {
    forall i, j | 0 <= i < j < |a|
      ensures a[i] != a[j]
    {
      if a[i] == a[j] {
        var x := a[i];
        assert a == a[..j] + [a[j]] + a[j + 1..];
        assert x in a[..j];
        assert multiset(a)[x] >= 2;
        DistinctCount(b, x);
      }
    }
  }

  /** `s.map(f)`. */
  function MapSeq<T, U>(s: seq<T>, f: T -> U): (r: seq<U>)
    ensures |r| == |s|
    ensures forall i :: 0 <= i < |s| ==> r[i] == f(s[i])
  {
    seq(|s|, i requires 0 <= i < |s| => f(s[i]))
  }

  lemma {:induction false} MapSeqConcat<T, U>(a: seq<T>, b: seq<T>, f: T -> U)
    ensures MapSeq(a + b, f) == MapSeq(a, f) + MapSeq(b, f)
  {
  }

  /** Mapping a permutation gives a permutation. */
  /** Where an element of a permutation stands in the original. */
  lemma {:induction false} PermutedIndex<T>(a: seq<T>, b: seq<T>, i: nat) returns (j: nat)
    requires multiset(a) == multiset(b) && i < |a|
    ensures j < |b| && b[j] == a[i]
  {
    assert a[i] in multiset(a);
    assert a[i] in b;
    j :| 0 <= j < |b| && b[j] == a[i];
  }

  /** Appending two elements one at a time appends the pair. */
  lemma {:induction false} AppendTwo<T>(s: seq<T>, x: T, y: T)
    ensures (s + [x]) + [y] == s + [x, y]
  {
  }

  /** A prefix of a sequence with distinct images has distinct images. */
  lemma {:induction false} MapTakeDistinct<T, U>(s: seq<T>, n: nat, f: T -> U)
    requires Distinct(MapSeq(s, f))
    ensures Distinct(MapSeq(Take(s, n), f))
  {
    var t := Take(s, n);
    forall i, j | 0 <= i < j < |t|
      ensures f(t[i]) != f(t[j])
    {
      assert t[i] == s[i] && t[j] == s[j];
      assert MapSeq(s, f)[i] == f(s[i]) && MapSeq(s, f)[j] == f(s[j]);
    }
  }

  lemma {:induction false} MapPermutation<T, U>(a: seq<T>, b: seq<T>, f: T -> U)
    requires multiset(a) == multiset(b)
    ensures multiset(MapSeq(a, f)) == multiset(MapSeq(b, f))
    decreases |a|
  {
    if |a| > 0 {
      var x := a[|a| - 1];
      var init := a[..|a| - 1];
      assert a == init + [x];
      assert x in multiset(b);
      var j :| 0 <= j < |b| && b[j] == x;
      var rest := b[..j] + b[j + 1..];
      assert b == b[..j] + [x] + b[j + 1..];
      assert multiset(init) == multiset(a) - multiset{x};
      assert multiset(rest) == multiset(b) - multiset{x};
      MapPermutation(init, rest, f);
      MapSeqConcat(init, [x], f);
      MapSeqConcat(b[..j], [x], f);
      MapSeqConcat(b[..j] + [x], b[j + 1..], f);
      MapSeqConcat(b[..j], b[j + 1..], f);
    }
  }

  // ---------------------------------------------------------------------------
  // Accumulating into a record keyed by a computed key
  // (`record[key(x)] = add(record[key(x)] ?? init, x)` for each `x`, with the
  // record's entries in insertion order)

  /** The distinct keys of `s`, in order of first appearance. */
  function FirstKeys<T, K(==)>(s: seq<T>, key: T -> K): (r: seq<K>)
    ensures Distinct(r)
    ensures forall k :: k in r ==> exists i :: 0 <= i < |s| && key(s[i]) == k
    ensures forall i :: 0 <= i < |s| ==> key(s[i]) in r
    decreases |s|
  {
    if |s| == 0 then []
    else
      var init := FirstKeys(s[..|s| - 1], key);
      var k := key(s[|s| - 1]);
      assert forall i :: 0 <= i < |s| - 1 ==> s[..|s| - 1][i] == s[i];
      if k in init then init else init + [k]
  }

  function KeyIs<T, K(==)>(key: T -> K, k: K): T -> bool {
    x => key(x) == k
  }

  /** The elements of `s` whose key is `k`, in order. */
  function Group<T(==), K(==)>(s: seq<T>, key: T -> K, k: K): (r: seq<T>)
    ensures forall x :: x in r ==> x in s && key(x) == k
    ensures forall x :: x in s && key(x) == k ==> x in r
  {
    Filter(KeyIs(key, k), s)
  }

  /** `s.reduce(add, init)`. */
  function FoldOver<T, V>(s: seq<T>, init: V, add: (V, T) -> V): V
    decreases |s|
  {
    if |s| == 0 then init else add(FoldOver(s[..|s| - 1], init, add), s[|s| - 1])
  }

  /** `acc.push(x)`, as a value. */
  function Append<T>(acc: seq<T>, x: T): seq<T> {
    acc + [x]
  }

  /** Pushing every element onto an empty list rebuilds the list. */
  lemma {:induction false} FoldAppend<T>(g: seq<T>)
    ensures FoldOver(g, [], Append) == g
    decreases |g|
  {
    if |g| > 0 {
      FoldAppend(g[..|g| - 1]);
    }
  }

  /** The record after every element of `s` was added: one entry per key in
      order of first appearance, holding the fold of that key's elements. */
  function Tallied<T(==), K(==), V>(s: seq<T>, key: T -> K, init: V, add: (V, T) -> V): (r: seq<(K, V)>)
    ensures |r| == |FirstKeys(s, key)|
    ensures forall j :: 0 <= j < |r| ==>
              r[j].0 == FirstKeys(s, key)[j] && r[j].1 == FoldOver(Group(s, key, r[j].0), init, add)
  {
    var ks := FirstKeys(s, key);
    seq(|ks|, j requires 0 <= j < |ks| => (ks[j], FoldOver(Group(s, key, ks[j]), init, add)))
  }

  function EntryIs<K(==), V>(k: K): ((K, V)) -> bool {
    (e: (K, V)) => e.0 == k
  }

  /** One addition to the record: the entry of `k` is updated in place, or
      a new entry is appended. */
  function Upsert<T, K(==), V>(entries: seq<(K, V)>, k: K, x: T, init: V, add: (V, T) -> V): (r: seq<(K, V)>)
    ensures FindIndex(EntryIs(k), entries).Some? ==>
              |r| == |entries| && r == entries[FindIndex(EntryIs(k), entries).value := (k, add(entries[FindIndex(EntryIs(k), entries).value].1, x))]
    ensures FindIndex(EntryIs(k), entries).None? ==> r == entries + [(k, add(init, x))]
  {
    match FindIndex(EntryIs(k), entries)
    case Some(i) => entries[i := (k, add(entries[i].1, x))]
    case None => entries + [(k, add(init, x))]
  }

  lemma {:induction false} GroupSnoc<T, K>(s: seq<T>, x: T, key: T -> K, k: K)
    ensures Group(s + [x], key, k) == if key(x) == k then Group(s, key, k) + [x] else Group(s, key, k)
  {
    FilterConcat(KeyIs(key, k), s, [x]);
    assert Filter(KeyIs(key, k), [x]) == if key(x) == k then [x] else [];
  }

  /** A key that no element has has an empty group. */
  lemma {:induction false} GroupEmpty<T, K>(s: seq<T>, key: T -> K, k: K)
    requires k !in FirstKeys(s, key)
    ensures Group(s, key, k) == []
    decreases |s|
  {
    if |s| > 0 {
      var init := s[..|s| - 1];
      var last := s[|s| - 1];
      assert s == init + [last];
      FirstKeysSnoc(init, last, key);
      GroupEmpty(init, key, k);
      GroupSnoc(init, last, key, k);
    }
  }

  lemma {:induction false} FoldSnoc<T, V>(g: seq<T>, x: T, init: V, add: (V, T) -> V)
    ensures FoldOver(g + [x], init, add) == add(FoldOver(g, init, add), x)
  {
    assert (g + [x])[..|g + [x]| - 1] == g;
  }

  lemma {:induction false} FirstKeysSnoc<T, K>(s: seq<T>, x: T, key: T -> K)
    ensures FirstKeys(s + [x], key) ==
              if key(x) in FirstKeys(s, key) then FirstKeys(s, key) else FirstKeys(s, key) + [key(x)]
  {
    assert (s + [x])[..|s + [x]| - 1] == s;
  }

  /** The fold of a key's group after one more element. */
  lemma {:induction false} FoldGroupSnoc<T, K, V>(s: seq<T>, x: T, key: T -> K, k: K, init: V, add: (V, T) -> V)
    ensures FoldOver(Group(s + [x], key, k), init, add)
         == if key(x) == k then add(FoldOver(Group(s, key, k), init, add), x) else FoldOver(Group(s, key, k), init, add)
  {
    GroupSnoc(s, x, key, k);
    if key(x) == k {
      FoldSnoc(Group(s, key, k), x, init, add);
    }
  }

  /** The entries of keys other than the new element's are untouched. */
  lemma {:induction false} TalliedSnocOthers<T, K, V>(s: seq<T>, x: T, key: T -> K, init: V, add: (V, T) -> V, j: nat)
    requires j < |FirstKeys(s, key)| && FirstKeys(s, key)[j] != key(x)
    ensures j < |Tallied(s + [x], key, init, add)|
    ensures Tallied(s + [x], key, init, add)[j] == Tallied(s, key, init, add)[j]
  {
    FirstKeysSnoc(s, x, key);
    FoldGroupSnoc(s, x, key, FirstKeys(s, key)[j], init, add);
  }

  lemma {:induction false} TalliedSnocOld<T, K, V>(s: seq<T>, x: T, key: T -> K, init: V, add: (V, T) -> V, i: nat)
    requires i < |FirstKeys(s, key)| && FirstKeys(s, key)[i] == key(x)
    ensures Tallied(s + [x], key, init, add)
         == Tallied(s, key, init, add)[i := (key(x), add(Tallied(s, key, init, add)[i].1, x))]
  {
    var before := Tallied(s, key, init, add);
    var after := Tallied(s + [x], key, init, add);
    var updated := before[i := (key(x), add(before[i].1, x))];
    assert FirstKeys(s, key)[i] in FirstKeys(s, key);
    FirstKeysSnoc(s, x, key);
    assert |after| == |updated|;
    forall j | 0 <= j < |after|
      ensures after[j] == updated[j]
    {
      if j == i {
        FoldGroupSnoc(s, x, key, key(x), init, add);
      } else {
        TalliedSnocOthers(s, x, key, init, add, j);
      }
    }
  }

  lemma {:induction false} TalliedSnocNew<T, K, V>(s: seq<T>, x: T, key: T -> K, init: V, add: (V, T) -> V)
    requires key(x) !in FirstKeys(s, key)
    ensures Tallied(s + [x], key, init, add) == Tallied(s, key, init, add) + [(key(x), add(init, x))]
  {
    var before := Tallied(s, key, init, add);
    var after := Tallied(s + [x], key, init, add);
    var extended := before + [(key(x), add(init, x))];
    FirstKeysSnoc(s, x, key);
    assert |after| == |extended|;
    forall j | 0 <= j < |after|
      ensures after[j] == extended[j]
    {
      if j < |before| {
        assert FirstKeys(s, key)[j] in FirstKeys(s, key);
        TalliedSnocOthers(s, x, key, init, add, j);
      } else {
        GroupEmpty(s, key, key(x));
        FoldGroupSnoc(s, x, key, key(x), init, add);
      }
    }
  }

  /** Adding one more element to the record is one `Upsert`. */
  lemma {:induction false} TalliedSnoc<T, K, V>(s: seq<T>, x: T, key: T -> K, init: V, add: (V, T) -> V)
    ensures Tallied(s + [x], key, init, add) == Upsert(Tallied(s, key, init, add), key(x), x, init, add)
  {
    var before := Tallied(s, key, init, add);
    var ks := FirstKeys(s, key);
    match FindIndex(EntryIs(key(x)), before)
    case Some(i) =>
      TalliedSnocOld(s, x, key, init, add, i);
    case None =>
      assert key(x) !in ks;
      TalliedSnocNew(s, x, key, init, add);
  }

  /** One more element of `s` read into the record. */
  lemma {:induction false} TalliedStep<T, K, V>(s: seq<T>, i: nat, key: T -> K, init: V, add: (V, T) -> V)
    requires i < |s|
    ensures Tallied(s[..i + 1], key, init, add) == Upsert(Tallied(s[..i], key, init, add), key(s[i]), s[i], init, add)
  {
    PrefixSnoc(s, i);
    TalliedSnoc(s[..i], s[i], key, init, add);
  }
}

=== FILE: components.dfy ===
/** `useComponentsStore`: the component library page. It holds the
    catalogue, the component opened in the detail view and the filter panel,
    whose selection lists the toggles change in place. */
module ComponentLibrary {
  import opened Common
  import opened Types
  import ComponentsData

  datatype ComponentStats = ComponentStats(
    total: int,
    stable: int,
    beta: int,
    deprecated: int,
    needsUpdate: int,
    coverage: int,
    openIssues: int)

  /** Counts, or lists, of components per category. */
  datatype PerCategory<T> = PerCategory(foundations: T, components: T, patterns: T, templates: T)

  /** The fixed figures `stats` reports beside its counts. */
  const COVERAGE: int := 84
  const OPEN_ISSUES: int := 13

  const EMPTY_FILTERS: FilterState := FilterState("", [], [], [])

  // ---------------------------------------------------------------------------
  // Getters

  /** `search` (already lower-cased) occurs in the name, the description or
      a tag, compared in lower case. */
  predicate MatchesSearch(search: string, c: DesignComponent) {
    Includes(ToLower(c.name), search) || Includes(ToLower(c.description), search)
    || exists k :: 0 <= k < |c.tags| && Includes(ToLower(c.tags[k]), search)
  }

  /** The component passes every filter that is set: an empty search or an
      empty list does not filter. */
  predicate Passes(f: FilterState, c: DesignComponent) {
    (f.search == "" || MatchesSearch(ToLower(f.search), c))
    && (|f.platforms| == 0 || exists k :: 0 <= k < |f.platforms| && f.platforms[k] in c.platforms)
    && (|f.categories| == 0 || c.category in f.categories)
    && (|f.statuses| == 0 || c.status in f.statuses)
  }

  /** `filteredComponents`: the components that pass the filters, in
      catalogue order. */
  function FilteredComponents(cs: seq<DesignComponent>, f: FilterState): (r: seq<DesignComponent>)
    ensures Subsequence(r, cs)
    ensures forall c :: c in r <==> c in cs && Passes(f, c)
  {
    Filter((c: DesignComponent) => Passes(f, c), cs)
  }

  /** With the filters cleared every component is listed. */
  lemma UnfilteredIsAll(cs: seq<DesignComponent>)
    ensures FilteredComponents(cs, EMPTY_FILTERS) == cs
  {
    FilterAll((c: DesignComponent) => Passes(EMPTY_FILTERS, c), cs);
  }

  function InCategory(category: ComponentCategory): DesignComponent -> bool {
    (c: DesignComponent) => c.category == category
  }

  function WithStatus(status: ComponentStatus): DesignComponent -> bool {
    (c: DesignComponent) => c.status == status
  }

  predicate NeedsUpdate(c: DesignComponent) {
    c.needsUpdate
  }

  /** Every component is in exactly one category. */
  lemma {:induction false} CategoryPartition(cs: seq<DesignComponent>)
    ensures |Filter(InCategory(Foundations), cs)| + |Filter(InCategory(Components), cs)|
          + |Filter(InCategory(Patterns), cs)| + |Filter(InCategory(Templates), cs)| == |cs|
    decreases |cs|
  {
    if |cs| > 0 {
      CategoryPartition(cs[1..]);
    }
  }

  /** Every component has exactly one status. */
  lemma {:induction false} StatusPartition(cs: seq<DesignComponent>)
    ensures |Filter(WithStatus(Stable), cs)| + |Filter(WithStatus(Beta), cs)| + |Filter(WithStatus(Deprecated), cs)|
         == |cs|
    decreases |cs|
  {
    if |cs| > 0 {
      StatusPartition(cs[1..]);
    }
  }

  /** `stats`: the catalogue's size, its count per status and of those
      needing an update, beside two fixed figures. */
  function Stats(cs: seq<DesignComponent>): (s: ComponentStats)
    ensures s.total == |cs| && s.stable + s.beta + s.deprecated == s.total
    ensures s.stable == |Filter(WithStatus(Stable), cs)| && s.beta == |Filter(WithStatus(Beta), cs)|
    ensures s.deprecated == |Filter(WithStatus(Deprecated), cs)|
    ensures s.needsUpdate == |Filter(NeedsUpdate, cs)| && 0 <= s.needsUpdate <= s.total
    ensures s.coverage == COVERAGE && s.openIssues == OPEN_ISSUES
  {
    StatusPartition(cs);
    ComponentStats(|cs|, |Filter(WithStatus(Stable), cs)|, |Filter(WithStatus(Beta), cs)|,
                   |Filter(WithStatus(Deprecated), cs)|, |Filter(NeedsUpdate, cs)|, COVERAGE, OPEN_ISSUES)
  }

  /** `categoryStats`: the catalogue's count per category. */
  function CategoryStats(cs: seq<DesignComponent>): (s: PerCategory<int>)
    ensures s.foundations + s.components + s.patterns + s.templates == |cs|
    ensures s.foundations == |Filter(InCategory(Foundations), cs)| && s.components == |Filter(InCategory(Components), cs)|
    ensures s.patterns == |Filter(InCategory(Patterns), cs)| && s.templates == |Filter(InCategory(Templates), cs)|
  {
    CategoryPartition(cs);
    PerCategory(|Filter(InCategory(Foundations), cs)|, |Filter(InCategory(Components), cs)|,
                |Filter(InCategory(Patterns), cs)|, |Filter(InCategory(Templates), cs)|)
  }

  // ---------------------------------------------------------------------------
  // Filter toggles

  /** The first index of `x` in `s` (`indexOf`), if any. */
  function IndexOf<T(==)>(s: seq<T>, x: T): (r: Option<nat>)
    ensures r.None? <==> x !in s
    ensures r.Some? ==> r.value < |s| && s[r.value] == x && x !in s[..r.value]
  {
    if |s| == 0 then None
    else if s[0] == x then Some(0)
    else match IndexOf(s[1..], x)
      case None => None
      case Some(i) =>
        assert s[..i + 1] == [s[0]] + s[1..][..i];
        Some(i + 1)
  }

  /** A selection list after a toggle of `x`: appended when absent, its
      first occurrence removed when present. */
  function Toggled<T(==)>(s: seq<T>, x: T): (r: seq<T>)
    ensures x !in s ==> r == s + [x]
    ensures x in s ==> |r| == |s| - 1 && multiset(r) == multiset(s) - multiset{x}
  {
    match IndexOf(s, x)
    case None => s + [x]
    case Some(i) =>
      assert s == s[..i] + [x] + s[i + 1..];
      s[..i] + s[i + 1..]
  }

  /** On a list without repetitions a toggle flips the membership of `x`
      alone and creates no repetition. */
  lemma ToggledFlips<T>(s: seq<T>, x: T)
    requires Distinct(s)
    ensures x in Toggled(s, x) <==> x !in s
    ensures forall y :: y != x ==> (y in Toggled(s, x) <==> y in s)
    ensures Distinct(Toggled(s, x))
  {
    var r := Toggled(s, x);
    if x in s {
      DistinctCount(s, x);
      assert multiset(r)[x] == 0;
      forall y | y != x
        ensures y in r <==> y in s
      {
        assert multiset(r)[y] == multiset(s)[y];
      }
    }
  }

  /** Toggling twice restores the list's contents (and the list itself
      when `x` was absent). */
  lemma ToggleTwice<T>(s: seq<T>, x: T)
    requires Distinct(s)
    ensures multiset(Toggled(Toggled(s, x), x)) == multiset(s)
    ensures x !in s ==> Toggled(Toggled(s, x), x) == s
  {
    ToggledFlips(s, x);
    var once := Toggled(s, x);
    if x !in s {
      assert x in once;
      assert multiset(once) == multiset(s) + multiset{x};
      IndexOfLast(s, x);
    } else {
      assert x !in once;
    }
  }

  /** A value appended to a list that lacked it is found at the end. */
  lemma IndexOfLast<T>(s: seq<T>, x: T)
    requires x !in s
    ensures IndexOf(s + [x], x) == Some(|s|)
  {
    assert (s + [x])[|s|] == x;
  }

  /** No selection list holds a value twice. */
  predicate FiltersDistinct(f: FilterState) {
    Distinct(f.platforms) && Distinct(f.categories) && Distinct(f.statuses)
  }

  /** The lists `componentsByCategory` builds from `listed`. */
  function GroupedByCategory(listed: seq<DesignComponent>): (g: PerCategory<seq<DesignComponent>>)
    ensures |g.foundations| + |g.components| + |g.patterns| + |g.templates| == |listed|
    ensures forall x :: x in g.foundations <==> x in listed && x.category == Foundations
    ensures forall x :: x in g.components <==> x in listed && x.category == Components
    ensures forall x :: x in g.patterns <==> x in listed && x.category == Patterns
    ensures forall x :: x in g.templates <==> x in listed && x.category == Templates
    ensures Subsequence(g.foundations, listed) && Subsequence(g.components, listed)
    ensures Subsequence(g.patterns, listed) && Subsequence(g.templates, listed)
  {
    CategoryPartition(listed);
    PerCategory(Filter(InCategory(Foundations), listed), Filter(InCategory(Components), listed),
                Filter(InCategory(Patterns), listed), Filter(InCategory(Templates), listed))
  }

  /** Pushes the listed components, one by one, onto their category's
      list. */
  method GroupByCategory(listed: seq<DesignComponent>) returns (g: PerCategory<seq<DesignComponent>>)
    ensures g == GroupedByCategory(listed)
  {
    var f, c, p, t := [], [], [], [];
    for i := 0 to |listed|
      invariant f == Filter(InCategory(Foundations), listed[..i])
      invariant c == Filter(InCategory(Components), listed[..i])
      invariant p == Filter(InCategory(Patterns), listed[..i])
      invariant t == Filter(InCategory(Templates), listed[..i])
    {
      var x := listed[i];
      PrefixSnoc(listed, i);
      FilterSnoc(InCategory(Foundations), listed[..i], x);
      FilterSnoc(InCategory(Components), listed[..i], x);
      FilterSnoc(InCategory(Patterns), listed[..i], x);
      FilterSnoc(InCategory(Templates), listed[..i], x);
      match x.category
      case Foundations => f := f + [x];
      case Components => c := c + [x];
      case Patterns => p := p + [x];
      case Templates => t := t + [x];
    }
    assert listed[..|listed|] == listed;
    g := PerCategory(f, c, p, t);
  }

  // ---------------------------------------------------------------------------
  // The store

  class ComponentStore {
    var components: seq<DesignComponent>
    var selectedComponent: Option<ComponentDetail>
    var filters: FilterState

    constructor ()
      ensures components == ComponentsData.MOCK_COMPONENTS
      ensures selectedComponent.None? && filters == EMPTY_FILTERS && FiltersDistinct(filters)
    {
      components := ComponentsData.MOCK_COMPONENTS;
      selectedComponent := None;
      filters := EMPTY_FILTERS;
    }

    function Listed(): seq<DesignComponent>
      reads this
    {
      FilteredComponents(components, filters)
    }

    /** `componentsByCategory`. */
    method ComponentsByCategory() returns (g: PerCategory<seq<DesignComponent>>)
      ensures g == GroupedByCategory(Listed())
    {
      g := GroupByCategory(Listed());
    }

    method SetSearch(search: string)
      modifies this
      ensures filters == old(filters).(search := search)
      ensures components == old(components) && selectedComponent == old(selectedComponent)
    {
      filters := filters.(search := search);
    }

    method TogglePlatform(platform: Platform)
      modifies this
      ensures filters == old(filters).(platforms := Toggled(old(filters.platforms), platform))
      ensures FiltersDistinct(old(filters)) ==> FiltersDistinct(filters)
      ensures components == old(components) && selectedComponent == old(selectedComponent)
    {
      if FiltersDistinct(filters) {
        ToggledFlips(filters.platforms, platform);
      }
      var k := IndexOf(filters.platforms, platform);
      if k.None? {
        filters := filters.(platforms := filters.platforms + [platform]);
      } else {
        filters := filters.(platforms := filters.platforms[..k.value] + filters.platforms[k.value + 1..]);
      }
    }

    method ToggleCategory(category: ComponentCategory)
      modifies this
      ensures filters == old(filters).(categories := Toggled(old(filters.categories), category))
      ensures FiltersDistinct(old(filters)) ==> FiltersDistinct(filters)
      ensures components == old(components) && selectedComponent == old(selectedComponent)
    {
      if FiltersDistinct(filters) {
        ToggledFlips(filters.categories, category);
      }
      var k := IndexOf(filters.categories, category);
      if k.None? {
        filters := filters.(categories := filters.categories + [category]);
      } else {
        filters := filters.(categories := filters.categories[..k.value] + filters.categories[k.value + 1..]);
      }
    }

    method ToggleStatus(status: ComponentStatus)
      modifies this
      ensures filters == old(filters).(statuses := Toggled(old(filters.statuses), status))
      ensures FiltersDistinct(old(filters)) ==> FiltersDistinct(filters)
      ensures components == old(components) && selectedComponent == old(selectedComponent)
    {
      if FiltersDistinct(filters) {
        ToggledFlips(filters.statuses, status);
      }
      var k := IndexOf(filters.statuses, status);
      if k.None? {
        filters := filters.(statuses := filters.statuses + [status]);
      } else {
        filters := filters.(statuses := filters.statuses[..k.value] + filters.statuses[k.value + 1..]);
      }
    }

    method ClearFilters()
      modifies this
      ensures filters == EMPTY_FILTERS && Listed() == components
      ensures components == old(components) && selectedComponent == old(selectedComponent)
    {
      filters := EMPTY_FILTERS;
      UnfilteredIsAll(components);
    }

    /** Opens the catalogue entry with `id` in the detail view; nothing is
        open when no entry has it. */
    method LoadComponent(id: string)
      modifies this
      ensures selectedComponent == ComponentsData.GetComponentById(id)
      ensures components == old(components) && filters == old(filters)
    {
      selectedComponent := ComponentsData.GetComponentById(id);
    }

    method ClearSelectedComponent()
      modifies this
      ensures selectedComponent.None?
      ensures components == old(components) && filters == old(filters)
    {
      selectedComponent := None;
    }
  }
}

=== FILE: componentsdata.dfy ===
/** The component catalogue's fixtures and `getComponentById`, which
    dresses a catalogue entry with the one documented component's detail. */
module ComponentsData {
  import opened Common
  import opened Types

  /** The catalogue: twenty-four components. */
  const MOCK_COMPONENTS: seq<DesignComponent> := [
    DesignComponent(
      "token-001",
      "Design Tokens",
      "Design tokens are the single source of truth to name and store design decisions for color, spacing, typography, and elevation.",
      Foundations,
      "4.2.0",
      Stable,
      [IOS, Android, Web],
      "2026-01-28",
      3842,
      false,
      None,
      ["tokens", "variables", "theming", "color", "spacing"]),
    DesignComponent(
      "typo-001",
      "Typography",
      "A system of fonts and text styles that provides hierarchy and readability across all products and platforms.",
      Foundations,
      "3.4.0",
      Stable,
      [IOS, Android, Web],
      "2026-01-10",
      2890,
      false,
      None,
      ["font", "text", "heading", "body", "scale"]),
    DesignComponent(
      "spacing-001",
      "Spacing",
      "A spacing scale based on an 8px grid that simplifies the creation of page layouts and maintains visual consistency.",
      Foundations,
      "2.1.0",
      Stable,
      [IOS, Android, Web],
      "2025-11-15",
      2456,
      false,
      None,
      ["spacing", "grid", "layout", "padding", "margin"]),
    DesignComponent(
      "icon-001",
      "Iconography",
      "A comprehensive icon library with 600+ glyphs designed for clarity at small sizes. Supports multiple sizes and color tokens.",
      Foundations,
      "5.8.0",
      Stable,
      [IOS, Android, Web],
      "2026-02-01",
      4210,
      false,
      None,
      ["icons", "glyphs", "symbols", "svg"]),
    DesignComponent(
      "btn-001",
      "Button",
      "A button triggers an event or action. They let users know what will happen next and guide them through a workflow.",
      Components,
      "3.2.1",
      Stable,
      [IOS, Android, Web],
      "2026-01-20",
      2145,
      false,
      None,
      ["button", "action", "cta", "submit", "interactive"]),
    DesignComponent(
      "textfield-001",
      "Textfield",
      "A text field is an input that allows a user to write or edit text. It supports labels, helper text, and validation states.",
      Components,
      "2.9.0",
      Stable,
      [IOS, Android, Web],
      "2026-01-12",
      1654,
      false,
      None,
      ["input", "text", "form", "field", "validation"]),
    DesignComponent(
      "select-001",
      "Select",
      "Select allows users to make a single selection or multiple selections from a list of options.",
      Components,
      "2.3.0",
      Stable,
      [IOS, Android, Web],
      "2026-01-08",
      987,
      false,
      None,
      ["select", "dropdown", "form", "options", "picker"]),
    DesignComponent(
      "checkbox-001",
      "Checkbox",
      "A checkbox allows a user to select one or more options from a set. Supports indeterminate state for partial selections.",
      Components,
      "1.8.0",
      Stable,
      [IOS, Android, Web],
      "2025-12-18",
      876,
      false,
      None,
      ["checkbox", "form", "selection", "toggle", "input"]),
    DesignComponent(
      "toggle-001",
      "Toggle",
      "A toggle is used to view or switch between enabled or disabled states. It should be used for binary settings that take effect immediately.",
      Components,
      "1.5.0",
      Stable,
      [IOS, Android, Web],
      "2025-11-28",
      623,
      false,
      None,
      ["toggle", "switch", "boolean", "settings", "on-off"]),
    DesignComponent(
      "avatar-001",
      "Avatar",
      "An avatar is a visual representation of a user or entity. Supports images, initials fallback, and presence indicators.",
      Components,
      "2.1.0",
      Stable,
      [IOS, Android, Web],
      "2025-12-05",
      1432,
      false,
      None,
      ["avatar", "user", "image", "profile", "presence"]),
    DesignComponent(
      "badge-001",
      "Badge",
      "A badge is a visual indicator for numeric values such as tallies and scores. Use it to display counts that need attention.",
      Components,
      "1.3.0",
      Stable,
      [IOS, Android, Web],
      "2025-11-20",
      1087,
      false,
      None,
      ["badge", "count", "indicator", "notification"]),
    DesignComponent(
      "lozenge-001",
      "Lozenge",
      "A lozenge is a visual indicator used to highlight an item\'s status for quick recognition. Comes in subtle and bold appearances.",
      Components,
      "1.6.0",
      Stable,
      [IOS, Android, Web],
      "2025-12-12",
      945,
      true,
      None,
      ["lozenge", "status", "label", "tag", "pill"]),
    DesignComponent(
      "modal-001",
      "Modal Dialog",
      "A modal dialog displays content that requires user interaction in a layer above the page. It blocks interaction with the page until dismissed.",
      Components,
      "2.0.0",
      Stable,
      [IOS, Android, Web],
      "2026-01-25",
      534,
      false,
      None,
      ["modal", "dialog", "overlay", "popup", "confirmation"]),
    DesignComponent(
      "tooltip-001",
      "Tooltip",
      "A tooltip is a floating, non-actionable label used to explain a user interface element or feature on hover or focus.",
      Components,
      "1.4.0",
      Stable,
      [Web],
      "2025-10-30",
      756,
      true,
      None,
      ["tooltip", "hover", "popover", "hint", "info"]),
    DesignComponent(
      "banner-001",
      "Banner",
      "A banner displays a prominent message at the top of the screen. Use banners to inform users about important changes or persistent conditions.",
      Components,
      "1.2.0",
      Beta,
      [Web],
      "2026-02-03",
      312,
      false,
      None,
      ["banner", "alert", "message", "notification", "announcement"]),
    DesignComponent(
      "tabs-001",
      "Tabs",
      "Tabs are used to organize content by grouping similar information on the same page. They help reduce cognitive load by letting users switch between views.",
      Components,
      "2.0.0",
      Stable,
      [IOS, Android, Web],
      "2025-12-22",
      823,
      false,
      None,
      ["tabs", "navigation", "content", "panels", "sections"]),
    DesignComponent(
      "progress-001",
      "Progress Bar",
      "A progress bar communicates the status of a system process. It visually indicates how much of a task has been completed.",
      Components,
      "1.1.0",
      Stable,
      [IOS, Android, Web],
      "2025-10-18",
      389,
      false,
      None,
      ["progress", "loading", "status", "bar", "indicator"]),
    DesignComponent(
      "dropdown-001",
      "Dropdown Menu",
      "A dropdown menu displays a list of actions or options to a user. Deprecated in favor of the new Popup + Menu composition.",
      Components,
      "1.0.0",
      Deprecated,
      [Web],
      "2024-09-15",
      28,
      false,
      None,
      ["dropdown", "menu", "actions", "deprecated"]),
    DesignComponent(
      "form-001",
      "Form Pattern",
      "A standard form layout that combines text fields, selects, checkboxes, and buttons with built-in validation, error handling, and accessibility.",
      Patterns,
      "2.5.0",
      Stable,
      [IOS, Android, Web],
      "2026-01-18",
      567,
      false,
      None,
      ["form", "validation", "layout", "input", "submit"]),
    DesignComponent(
      "nav-001",
      "Navigation Pattern",
      "Defines the primary and secondary navigation structure for applications including top bar, side navigation, and breadcrumbs.",
      Patterns,
      "2.2.0",
      Stable,
      [IOS, Android, Web],
      "2025-12-30",
      445,
      true,
      None,
      ["navigation", "sidebar", "breadcrumbs", "routing", "menu"]),
    DesignComponent(
      "empty-001",
      "Empty State",
      "An empty state appears when there is no data to display and describes what the user can do next. Includes illustration, title, description, and action.",
      Patterns,
      "1.4.0",
      Stable,
      [IOS, Android, Web],
      "2025-11-05",
      278,
      false,
      None,
      ["empty", "placeholder", "zero-state", "onboarding"]),
    DesignComponent(
      "inline-edit-001",
      "Inline Edit",
      "An inline edit displays a custom input component that switches between reading and editing modes on the same page without navigating away.",
      Patterns,
      "1.7.0",
      Beta,
      [Web],
      "2026-01-30",
      189,
      false,
      None,
      ["inline-edit", "editable", "in-place", "toggle-edit"]),
    DesignComponent(
      "page-layout-001",
      "Page Layout",
      "A collection of components that define the overall page structure including header, sidebar, main content area, and footer regions.",
      Templates,
      "1.3.0",
      Stable,
      [Web],
      "2025-12-15",
      134,
      false,
      None,
      ["page", "layout", "structure", "grid", "regions"]),
    DesignComponent(
      "settings-001",
      "Settings Page",
      "A pre-built settings page template with grouped preferences, toggles, form sections, and save/cancel actions.",
      Templates,
      "1.0.0",
      Beta,
      [Web],
      "2026-02-01",
      56,
      false,
      None,
      ["settings", "preferences", "configuration", "admin"])
  ]


  /** The documentation every detail page shows (the Button's). The
      comments' authors are stored as the declared name and avatar
      fields. */
  const MOCK_DETAIL: ComponentDetail := ComponentDetail(
    DesignComponent(
      "btn-001",
      "Button",
      "A button triggers an event or action. They let users know what will happen next and guide them through a workflow. Buttons support multiple variants, sizes, icon placement, and loading states for comprehensive UI coverage across all platforms.",
      Components,
      "3.2.1",
      Stable,
      [IOS, Android, Web],
      "2026-01-20",
      2145,
      false,
      None,
      ["button", "action", "cta", "submit", "interactive"]),
    [
      ComponentVariant("default", "Default", "Standard button used for most actions"),
      ComponentVariant("primary", "Primary", "High-emphasis button for the main call-to-action"),
      ComponentVariant("subtle", "Subtle", "Low-emphasis button that blends with surrounding content"),
      ComponentVariant("link", "Link", "Button styled as an inline text link"),
      ComponentVariant("danger", "Danger", "Destructive action that requires confirmation"),
      ComponentVariant("disabled", "Disabled", "Non-interactive state when action is unavailable"),
      ComponentVariant("loading", "Loading", "Processing state with a spinner overlay")],
    [
      ComponentProp("appearance", "\'default\' | \'primary\' | \'subtle\' | \'link\' | \'subtle-link\' | \'warning\' | \'danger\'", Some("\'default\'"), false, "The visual style that controls the button appearance"),
      ComponentProp("spacing", "\'compact\' | \'default\'", Some("\'default\'"), false, "Controls the amount of internal padding"),
      ComponentProp("isDisabled", "boolean", Some("false"), false, "Set the button to a disabled state, preventing user interaction"),
      ComponentProp("isLoading", "boolean", Some("false"), false, "Shows a spinner overlay and prevents interaction while loading"),
      ComponentProp("isSelected", "boolean", Some("false"), false, "Applies a pressed/active visual treatment for toggle-style buttons"),
      ComponentProp("iconBefore", "ReactNode", None, false, "Icon displayed before the button label"),
      ComponentProp("iconAfter", "ReactNode", None, false, "Icon displayed after the button label"),
      ComponentProp("shouldFitContainer", "boolean", Some("false"), false, "When true, the button expands to fill its parent container width"),
      ComponentProp("onClick", "(e: MouseEvent) => void", None, true, "Handler called when the button is clicked")],
    [
      ComponentVersion("3.2.1", "2026-01-20", ["Fixed focus ring visibility on Safari", "Improved touch target size to meet WCAG 2.2 requirements"], "Sarah Chen"),
      ComponentVersion("3.2.0", "2025-12-20", ["Added isLoading prop with spinner overlay", "New subtle-link appearance variant"], "Marcus Johnson"),
      ComponentVersion("3.1.0", "2025-11-05", ["Icon placement support (iconBefore/iconAfter)", "RTL layout improvements for bidirectional text"], "Sarah Chen"),
      ComponentVersion("3.0.0", "2025-09-01", ["BREAKING: Renamed variant prop to appearance", "Full accessibility audit \U{2014} WCAG AA compliance", "New danger appearance for destructive actions"], "Design Systems Team")],
    [
      ComponentComment("c1", "Alex Rivera", "https://i.pravatar.cc/40?img=1",
        "The new loading state is excellent for our checkout flow. One request: could we add a progress variant that shows a percentage for file uploads?",
        "2026-01-22", [
        ComponentComment("c1r1", "Sarah Chen", "https://i.pravatar.cc/40?img=2",
          "Great idea! I\'ve added it to the v3.3.0 roadmap. In the meantime, you can compose Button with ProgressBar for a similar effect.",
          "2026-01-23", [])]),
      ComponentComment("c2", "Jordan Kim", "https://i.pravatar.cc/40?img=3",
        "Touch targets have been verified at 44x44pt minimum. WCAG 2.2 Target Size (Level AAA) compliance confirmed across all platforms.",
        "2026-01-21", [])],
    UsageGuide(
      ["Use the primary appearance for the single most important action on the page", "Provide clear, action-oriented labels like \"Save changes\" or \"Create project\"", "Use the loading state during async operations to prevent double-submission", "Pair iconBefore with text labels for improved scannability", "Use the danger appearance for destructive actions like \"Delete\" or \"Remove\""],
      ["Don\'t use a button for navigation \U{2014} use a Link component instead", "Don\'t disable a button without providing a reason via tooltip or helper text", "Don\'t place more than one primary button in the same section or dialog", "Don\'t use vague labels like \"Click here\" or \"Submit\" without context", "Don\'t override token-based colors with custom CSS"]),
    AccessibilityInfo("AA",
      ["Enter or Space activates the button", "Tab moves focus to the next focusable element", "Shift + Tab moves focus to the previous focusable element", "Disabled buttons are removed from the tab order"],
      ["Announces the button label, role, and current state", "Loading state announces \"Loading, please wait\" via aria-live", "Disabled state announces \"dimmed\" or \"unavailable\"", "Icon-only buttons require an aria-label for screen reader context"]),
    [
      CodeSnippet(Web, "import Button from \'@atlaskit/button/new\'\nimport AddIcon from \'@atlaskit/icon/core/add\'\n\n// Primary call-to-action\n<Button appearance=\"primary\" onClick={handleSave}>\n  Save changes\n</Button>\n\n// Button with icon\n<Button\n  appearance=\"default\"\n  iconBefore={AddIcon}\n  onClick={handleCreate}\n>\n  Create project\n</Button>\n\n// Loading state\n<Button\n  appearance=\"primary\"\n  isLoading={isSaving}\n  onClick={handleSubmit}\n>\n  {isSaving ? \'Saving...\' : \'Save\'}\n</Button>\n\n// Danger action\n<Button appearance=\"danger\" onClick={handleDelete}>\n  Delete repository\n</Button>", "tsx"),
      CodeSnippet(IOS, "import AtlasKit\n\n// Primary button\nDSButton(\n  title: \"Save changes\",\n  appearance: .primary,\n  action: { viewModel.save() }\n)\n\n// Button with icon\nDSButton(\n  title: \"Create project\",\n  appearance: .default,\n  iconBefore: .add,\n  action: { viewModel.create() }\n)\n\n// Loading state\nDSButton(\n  title: \"Saving...\",\n  appearance: .primary,\n  isLoading: viewModel.isSaving,\n  action: { viewModel.submit() }\n)", "swift"),
      CodeSnippet(Android, "import com.atlassian.designsystem.button.DSButton\nimport com.atlassian.designsystem.button.ButtonAppearance\n\n// Primary button\nDSButton(\n  text = \"Save changes\",\n  appearance = ButtonAppearance.Primary,\n  onClick = { viewModel.save() }\n)\n\n// Button with icon\nDSButton(\n  text = \"Create project\",\n  appearance = ButtonAppearance.Default,\n  iconBefore = DSIcon.Add,\n  onClick = { viewModel.create() }\n)\n\n// Loading state\nDSButton(\n  text = \"Saving...\",\n  appearance = ButtonAppearance.Primary,\n  isLoading = viewModel.isSaving,\n  onClick = { viewModel.submit() }\n)", "kotlin")])

  function Ids(cs: seq<DesignComponent>): (r: seq<string>)
    ensures |r| == |cs| && forall i :: 0 <= i < |cs| ==> r[i] == cs[i].id
  {
    MapSeq(cs, (c: DesignComponent) => c.id)
  }

  function HasComponentId(id: string): DesignComponent -> bool {
    (c: DesignComponent) => c.id == id
  }

  /** `{ ...detail, ...basic }`: the entry's own fields over the detail's;
      the entry has no `preview`, the detail's is kept. */
  function Dress(basic: DesignComponent, detail: ComponentDetail): (r: ComponentDetail)
    ensures r.base == basic.(preview := if basic.preview.Some? then basic.preview else detail.base.preview)
    ensures r == detail.(base := r.base)
  {
    detail.(base := basic.(preview := if basic.preview.Some? then basic.preview else detail.base.preview))
  }

  /** The first entry of `components` with `id`, dressed with `detail`;
      `None` when no entry has that id. */
  function Lookup(components: seq<DesignComponent>, detail: ComponentDetail, id: string): (r: Option<ComponentDetail>)
    ensures r.None? <==> forall k :: 0 <= k < |components| ==> components[k].id != id
    ensures r.Some? ==> r.value.base.id == id
    ensures r.Some? ==> exists k :: 0 <= k < |components| && components[k].id == id
                                   && (forall j :: 0 <= j < k ==> components[j].id != id)
                                   && r.value == Dress(components[k], detail)
  {
    match FindIndex(HasComponentId(id), components)
    case None => None
    case Some(k) => Some(Dress(components[k], detail))
  }

  /** The lookup misses exactly the ids no entry has. */
  lemma {:induction false} LookupMisses(components: seq<DesignComponent>, detail: ComponentDetail, id: string)
    ensures Lookup(components, detail, id).None? <==> id !in Ids(components)
  {
    if id in Ids(components) {
      var k :| 0 <= k < |components| && Ids(components)[k] == id;
    }
  }

  /** `getComponentById`. */
  function GetComponentById(id: string): (r: Option<ComponentDetail>)
    ensures r.None? <==> id !in FIXTURE_IDS
    ensures r.Some? ==> r.value.base.id == id
  {
    LookupMisses(MOCK_COMPONENTS, MOCK_DETAIL, id);
    FixtureIds();
    Lookup(MOCK_COMPONENTS, MOCK_DETAIL, id)
  }

  /** The catalogue's ids, in order. */
  const FIXTURE_IDS: seq<string> :=
    ["token-001", "typo-001", "spacing-001", "icon-001", "btn-001", "textfield-001", "select-001",
     "checkbox-001", "toggle-001", "avatar-001", "badge-001", "lozenge-001", "modal-001", "tooltip-001",
     "banner-001", "tabs-001", "progress-001", "dropdown-001", "form-001", "nav-001", "empty-001",
     "inline-edit-001", "page-layout-001", "settings-001"]

  lemma FixtureIds()
    ensures Ids(MOCK_COMPONENTS) == FIXTURE_IDS
  {
    assert |MOCK_COMPONENTS| == |FIXTURE_IDS|;
    forall i | 0 <= i < |FIXTURE_IDS|
      ensures MOCK_COMPONENTS[i].id == FIXTURE_IDS[i]
    {
    }
  }

  /** The two halves of the id list, so that distinctness is shown in three
      small steps. */
  const FIRST_IDS: seq<string> :=
    ["token-001", "typo-001", "spacing-001", "icon-001", "btn-001", "textfield-001", "select-001",
     "checkbox-001", "toggle-001", "avatar-001", "badge-001", "lozenge-001"]
  const SECOND_IDS: seq<string> :=
    ["modal-001", "tooltip-001", "banner-001", "tabs-001", "progress-001", "dropdown-001", "form-001",
     "nav-001", "empty-001", "inline-edit-001", "page-layout-001", "settings-001"]

  lemma FixtureIdHalves()
    ensures FIXTURE_IDS == FIRST_IDS + SECOND_IDS
  {
  }

  lemma FirstIdsDistinct()
    ensures Distinct(FIRST_IDS)
  {
  }

  lemma SecondIdsDistinct()
    ensures Distinct(SECOND_IDS)
  {
  }

  lemma HalvesDisjoint()
    ensures forall x :: x in FIRST_IDS ==> x !in SECOND_IDS
  {
  }

  lemma FixtureIdListDistinct()
    ensures Distinct(FIXTURE_IDS)
  {
    FixtureIdHalves();
    FirstIdsDistinct();
    SecondIdsDistinct();
    HalvesDisjoint();
    DistinctConcat(FIRST_IDS, SECOND_IDS);
  }

  /** No two catalogue entries share an id. */
  lemma FixtureIdsDistinct()
    ensures Distinct(Ids(MOCK_COMPONENTS))
  {
    FixtureIds();
    FixtureIdListDistinct();
  }

  /** With distinct ids the lookup finds the entry that has the id. */
  lemma LookupDistinct(components: seq<DesignComponent>, detail: ComponentDetail, k: nat)
    requires k < |components| && Distinct(Ids(components))
    ensures Lookup(components, detail, components[k].id) == Some(Dress(components[k], detail))
  {
    var id := components[k].id;
    var r := Lookup(components, detail, id);
    var j :| 0 <= j < |components| && components[j].id == id
             && (forall i :: 0 <= i < j ==> components[i].id != id)
             && r.value == Dress(components[j], detail);
    DistinctIndex(Ids(components), j, k);
  }

  /** So `getComponentById` is unambiguous: for every catalogue entry it
      returns that entry, with the detail-only fields of the detail. */
  lemma GetComponentByIdIsTheEntry(k: nat)
    requires k < |MOCK_COMPONENTS|
    ensures GetComponentById(MOCK_COMPONENTS[k].id) == Some(Dress(MOCK_COMPONENTS[k], MOCK_DETAIL))
  {
    FixtureIdsDistinct();
    LookupDistinct(MOCK_COMPONENTS, MOCK_DETAIL, k);
  }
}

=== FILE: contributions.dfy ===
/** `useContributionsStore`: the contribution workflow. It holds the branches
    and the contributions (each loaded from its persisted list, or from the
    fixture when none is saved), the contribution open in the detail view and
    three filters. A contribution moves from draft to review, collects
    reviews, and is approved, rejected or merged; merging deletes its
    branch. */
module ContributionWorkflow {
  import opened Common
  import opened LocalStore
  import opened Types
  import Storage
  import opened Persistence

  datatype ContributionStats = ContributionStats(total: int, pending: int, approved: int, merged: int, rejected: int)

  /** What `createBranch` is given. */
  datatype BranchInput = BranchInput(name: string, componentId: string, basedOn: string, author: Person)

  /** What `createContribution` is given. */
  datatype ContributionInput = ContributionInput(
    title: string,
    description: string,
    branchId: string,
    componentId: string,
    status: ContributionStatus,
    author: Person,
    changes: seq<ComponentChange>)

  /** What `addReview` is given. */
  datatype ReviewInput = ReviewInput(author: Person, status: ReviewStatus, comment: string)

  /** A partial contribution for `updateContribution`; `None` where the
      update has no such property. */
  datatype ContributionPatch = ContributionPatch(
    id: Option<string>,
    title: Option<string>,
    description: Option<string>,
    branchId: Option<string>,
    componentId: Option<string>,
    status: Option<ContributionStatus>,
    author: Option<Person>,
    changes: Option<seq<ComponentChange>>,
    reviews: Option<seq<Review>>,
    createdAt: Option<string>)

  /** `{ status }`. */
  function StatusPatch(status: ContributionStatus): ContributionPatch {
    ContributionPatch(None, None, None, None, None, Some(status), None, None, None, None)
  }

  /** The filter refs; a falsy component or author filter does not filter. */
  datatype ContributionFilters = ContributionFilters(
    status: Option<ContributionStatus>,
    component: Option<string>,
    author: Option<string>)

  const NO_FILTERS: ContributionFilters := ContributionFilters(None, None, None)

  // ---------------------------------------------------------------------------
  // Getters

  predicate Passes(f: ContributionFilters, c: Contribution) {
    (f.status.None? || c.status == f.status.value)
    && (f.component.None? || f.component.value == "" || c.componentId == f.component.value)
    && (f.author.None? || f.author.value == "" || c.author.name == f.author.value)
  }

  /** `filteredContributions`: the contributions that pass every filter, in
      list order. */
  function FilteredContributions(list: seq<Contribution>, f: ContributionFilters): (r: seq<Contribution>)
    ensures Subsequence(r, list)
    ensures forall c :: c in r <==> c in list && Passes(f, c)
  {
    Filter((c: Contribution) => Passes(f, c), list)
  }

  lemma UnfilteredIsAll(list: seq<Contribution>)
    ensures FilteredContributions(list, NO_FILTERS) == list
  {
    FilterAll((c: Contribution) => Passes(NO_FILTERS, c), list);
  }

  function StatusIs(status: ContributionStatus): Contribution -> bool {
    (c: Contribution) => c.status == status
  }

  /** `contributionsByStatus`, one status at a time. */
  function ByStatus(list: seq<Contribution>, status: ContributionStatus): (r: seq<Contribution>)
    ensures Subsequence(r, list)
    ensures forall c :: c in r <==> c in list && c.status == status
  {
    Filter(StatusIs(status), list)
  }

  /** Every contribution has exactly one status. */
  lemma {:induction false} StatusPartition(list: seq<Contribution>)
    ensures |ByStatus(list, Draft)| + |ByStatus(list, PendingReview)| + |ByStatus(list, Approved)|
          + |ByStatus(list, Rejected)| + |ByStatus(list, Merged)| == |list|
    decreases |list|
  {
    if |list| > 0 {
      StatusPartition(list[1..]);
    }
  }

  /** `stats`: the list's size and its count per status; drafts are the
      contributions the four counts leave out. */
  function Stats(list: seq<Contribution>): (s: ContributionStats)
    ensures s.total == |list|
    ensures s.pending == |ByStatus(list, PendingReview)| && s.approved == |ByStatus(list, Approved)|
    ensures s.merged == |ByStatus(list, Merged)| && s.rejected == |ByStatus(list, Rejected)|
    ensures s.total - (s.pending + s.approved + s.merged + s.rejected) == |ByStatus(list, Draft)|
  {
    StatusPartition(list);
    ContributionStats(|list|, |ByStatus(list, PendingReview)|, |ByStatus(list, Approved)|,
                      |ByStatus(list, Merged)|, |ByStatus(list, Rejected)|)
  }

  predicate IsFeatureBranch(b: Branch) {
    !b.isDefault
  }

  /** `activeBranches`: the branches that are not a default branch, in
      order. */
  function ActiveBranches(bs: seq<Branch>): (r: seq<Branch>)
    ensures Subsequence(r, bs)
    ensures forall b :: b in r <==> b in bs && !b.isDefault
  {
    Filter(IsFeatureBranch, bs)
  }

  function BranchForComponent(componentId: string): Branch -> bool {
    (b: Branch) => b.componentId == componentId
  }

  /** `getBranchesForComponent`. */
  function BranchesForComponent(bs: seq<Branch>, componentId: string): (r: seq<Branch>)
    ensures Subsequence(r, bs)
    ensures forall b :: b in r <==> b in bs && b.componentId == componentId
  {
    Filter(BranchForComponent(componentId), bs)
  }

  function ForComponent(componentId: string): Contribution -> bool {
    (c: Contribution) => c.componentId == componentId
  }

  /** `getContributionsForComponent`. */
  function ContributionsForComponent(list: seq<Contribution>, componentId: string): (r: seq<Contribution>)
    ensures Subsequence(r, list)
    ensures forall c :: c in r <==> c in list && c.componentId == componentId
  {
    Filter(ForComponent(componentId), list)
  }

  predicate AwaitingMerge(c: Contribution) {
    c.status == PendingReview || c.status == Approved
  }

  function PendingFor(componentId: string): Contribution -> bool {
    (c: Contribution) => c.componentId == componentId && AwaitingMerge(c)
  }

  /** `getPendingContributionsForComponent`: the component's contributions
      in review or approved. */
  function PendingForComponent(list: seq<Contribution>, componentId: string): (r: seq<Contribution>)
    ensures Subsequence(r, list)
    ensures forall c :: c in r <==> c in list && c.componentId == componentId && AwaitingMerge(c)
  {
    Filter(PendingFor(componentId), list)
  }

  /** The pending ones are the component's contributions narrowed to those
      in review or approved. */
  lemma PendingNarrowsComponent(list: seq<Contribution>, componentId: string)
    ensures PendingForComponent(list, componentId) == Filter(AwaitingMerge, ContributionsForComponent(list, componentId))
  {
    FilterTwice(ForComponent(componentId), AwaitingMerge, PendingFor(componentId), list);
  }

  // ---------------------------------------------------------------------------
  // Branches

  function BranchId(millis: nat): string {
    "branch-" + NatToString(millis)
  }

  /** The branch `createBranch` makes: never a default branch. */
  function NewBranch(data: BranchInput, millis: nat, now: string): (b: Branch)
    ensures b.id == BranchId(millis) && b.createdAt == now && !b.isDefault
    ensures b.name == data.name && b.componentId == data.componentId && b.basedOn == data.basedOn && b.author == data.author
  {
    Branch(BranchId(millis), data.name, data.componentId, data.basedOn, data.author, now, false)
  }

  /** A created branch is listed last among the active branches. */
  lemma CreatedBranchIsActive(bs: seq<Branch>, data: BranchInput, millis: nat, now: string)
    ensures ActiveBranches(bs + [NewBranch(data, millis, now)]) == ActiveBranches(bs) + [NewBranch(data, millis, now)]
  {
    FilterSnoc(IsFeatureBranch, bs, NewBranch(data, millis, now));
  }

  function BranchIdIs(id: string): Branch -> bool {
    (b: Branch) => b.id == id
  }

  /** The branches after the first one with the id is spliced out; a
      default branch is removed like any other. */
  function WithoutBranch(bs: seq<Branch>, id: string): (r: seq<Branch>)
    ensures FindIndex(BranchIdIs(id), bs).None? ==> r == bs
    ensures FindIndex(BranchIdIs(id), bs).Some? ==>
              |r| == |bs| - 1 && r == RemoveAt(bs, FindIndex(BranchIdIs(id), bs).value)
  {
    match FindIndex(BranchIdIs(id), bs)
    case None => bs
    case Some(k) => RemoveAt(bs, k)
  }

  /** No two branches share an id. */
  predicate BranchIdsDistinct(bs: seq<Branch>) {
    forall j, k :: 0 <= j < k < |bs| ==> bs[j].id != bs[k].id
  }

  /** With distinct ids, the removed branch's id is gone and the others
      stay. */
  lemma WithoutBranchRemovesId(bs: seq<Branch>, id: string)
    requires BranchIdsDistinct(bs)
    ensures forall b :: b in WithoutBranch(bs, id) <==> b in bs && b.id != id
  {
    match FindIndex(BranchIdIs(id), bs)
    case None =>
    case Some(k) =>
      var r := RemoveAt(bs, k);
      forall b | b in r
        ensures b in bs && b.id != id
      {
        var j :| 0 <= j < |r| && r[j] == b;
        if j >= k {
          assert r[j] == bs[j + 1];
        }
      }
      forall b | b in bs && b.id != id
        ensures b in r
      {
        var j :| 0 <= j < |bs| && bs[j] == b;
        if j < k {
          assert r[j] == b;
        } else {
          assert r[j - 1] == b;
        }
      }
  }

  // ---------------------------------------------------------------------------
  // Contributions

  function ContributionId(millis: nat): string {
    "contrib-" + NatToString(millis)
  }

  function ReviewId(millis: nat): string {
    "review-" + NatToString(millis)
  }

  /** The contribution `createContribution` makes: a fresh id, both dates
      the creation time and no reviews. */
  function NewContribution(data: ContributionInput, millis: nat, now: string): (c: Contribution)
    ensures c.id == ContributionId(millis) && c.createdAt == now && c.updatedAt == now && c.reviews == []
    ensures c.title == data.title && c.description == data.description && c.branchId == data.branchId
    ensures c.componentId == data.componentId && c.status == data.status && c.author == data.author
    ensures c.changes == data.changes
  {
    Contribution(ContributionId(millis), data.title, data.description, data.branchId, data.componentId,
                 data.status, data.author, data.changes, [], now, now)
  }

  /** `{ ...contribution, ...updates, updatedAt: now }`. */
  function Patched(c: Contribution, p: ContributionPatch, now: string): (r: Contribution)
    ensures r.updatedAt == now
    ensures p.id.None? ==> r.id == c.id
    ensures p.title.None? ==> r.title == c.title
    ensures p.description.None? ==> r.description == c.description
    ensures p.branchId.None? ==> r.branchId == c.branchId
    ensures p.componentId.None? ==> r.componentId == c.componentId
    ensures p.status.None? ==> r.status == c.status
    ensures p.author.None? ==> r.author == c.author
    ensures p.changes.None? ==> r.changes == c.changes
    ensures p.reviews.None? ==> r.reviews == c.reviews
    ensures p.createdAt.None? ==> r.createdAt == c.createdAt
    ensures p.status.Some? ==> r.status == p.status.value
  {
    Contribution(Or(p.id, c.id), Or(p.title, c.title), Or(p.description, c.description), Or(p.branchId, c.branchId),
                 Or(p.componentId, c.componentId), Or(p.status, c.status), Or(p.author, c.author),
                 Or(p.changes, c.changes), Or(p.reviews, c.reviews), Or(p.createdAt, c.createdAt), now)
  }

  /** A status update changes the status and the update time, nothing else. */
  lemma PatchStatus(c: Contribution, status: ContributionStatus, now: string)
    ensures Patched(c, StatusPatch(status), now) == c.(status := status, updatedAt := now)
  {
  }

  function HasContributionId(id: string): Contribution -> bool {
    (c: Contribution) => c.id == id
  }

  /** `find` by id. */
  function ContributionById(list: seq<Contribution>, id: string): (r: Option<Contribution>)
    ensures r.None? <==> forall c :: c in list ==> c.id != id
    ensures r.Some? ==> r.value in list && r.value.id == id
    ensures r.Some? ==> exists k :: 0 <= k < |list| && r.value == list[k]
                          && forall j :: 0 <= j < k ==> list[j].id != id
  {
    match FindIndex(HasContributionId(id), list)
    case None => None
    case Some(k) => Some(list[k])
  }

  /** The list after `updateContribution`: the first contribution with the
      id updated, every other one as it was. */
  function UpdatedIn(list: seq<Contribution>, id: string, p: ContributionPatch, now: string): (r: seq<Contribution>)
    ensures |r| == |list|
    ensures FindIndex(HasContributionId(id), list).None? ==> r == list
    ensures FindIndex(HasContributionId(id), list).Some? ==>
              r == list[FindIndex(HasContributionId(id), list).value :=
                        Patched(list[FindIndex(HasContributionId(id), list).value], p, now)]
    ensures forall k :: 0 <= k < |list| && list[k].id != id ==> r[k] == list[k]
  {
    match FindIndex(HasContributionId(id), list)
    case None => list
    case Some(k) => list[k := Patched(list[k], p, now)]
  }

  predicate IsApproval(r: Review) {
    r.status == ReviewApproved
  }

  /** Every review approves (`every`; true of no reviews). */
  predicate AllApproved(reviews: seq<Review>) {
    forall k :: 0 <= k < |reviews| ==> IsApproval(reviews[k])
  }

  /** The status after a review was added to `reviews`: an approval makes the
      contribution approved once every review approves; a request for
      changes puts it back in review; a comment leaves it. */
  function StatusAfterReview(status: ContributionStatus, reviews: seq<Review>, given: ReviewStatus): (r: ContributionStatus)
    ensures given == ChangesRequested ==> r == PendingReview
    ensures given == Commented ==> r == status
    ensures given == ReviewApproved ==> (r == Approved <==> AllApproved(reviews) || status == Approved)
    ensures r != status ==> r == Approved || r == PendingReview
  {
    match given
    case ReviewApproved => if AllApproved(reviews) then Approved else status
    case ChangesRequested => PendingReview
    case Commented => status
  }

  /** The contribution after `addReview`: the review appended, stamped,
      and the status settled by the reviews. */
  function Reviewed(c: Contribution, review: ReviewInput, millis: nat, reviewedAt: string, updatedAt: string): (r: Contribution)
    ensures r.reviews == c.reviews + [Review(ReviewId(millis), review.author, review.status, review.comment, reviewedAt)]
    ensures r.updatedAt == updatedAt
    ensures r.status == StatusAfterReview(c.status, r.reviews, review.status)
    ensures r.(reviews := c.reviews, updatedAt := c.updatedAt, status := c.status) == c
  {
    var reviews := c.reviews + [Review(ReviewId(millis), review.author, review.status, review.comment, reviewedAt)];
    c.(reviews := reviews, updatedAt := updatedAt, status := StatusAfterReview(c.status, reviews, review.status))
  }

  /** One approval among other approvals approves; any other earlier review
      keeps an approval from changing the status. */
  lemma ApprovalNeedsUnanimity(c: Contribution, author: Person, comment: string, millis: nat, t1: string, t2: string)
    ensures AllApproved(c.reviews) ==> Reviewed(c, ReviewInput(author, ReviewApproved, comment), millis, t1, t2).status == Approved
    ensures !AllApproved(c.reviews) ==> Reviewed(c, ReviewInput(author, ReviewApproved, comment), millis, t1, t2).status == c.status
  {
    var r := Reviewed(c, ReviewInput(author, ReviewApproved, comment), millis, t1, t2);
    if !AllApproved(c.reviews) {
      var k :| 0 <= k < |c.reviews| && !IsApproval(c.reviews[k]);
      assert r.reviews[k] == c.reviews[k];
    }
  }

  /** The list after `addReview`. */
  function ReviewedIn(list: seq<Contribution>, id: string, review: ReviewInput, millis: nat, reviewedAt: string, updatedAt: string)
    : (r: seq<Contribution>)
    ensures |r| == |list|
    ensures FindIndex(HasContributionId(id), list).None? ==> r == list
    ensures FindIndex(HasContributionId(id), list).Some? ==>
              r == list[FindIndex(HasContributionId(id), list).value :=
                        Reviewed(list[FindIndex(HasContributionId(id), list).value], review, millis, reviewedAt, updatedAt)]
    ensures forall k :: 0 <= k < |list| ==> r[k].id == list[k].id && r[k].reviews[..|list[k].reviews|] == list[k].reviews
  {
    match FindIndex(HasContributionId(id), list)
    case None => list
    case Some(k) => list[k := Reviewed(list[k], review, millis, reviewedAt, updatedAt)]
  }

  /** `approveContribution` and `rejectContribution`: a review, then the
      final status. */
  function Decided(list: seq<Contribution>, id: string, review: ReviewInput, decision: ContributionStatus, millis: nat, now: string)
    : seq<Contribution>
  {
    UpdatedIn(ReviewedIn(list, id, review, millis, now, now), id, StatusPatch(decision), now)
  }

  /** A decision leaves the contribution with the decided status and one
      more review, the reviewer's, whatever the review rule set in
      between; every other contribution is as it was. */
  lemma DecisionSticks(list: seq<Contribution>, id: string, review: ReviewInput, decision: ContributionStatus, millis: nat, now: string)
    requires FindIndex(HasContributionId(id), list).Some?
    ensures var k := FindIndex(HasContributionId(id), list).value;
            var after := Decided(list, id, review, decision, millis, now);
            |after| == |list| && after[k].status == decision && after[k].id == id
            && after[k].reviews == list[k].reviews + [Review(ReviewId(millis), review.author, review.status, review.comment, now)]
            && forall j :: 0 <= j < |list| && j != k ==> after[j] == list[j]
  {
    var k := FindIndex(HasContributionId(id), list).value;
    var mid := ReviewedIn(list, id, review, millis, now, now);
    FindIndexSameIds(list, mid, id);
  }

  /** Two lists with the same ids find an id at the same index. */
  lemma {:induction false} FindIndexSameIds(a: seq<Contribution>, b: seq<Contribution>, id: string)
    requires |a| == |b| && forall k :: 0 <= k < |a| ==> a[k].id == b[k].id
    ensures FindIndex(HasContributionId(id), a) == FindIndex(HasContributionId(id), b)
    decreases |a|
  {
    if |a| > 0 && a[0].id != id {
      FindIndexSameIds(a[1..], b[1..], id);
    }
  }

  /** The branches after `mergeContribution` of the contribution with `id`
      (looked up after its status was set): its branch spliced out. */
  function BranchesAfterMerge(bs: seq<Branch>, merged: seq<Contribution>, id: string): (r: seq<Branch>)
    ensures ContributionById(merged, id).None? ==> r == bs
    ensures ContributionById(merged, id).Some? ==> r == WithoutBranch(bs, ContributionById(merged, id).value.branchId)
  {
    match ContributionById(merged, id)
    case None => bs
    case Some(c) => WithoutBranch(bs, c.branchId)
  }

  /** Merging marks the contribution merged and removes the branch it was
      made on; the branch lookup sees the same contribution the status
      update changed. */
  lemma MergeRemovesBranch(bs: seq<Branch>, list: seq<Contribution>, id: string, now: string)
    requires FindIndex(HasContributionId(id), list).Some?
    ensures var k := FindIndex(HasContributionId(id), list).value;
            var merged := UpdatedIn(list, id, StatusPatch(Merged), now);
            merged[k].status == Merged
            && BranchesAfterMerge(bs, merged, id) == WithoutBranch(bs, list[k].branchId)
  {
    var merged := UpdatedIn(list, id, StatusPatch(Merged), now);
    FindIndexSameIds(list, merged, id);
  }

  // ---------------------------------------------------------------------------
  // The selected contribution

  predicate IdsDistinct(list: seq<Contribution>) {
    forall j, k :: 0 <= j < k < |list| ==> list[j].id != list[k].id
  }

  predicate SelectionListed(list: seq<Contribution>, selected: Option<Contribution>) {
    selected.Some? ==> selected.value in list
  }

  /** The selection after the contribution with `id` became `y`. */
  function Resynced(selected: Option<Contribution>, id: string, y: Contribution): Option<Contribution> {
    if selected.Some? && selected.value.id == id then Some(y) else selected
  }

  lemma ReplaceKeepsSelection(list: seq<Contribution>, k: nat, y: Contribution, selected: Option<Contribution>)
    requires k < |list| && y.id == list[k].id
    requires IdsDistinct(list) && SelectionListed(list, selected)
    ensures IdsDistinct(list[k := y])
    ensures SelectionListed(list[k := y], Resynced(selected, y.id, y))
  {
    if selected.Some? && selected.value.id != y.id {
      var j :| 0 <= j < |list| && list[j] == selected.value;
      assert list[k := y][j] == selected.value;
    } else {
      assert list[k := y][k] == y;
    }
  }

  // ---------------------------------------------------------------------------
  // The store

  class ContributionStore {
    const storage: Storage.PersistentStorage<Saved>
    var branches: seq<Branch>
    var contributions: seq<Contribution>
    var selectedContribution: Option<Contribution>
    var statusFilter: Option<ContributionStatus>
    var componentFilter: Option<string>
    var authorFilter: Option<string>

    /** The store as the application creates it: each list saved, or its
        fixture when none is saved. */
    constructor (storage: Storage.PersistentStorage<Saved>, branchFixtures: seq<Branch>, contributionFixtures: seq<Contribution>)
      ensures this.storage == storage
      ensures branches == LoadBranches(storage.store.items, branchFixtures)
      ensures contributions == LoadContributions(storage.store.items, contributionFixtures)
      ensures selectedContribution.None? && Filters() == NO_FILTERS
    {
      this.storage := storage;
      branches := LoadBranches(storage.store.items, branchFixtures);
      contributions := LoadContributions(storage.store.items, contributionFixtures);
      selectedContribution := None;
      statusFilter := None;
      componentFilter := None;
      authorFilter := None;
    }

    function Filters(): ContributionFilters
      reads this
    {
      ContributionFilters(statusFilter, componentFilter, authorFilter)
    }

    function Listed(): seq<Contribution>
      reads this
    {
      FilteredContributions(contributions, Filters())
    }

    /** The contribution ids are distinct and the selection is listed. */
    predicate Coherent()
      reads this
    {
      IdsDistinct(contributions) && SelectionListed(contributions, selectedContribution)
    }

    method SaveBranches(writable: bool)
      modifies storage.store
      ensures storage.store.items == WrittenIf(old(storage.store.items), BRANCHES_KEY, SavedBranches(branches), writable)
    {
      storage.Set(BRANCHES_KEY, SavedBranches(branches), writable);
    }

    method SaveContributions(writable: bool)
      modifies storage.store
      ensures storage.store.items == WrittenIf(old(storage.store.items), CONTRIBUTIONS_KEY, SavedContributions(contributions), writable)
    {
      storage.Set(CONTRIBUTIONS_KEY, SavedContributions(contributions), writable);
    }

    method SetStatusFilter(status: Option<ContributionStatus>)
      modifies this
      ensures Filters() == old(Filters()).(status := status)
      ensures branches == old(branches) && contributions == old(contributions)
      ensures selectedContribution == old(selectedContribution)
    {
      statusFilter := status;
    }

    method SetComponentFilter(componentId: Option<string>)
      modifies this
      ensures Filters() == old(Filters()).(component := componentId)
      ensures branches == old(branches) && contributions == old(contributions)
      ensures selectedContribution == old(selectedContribution)
    {
      componentFilter := componentId;
    }

    method SetAuthorFilter(author: Option<string>)
      modifies this
      ensures Filters() == old(Filters()).(author := author)
      ensures branches == old(branches) && contributions == old(contributions)
      ensures selectedContribution == old(selectedContribution)
    {
      authorFilter := author;
    }

    method ClearFilters()
      modifies this
      ensures Filters() == NO_FILTERS && Listed() == contributions
      ensures branches == old(branches) && contributions == old(contributions)
      ensures selectedContribution == old(selectedContribution)
    {
      statusFilter := None;
      componentFilter := None;
      authorFilter := None;
      UnfilteredIsAll(contributions);
    }

    /** Opens the first contribution with the id; a missing or empty id, or
        one no contribution has, closes the detail view. */
    method SelectContribution(contributionId: Option<string>)
      modifies this
      ensures contributionId.None? || contributionId.value == "" ==> selectedContribution.None?
      ensures contributionId.Some? && contributionId.value != "" ==>
                selectedContribution == ContributionById(contributions, contributionId.value)
      ensures SelectionListed(contributions, selectedContribution)
      ensures branches == old(branches) && contributions == old(contributions) && Filters() == old(Filters())
    {
      if contributionId.None? || contributionId.value == "" {
        selectedContribution := None;
      } else {
        selectedContribution := ContributionById(contributions, contributionId.value);
      }
    }

    /** Appends a new feature branch and saves the branches. */
    method CreateBranch(data: BranchInput, millis: nat, now: string, writable: bool) returns (created: Branch)
      modifies this, storage.store
      ensures created == NewBranch(data, millis, now) && branches == old(branches) + [created]
      ensures ActiveBranches(branches) == ActiveBranches(old(branches)) + [created]
      ensures storage.store.items == WrittenIf(old(storage.store.items), BRANCHES_KEY, SavedBranches(branches), writable)
      ensures contributions == old(contributions) && selectedContribution == old(selectedContribution)
      ensures Filters() == old(Filters())
    {
      created := NewBranch(data, millis, now);
      CreatedBranchIsActive(branches, data, millis, now);
      branches := branches + [created];
      SaveBranches(writable);
    }

    /** Adds a new contribution at the head of the list and saves it. */
    method CreateContribution(data: ContributionInput, millis: nat, now: string, writable: bool) returns (created: Contribution)
      modifies this, storage.store
      ensures created == NewContribution(data, millis, now) && contributions == [created] + old(contributions)
      ensures storage.store.items == WrittenIf(old(storage.store.items), CONTRIBUTIONS_KEY, SavedContributions(contributions), writable)
      ensures branches == old(branches) && selectedContribution == old(selectedContribution)
      ensures Filters() == old(Filters())
      ensures old(Coherent()) && ContributionById(old(contributions), ContributionId(millis)).None? ==> Coherent()
    {
      created := NewContribution(data, millis, now);
      contributions := [created] + contributions;
      SaveContributions(writable);
    }

    /** Updates the first contribution with the id, refreshes the open one
        when it has that id, and saves; nothing happens when none has it. */
    method UpdateContribution(contributionId: string, updates: ContributionPatch, now: string, writable: bool)
      modifies this, storage.store
      ensures contributions == UpdatedIn(old(contributions), contributionId, updates, now)
      ensures FindIndex(HasContributionId(contributionId), old(contributions)).None? ==>
                selectedContribution == old(selectedContribution) && storage.store.items == old(storage.store.items)
      ensures FindIndex(HasContributionId(contributionId), old(contributions)).Some? ==>
                selectedContribution == Resynced(old(selectedContribution), contributionId,
                  contributions[FindIndex(HasContributionId(contributionId), old(contributions)).value])
                && storage.store.items == WrittenIf(old(storage.store.items), CONTRIBUTIONS_KEY, SavedContributions(contributions), writable)
      ensures branches == old(branches) && Filters() == old(Filters())
      ensures old(Coherent()) && updates.id.None? ==> Coherent()
    {
      var index := FindIndex(HasContributionId(contributionId), contributions);
      if index.Some? {
        var k := index.value;
        var y := Patched(contributions[k], updates, now);
        if Coherent() && updates.id.None? {
          ReplaceKeepsSelection(contributions, k, y, selectedContribution);
        }
        contributions := contributions[k := y];
        selectedContribution := Resynced(selectedContribution, contributionId, y);
        SaveContributions(writable);
      }
    }

    method SubmitForReview(contributionId: string, now: string, writable: bool)
      modifies this, storage.store
      ensures contributions == UpdatedIn(old(contributions), contributionId, StatusPatch(PendingReview), now)
      ensures FindIndex(HasContributionId(contributionId), old(contributions)).None? ==>
                selectedContribution == old(selectedContribution) && storage.store.items == old(storage.store.items)
      ensures FindIndex(HasContributionId(contributionId), old(contributions)).Some? ==>
                selectedContribution == Resynced(old(selectedContribution), contributionId,
                  contributions[FindIndex(HasContributionId(contributionId), old(contributions)).value])
                && storage.store.items == WrittenIf(old(storage.store.items), CONTRIBUTIONS_KEY, SavedContributions(contributions), writable)
      ensures branches == old(branches) && Filters() == old(Filters())
      ensures old(Coherent()) ==> Coherent()
    {
      UpdateContribution(contributionId, StatusPatch(PendingReview), now, writable);
    }

    /** Appends a review to the first contribution with the id, settles its
        status and saves. The review is stamped `reviewedAt`, the
        contribution `updatedAt` (two clock readings). */
    method AddReview(contributionId: string, review: ReviewInput, millis: nat, reviewedAt: string, updatedAt: string, writable: bool)
      modifies this, storage.store
      ensures contributions == ReviewedIn(old(contributions), contributionId, review, millis, reviewedAt, updatedAt)
      ensures FindIndex(HasContributionId(contributionId), old(contributions)).None? ==>
                selectedContribution == old(selectedContribution) && storage.store.items == old(storage.store.items)
      ensures FindIndex(HasContributionId(contributionId), old(contributions)).Some? ==>
                selectedContribution == Resynced(old(selectedContribution), contributionId,
                  contributions[FindIndex(HasContributionId(contributionId), old(contributions)).value])
                && storage.store.items == WrittenIf(old(storage.store.items), CONTRIBUTIONS_KEY, SavedContributions(contributions), writable)
      ensures branches == old(branches) && Filters() == old(Filters())
      ensures old(Coherent()) ==> Coherent()
    {
      var index := FindIndex(HasContributionId(contributionId), contributions);
      if index.Some? {
        var k := index.value;
        var y := Reviewed(contributions[k], review, millis, reviewedAt, updatedAt);
        if Coherent() {
          ReplaceKeepsSelection(contributions, k, y, selectedContribution);
        }
        contributions := contributions[k := y];
        selectedContribution := Resynced(selectedContribution, contributionId, y);
        SaveContributions(writable);
      }
    }

    /** An approving review, then the status approved. */
    method ApproveContribution(contributionId: string, reviewer: Person, comment: string, millis: nat, now: string, writable: bool)
      modifies this, storage.store
      ensures contributions == Decided(old(contributions), contributionId, ReviewInput(reviewer, ReviewApproved, comment), Approved, millis, now)
      ensures FindIndex(HasContributionId(contributionId), old(contributions)).None? ==>
                selectedContribution == old(selectedContribution) && storage.store.items == old(storage.store.items)
      ensures FindIndex(HasContributionId(contributionId), old(contributions)).Some? ==>
                selectedContribution == Resynced(old(selectedContribution), contributionId,
                  contributions[FindIndex(HasContributionId(contributionId), old(contributions)).value])
                && storage.store.items == WrittenIf(old(storage.store.items), CONTRIBUTIONS_KEY, SavedContributions(contributions), writable)
      ensures branches == old(branches) && Filters() == old(Filters())
      ensures old(Coherent()) ==> Coherent()
    {
      AddReview(contributionId, ReviewInput(reviewer, ReviewApproved, comment), millis, now, now, writable);
      FindIndexSameIds(old(contributions), contributions, contributionId);
      UpdateContribution(contributionId, StatusPatch(Approved), now, writable);
    }

    /** A review requesting changes, then the status rejected. */
    method RejectContribution(contributionId: string, reviewer: Person, comment: string, millis: nat, now: string, writable: bool)
      modifies this, storage.store
      ensures contributions == Decided(old(contributions), contributionId, ReviewInput(reviewer, ChangesRequested, comment), Rejected, millis, now)
      ensures FindIndex(HasContributionId(contributionId), old(contributions)).None? ==>
                selectedContribution == old(selectedContribution) && storage.store.items == old(storage.store.items)
      ensures FindIndex(HasContributionId(contributionId), old(contributions)).Some? ==>
                selectedContribution == Resynced(old(selectedContribution), contributionId,
                  contributions[FindIndex(HasContributionId(contributionId), old(contributions)).value])
                && storage.store.items == WrittenIf(old(storage.store.items), CONTRIBUTIONS_KEY, SavedContributions(contributions), writable)
      ensures branches == old(branches) && Filters() == old(Filters())
      ensures old(Coherent()) ==> Coherent()
    {
      AddReview(contributionId, ReviewInput(reviewer, ChangesRequested, comment), millis, now, now, writable);
      FindIndexSameIds(old(contributions), contributions, contributionId);
      UpdateContribution(contributionId, StatusPatch(Rejected), now, writable);
    }

    /** Marks the contribution merged, then splices out the first branch
        whose id is its branch id and saves the branches. */
    method MergeContribution(contributionId: string, now: string, writable: bool)
      modifies this, storage.store
      ensures contributions == UpdatedIn(old(contributions), contributionId, StatusPatch(Merged), now)
      ensures branches == BranchesAfterMerge(old(branches), contributions, contributionId)
      ensures FindIndex(HasContributionId(contributionId), old(contributions)).None? ==>
                selectedContribution == old(selectedContribution) && storage.store.items == old(storage.store.items)
      ensures FindIndex(HasContributionId(contributionId), old(contributions)).Some? ==>
                var merged := contributions[FindIndex(HasContributionId(contributionId), old(contributions)).value];
                var saved := WrittenIf(old(storage.store.items), CONTRIBUTIONS_KEY, SavedContributions(contributions), writable);
                selectedContribution == Resynced(old(selectedContribution), contributionId, merged)
                && storage.store.items == if FindIndex(BranchIdIs(merged.branchId), old(branches)).Some?
                                          then WrittenIf(saved, BRANCHES_KEY, SavedBranches(branches), writable)
                                          else saved
      ensures Filters() == old(Filters())
      ensures old(Coherent()) ==> Coherent()
    {
      UpdateContribution(contributionId, StatusPatch(Merged), now, writable);
      var found := ContributionById(contributions, contributionId);
      if found.Some? {
        var branchIndex := FindIndex(BranchIdIs(found.value.branchId), branches);
        if branchIndex.Some? {
          branches := RemoveAt(branches, branchIndex.value);
          SaveBranches(writable);
        }
      }
    }
  }
}

=== FILE: datamapper.dfy ===
/** `dataMapper`: turns GitHub and npm payloads into the application's
    view-model records. Everything here is deterministic: the clock enters
    as the `today` text, and the "usage" of a component is a hash of its
    folder name. */
module DataMapper {
  import opened Common
  import opened ApiTypes
  import opened Types

  // ---------------------------------------------------------------------------
  // Names

  /** `word.charAt(0).toUpperCase() + word.slice(1)`. */
  function Capitalize(w: string): (r: string)
    ensures |r| == |w|
    ensures |w| > 0 ==> r[0] == UpperChar(w[0]) && r[1..] == w[1..]
    ensures ' ' in r <==> ' ' in w
  {
    if |w| == 0 then "" else [UpperChar(w[0])] + w[1..]
  }

  function CapitalizeAll(ws: seq<string>): (r: seq<string>)
    ensures |r| == |ws|
    ensures forall i :: 0 <= i < |ws| ==> r[i] == Capitalize(ws[i])
  {
    seq(|ws|, i requires 0 <= i < |ws| => Capitalize(ws[i]))
  }

  /** `formatComponentName`: the hyphen-separated segments, each with its
      first letter capitalised, joined by single spaces. */
  function FormatComponentName(name: string): string {
    Join(CapitalizeAll(Split(name, '-')), " ")
  }

  /** Splitting a text that contains no separator gives the text itself. */
  lemma {:induction false} SplitNoSeparator(s: string, sep: char)
    requires sep !in s
    ensures Split(s, sep) == [s]
    decreases |s|
  {
    if |s| > 0 {
      SplitNoSeparator(s[1..], sep);
      assert [s[0]] + s[1..] == s;
    }
  }

  lemma {:induction false} SplitAfterPiece(a: string, sep: char, b: string)
    requires sep !in a
    ensures Split(a + [sep] + b, sep) == [a] + Split(b, sep)
    decreases |a|
  {
    var s := a + [sep] + b;
    if |a| == 0 {
      assert s[1..] == b;
    } else {
      assert s[1..] == a[1..] + [sep] + b;
      SplitAfterPiece(a[1..], sep, b);
      assert [a[0]] + a[1..] == a;
    }
  }

  /** Joining pieces that do not contain the separator and splitting again
      gives the pieces back. */
  lemma {:induction false} SplitJoin(parts: seq<string>, sep: char)
    requires |parts| >= 1
    requires forall k :: 0 <= k < |parts| ==> sep !in parts[k]
    ensures Split(Join(parts, [sep]), sep) == parts
    decreases |parts|
  {
    if |parts| == 1 {
      SplitNoSeparator(parts[0], sep);
    } else {
      SplitJoin(parts[1..], sep);
      SplitAfterPiece(parts[0], sep, Join(parts[1..], [sep]));
      assert [parts[0]] + parts[1..] == parts;
    }
  }

  /** A folder name without spaces formats to one word per hyphen segment:
      splitting the display name at its spaces gives the capitalised
      segments. */
  lemma FormatComponentWords(name: string)
    requires ' ' !in name
    ensures Split(FormatComponentName(name), ' ') == CapitalizeAll(Split(name, '-'))
    ensures |Split(FormatComponentName(name), ' ')| == |Split(name, '-')|
  {
    var segments := Split(name, '-');
    forall k | 0 <= k < |segments|
      ensures ' ' !in segments[k]
    {
      SegmentOfName(name, k);
    }
    SplitJoin(CapitalizeAll(segments), ' ');
  }

  /** The characters of a segment of `s` are characters of `s`. */
  lemma {:induction false} SegmentOfName(s: string, k: nat)
    requires k < |Split(s, '-')|
    ensures forall c :: c in Split(s, '-')[k] ==> c in s
    decreases |s|
  {
    if |s| > 0 {
      var rest := Split(s[1..], '-');
      SegmentOfName(s[1..], if s[0] == '-' then (if k == 0 then 0 else k - 1) else (if k == 0 then 0 else k));
      if s[0] != '-' && k > 0 {
        SegmentOfName(s[1..], k);
      }
      if s[0] == '-' && k > 0 {
        SegmentOfName(s[1..], k - 1);
      }
    }
  }

  // ---------------------------------------------------------------------------
  // Categories

  const PATTERN_COMPONENTS: seq<string> := ["form", "menu", "layout", "grid", "space", "flex"]
  const FOUNDATION_COMPONENTS: seq<string> := ["icon", "typography", "config-provider"]

  /** `getComponentCategory`: the foundation list is consulted first, then
      the pattern list; a folder never maps to `templates`. */
  function CategoryOf(name: string): (r: ComponentCategory)
    ensures r == Foundations <==> ToLower(name) in FOUNDATION_COMPONENTS
    ensures r == Patterns <==> ToLower(name) in PATTERN_COMPONENTS
    ensures r == Components <==> ToLower(name) !in FOUNDATION_COMPONENTS + PATTERN_COMPONENTS
    ensures r != Templates
  {
    var lower := ToLower(name);
    if lower in FOUNDATION_COMPONENTS then Foundations
    else if lower in PATTERN_COMPONENTS then Patterns
    else Components
  }

  // ---------------------------------------------------------------------------
  // Usage count

  /** The fixed counts of the ten best-known components. */
  const POPULAR_COMPONENTS: map<string, int> :=
    map["button" := 5842, "input" := 4256, "table" := 3987, "form" := 3654, "select" := 3421,
        "modal" := 2987, "card" := 2756, "menu" := 2534, "icon" := 2321, "typography" := 2100]

  const TWO_32: int := 0x1_0000_0000

  /** `ToInt32`: the 32-bit two's-complement value congruent to `x`. */
  function Wrap32(x: int): (r: int)
    ensures -0x8000_0000 <= r < 0x8000_0000
    ensures (x - r) % TWO_32 == 0
  {
    var m := x % TWO_32;
    if m >= 0x8000_0000 then m - TWO_32 else m
  }

  /** One step of the name hash: `hash = ((hash << 5) - hash) + code`
      followed by `hash = hash & hash`. */
  function HashStep(h: int, code: int): int {
    Wrap32(Wrap32(h * 32) - h + code)
  }

  /** The hash of a name, one character (code point) at a time. */
  function NameHash(s: string): (h: int)
    ensures -0x8000_0000 <= h < 0x8000_0000
    decreases |s|
  {
    if |s| == 0 then 0 else HashStep(NameHash(s[..|s| - 1]), s[|s| - 1] as int)
  }

  /** Two numbers that differ by a multiple of 2^32 wrap to the same value. */
  lemma Wrap32Congruent(x: int, y: int, k: int)
    requires x == y + k * TWO_32
    ensures Wrap32(x) == Wrap32(y)
  {
    assert x % TWO_32 == y % TWO_32 by {
      var q := y / TWO_32;
      assert y == q * TWO_32 + y % TWO_32;
      assert x == (q + k) * TWO_32 + y % TWO_32;
    }
  }

  /** The step is the familiar `hash * 31 + code` in 32-bit arithmetic. */
  lemma HashStepIsTimes31(h: int, code: int)
    ensures HashStep(h, code) == Wrap32(31 * h + code)
  {
    var w := Wrap32(h * 32);
    var k := (h * 32 - w) / TWO_32;
    assert h * 32 - w == k * TWO_32;
    Wrap32Congruent(31 * h + code, w - h + code, k);
  }

  /** `x % d` on JavaScript numbers: the remainder takes the sign of `x`. */
  function TruncRem(x: int, d: int): (r: int)
    requires d > 0
    ensures -d < r < d
    ensures x >= 0 ==> r == x % d
    ensures x < 0 ==> r == -((-x) % d)
  {
    if x >= 0 then x % d else -((-x) % d)
  }

  function Abs(x: int): (r: int)
    ensures r >= 0 && (r == x || r == -x)
  {
    if x < 0 then -x else x
  }

  /** `generateUsageCount`: the table's count for a popular name (compared
      in lower case), otherwise `Math.abs(hash % 2000) + 100`. */
  function UsageCount(name: string): (r: int)
    ensures ToLower(name) in POPULAR_COMPONENTS ==> r == POPULAR_COMPONENTS[ToLower(name)]
    ensures ToLower(name) !in POPULAR_COMPONENTS ==> 100 <= r <= 2099
    ensures r >= 100
  {
    var lower := ToLower(name);
    if lower in POPULAR_COMPONENTS then POPULAR_COMPONENTS[lower]
    else Abs(TruncRem(NameHash(name), 2000)) + 100
  }

  /** `generateUsageCount`, with its hash loop. */
  method GenerateUsageCount(name: string) returns (count: int)
    ensures count == UsageCount(name)
    ensures count >= 100
  {
    var lower := ToLower(name);
    if lower in POPULAR_COMPONENTS {
      return POPULAR_COMPONENTS[lower];
    }
    var hash := 0;
    for i := 0 to |name|
      invariant hash == NameHash(name[..i])
    {
      assert name[..i + 1][..i] == name[..i];
      hash := Wrap32(hash * 32) - hash + name[i] as int;
      hash := Wrap32(hash);
    }
    assert name[..|name|] == name;
    count := Abs(TruncRem(hash, 2000)) + 100;
  }

  // ---------------------------------------------------------------------------
  // Tags

  /** `s.includes(w)` for some `w` of `words`. */
  predicate MentionsAny(s: string, words: seq<string>) {
    exists w :: w in words && Includes(s, w)
  }

  const INPUT_WORDS: seq<string> := ["input", "select", "picker"]
  const DATA_WORDS: seq<string> := ["table", "list", "tree"]
  const FEEDBACK_WORDS: seq<string> := ["modal", "drawer", "message"]
  const NAVIGATION_WORDS: seq<string> := ["menu", "breadcrumb", "pagination"]
  const INTERACTIVE_WORDS: seq<string> := ["button", "switch", "checkbox"]

  /** The family tags, in their fixed order, for the five keyword tests. */
  function FamilyTags(input: bool, data: bool, feedback: bool, navigation: bool, interactive: bool): (r: seq<string>)
    ensures |r| <= 6
    ensures "form" in r <==> input
    ensures "input" in r <==> input
    ensures "data-display" in r <==> data
    ensures "feedback" in r <==> feedback
    ensures "navigation" in r <==> navigation
    ensures "interactive" in r <==> interactive
    ensures forall t :: t in r ==> t in ["form", "input", "data-display", "feedback", "navigation", "interactive"]
  {
    assert |"form"| == 4 && |"input"| == 5 && |"data-display"| == 12;
    assert |"feedback"| == 8 && |"navigation"| == 10 && |"interactive"| == 11;
    OptionalFamilies("form", "input", "data-display", "feedback", "navigation", "interactive",
                     input, data, feedback, navigation, interactive);
    Optional(input, ["form", "input"]) + Optional(data, ["data-display"]) + Optional(feedback, ["feedback"])
    + Optional(navigation, ["navigation"]) + Optional(interactive, ["interactive"])
  }

  /** Membership in a list of optional blocks of pairwise distinct tags. */
  lemma {:induction false} OptionalFamilies<T(!new)>(a: T, b: T, c: T, d: T, e: T, f: T,
                                                    pab: bool, pc: bool, pd: bool, pe: bool, pf: bool)
    requires a != b && a != c && a != d && a != e && a != f
    requires b != c && b != d && b != e && b != f
    requires c != d && c != e && c != f && d != e && d != f && e != f
    ensures var s := Optional(pab, [a, b]) + Optional(pc, [c]) + Optional(pd, [d]) + Optional(pe, [e]) + Optional(pf, [f]);
            && (a in s <==> pab) && (b in s <==> pab) && (c in s <==> pc) && (d in s <==> pd)
            && (e in s <==> pe) && (f in s <==> pf)
  {
  }

  /** A block of tags pushed only when its condition holds. */
  function Optional<T(!new)>(present: bool, tags: seq<T>): (r: seq<T>)
    ensures |r| <= |tags|
    ensures forall t :: t in r <==> present && t in tags
  {
    if present then tags else []
  }

  /** `generateTags`: the family tags the lower-cased name suggests, in a
      fixed order, then the lower-cased name itself. The list is never
      empty, so the `['component']` fallback is never taken. */
  function GenerateTags(name: string): (r: seq<string>)
    ensures |r| >= 1 && r[|r| - 1] == ToLower(name)
    ensures |r| <= 7
    ensures var lower := ToLower(name); var families := r[..|r| - 1];
            && ("form" in families <==> MentionsAny(lower, INPUT_WORDS))
            && ("input" in families <==> MentionsAny(lower, INPUT_WORDS))
            && ("data-display" in families <==> MentionsAny(lower, DATA_WORDS))
            && ("feedback" in families <==> MentionsAny(lower, FEEDBACK_WORDS))
            && ("navigation" in families <==> MentionsAny(lower, NAVIGATION_WORDS))
            && ("interactive" in families <==> MentionsAny(lower, INTERACTIVE_WORDS))
            && forall t :: t in families ==> t in ["form", "input", "data-display", "feedback", "navigation", "interactive"]
  {
    var lower := ToLower(name);
    var families := FamilyTags(MentionsAny(lower, INPUT_WORDS), MentionsAny(lower, DATA_WORDS),
                               MentionsAny(lower, FEEDBACK_WORDS), MentionsAny(lower, NAVIGATION_WORDS),
                               MentionsAny(lower, INTERACTIVE_WORDS));
    var tags := families + [lower];
    SnocPrefix(families, lower);
    if |tags| > 0 then tags else ["component"]
  }

  // ---------------------------------------------------------------------------
  // Design components

  const DEPRECATED_COMPONENTS: seq<string> := ["mention", "back-top"]
  const FALLBACK_VERSION: string := "5.0.0"

  /** The version every mapped component carries: the first release's tag
      with its first `v` removed, or `5.0.0` when there is no release or
      nothing is left. */
  function LatestVersion(releases: seq<GitHubRelease>): (r: string)
    ensures r != ""
    ensures |releases| == 0 ==> r == FALLBACK_VERSION
    ensures |releases| > 0 && 'v' !in releases[0].tagName && releases[0].tagName != "" ==> r == releases[0].tagName
    ensures |releases| > 0 && |releases[0].tagName| > 1 && releases[0].tagName[0] == 'v' ==> r == releases[0].tagName[1..]
    ensures |releases| > 0 && releases[0].tagName == "v" ==> r == FALLBACK_VERSION
  {
    if |releases| == 0 then FALLBACK_VERSION
    else
      var v := RemoveFirst(releases[0].tagName, "v");
      NoV(releases[0].tagName);
      if v == "" then FALLBACK_VERSION else v
  }

  /** A text without the letter `v` does not contain "v". */
  lemma {:induction false} NoV(s: string)
    ensures 'v' !in s ==> !Includes(s, "v")
    decreases |s|
  {
    if |s| > 0 && 'v' !in s {
      assert s[0] != 'v';
      NoV(s[1..]);
    }
  }

  /** The date part of the first release's publication time, or `today`
      when there is none. */
  function LastUpdated(releases: seq<GitHubRelease>, today: string): (r: string)
    ensures r == today || (|releases| > 0 && releases[0].publishedAt.Some? && r != "" && 'T' !in r
                           && |r| <= |releases[0].publishedAt.value| && r == releases[0].publishedAt.value[..|r|])
    ensures |releases| == 0 || releases[0].publishedAt.None? ==> r == today
    ensures |releases| > 0 && releases[0].publishedAt.Some? ==>
              var p := releases[0].publishedAt.value;
              if p == "" || p[0] == 'T' then r == today
              else r != "" && |r| <= |p| && r == p[..|r|] && 'T' !in r && (|r| == |p| || p[|r|] == 'T')
  {
    if |releases| > 0 && releases[0].publishedAt.Some? && releases[0].publishedAt.value != "" then
      var datePart := BeforeFirst(releases[0].publishedAt.value, 'T');
      if datePart != "" then datePart else today
    else today
  }

  /** A component's status: deprecated for the two retired folders,
      otherwise beta below 200 uses, otherwise stable. */
  function StatusOf(name: string, usage: int): (r: ComponentStatus)
    ensures r == Deprecated <==> ToLower(name) in DEPRECATED_COMPONENTS
    ensures r == Beta <==> ToLower(name) !in DEPRECATED_COMPONENTS && usage < 200
    ensures r == Stable <==> ToLower(name) !in DEPRECATED_COMPONENTS && usage >= 200
  {
    var status := if usage < 200 then Beta else Stable;
    if ToLower(name) in DEPRECATED_COMPONENTS then Deprecated else status
  }

  /** `needsUpdate`: the first character's code is a multiple of five; an
      empty name gives `NaN % 5 === 0`, which is false. */
  function NeedsUpdate(name: string): (b: bool)
    ensures b ==> |name| > 0
  {
    |name| > 0 && (name[0] as int) % 5 == 0
  }

  /** One folder as a design component. */
  function ToComponent(item: GitHubContent, version: string, lastUpdated: string): (c: DesignComponent)
    ensures c.id == "antd-" + item.name
    ensures c.usageCount == UsageCount(item.name) && c.usageCount >= 100
    ensures c.status == StatusOf(item.name, c.usageCount)
    ensures c.category == CategoryOf(item.name) && c.platforms == [Web]
    ensures c.name == FormatComponentName(item.name)
    ensures c.version == version && c.lastUpdated == lastUpdated
  {
    var usage := UsageCount(item.name);
    DesignComponent(
      "antd-" + item.name,
      FormatComponentName(item.name),
      "Ant Design " + FormatComponentName(item.name) + " component",
      CategoryOf(item.name),
      version,
      StatusOf(item.name, usage),
      [Web],
      lastUpdated,
      usage,
      NeedsUpdate(item.name),
      None,
      GenerateTags(item.name))
  }

  function UsageOf(c: DesignComponent): int {
    c.usageCount
  }

  /** Every folder mapped, in input order. */
  function ComponentsInOrder(items: seq<GitHubContent>, releases: seq<GitHubRelease>, today: string): (r: seq<DesignComponent>)
    ensures |r| == |items|
    ensures forall i :: 0 <= i < |items| ==> r[i] == ToComponent(items[i], LatestVersion(releases), LastUpdated(releases, today))
  {
    seq(|items|, i requires 0 <= i < |items| =>
      ToComponent(items[i], LatestVersion(releases), LastUpdated(releases, today)))
  }

  /** `mapToDesignComponents`: every folder mapped, most used first (equal
      counts keep their input order). */
  function MapToDesignComponents(items: seq<GitHubContent>, releases: seq<GitHubRelease>, today: string)
    : (r: seq<DesignComponent>)
    ensures |r| == |items|
    ensures SortedDesc(r, UsageOf)
    ensures multiset(r) == multiset(ComponentsInOrder(items, releases, today))
    ensures forall c :: c in r ==>
              exists i :: 0 <= i < |items| && c == ToComponent(items[i], LatestVersion(releases), LastUpdated(releases, today))
  {
    SortedFromItems(items, releases, today);
    SortDesc(ComponentsInOrder(items, releases, today), UsageOf)
  }

  /** Each sorted component is made from one of the folders. */
  lemma SortedFromItems(items: seq<GitHubContent>, releases: seq<GitHubRelease>, today: string)
    ensures forall c :: c in SortDesc(ComponentsInOrder(items, releases, today), UsageOf) ==>
              exists i :: 0 <= i < |items| && c == ToComponent(items[i], LatestVersion(releases), LastUpdated(releases, today))
  {
    var mapped := ComponentsInOrder(items, releases, today);
    var sorted := SortDesc(mapped, UsageOf);
    forall c | c in sorted
      ensures exists i :: 0 <= i < |items| && c == ToComponent(items[i], LatestVersion(releases), LastUpdated(releases, today))
    {
      var k :| 0 <= k < |sorted| && sorted[k] == c;
      var j := PermutedIndex(sorted, mapped, k);
      assert mapped[j] == ToComponent(items[j], LatestVersion(releases), LastUpdated(releases, today));
    }
  }

  function IdOf(c: DesignComponent): string {
    c.id
  }

  /** The id names the folder it was made from. */
  lemma IdNamesFolder(a: string, b: string)
    requires "antd-" + a == "antd-" + b
    ensures a == b
  {
    assert a == ("antd-" + a)[5..];
  }

  /** Mapping keeps distinct folder names apart, before sorting. */
  lemma InOrderIdsDistinct(items: seq<GitHubContent>, releases: seq<GitHubRelease>, today: string)
    requires forall i, j :: 0 <= i < j < |items| ==> items[i].name != items[j].name
    ensures forall i, j :: 0 <= i < j < |items| ==>
              ComponentsInOrder(items, releases, today)[i].id != ComponentsInOrder(items, releases, today)[j].id
  {
    var mapped := ComponentsInOrder(items, releases, today);
    forall i, j | 0 <= i < j < |items|
      ensures mapped[i].id != mapped[j].id
    {
      if mapped[i].id == mapped[j].id {
        IdNamesFolder(items[i].name, items[j].name);
      }
    }
  }

  /** Folders with distinct names give components with distinct ids. */
  lemma DesignComponentIdsDistinct(items: seq<GitHubContent>, releases: seq<GitHubRelease>, today: string)
    requires forall i, j :: 0 <= i < j < |items| ==> items[i].name != items[j].name
    ensures var r := MapToDesignComponents(items, releases, today);
            forall i, j :: 0 <= i < j < |r| ==> r[i].id != r[j].id
  {
    var mapped := ComponentsInOrder(items, releases, today);
    var r := MapToDesignComponents(items, releases, today);
    InOrderIdsDistinct(items, releases, today);
    var ids := MapSeq(mapped, IdOf);
    assert Distinct(ids);
    var sortedIds := MapSeq(r, IdOf);
    MapPermutation(r, mapped, IdOf);
    DistinctPermutation(sortedIds, ids);
    forall i, j | 0 <= i < j < |r|
      ensures r[i].id != r[j].id
    {
      assert sortedIds[i] == r[i].id && sortedIds[j] == r[j].id;
    }
  }

  // ---------------------------------------------------------------------------
  // Usage metrics

  /** `getDay()` of a day counted from 1970-01-01 (a Thursday): 0 is Sunday. */
  function WeekDay(day: int): (r: int)
    ensures 0 <= r < 7
  {
    (day + 4) % 7
  }

  /** `setDate(getDate() - getDay() + 1)`: the Monday of the day's week, a
      Sunday counting as the day before the next Monday. */
  function WeekStart(day: int): int {
    day - WeekDay(day) + 1
  }

  /** The week start is a Monday: at most five days back for Monday to
      Saturday, and the next day for a Sunday. */
  lemma WeekStartIsMonday(day: int)
    ensures WeekDay(WeekStart(day)) == 1
    ensures WeekDay(day) == 0 ==> WeekStart(day) == day + 1
    ensures WeekDay(day) != 0 ==> day - 5 <= WeekStart(day) <= day
  {
    var w := WeekDay(day);
    assert day + 4 == ((day + 4) / 7) * 7 + w;
    assert WeekStart(day) + 4 == ((day + 4) / 7) * 7 + 1;
  }

  /** The Sunday before a Monday and that Monday to Saturday share their
      week start, the Monday itself. */
  lemma WeekStartShared(monday: int, k: int)
    requires WeekDay(monday) == 1 && -1 <= k <= 5
    ensures WeekStart(monday + k) == monday
  {
    assert monday + 4 == ((monday + 4) / 7) * 7 + 1;
    assert monday + k + 4 == ((monday + 4) / 7) * 7 + 1 + k;
    if k == -1 {
      assert WeekDay(monday + k) == 0;
    } else {
      assert WeekDay(monday + k) == 1 + k;
    }
  }

  function WeekOf(d: NpmDailyDownload): int {
    WeekStart(d.day)
  }

  function AddDownloads(total: int, d: NpmDailyDownload): int {
    total + d.downloads
  }

  function DownloadsOf(d: NpmDailyDownload): int {
    d.downloads
  }

  /** Adding the downloads one by one is their sum. */
  lemma {:induction false} FoldDownloads(g: seq<NpmDailyDownload>)
    ensures FoldOver(g, 0, AddDownloads) == SumOf(g, DownloadsOf)
    decreases |g|
  {
    if |g| > 0 {
      FoldDownloads(g[..|g| - 1]);
    }
  }

  /** A chart point: the Monday (a day number standing for its ISO date
      text) and the downloads of its week. */
  datatype WeekMetric = WeekMetric(weekStart: int, value: int)

  function ToMetric(e: (int, int)): WeekMetric {
    WeekMetric(e.0, e.1)
  }

  function MetricDate(m: WeekMetric): int {
    m.weekStart
  }

  /** The weekly record the source builds: one entry per week start, in
      order of first appearance. */
  function WeeklyTotals(days: seq<NpmDailyDownload>): seq<(int, int)> {
    Tallied(days, WeekOf, 0, AddDownloads)
  }

  /** The chart series: the weekly record sorted by date. */
  function UsageMetrics(days: seq<NpmDailyDownload>): seq<WeekMetric> {
    SortAsc(MapSeq(WeeklyTotals(days), ToMetric), MetricDate)
  }

  /** `mapToUsageMetrics`: sums the downloads per week into a record, then
      lists the record's entries by date. */
  method MapToUsageMetrics(range: NpmDownloadRange) returns (metrics: seq<WeekMetric>)
    ensures metrics == UsageMetrics(range.downloads)
  {
    var days := range.downloads;
    var weekly: seq<(int, int)> := [];
    for i := 0 to |days|
      invariant weekly == Tallied(days[..i], WeekOf, 0, AddDownloads)
    {
      var weekKey := WeekStart(days[i].day);
      TalliedStep(days, i, WeekOf, 0, AddDownloads);
      weekly := Upsert(weekly, weekKey, days[i], 0, AddDownloads);
    }
    assert days[..|days|] == days;
    metrics := SortAsc(MapSeq(weekly, ToMetric), MetricDate);
  }

  /** The entries of the series are those of the weekly record. */
  lemma UsageMetricsEntries(days: seq<NpmDailyDownload>, i: nat)
    requires i < |UsageMetrics(days)|
    ensures exists j :: 0 <= j < |FirstKeys(days, WeekOf)| && UsageMetrics(days)[i].weekStart == FirstKeys(days, WeekOf)[j]
              && UsageMetrics(days)[i].value == FoldOver(Group(days, WeekOf, FirstKeys(days, WeekOf)[j]), 0, AddDownloads)
  {
    var unsorted := MapSeq(WeeklyTotals(days), ToMetric);
    var j := PermutedIndex(UsageMetrics(days), unsorted, i);
    assert unsorted[j] == ToMetric(WeeklyTotals(days)[j]);
  }

  /** The series is strictly increasing in date, one point per week. */
  lemma UsageMetricsAscending(days: seq<NpmDailyDownload>)
    ensures |UsageMetrics(days)| == |FirstKeys(days, WeekOf)|
    ensures forall i, j :: 0 <= i < j < |UsageMetrics(days)| ==> UsageMetrics(days)[i].weekStart < UsageMetrics(days)[j].weekStart
  {
    var unsorted := MapSeq(WeeklyTotals(days), ToMetric);
    var r := UsageMetrics(days);
    var keys := FirstKeys(days, WeekOf);
    assert MapSeq(unsorted, MetricDate) == keys;
    MapPermutation(r, unsorted, MetricDate);
    DistinctPermutation(MapSeq(r, MetricDate), keys);
    forall i, j | 0 <= i < j < |r|
      ensures r[i].weekStart < r[j].weekStart
    {
      assert MapSeq(r, MetricDate)[i] != MapSeq(r, MetricDate)[j];
    }
  }

  /** Every point is dated on a Monday and holds exactly the downloads of
      the days whose week starts on that date. */
  lemma UsageMetricsValues(days: seq<NpmDailyDownload>, i: nat)
    requires i < |UsageMetrics(days)|
    ensures WeekDay(UsageMetrics(days)[i].weekStart) == 1
    ensures UsageMetrics(days)[i].value == SumOf(Group(days, WeekOf, UsageMetrics(days)[i].weekStart), DownloadsOf)
  {
    var keys := FirstKeys(days, WeekOf);
    UsageMetricsEntries(days, i);
    var j :| 0 <= j < |keys| && UsageMetrics(days)[i].weekStart == keys[j]
              && UsageMetrics(days)[i].value == FoldOver(Group(days, WeekOf, keys[j]), 0, AddDownloads);
    WeekKeyIsMonday(days, j);
    FoldDownloads(Group(days, WeekOf, keys[j]));
  }

  function ValueOf(m: WeekMetric): int {
    m.value
  }

  function WeekTotalOf(e: (int, int)): int {
    e.1
  }

  /** Adding one day to the weekly record adds its downloads to the sum. */
  lemma UpsertSum(entries: seq<(int, int)>, k: int, d: NpmDailyDownload)
    ensures SumOf(Upsert(entries, k, d, 0, AddDownloads), WeekTotalOf) == SumOf(entries, WeekTotalOf) + d.downloads
  {
    match FindIndex(EntryIs(k), entries)
    case Some(i) =>
      SumUpdate(entries, i, (k, AddDownloads(entries[i].1, d)), WeekTotalOf);
    case None =>
      SumConcat(entries, [(k, AddDownloads(0, d))], WeekTotalOf);
      assert SumOf([(k, AddDownloads(0, d))], WeekTotalOf) == d.downloads;
  }

  /** The weekly record holds every download once: its totals add up to
      the downloads of all the days. */
  lemma {:induction false} WeeklyTotalsSum(days: seq<NpmDailyDownload>)
    ensures SumOf(WeeklyTotals(days), WeekTotalOf) == SumOf(days, DownloadsOf)
    decreases |days|
  {
    if |days| > 0 {
      var n := |days| - 1;
      WeeklyTotalsSum(days[..n]);
      TalliedStep(days, n, WeekOf, 0, AddDownloads);
      assert days[..n + 1] == days;
      UpsertSum(WeeklyTotals(days[..n]), WeekOf(days[n]), days[n]);
    }
  }

  /** Turning the record's entries into chart points keeps their sum. */
  lemma {:induction false} MetricsSum(w: seq<(int, int)>)
    ensures SumOf(MapSeq(w, ToMetric), ValueOf) == SumOf(w, WeekTotalOf)
    decreases |w|
  {
    if |w| > 0 {
      var n := |w| - 1;
      assert MapSeq(w, ToMetric)[..n] == MapSeq(w[..n], ToMetric);
      MetricsSum(w[..n]);
    }
  }

  /** The chart loses and duplicates no download: its points add up to the
      downloads of all the days. */
  lemma UsageMetricsTotal(days: seq<NpmDailyDownload>)
    ensures SumOf(UsageMetrics(days), ValueOf) == SumOf(days, DownloadsOf)
  {
    var unsorted := MapSeq(WeeklyTotals(days), ToMetric);
    SumPermutation(UsageMetrics(days), unsorted, ValueOf);
    MetricsSum(WeeklyTotals(days));
    WeeklyTotalsSum(days);
  }

  /** Every week on the chart starts on a Monday. */
  lemma {:induction false} WeekKeyIsMonday(days: seq<NpmDailyDownload>, j: nat)
    requires j < |FirstKeys(days, WeekOf)|
    ensures WeekDay(FirstKeys(days, WeekOf)[j]) == 1
  {
    var keys := FirstKeys(days, WeekOf);
    assert keys[j] in keys;
    var k :| 0 <= k < |days| && WeekOf(days[k]) == keys[j];
    WeekStartIsMonday(days[k].day);
  }

  /** Every day's week is on the chart. */
  lemma UsageMetricsCover(days: seq<NpmDailyDownload>, d: NpmDailyDownload)
    requires d in days
    ensures exists i :: 0 <= i < |UsageMetrics(days)| && UsageMetrics(days)[i].weekStart == WeekStart(d.day)
  {
    var unsorted := MapSeq(WeeklyTotals(days), ToMetric);
    var r := UsageMetrics(days);
    var keys := FirstKeys(days, WeekOf);
    MultisetMembers(r, unsorted);
    var k :| 0 <= k < |days| && days[k] == d;
    assert WeekOf(days[k]) in keys;
    var j :| 0 <= j < |keys| && keys[j] == WeekOf(d);
    assert unsorted[j] in r;
  }

  // ---------------------------------------------------------------------------
  // Component usage, summary and version history

  /** `(name.charCodeAt(0) % 10) - 3`; `None` is the `NaN` of an empty name. */
  function Trend(name: string): (r: Option<int>)
    ensures r.None? <==> name == ""
    ensures r.Some? ==> -3 <= r.value <= 6
  {
    if name == "" then None else Some((name[0] as int) % 10 - 3)
  }

  function ToUsage(c: DesignComponent): ComponentUsage {
    ComponentUsage(c.id, c.name, c.usageCount, Trend(c.name))
  }

  /** `mapToComponentUsage`: the first ten components, in order. */
  function MapToComponentUsage(components: seq<DesignComponent>): (r: seq<ComponentUsage>)
    ensures |r| == if |components| < 10 then |components| else 10
    ensures forall i :: 0 <= i < |r| ==>
              r[i].componentId == components[i].id && r[i].componentName == components[i].name
              && r[i].usageCount == components[i].usageCount && r[i].trend == Trend(components[i].name)
  {
    MapSeq(Take(components, 10), ToUsage)
  }

  /** The dashboard figures `mapToAnalyticsStats` derives. */
  datatype AnalyticsSummary = AnalyticsSummary(
    totalComponents: int,
    adoptionRate: int,
    activeProjects: int,
    totalInstances: int,
    issuesResolved: int,
    stars: int,
    forks: int,
    latestVersion: string,
    totalVersions: int,
    weeklyDownloads: int)

  const ADOPTION_RATE: int := 84
  const DOWNLOADS_PER_PROJECT: int := 100000

  /** `mapToAnalyticsStats`: active projects are one per hundred thousand
      monthly downloads, rounded down; the rest is copied. */
  function MapToAnalyticsStats(repo: GitHubRepoInfo, downloads: NpmDownloadPoint, pkg: NpmPackageInfo,
                               componentsCount: int): (r: AnalyticsSummary)
    ensures r.activeProjects * DOWNLOADS_PER_PROJECT <= downloads.downloads < (r.activeProjects + 1) * DOWNLOADS_PER_PROJECT
    ensures r.totalInstances == downloads.downloads && r.weeklyDownloads == downloads.downloads
    ensures r.totalVersions == |pkg.versions| && r.latestVersion == pkg.latest
    ensures r.stars == repo.stars && r.forks == repo.forks && r.issuesResolved == repo.openIssues
    ensures r.totalComponents == componentsCount && r.adoptionRate == ADOPTION_RATE
  {
    AnalyticsSummary(componentsCount, ADOPTION_RATE, downloads.downloads / DOWNLOADS_PER_PROJECT, downloads.downloads,
                     repo.openIssues, repo.stars, repo.forks, pkg.latest, |pkg.versions|, downloads.downloads)
  }

  datatype VersionEntry = VersionEntry(version: string, date: string, name: string, isPrerelease: bool, author: string)

  /** One release as a history entry: the date part of the publication
      time (empty when there is none) and the tag when the name is empty. */
  function ToVersionEntry(r: GitHubRelease): (e: VersionEntry)
    ensures e.version == r.tagName && e.isPrerelease == r.prerelease && e.author == r.author.login
    ensures e.name == if r.name == "" then r.tagName else r.name
    ensures r.publishedAt.None? ==> e.date == ""
    ensures r.publishedAt.Some? ==> |e.date| <= |r.publishedAt.value| && e.date == r.publishedAt.value[..|e.date|] && 'T' !in e.date
    ensures r.publishedAt.Some? ==> |e.date| == |r.publishedAt.value| || r.publishedAt.value[|e.date|] == 'T'
  {
    VersionEntry(r.tagName,
                 if r.publishedAt.Some? then BeforeFirst(r.publishedAt.value, 'T') else "",
                 if r.name == "" then r.tagName else r.name,
                 r.prerelease,
                 r.author.login)
  }

  /** `mapToVersionHistory`: every release, in order. */
  function MapToVersionHistory(releases: seq<GitHubRelease>): (r: seq<VersionEntry>)
    ensures |r| == |releases|
    ensures forall i :: 0 <= i < |r| ==> r[i] == ToVersionEntry(releases[i])
  {
    MapSeq(releases, ToVersionEntry)
  }

  // ---------------------------------------------------------------------------
  // Audit issues

  function LowerName(l: GitHubLabel): string {
    ToLower(l.name)
  }

  /** The label names, lower-cased. */
  function LabelNames(labels: seq<GitHubLabel>): (r: seq<string>)
    ensures |r| == |labels|
    ensures forall i :: 0 <= i < |r| ==> r[i] == ToLower(labels[i].name)
  {
    MapSeq(labels, LowerName)
  }

  /** `labelNames.some(l => words.some(w => l.includes(w)))`. */
  predicate AnyMentions(names: seq<string>, words: seq<string>) {
    exists l :: l in names && MentionsAny(l, words)
  }

  const CRITICAL_WORDS: seq<string> := ["critical", "blocker", "p0"]
  const HIGH_WORDS: seq<string> := ["high", "p1", "major"]

  /** The severity the labels suggest; `critical` wins over `high`. */
  function SeverityOf(names: seq<string>): (r: IssueSeverity)
    ensures r == Critical <==> AnyMentions(names, CRITICAL_WORDS)
    ensures r == High <==> !AnyMentions(names, CRITICAL_WORDS) && AnyMentions(names, HIGH_WORDS)
    ensures r == Medium <==> !AnyMentions(names, CRITICAL_WORDS) && !AnyMentions(names, HIGH_WORDS)
  {
    if AnyMentions(names, CRITICAL_WORDS) then Critical
    else if AnyMentions(names, HIGH_WORDS) then High
    else Medium
  }

  const STYLE_WORDS: seq<string> := ["style", "css"]
  const TYPE_WORDS: seq<string> := ["typescript", "type"]
  const A11Y_WORDS: seq<string> := ["a11y", "accessibility"]
  const DOCS_WORDS: seq<string> := ["docs", "documentation"]
  const EASY_WORDS: seq<string> := ["good first issue", "easy"]

  /** The issue type the labels suggest, first match in a fixed order. */
  function IssueKind(names: seq<string>): (r: string)
    ensures r == "Style Issue" <==> AnyMentions(names, STYLE_WORDS)
    ensures r == "Type Definition" <==> !AnyMentions(names, STYLE_WORDS) && AnyMentions(names, TYPE_WORDS)
    ensures r == "Accessibility" <==>
              !AnyMentions(names, STYLE_WORDS) && !AnyMentions(names, TYPE_WORDS) && AnyMentions(names, A11Y_WORDS)
    ensures r == "Documentation" <==>
              !AnyMentions(names, STYLE_WORDS) && !AnyMentions(names, TYPE_WORDS) && !AnyMentions(names, A11Y_WORDS)
              && AnyMentions(names, DOCS_WORDS)
    ensures r == "Bug Report" <==>
              !AnyMentions(names, STYLE_WORDS) && !AnyMentions(names, TYPE_WORDS) && !AnyMentions(names, A11Y_WORDS)
              && !AnyMentions(names, DOCS_WORDS)
  {
    if AnyMentions(names, STYLE_WORDS) then "Style Issue"
    else if AnyMentions(names, TYPE_WORDS) then "Type Definition"
    else if AnyMentions(names, A11Y_WORDS) then "Accessibility"
    else if AnyMentions(names, DOCS_WORDS) then "Documentation"
    else "Bug Report"
  }

  predicate IsComponentLabel(l: GitHubLabel) {
    StartsWith(ToLower(l.name), "component:")
  }

  /** The component an issue's labels name: the first label starting with
      `component:` in any case, with the first `Component:` and then the
      first `component:` removed and the result trimmed; `General` when no
      label qualifies. */
  function ComponentOfLabels(labels: seq<GitHubLabel>): (r: string)
    ensures FindIndex(IsComponentLabel, labels).None? ==> r == "General"
    ensures FindIndex(IsComponentLabel, labels).Some? ==>
              r == Trim(RemoveFirst(RemoveFirst(labels[FindIndex(IsComponentLabel, labels).value].name, "Component:"), "component:"))
  {
    match FindIndex(IsComponentLabel, labels)
    case None => "General"
    case Some(i) => Trim(RemoveFirst(RemoveFirst(labels[i].name, "Component:"), "component:"))
  }

  /** A title longer than `limit` is cut to `limit - 3` characters plus an
      ellipsis, so it is exactly `limit` long. */
  function ShortTitle(title: string, limit: nat): (r: string)
    requires limit >= 3
    ensures |title| <= limit ==> r == title
    ensures |title| > limit ==> |r| == limit && r[..limit - 3] == title[..limit - 3] && r[limit - 3..] == "..."
    ensures |r| <= limit
  {
    if |title| > limit then title[..limit - 3] + "..." else title
  }

  const NO_DESCRIPTION: string := "No description provided"

  /** `body?.substring(0, n) || 'No description provided'`. */
  function Describe(body: Option<string>, n: nat): (r: string)
    ensures r != ""
    ensures r == NO_DESCRIPTION || (body.Some? && |r| <= n && |r| <= |body.value| && r == body.value[..|r|])
    ensures body.Some? && body.value != "" && n > 0 ==> r == Take(body.value, n)
  {
    if body.Some? && Take(body.value, n) != "" then Take(body.value, n) else NO_DESCRIPTION
  }

  function LabelName(l: GitHubLabel): string {
    l.name
  }

  /** The first three label names joined by commas, or `No labels`. */
  function Frame(labels: seq<GitHubLabel>): (r: string)
    ensures r != ""
    ensures |labels| == 0 ==> r == "No labels"
    ensures |labels| == 1 ==> r == if labels[0].name != "" then labels[0].name else "No labels"
    ensures |labels| > 0 && labels[0].name != "" ==> StartsWith(r, labels[0].name)
  {
    var joined := Join(MapSeq(Take(labels, 3), LabelName), ", ");
    if joined != "" then joined else "No labels"
  }

  const ISSUES_URL: string := "github.com/ant-design/ant-design/issues/"

  /** One bug report as an audit finding. */
  function ToAuditIssue(issue: GitHubIssue): (a: AuditIssue)
    ensures a.id == "gh-" + IntToString(issue.number)
    ensures a.severity == SeverityOf(LabelNames(issue.labels))
    ensures a.issueType == IssueKind(LabelNames(issue.labels))
    ensures a.title == ShortTitle(issue.title, 80) && |a.title| <= 80
    ensures a.autoFixable <==> AnyMentions(LabelNames(issue.labels), EASY_WORDS)
    ensures a.location.file == ComponentOfLabels(issue.labels) + " Component"
    ensures !a.fixed && a.screenshot.None?
  {
    var names := LabelNames(issue.labels);
    AuditIssue(
      "gh-" + IntToString(issue.number),
      SeverityOf(names),
      IssueKind(names),
      ShortTitle(issue.title, 80),
      Describe(issue.body, 200),
      IssueLocation(ComponentOfLabels(issue.labels) + " Component",
                    "GitHub Issue #" + IntToString(issue.number),
                    Frame(issue.labels)),
      "View full issue: " + ISSUES_URL + IntToString(issue.number),
      AnyMentions(names, EASY_WORDS),
      None,
      false)
  }

  /** `mapToAuditIssues`: every bug report, in order, none fixed. */
  function MapToAuditIssues(issues: seq<GitHubIssue>): (r: seq<AuditIssue>)
    ensures |r| == |issues|
    ensures forall i :: 0 <= i < |r| ==> r[i] == ToAuditIssue(issues[i]) && !r[i].fixed
  {
    MapSeq(issues, ToAuditIssue)
  }

  /** Distinct issue numbers give distinct finding ids. */
  lemma AuditIssueIdsDistinct(issues: seq<GitHubIssue>)
    requires forall i, j :: 0 <= i < j < |issues| ==> issues[i].number != issues[j].number
    ensures Distinct(MapSeq(MapToAuditIssues(issues), AuditIdOf))
  {
    var r := MapToAuditIssues(issues);
    forall i, j | 0 <= i < j < |r|
      ensures r[i].id != r[j].id
    {
      if r[i].id == r[j].id {
        assert IntToString(issues[i].number) == r[i].id[3..];
        assert IntToString(issues[j].number) == r[j].id[3..];
        IntToStringInjective(issues[i].number, issues[j].number);
      }
    }
  }

  function AuditIdOf(a: AuditIssue): string {
    a.id
  }

  // ---------------------------------------------------------------------------
  // Audit projects

  predicate IsGroupLabel(l: GitHubLabel) {
    StartsWith(ToLower(l.name), "component:") || StartsWith(ToLower(l.name), "comp:")
  }

  /** The group of an issue: the first label starting with `component:` or
      `comp:` in any case, with that prefix cut off and the rest trimmed;
      `Other` when no label qualifies. */
  function ProjectGroup(issue: GitHubIssue): (r: string)
    ensures FindIndex(IsGroupLabel, issue.labels).None? ==> r == "Other"
    ensures FindIndex(IsGroupLabel, issue.labels).Some? ==>
              var name := issue.labels[FindIndex(IsGroupLabel, issue.labels).value].name;
              (StartsWith(ToLower(name), "component:") ==> r == Trim(name[10..]))
              && (!StartsWith(ToLower(name), "component:") ==> r == Trim(name[5..]))
  {
    match FindIndex(IsGroupLabel, issue.labels)
    case None => "Other"
    case Some(i) =>
      var name := issue.labels[i].name;
      if StartsWith(ToLower(name), "component:") then Trim(name[10..]) else Trim(name[5..])
  }

  function PushIssue(group: seq<GitHubIssue>, issue: GitHubIssue): seq<GitHubIssue> {
    group + [issue]
  }

  /** Pushing the elements one by one rebuilds the list. */
  lemma {:induction false} FoldPush(g: seq<GitHubIssue>)
    ensures FoldOver(g, [], PushIssue) == g
    decreases |g|
  {
    if |g| > 0 {
      FoldPush(g[..|g| - 1]);
      assert g == g[..|g| - 1] + [g[|g| - 1]];
    }
  }

  /** The grouping record: each group with its issues, groups in order of
      first appearance. */
  function ProjectGroups(issues: seq<GitHubIssue>): seq<(string, seq<GitHubIssue>)> {
    Tallied(issues, ProjectGroup, [], PushIssue)
  }

  /** `Math.max(100 - n * 5, 50)`. */
  function Coverage(n: int): (r: int)
    ensures r >= 50 && r >= 100 - 5 * n
    ensures r == 50 || r == 100 - 5 * n
  {
    if 100 - n * 5 > 50 then 100 - n * 5 else 50
  }

  /** The audit date of a group: the date part of its first issue's update
      time, or `today` for an empty one. */
  function LastAudit(members: seq<GitHubIssue>, today: string): string {
    if |members| == 0 || members[0].updatedAt == "" then today else BeforeFirst(members[0].updatedAt, 'T')
  }

  /** The `index`-th group as a project. */
  function ToProject(index: nat, group: (string, seq<GitHubIssue>), today: string): (p: AuditProject)
    ensures p.id == "proj-" + NatToString(index + 1)
    ensures p.issues == |group.1| && p.coverage == Coverage(|group.1|)
    ensures p.name == FormatComponentName(group.0)
  {
    AuditProject("proj-" + NatToString(index + 1), FormatComponentName(group.0), Coverage(|group.1|), |group.1|,
                 LastAudit(group.1, today))
  }

  function IssuesOf(p: AuditProject): int {
    p.issues
  }

  function ProjectIdOf(p: AuditProject): string {
    p.id
  }

  /** The projects in record order. */
  function ProjectsInOrder(groups: seq<(string, seq<GitHubIssue>)>, today: string): (r: seq<AuditProject>)
    ensures |r| == |groups|
    ensures forall i :: 0 <= i < |r| ==> r[i] == ToProject(i, groups[i], today)
  {
    seq(|groups|, i requires 0 <= i < |groups| => ToProject(i, groups[i], today))
  }

  /** The ten projects with the most issues, ties in record order. */
  function AuditProjects(issues: seq<GitHubIssue>, today: string): seq<AuditProject> {
    Take(SortDesc(ProjectsInOrder(ProjectGroups(issues), today), IssuesOf), 10)
  }

  /** `mapToAuditProjects`: groups the issues in a record, then numbers the
      groups, sorts them by issue count and keeps ten. */
  method MapToAuditProjects(issues: seq<GitHubIssue>, today: string) returns (projects: seq<AuditProject>)
    ensures projects == AuditProjects(issues, today)
  {
    var groups: seq<(string, seq<GitHubIssue>)> := [];
    for i := 0 to |issues|
      invariant groups == Tallied(issues[..i], ProjectGroup, [], PushIssue)
    {
      TalliedStep(issues, i, ProjectGroup, [], PushIssue);
      groups := Upsert(groups, ProjectGroup(issues[i]), issues[i], [], PushIssue);
    }
    assert issues[..|issues|] == issues;
    projects := Take(SortDesc(ProjectsInOrder(groups, today), IssuesOf), 10);
  }

  /** Each group holds exactly the issues of its name, at least one. */
  lemma ProjectGroupsExact(issues: seq<GitHubIssue>, j: nat)
    requires j < |ProjectGroups(issues)|
    ensures ProjectGroups(issues)[j].1 == Group(issues, ProjectGroup, ProjectGroups(issues)[j].0)
    ensures |ProjectGroups(issues)[j].1| >= 1
  {
    var keys := FirstKeys(issues, ProjectGroup);
    FoldPush(Group(issues, ProjectGroup, keys[j]));
    assert keys[j] in keys;
    var k :| 0 <= k < |issues| && ProjectGroup(issues[k]) == keys[j];
    assert issues[k] in Group(issues, ProjectGroup, keys[j]);
  }

  /** At most ten projects, most issues first. */
  lemma AuditProjectsSorted(issues: seq<GitHubIssue>, today: string)
    ensures |AuditProjects(issues, today)| <= 10
    ensures SortedDesc(AuditProjects(issues, today), IssuesOf)
  {
    TakeSortedDesc(SortDesc(ProjectsInOrder(ProjectGroups(issues), today), IssuesOf), 10, IssuesOf);
  }

  /** Every project has at least one issue and a coverage between 50 and
      95 that falls by five per issue. */
  lemma AuditProjectCoverage(issues: seq<GitHubIssue>, today: string, i: nat)
    requires i < |AuditProjects(issues, today)|
    ensures var p := AuditProjects(issues, today)[i];
            p.issues >= 1 && 50 <= p.coverage <= 95 && p.coverage == Coverage(p.issues)
  {
    var groups := ProjectGroups(issues);
    var inOrder := ProjectsInOrder(groups, today);
    var sorted := SortDesc(inOrder, IssuesOf);
    assert AuditProjects(issues, today)[i] == sorted[i];
    var j := PermutedIndex(sorted, inOrder, i);
    ProjectHasIssues(groups, today, j, issues);
  }

  lemma ProjectHasIssues(groups: seq<(string, seq<GitHubIssue>)>, today: string, j: nat, issues: seq<GitHubIssue>)
    requires groups == ProjectGroups(issues) && j < |groups|
    ensures ProjectsInOrder(groups, today)[j].issues >= 1
    ensures 50 <= ProjectsInOrder(groups, today)[j].coverage <= 95
    ensures ProjectsInOrder(groups, today)[j].coverage == Coverage(ProjectsInOrder(groups, today)[j].issues)
  {
    ProjectGroupsExact(issues, j);
  }

  /** No two projects share an id. */
  lemma AuditProjectIdsDistinct(issues: seq<GitHubIssue>, today: string)
    ensures Distinct(MapSeq(AuditProjects(issues, today), ProjectIdOf))
  {
    var inOrder := ProjectsInOrder(ProjectGroups(issues), today);
    var sorted := SortDesc(inOrder, IssuesOf);
    ProjectIdsDistinct(inOrder, ProjectGroups(issues), today);
    MapPermutation(sorted, inOrder, ProjectIdOf);
    DistinctPermutation(MapSeq(sorted, ProjectIdOf), MapSeq(inOrder, ProjectIdOf));
    MapTakeDistinct(sorted, 10, ProjectIdOf);
  }

  /** Projects are numbered one after the other, so their ids differ. */
  lemma ProjectIdsDistinct(inOrder: seq<AuditProject>, groups: seq<(string, seq<GitHubIssue>)>, today: string)
    requires inOrder == ProjectsInOrder(groups, today)
    ensures Distinct(MapSeq(inOrder, ProjectIdOf))
  {
    forall i, j | 0 <= i < j < |inOrder|
      ensures inOrder[i].id != inOrder[j].id
    {
      if inOrder[i].id == inOrder[j].id {
        assert NatToString(i + 1) == inOrder[i].id[5..];
        assert NatToString(j + 1) == inOrder[j].id[5..];
        NatToStringInjective(i + 1, j + 1);
      }
    }
  }

  // ---------------------------------------------------------------------------
  // Component requests

  const URGENT_WORDS: seq<string> := ["critical", "urgent"]
  const IMPORTANT_WORDS: seq<string> := ["high", "important"]
  const MINOR_WORDS: seq<string> := ["low", "nice to have"]

  /** The priority the labels suggest, first match in a fixed order. */
  function PriorityOf(names: seq<string>): (r: Priority)
    ensures r == PriorityCritical <==> AnyMentions(names, URGENT_WORDS)
    ensures r == PriorityHigh <==> !AnyMentions(names, URGENT_WORDS) && AnyMentions(names, IMPORTANT_WORDS)
    ensures r == PriorityLow <==>
              !AnyMentions(names, URGENT_WORDS) && !AnyMentions(names, IMPORTANT_WORDS) && AnyMentions(names, MINOR_WORDS)
    ensures r == PriorityMedium <==>
              !AnyMentions(names, URGENT_WORDS) && !AnyMentions(names, IMPORTANT_WORDS) && !AnyMentions(names, MINOR_WORDS)
  {
    if AnyMentions(names, URGENT_WORDS) then PriorityCritical
    else if AnyMentions(names, IMPORTANT_WORDS) then PriorityHigh
    else if AnyMentions(names, MINOR_WORDS) then PriorityLow
    else PriorityMedium
  }

  const REVIEW_WORDS: seq<string> := ["reviewing", "discussion"]
  const PROGRESS_WORDS: seq<string> := ["in progress", "wip", "pr"]
  const DONE_WORDS: seq<string> := ["done", "completed", "released"]

  /** The request status the labels suggest, first match in a fixed order. */
  function RequestStatusOf(names: seq<string>): (r: RequestStatus)
    ensures r == UnderReview <==> AnyMentions(names, REVIEW_WORDS)
    ensures r == InDevelopment <==> !AnyMentions(names, REVIEW_WORDS) && AnyMentions(names, PROGRESS_WORDS)
    ensures r == Ready <==>
              !AnyMentions(names, REVIEW_WORDS) && !AnyMentions(names, PROGRESS_WORDS) && AnyMentions(names, DONE_WORDS)
    ensures r == Submitted <==>
              !AnyMentions(names, REVIEW_WORDS) && !AnyMentions(names, PROGRESS_WORDS) && !AnyMentions(names, DONE_WORDS)
  {
    if AnyMentions(names, REVIEW_WORDS) then UnderReview
    else if AnyMentions(names, PROGRESS_WORDS) then InDevelopment
    else if AnyMentions(names, DONE_WORDS) then Ready
    else Submitted
  }

  /** `Array.from({ length: n }, (_, i) => `user-${i + 1}`)`. */
  function Voters(n: nat): (r: seq<string>)
    ensures |r| == n
    ensures forall i :: 0 <= i < n ==> r[i] == "user-" + NatToString(i + 1)
  {
    seq(n, i requires 0 <= i < n => "user-" + NatToString(i + 1))
  }

  /** The generated voters are all different. */
  lemma VotersDistinct(n: nat)
    ensures Distinct(Voters(n))
  {
    var r := Voters(n);
    forall i, j | 0 <= i < j < n
      ensures r[i] != r[j]
    {
      if r[i] == r[j] {
        assert NatToString(i + 1) == r[i][5..];
        assert NatToString(j + 1) == r[j][5..];
        NatToStringInjective(i + 1, j + 1);
      }
    }
  }

  /** `Math.ceil(votes / 3)` for a positive vote count. */
  function AffectedProjects(votes: nat): (r: nat)
    ensures 3 * r >= votes && 3 * (r - 1) < votes
  {
    (votes + 2) / 3
  }

  /** One feature request issue as a component request: the comment count
      stands for the votes (at least one), with one generated voter per
      vote. */
  function ToRequest(issue: GitHubIssue): (r: ComponentRequest)
    ensures r.id == "gh-req-" + IntToString(issue.number)
    ensures r.votes == if issue.comments > 1 then issue.comments else 1
    ensures r.votes >= 1 && r.votedBy == Voters(r.votes) && r.affectedProjects == AffectedProjects(r.votes)
    ensures r.priority == PriorityOf(LabelNames(issue.labels)) && r.status == RequestStatusOf(LabelNames(issue.labels))
    ensures r.title == ShortTitle(issue.title, 60) && |r.title| <= 60
    ensures r.userStory == "As a developer, I want " + ToLower(issue.title) + " so that I can build better UIs"
    ensures r.author == Person(issue.user.login, issue.user.avatarUrl)
    ensures r.attachments == [] && r.similarComponents == [] && r.comments == []
  {
    var names := LabelNames(issue.labels);
    var votes: nat := if issue.comments > 1 then issue.comments else 1;
    ComponentRequest(
      "gh-req-" + IntToString(issue.number),
      ShortTitle(issue.title, 60),
      Describe(issue.body, 300),
      "As a developer, I want " + ToLower(issue.title) + " so that I can build better UIs",
      RequestStatusOf(names),
      PriorityOf(names),
      votes,
      Voters(votes),
      BeforeFirst(issue.createdAt, 'T'),
      BeforeFirst(issue.updatedAt, 'T'),
      Person(issue.user.login, issue.user.avatarUrl),
      [],
      [],
      AffectedProjects(votes),
      [])
  }

  /** `mapToComponentRequests`: every issue, in order. */
  function MapToComponentRequests(issues: seq<GitHubIssue>): (r: seq<ComponentRequest>)
    ensures |r| == |issues|
    ensures forall i :: 0 <= i < |r| ==> r[i] == ToRequest(issues[i])
  {
    MapSeq(issues, ToRequest)
  }

  /** A mapped request's vote count matches its distinct voters, and every
      vote touches at least one project. */
  lemma MappedRequestConsistent(issue: GitHubIssue)
    ensures var r := ToRequest(issue);
            r.votes == |r.votedBy| && Distinct(r.votedBy) && r.affectedProjects >= 1
  {
    VotersDistinct(ToRequest(issue).votes);
  }

  // ---------------------------------------------------------------------------
  // Alerts

  /** `n.toLocaleString()` in the `en-US` locale: digits grouped in threes
      by commas. */
  function Grouped(n: nat): (r: string)
    ensures |r| >= 1
    decreases n
  {
    if n < 1000 then NatToString(n) else Grouped(n / 1000) + "," + PadStart(NatToString(n % 1000), 3, '0')
  }

  const MILLIS_PER_DAY: int := 1000 * 60 * 60 * 24
  const BUG_ALERT_THRESHOLD: int := 50
  const STAR_ALERT_THRESHOLD: int := 90000

  /** The release alert, when the latest release is at most seven days old.
      `parseDate` is `new Date(text)` (`None` for an invalid date) and `now`
      is `Date.now()`. */
  function ReleaseAlert(releases: seq<GitHubRelease>, today: string, now: int, parseDate: string -> Option<int>)
    : (r: Option<Alert>)
    ensures r.Some? ==> |releases| > 0 && r.value.id == "alert-release" && r.value.alertType == SuccessAlert
    ensures r.Some? <==>
              (|releases| > 0
               && parseDate(if releases[0].publishedAt.Some? then releases[0].publishedAt.value else "").Some?
               && (now - parseDate(if releases[0].publishedAt.Some? then releases[0].publishedAt.value else "").value)
                  / MILLIS_PER_DAY <= 7)
  {
    if |releases| == 0 then None
    else
      var latest := releases[0];
      var published := if latest.publishedAt.Some? then latest.publishedAt.value else "";
      match parseDate(published)
      case None => None
      case Some(millis) =>
        var days := (now - millis) / MILLIS_PER_DAY;
        if days <= 7 then
          var releaseDay := if latest.publishedAt.Some? then BeforeFirst(latest.publishedAt.value, 'T') else today;
          Some(Alert("alert-release", SuccessAlert,
                     "New release " + latest.tagName + " published " + IntToString(days) + " days ago",
                     None, releaseDay))
        else None
  }

  function AlertIdOf(a: Alert): string {
    a.id
  }

  /** The bug alert, above fifty open bugs. */
  function BugAlerts(bugCount: int, today: string): (r: seq<Alert>)
    ensures MapSeq(r, AlertIdOf) == if bugCount > BUG_ALERT_THRESHOLD then ["alert-bugs"] else []
    ensures bugCount > BUG_ALERT_THRESHOLD ==>
              r == [Alert("alert-bugs", WarningAlert, IntToString(bugCount) + " open bug issues in the repository", None, today)]
  {
    if bugCount > BUG_ALERT_THRESHOLD then
      [Alert("alert-bugs", WarningAlert, IntToString(bugCount) + " open bug issues in the repository", None, today)]
    else []
  }

  /** The star note, from ninety thousand stars, naming the count rounded
      down to a thousand. */
  function StarAlerts(stars: int, today: string): (r: seq<Alert>)
    ensures MapSeq(r, AlertIdOf) == if stars >= STAR_ALERT_THRESHOLD then ["alert-stars"] else []
    ensures stars >= STAR_ALERT_THRESHOLD ==> r[0].alertType == InfoAlert && r[0].date == today
  {
    var milestone := (stars / 1000) * 1000;
    if stars >= STAR_ALERT_THRESHOLD then
      [Alert("alert-stars", InfoAlert, "Repository has reached " + Grouped(milestone) + "+ stars on GitHub", None, today)]
    else []
  }

  function ReleaseAlerts(releases: seq<GitHubRelease>, today: string, now: int, parseDate: string -> Option<int>)
    : (r: seq<Alert>)
    ensures MapSeq(r, AlertIdOf) == if ReleaseAlert(releases, today, now, parseDate).Some? then ["alert-release"] else []
    ensures forall i :: 0 <= i < |r| ==> r[i].componentId.None?
  {
    match ReleaseAlert(releases, today, now, parseDate)
    case Some(a) => [a]
    case None => []
  }

  /** `generateAlerts`: a warning above fifty open bugs, the release alert,
      and a note at ninety thousand stars, in that order. */
  function GenerateAlerts(repo: GitHubRepoInfo, releases: seq<GitHubRelease>, bugCount: int, today: string, now: int,
                          parseDate: string -> Option<int>): (r: seq<Alert>)
    ensures |r| <= 3
    ensures MapSeq(r, AlertIdOf) ==
              (if bugCount > BUG_ALERT_THRESHOLD then ["alert-bugs"] else [])
              + (if ReleaseAlert(releases, today, now, parseDate).Some? then ["alert-release"] else [])
              + (if repo.stars >= STAR_ALERT_THRESHOLD then ["alert-stars"] else [])
    ensures bugCount > BUG_ALERT_THRESHOLD ==> r[0] == Alert("alert-bugs", WarningAlert,
              IntToString(bugCount) + " open bug issues in the repository", None, today)
    ensures repo.stars >= STAR_ALERT_THRESHOLD ==> r[|r| - 1].alertType == InfoAlert && r[|r| - 1].date == today
  {
    var bugs := BugAlerts(bugCount, today);
    var release := ReleaseAlerts(releases, today, now, parseDate);
    var stars := StarAlerts(repo.stars, today);
    MapSeqConcat(bugs, release, AlertIdOf);
    MapSeqConcat(bugs + release, stars, AlertIdOf);
    bugs + release + stars
  }

  /** Each alert appears exactly when its condition holds, and no alert
      appears twice. */
  lemma AlertsExactlyWhen(repo: GitHubRepoInfo, releases: seq<GitHubRelease>, bugCount: int, today: string, now: int,
                          parseDate: string -> Option<int>)
    ensures var ids := MapSeq(GenerateAlerts(repo, releases, bugCount, today, now, parseDate), AlertIdOf);
            && ("alert-bugs" in ids <==> bugCount > BUG_ALERT_THRESHOLD)
            && ("alert-stars" in ids <==> repo.stars >= STAR_ALERT_THRESHOLD)
            && ("alert-release" in ids <==> ReleaseAlert(releases, today, now, parseDate).Some?)
            && Distinct(ids)
  {
    assert "alert-bugs"[6] == 'b' && "alert-stars"[6] == 's' && "alert-release"[6] == 'r';
    OptionalTags("alert-bugs", "alert-release", "alert-stars", bugCount > BUG_ALERT_THRESHOLD,
                 ReleaseAlert(releases, today, now, parseDate).Some?, repo.stars >= STAR_ALERT_THRESHOLD);
  }

  /** Three different tags, each included or left out, in a fixed order: a
      tag is present exactly when included, and none is repeated. */
  lemma OptionalTags<T>(a: T, b: T, c: T, pa: bool, pb: bool, pc: bool)
    requires a != b && b != c && a != c
    ensures var s := (if pa then [a] else []) + (if pb then [b] else []) + (if pc then [c] else []);
            (a in s <==> pa) && (b in s <==> pb) && (c in s <==> pc) && Distinct(s)
  {
  }

  /** The star milestone is the star count rounded down to a thousand. */
  lemma StarMilestone(stars: int)
    requires stars >= STAR_ALERT_THRESHOLD
    ensures var m := (stars / 1000) * 1000; m <= stars < m + 1000 && m >= STAR_ALERT_THRESHOLD && m % 1000 == 0
  {
  }

  // ---------------------------------------------------------------------------
  // Recommendations

  /** Whether a lower-cased issue title names a component. */
  function TitleMentions(titleLower: string): DesignComponent -> bool {
    (c: DesignComponent) => Includes(titleLower, ToLower(c.name))
  }

  /** The components an issue's title names, in component order. */
  function MentionedIn(issue: GitHubIssue, components: seq<DesignComponent>): seq<DesignComponent> {
    Filter(TitleMentions(ToLower(issue.title)), components)
  }

  /** Every (issue, component) mention, issue by issue: the order in which
      the nested loops meet them. */
  function MentionStream(issues: seq<GitHubIssue>, components: seq<DesignComponent>): seq<DesignComponent>
    decreases |issues|
  {
    if |issues| == 0 then []
    else MentionStream(issues[..|issues| - 1], components) + MentionedIn(issues[|issues| - 1], components)
  }

  function CountOne(n: int, c: DesignComponent): int {
    n + 1
  }

  /** Counting one per element is the length. */
  lemma {:induction false} FoldCount(g: seq<DesignComponent>)
    ensures FoldOver(g, 0, CountOne) == |g|
    decreases |g|
  {
    if |g| > 0 {
      FoldCount(g[..|g| - 1]);
    }
  }

  /** The mention record: each mentioned component id with its number of
      mentions, ids in order of first mention. */
  function MentionCounts(issues: seq<GitHubIssue>, components: seq<DesignComponent>): seq<(string, int)> {
    Tallied(MentionStream(issues, components), IdOf, 0, CountOne)
  }

  /** One more component checked against one title. */
  lemma MentionStep(stream: seq<DesignComponent>, titleLower: string, components: seq<DesignComponent>, j: nat)
    requires j < |components|
    ensures var p := TitleMentions(titleLower);
            var before := Tallied(stream + Filter(p, components[..j]), IdOf, 0, CountOne);
            Tallied(stream + Filter(p, components[..j + 1]), IdOf, 0, CountOne)
            == if Includes(titleLower, ToLower(components[j].name))
               then Upsert(before, components[j].id, components[j], 0, CountOne)
               else before
  {
    var p := TitleMentions(titleLower);
    var prev := stream + Filter(p, components[..j]);
    assert components[..j + 1] == components[..j] + [components[j]];
    FilterConcat(p, components[..j], [components[j]]);
    assert Filter(p, [components[j]]) == if p(components[j]) then [components[j]] else [];
    if p(components[j]) {
      assert stream + Filter(p, components[..j + 1]) == prev + [components[j]];
      TalliedSnoc(prev, components[j], IdOf, 0, CountOne);
    } else {
      assert stream + Filter(p, components[..j + 1]) == prev;
    }
  }

  /** One more issue's mentions. */
  lemma MentionIssueStep(issues: seq<GitHubIssue>, components: seq<DesignComponent>, i: nat)
    requires i < |issues|
    ensures MentionStream(issues[..i + 1], components)
         == MentionStream(issues[..i], components) + Filter(TitleMentions(ToLower(issues[i].title)), components)
  {
    assert issues[..i + 1][..i] == issues[..i];
  }

  /** The inner loop: adds the components one title names to the record. */
  method CountTitleMentions(titleLower: string, components: seq<DesignComponent>, counts: seq<(string, int)>,
                            ghost stream: seq<DesignComponent>)
    returns (after: seq<(string, int)>)
    requires counts == Tallied(stream, IdOf, 0, CountOne)
    ensures after == Tallied(stream + Filter(TitleMentions(titleLower), components), IdOf, 0, CountOne)
  {
    after := counts;
    assert stream + Filter(TitleMentions(titleLower), components[..0]) == stream;
    for j := 0 to |components|
      invariant after == Tallied(stream + Filter(TitleMentions(titleLower), components[..j]), IdOf, 0, CountOne)
    {
      var compName := ToLower(components[j].name);
      MentionStep(stream, titleLower, components, j);
      if Includes(titleLower, compName) {
        after := Upsert(after, components[j].id, components[j], 0, CountOne);
      }
    }
    assert components[..|components|] == components;
  }

  /** The nested loops of `generateRecommendations` that count how many
      issue titles name each component. */
  method CountMentions(issues: seq<GitHubIssue>, components: seq<DesignComponent>) returns (counts: seq<(string, int)>)
    ensures counts == MentionCounts(issues, components)
  {
    counts := [];
    for i := 0 to |issues|
      invariant counts == Tallied(MentionStream(issues[..i], components), IdOf, 0, CountOne)
    {
      MentionIssueStep(issues, components, i);
      counts := CountTitleMentions(ToLower(issues[i].title), components, counts, MentionStream(issues[..i], components));
    }
    assert issues[..|issues|] == issues;
  }

  /** A mention count is the number of mentions of that id. */
  lemma MentionCountExact(issues: seq<GitHubIssue>, components: seq<DesignComponent>, k: nat)
    requires k < |MentionCounts(issues, components)|
    ensures MentionCounts(issues, components)[k].1
         == |Group(MentionStream(issues, components), IdOf, MentionCounts(issues, components)[k].0)|
    ensures MentionCounts(issues, components)[k].1 >= 1
  {
    var stream := MentionStream(issues, components);
    var keys := FirstKeys(stream, IdOf);
    FoldCount(Group(stream, IdOf, keys[k]));
    assert keys[k] in keys;
    var n :| 0 <= n < |stream| && IdOf(stream[n]) == keys[k];
    assert stream[n] in Group(stream, IdOf, keys[k]);
  }

  function CountOf(e: (string, int)): int {
    e.1
  }

  /** The three most mentioned ids, ties in record order. */
  function TopMentioned(counts: seq<(string, int)>): (r: seq<(string, int)>)
    ensures |r| == if |counts| < 3 then |counts| else 3
    ensures SortedDesc(r, CountOf)
    ensures multiset(r) <= multiset(counts)
    ensures forall e :: e in r ==> e in counts
    ensures forall i, e :: 0 <= i < |r| && e in multiset(counts) - multiset(r) ==> e.1 <= r[i].1
  {
    var sorted := SortDesc(counts, CountOf);
    TakeSortedDesc(sorted, 3, CountOf);
    TakeIsTop(sorted, 3, CountOf);
    var r := Take(sorted, 3);
    forall e | e in r
      ensures e in counts
    {
      assert e in multiset(r);
    }
    r
  }

  function HasId(id: string): DesignComponent -> bool {
    (c: DesignComponent) => c.id == id
  }

  const UPDATE_THRESHOLD: int := 3

  /** A top entry earns update advice when its component is known and it
      is named at least three times. */
  function UpdateWorthy(components: seq<DesignComponent>): ((string, int)) -> bool {
    (e: (string, int)) => e.1 >= UPDATE_THRESHOLD && FindIndex(HasId(e.0), components).Some?
  }

  /** The update advice for a top entry, naming the first component with
      its id (`components.find`). */
  function UpdateRec(e: (string, int), components: seq<DesignComponent>): (rec: Recommendation)
    ensures rec.recType == Update && rec.componentId == e.0
    ensures FindIndex(HasId(e.0), components).Some? ==>
              rec.componentName == components[FindIndex(HasId(e.0), components).value].name
  {
    var name := match FindIndex(HasId(e.0), components)
                case Some(i) => components[i].name
                case None => "";
    Recommendation("rec-update-" + e.0, Update, e.0, name,
                   "Referenced in " + IntToString(e.1) + " open issues", IntToString(e.1) + " issues")
  }

  /** Advice for an entry that earns it names a component of the library. */
  lemma UpdateRecKnown(e: (string, int), components: seq<DesignComponent>)
    requires UpdateWorthy(components)(e)
    ensures exists c :: c in components && c.id == UpdateRec(e, components).componentId
                        && c.name == UpdateRec(e, components).componentName
  {
    var i := FindIndex(HasId(e.0), components).value;
    assert components[i] in components;
  }

  /** The update advice for each top entry whose component is known and is
      named at least three times, in the order of the top entries. */
  function UpdateRecs(top: seq<(string, int)>, components: seq<DesignComponent>): (r: seq<Recommendation>)
    ensures |r| == |Filter(UpdateWorthy(components), top)|
    ensures forall k :: 0 <= k < |r| ==> r[k] == UpdateRec(Filter(UpdateWorthy(components), top)[k], components)
    ensures forall e :: e in top && UpdateWorthy(components)(e) ==> UpdateRec(e, components) in r
    ensures forall rec :: rec in r ==>
              rec.recType == Update
              && (exists e :: e in top && e.0 == rec.componentId && e.1 >= UPDATE_THRESHOLD)
              && (exists c :: c in components && c.id == rec.componentId && c.name == rec.componentName)
  {
    var worthy := Filter(UpdateWorthy(components), top);
    var r := MapSeq(worthy, (e: (string, int)) => UpdateRec(e, components));
    forall k | 0 <= k < |worthy|
      ensures worthy[k] in top && worthy[k].1 >= UPDATE_THRESHOLD
      ensures exists c :: c in components && c.id == r[k].componentId && c.name == r[k].componentName
    {
      assert worthy[k] in worthy;
      UpdateRecKnown(worthy[k], components);
    }
    r
  }

  predicate IsDeprecated(c: DesignComponent) {
    c.status == Deprecated
  }

  predicate IsPromotable(c: DesignComponent) {
    c.status == Beta && c.usageCount > 500
  }

  function DeprecateRec(c: DesignComponent): Recommendation {
    Recommendation("rec-deprecate-" + c.id, Deprecate, c.id, c.name, "Component is marked as deprecated", "Deprecated")
  }

  function PromoteRec(c: DesignComponent): Recommendation {
    Recommendation("rec-promote-" + c.id, Promote, c.id, c.name, "Beta component with high usage",
                   IntToString(c.usageCount) + " instances")
  }

  /** Advice to retire the first two deprecated components. */
  function DeprecationRecs(components: seq<DesignComponent>): (r: seq<Recommendation>)
    ensures |r| <= 2
    ensures |r| == if |Filter(IsDeprecated, components)| < 2 then |Filter(IsDeprecated, components)| else 2
    ensures forall k :: 0 <= k < |r| ==> r[k] == DeprecateRec(Filter(IsDeprecated, components)[k])
    ensures forall rec :: rec in r ==> rec.recType == Deprecate
  {
    MapSeq(Take(Filter(IsDeprecated, components), 2), DeprecateRec)
  }

  /** Advice to promote the first two beta components with over 500 uses. */
  function PromotionRecs(components: seq<DesignComponent>): (r: seq<Recommendation>)
    ensures |r| <= 2
    ensures |r| == if |Filter(IsPromotable, components)| < 2 then |Filter(IsPromotable, components)| else 2
    ensures forall k :: 0 <= k < |r| ==> r[k] == PromoteRec(Filter(IsPromotable, components)[k])
    ensures forall rec :: rec in r ==> rec.recType == Promote
  {
    MapSeq(Take(Filter(IsPromotable, components), 2), PromoteRec)
  }

  /** Every deprecation advice names a deprecated component. */
  lemma DeprecationAdviceJustified(components: seq<DesignComponent>, rec: Recommendation)
    requires rec in DeprecationRecs(components)
    ensures exists c :: c in components && c.id == rec.componentId && c.status == Deprecated
  {
    var chosen := Take(Filter(IsDeprecated, components), 2);
    var i :| 0 <= i < |chosen| && DeprecateRec(chosen[i]) == rec;
    assert chosen[i] in Filter(IsDeprecated, components);
  }

  /** Every promotion advice names a beta component with over 500 uses. */
  lemma PromotionAdviceJustified(components: seq<DesignComponent>, rec: Recommendation)
    requires rec in PromotionRecs(components)
    ensures exists c :: c in components && c.id == rec.componentId && c.status == Beta && c.usageCount > 500
  {
    var chosen := Take(Filter(IsPromotable, components), 2);
    var i :| 0 <= i < |chosen| && PromoteRec(chosen[i]) == rec;
    assert chosen[i] in Filter(IsPromotable, components);
  }

  /** What `generateRecommendations` returns: update advice, then
      deprecations, then promotions, five at most. */
  function Recommendations(issues: seq<GitHubIssue>, components: seq<DesignComponent>): seq<Recommendation> {
    Take(UpdateRecs(TopMentioned(MentionCounts(issues, components)), components)
         + DeprecationRecs(components) + PromotionRecs(components), 5)
  }

  /** `generateRecommendations`. */
  method GenerateRecommendations(issues: seq<GitHubIssue>, components: seq<DesignComponent>)
    returns (recs: seq<Recommendation>)
    ensures recs == Recommendations(issues, components)
  {
    var counts := CountMentions(issues, components);
    var top := TopMentioned(counts);
    recs := Take(UpdateRecs(top, components) + DeprecationRecs(components) + PromotionRecs(components), 5);
  }

  function RankOf(r: Recommendation): int {
    match r.recType
    case Update => 0
    case Deprecate => 1
    case Promote => 2
  }

  predicate IsOfType(t: RecommendationType, r: Recommendation) {
    r.recType == t
  }

  /** Five at most, kinds in the order update, deprecate, promote, and at
      most three, two and two of each. */
  lemma RecommendationsShape(issues: seq<GitHubIssue>, components: seq<DesignComponent>)
    ensures var r := Recommendations(issues, components);
            && |r| <= 5
            && SortedAsc(r, RankOf)
            && |Filter(rec => IsOfType(Update, rec), r)| <= 3
            && |Filter(rec => IsOfType(Deprecate, rec), r)| <= 2
            && |Filter(rec => IsOfType(Promote, rec), r)| <= 2
  {
    var u := UpdateRecs(TopMentioned(MentionCounts(issues, components)), components);
    var d := DeprecationRecs(components);
    var p := PromotionRecs(components);
    var r := Recommendations(issues, components);
    assert r == (u + d + p)[..|r|];
    RankOrdered(u, d, p, |r|);
    TypeCount(Update, u, d, p, |r|);
    TypeCount(Deprecate, u, d, p, |r|);
    TypeCount(Promote, u, d, p, |r|);
  }

  lemma RankOrdered(u: seq<Recommendation>, d: seq<Recommendation>, p: seq<Recommendation>, k: nat)
    requires forall rec :: rec in u ==> rec.recType == Update
    requires forall rec :: rec in d ==> rec.recType == Deprecate
    requires forall rec :: rec in p ==> rec.recType == Promote
    requires k <= |u + d + p|
    ensures SortedAsc((u + d + p)[..k], RankOf)
  {
    var all := u + d + p;
    forall i | 0 <= i < |all|
      ensures RankOf(all[i]) == if i < |u| then 0 else if i < |u| + |d| then 1 else 2
    {
      if i < |u| {
        assert all[i] in u;
      } else if i < |u| + |d| {
        assert all[i] == d[i - |u|];
      } else {
        assert all[i] == p[i - |u| - |d|];
      }
    }
  }

  lemma TypeCount(t: RecommendationType, u: seq<Recommendation>, d: seq<Recommendation>, p: seq<Recommendation>, k: nat)
    requires forall rec :: rec in u ==> rec.recType == Update
    requires forall rec :: rec in d ==> rec.recType == Deprecate
    requires forall rec :: rec in p ==> rec.recType == Promote
    requires k <= |u + d + p|
    ensures |Filter(rec => IsOfType(t, rec), (u + d + p)[..k])|
         <= match t case Update => |u| case Deprecate => |d| case Promote => |p|
  {
    var f := rec => IsOfType(t, rec);
    FilterPrefix(f, u + d + p, k);
    FilterConcat(f, u + d, p);
    FilterConcat(f, u, d);
    match t
    case Update =>
      FilterNone(f, d);
      FilterNone(f, p);
    case Deprecate =>
      FilterNone(f, u);
      FilterNone(f, p);
    case Promote =>
      FilterNone(f, u);
      FilterNone(f, d);
  }

  /** Every update advice names a known component that issue titles name
      at least three times. */
  lemma UpdateAdviceJustified(issues: seq<GitHubIssue>, components: seq<DesignComponent>, rec: Recommendation)
    requires rec in Recommendations(issues, components) && rec.recType == Update
    ensures exists c :: c in components && c.id == rec.componentId
    ensures |Group(MentionStream(issues, components), IdOf, rec.componentId)| >= UPDATE_THRESHOLD
    ensures exists e :: e in TopMentioned(MentionCounts(issues, components)) && e.0 == rec.componentId
  {
    var counts := MentionCounts(issues, components);
    UpdateAdviceFromTop(issues, components, rec);
    var e :| e in TopMentioned(counts) && e.0 == rec.componentId && e.1 >= UPDATE_THRESHOLD;
    var k := PositionOf(counts, e);
    MentionCountExact(issues, components, k);
  }

  /** Update advice among the recommendations comes from the update list. */
  lemma {:induction false} UpdateAdviceFromTop(issues: seq<GitHubIssue>, components: seq<DesignComponent>, rec: Recommendation)
    requires rec in Recommendations(issues, components) && rec.recType == Update
    ensures rec in UpdateRecs(TopMentioned(MentionCounts(issues, components)), components)
  {
    var u := UpdateRecs(TopMentioned(MentionCounts(issues, components)), components);
    var all := u + DeprecationRecs(components) + PromotionRecs(components);
    assert Recommendations(issues, components) == all[..|Recommendations(issues, components)|];
    assert rec in all;
  }
}

=== FILE: github.dfy ===
/** `githubService`: reads of the ant-design repository through the GitHub
    REST API, cached for ten minutes under one key per query. */
module GitHub {
  import opened Common
  import opened LocalStore
  import opened ApiTypes
  import Cache
  import Remote

  /** Ten minutes, in milliseconds. */
  const CACHE_TTL: int := 10 * 60 * 1000

  /** Internal and utility folders of the components directory. */
  const EXCLUDED_COMPONENTS: seq<string> :=
    ["__tests__", "_util", "locale", "style", "theme", "version", "config-provider", "app"]

  const DEFAULT_PER_PAGE: nat := 30
  const DEFAULT_RELEASES: nat := 10

  /** The service's queries, one per endpoint, with their parameters. */
  datatype Query =
    | GetRepoInfo
    | GetComponentsList
    | GetOpenIssues(perPage: nat)
    | GetBugIssues(perPage: nat)
    | GetFeatureRequests(perPage: nat)
    | GetIssuesByLabels(labels: seq<string>, perPage: nat)
    | GetClosedIssues(perPage: nat)
    | GetLabels
    | GetReleases(perPage: nat)

  /** The cache key of a query, as the client builds it: the endpoint's
      stem, then its labels joined by "_", then its page size. */
  function CacheKey(q: Query): (k: string)
    ensures StartsWith(k, "github_")
  {
    match q
    case GetRepoInfo => "github_repo_info"
    case GetComponentsList => "github_components_list"
    case GetOpenIssues(n) => "github_issues_" + NatToString(n)
    case GetBugIssues(n) => "github_bugs_" + NatToString(n)
    case GetFeatureRequests(n) => "github_features_" + NatToString(n)
    case GetIssuesByLabels(labels, n) => "github_issues_labels_" + Join(labels, "_") + "_" + NatToString(n)
    case GetClosedIssues(n) => "github_closed_" + NatToString(n)
    case GetLabels => "github_labels"
    case GetReleases(n) => "github_releases_" + NatToString(n)
  }

  /** How the client reads a response: 403 is the rate-limit error, any
      other status outside 200-299 a generic error carrying the status. */
  function Interpret(resp: Response): (r: Outcome<ApiData>)
    ensures r.Success? <==> resp.Reply? && IsOk(resp.status)
    ensures r.Success? ==> r.value == resp.body
    ensures r == Failure(RateLimited) <==> resp.Reply? && resp.status == 403
    ensures resp.Reply? && !IsOk(resp.status) && resp.status != 403 ==>
              r == Failure(HttpError(resp.status, resp.statusText))
    ensures resp.Unreachable? ==> r == Failure(NetworkError)
  {
    match resp
    case Unreachable => Failure(NetworkError)
    case Reply(status, statusText, body) =>
      if IsOk(status) then Success(body)
      else if status == 403 then Failure(RateLimited)
      else Failure(HttpError(status, statusText))
  }

  /** `fetchGitHub`: answers from the cache when it holds a truthy body for
      the query; otherwise issues the request (`requested`) and caches a
      successful body for ten minutes. */
  method Fetch(cache: Cache.CacheService<ApiData>, net: Query -> Response, q: Query, now: int, writable: bool)
    returns (r: Outcome<ApiData>, requested: bool)
    modifies cache.store
    ensures requested <==> Remote.Served(old(cache.store.items), cache.Key(CacheKey(q)), now).None?
    ensures r == Remote.FetchOutcome(old(cache.store.items), cache.Key(CacheKey(q)), now, Interpret(net(q)))
    ensures cache.store.items ==
              Remote.FetchStore(old(cache.store.items), cache.Key(CacheKey(q)), now, Interpret(net(q)), CACHE_TTL, writable)
  {
    var cached := cache.Get(CacheKey(q), now);
    if cached.Some? && Truthy(cached.value) {
      return Success(cached.value), false;
    }
    requested := true;
    r := Interpret(net(q));
    if r.Success? {
      cache.Set(CacheKey(q), r.value, now, writable, CACHE_TTL);
    }
  }

  /** A real component folder: a directory whose name is not excluded. */
  predicate IsComponentDir(c: GitHubContent) {
    c.contentType == Dir && c.name !in EXCLUDED_COMPONENTS
  }

  /** The listing's component folders, in their original order. */
  function ComponentFolders(listing: seq<GitHubContent>): (r: seq<GitHubContent>)
    ensures forall c :: c in r <==> c in listing && c.contentType == Dir && c.name !in EXCLUDED_COMPONENTS
    ensures Subsequence(r, listing)
  {
    Filter(IsComponentDir, listing)
  }

  /** The listing a fetch outcome yields: a body that is not a directory
      listing cannot be filtered. */
  function ListingOf(o: Outcome<ApiData>): (r: Outcome<seq<GitHubContent>>)
    ensures o.Success? && o.value.Contents? ==> r == Success(ComponentFolders(o.value.items))
    ensures o.Failure? ==> r == Failure(o.error)
    ensures o.Success? && !o.value.Contents? ==> r == Failure(Malformed)
  {
    match o
    case Failure(e) => Failure(e)
    case Success(Contents(items)) => Success(ComponentFolders(items))
    case Success(_) => Failure(Malformed)
  }

  /** `getComponentsList`: the cache keeps the unfiltered listing; the
      folders are filtered after it is retrieved. */
  method ComponentsList(cache: Cache.CacheService<ApiData>, net: Query -> Response, now: int, writable: bool)
    returns (r: Outcome<seq<GitHubContent>>, requested: bool)
    modifies cache.store
    ensures requested <==> Remote.Served(old(cache.store.items), cache.Key(CacheKey(GetComponentsList)), now).None?
    ensures r == ListingOf(Remote.FetchOutcome(old(cache.store.items), cache.Key(CacheKey(GetComponentsList)), now,
                                               Interpret(net(GetComponentsList))))
    ensures cache.store.items ==
              Remote.FetchStore(old(cache.store.items), cache.Key(CacheKey(GetComponentsList)), now,
                                Interpret(net(GetComponentsList)), CACHE_TTL, writable)
  {
    var o;
    o, requested := Fetch(cache, net, GetComponentsList, now, writable);
    r := ListingOf(o);
  }

  /** The keys `clearCache` removes: the default-size queries. */
  const CLEARED_KEYS: seq<string> :=
    ["github_repo_info", "github_components_list", "github_issues_30", "github_releases_10",
     "github_bugs_30", "github_features_30", "github_closed_30", "github_labels"]

  /** `clearCache`: removes the eight fixed keys, one after the other, and
      nothing else. */
  method ClearCache(cache: Cache.CacheService<ApiData>)
    modifies cache.store
    ensures cache.store.items == old(cache.store.items) - Cache.PhysicalKeys(cache.prefix, CLEARED_KEYS)
  {
    for i := 0 to |CLEARED_KEYS|
      invariant cache.store.items == old(cache.store.items) - Cache.PhysicalKeys(cache.prefix, CLEARED_KEYS[..i])
    {
      Cache.RemoveNext(old(cache.store.items), cache.prefix, CLEARED_KEYS, i);
      cache.Remove(CLEARED_KEYS[i]);
    }
    assert CLEARED_KEYS[..|CLEARED_KEYS|] == CLEARED_KEYS;
  }

  /** The cleared keys are exactly those of the parameterless queries and of
      the others at their default page sizes. */
  lemma ClearedAreDefaultQueries()
    ensures CLEARED_KEYS == [CacheKey(GetRepoInfo), CacheKey(GetComponentsList), CacheKey(GetOpenIssues(DEFAULT_PER_PAGE)),
                             CacheKey(GetReleases(DEFAULT_RELEASES)), CacheKey(GetBugIssues(DEFAULT_PER_PAGE)),
                             CacheKey(GetFeatureRequests(DEFAULT_PER_PAGE)), CacheKey(GetClosedIssues(DEFAULT_PER_PAGE)),
                             CacheKey(GetLabels)]
  {
    assert NatToString(30) == "30";
    assert NatToString(10) == "10";
    assert CacheKey(GetOpenIssues(30)) == "github_issues_30";
    assert CacheKey(GetReleases(10)) == "github_releases_10";
    assert CacheKey(GetBugIssues(30)) == "github_bugs_30";
    assert CacheKey(GetFeatureRequests(30)) == "github_features_30";
    assert CacheKey(GetClosedIssues(30)) == "github_closed_30";
  }

  /** Two keys that share a stem differ when their page sizes do. */
  lemma StemInjective(stem: string, a: nat, b: nat)
    requires stem + NatToString(a) == stem + NatToString(b)
    ensures a == b
  {
    assert NatToString(a) == (stem + NatToString(a))[|stem|..];
    assert NatToString(b) == (stem + NatToString(b))[|stem|..];
    NatToStringInjective(a, b);
  }

  /** Different page sizes of one endpoint use different cache entries. */
  lemma KeysDistinctByPageSize(a: nat, b: nat, labels: seq<string>)
    requires a != b
    ensures CacheKey(GetOpenIssues(a)) != CacheKey(GetOpenIssues(b))
    ensures CacheKey(GetBugIssues(a)) != CacheKey(GetBugIssues(b))
    ensures CacheKey(GetFeatureRequests(a)) != CacheKey(GetFeatureRequests(b))
    ensures CacheKey(GetClosedIssues(a)) != CacheKey(GetClosedIssues(b))
    ensures CacheKey(GetReleases(a)) != CacheKey(GetReleases(b))
    ensures CacheKey(GetIssuesByLabels(labels, a)) != CacheKey(GetIssuesByLabels(labels, b))
  {
    if CacheKey(GetOpenIssues(a)) == CacheKey(GetOpenIssues(b)) { StemInjective("github_issues_", a, b); }
    if CacheKey(GetBugIssues(a)) == CacheKey(GetBugIssues(b)) { StemInjective("github_bugs_", a, b); }
    if CacheKey(GetFeatureRequests(a)) == CacheKey(GetFeatureRequests(b)) { StemInjective("github_features_", a, b); }
    if CacheKey(GetClosedIssues(a)) == CacheKey(GetClosedIssues(b)) { StemInjective("github_closed_", a, b); }
    if CacheKey(GetReleases(a)) == CacheKey(GetReleases(b)) { StemInjective("github_releases_", a, b); }
    var stem := "github_issues_labels_" + Join(labels, "_") + "_";
    assert CacheKey(GetIssuesByLabels(labels, a)) == stem + NatToString(a);
    assert CacheKey(GetIssuesByLabels(labels, b)) == stem + NatToString(b);
    if CacheKey(GetIssuesByLabels(labels, a)) == CacheKey(GetIssuesByLabels(labels, b)) { StemInjective(stem, a, b); }
  }

  /** A label query's key reads "github_issues_l..." at index 14. */
  lemma LabelKeyShape(labels: seq<string>, n: nat)
    ensures |CacheKey(GetIssuesByLabels(labels, n))| > 14 && CacheKey(GetIssuesByLabels(labels, n))[14] == 'l'
  {
  }

  /** Joining labels with "_" loses where one label ends: the single label
      "a_b" and the two labels "a" and "b" share a cache entry, so a query
      for the one can be served the other's issues. */
  lemma LabelKeysCollide()
    ensures GetIssuesByLabels(["a_b"], 5) != GetIssuesByLabels(["a", "b"], 5)
    ensures CacheKey(GetIssuesByLabels(["a_b"], 5)) == CacheKey(GetIssuesByLabels(["a", "b"], 5))
  {
    assert Join(["a", "b"], "_") == "a" + "_" + Join(["b"], "_");
    assert NatToString(5) == "5";
  }

  /** One label framed so that it reads back: its length, ':' and itself. */
  function Framed(name: string): (r: string)
    ensures |r| > |name| && IsDigit(r[0])
  {
    NatToString(|name|) + (":" + name)
  }

  /** A label list written so that it reads back: its framed labels in order. */
  function LabelKey(labels: seq<string>): (r: string)
    ensures labels == [] <==> r == ""
    ensures r != "" ==> IsDigit(r[0])
    decreases |labels|
  {
    if |labels| == 0 then "" else Framed(labels[0]) + LabelKey(labels[1..])
  }

  /** The key a label query should have: the stem, the framed labels, "_"
      and the page size. */
  function LabelQueryKey(labels: seq<string>, perPage: nat): (k: string)
    ensures StartsWith(k, "github_issues_labels_")
  {
    "github_issues_labels_" + (LabelKey(labels) + ("_" + NatToString(perPage)))
  }

  /** Two texts that agree after a common stem are equal. */
  lemma StemCancels(stem: string, x: string, y: string)
    requires stem + x == stem + y
    ensures x == y
  {
    assert x == (stem + x)[|stem|..];
    assert y == (stem + y)[|stem|..];
  }

  /** The text before the first ':' of digits, ':' and anything is the digits. */
  lemma {:induction false} DigitsBeforeColon(d: string, x: string)
    requires forall k :: 0 <= k < |d| ==> IsDigit(d[k])
    ensures BeforeFirst(d + (":" + x), ':') == d
    decreases |d|
  {
    if |d| > 0 {
      assert (d + (":" + x))[1..] == d[1..] + (":" + x);
      DigitsBeforeColon(d[1..], x);
      assert d == [d[0]] + d[1..];
    }
  }

  /** Two framed labels that start the same text have the same length. */
  lemma {:induction false} FramedSameLength(l1: string, rest1: string, l2: string, rest2: string)
    requires Framed(l1) + rest1 == Framed(l2) + rest2
    ensures |l1| == |l2|
  {
    var d1, d2 := NatToString(|l1|), NatToString(|l2|);
    var s := Framed(l1) + rest1;
    assert s == d1 + (":" + (l1 + rest1));
    assert s == d2 + (":" + (l2 + rest2));
    DigitsBeforeColon(d1, l1 + rest1);
    DigitsBeforeColon(d2, l2 + rest2);
    NatToStringInjective(|l1|, |l2|);
  }

  /** A framed label followed by anything reads back as that label. */
  lemma {:induction false} FramedReadsBack(l1: string, rest1: string, l2: string, rest2: string)
    requires Framed(l1) + rest1 == Framed(l2) + rest2
    ensures l1 == l2 && rest1 == rest2
  {
    FramedSameLength(l1, rest1, l2, rest2);
    var stem := NatToString(|l1|) + ":";
    assert stem + (l1 + rest1) == Framed(l1) + rest1;
    assert stem + (l2 + rest2) == Framed(l2) + rest2;
    StemCancels(stem, l1 + rest1, l2 + rest2);
    assert l1 == (l1 + rest1)[..|l1|] && l2 == (l2 + rest2)[..|l2|];
    assert rest1 == (l1 + rest1)[|l1|..] && rest2 == (l2 + rest2)[|l2|..];
  }

  /** Framed labels followed by a text that does not start with a digit
      read back as those labels and that text. */
  lemma {:induction false} LabelKeyReadsBack(a: seq<string>, t1: string, b: seq<string>, t2: string)
    requires LabelKey(a) + t1 == LabelKey(b) + t2
    requires |t1| > 0 && !IsDigit(t1[0]) && |t2| > 0 && !IsDigit(t2[0])
    ensures a == b && t1 == t2
    decreases |a|
  {
    assert (LabelKey(a) + t1)[0] == if |a| > 0 then LabelKey(a)[0] else t1[0];
    assert (LabelKey(b) + t2)[0] == if |b| > 0 then LabelKey(b)[0] else t2[0];
    if |a| == 0 {
      assert LabelKey(a) + t1 == t1 && LabelKey(b) + t2 == t2;
    } else {
      var ra, rb := LabelKey(a[1..]) + t1, LabelKey(b[1..]) + t2;
      assert LabelKey(a) + t1 == Framed(a[0]) + ra;
      assert LabelKey(b) + t2 == Framed(b[0]) + rb;
      FramedReadsBack(a[0], ra, b[0], rb);
      LabelKeyReadsBack(a[1..], t1, b[1..], t2);
      assert a == [a[0]] + a[1..] && b == [b[0]] + b[1..];
    }
  }

  /** The framed key tells every label query apart: equal keys mean the
      same labels, in the same order, and the same page size. */
  lemma {:induction false} LabelQueryKeyInjective(a: seq<string>, n: nat, b: seq<string>, m: nat)
    requires LabelQueryKey(a, n) == LabelQueryKey(b, m)
    ensures a == b && n == m
  {
    var t1, t2 := "_" + NatToString(n), "_" + NatToString(m);
    StemCancels("github_issues_labels_", LabelKey(a) + t1, LabelKey(b) + t2);
    LabelKeyReadsBack(a, t1, b, t2);
    StemCancels("_", NatToString(n), NatToString(m));
    NatToStringInjective(n, m);
  }

  /** `clearCache` spares the 50-issue bug query used by the audit page and
      every label query. */
  lemma SurvivesClearCache(q: Query)
    requires q == GetBugIssues(50) || q.GetIssuesByLabels?
    ensures CacheKey(q) !in CLEARED_KEYS
  {
    if q.GetIssuesByLabels? {
      LabelKeyShape(q.labels, q.perPage);
    } else {
      assert NatToString(50) == "50";
      assert CacheKey(q) == "github_bugs_50";
    }
  }

  /** So its entry is still in the store after `clearCache`. */
  lemma ClearCacheKeeps(items: map<string, Stored<ApiData>>, prefix: string, key: string)
    requires key !in CLEARED_KEYS
    ensures Cache.PhysicalKey(prefix, key) !in Cache.PhysicalKeys(prefix, CLEARED_KEYS)
    ensures Cache.PhysicalKey(prefix, key) in items - Cache.PhysicalKeys(prefix, CLEARED_KEYS) <==> Cache.PhysicalKey(prefix, key) in items
  {
  }
}

=== FILE: issues.dfy ===
/** `useIssuesStore`: the issue tracker. It holds the issue list (loaded
    from the persisted list, or the fixture when none is saved), the issue
    open in the detail view and five filters; every change to the list is
    saved back. */
module IssueTracker {
  import opened Common
  import opened LocalStore
  import opened Types
  import Storage
  import opened Persistence

  datatype IssueStats = IssueStats(
    total: int,
    open: int,
    inProgress: int,
    resolved: int,
    closed: int,
    bugs: int,
    enhancements: int,
    critical: int)

  /** What `createIssue` is given: an issue without its id, dates and
      comments. */
  datatype IssueInput = IssueInput(
    title: string,
    description: string,
    issueType: IssueType,
    status: IssueStatus,
    priority: Priority,
    componentId: Option<string>,
    labels: seq<string>,
    assignee: Option<Person>,
    author: Person)

  /** A partial issue for `updateIssue`: `None` where the update has no such
      property. An optional property can be present with the value
      `undefined`, which the spread copies: that is `Some(None)`. */
  datatype IssuePatch = IssuePatch(
    id: Option<string>,
    title: Option<string>,
    description: Option<string>,
    issueType: Option<IssueType>,
    status: Option<IssueStatus>,
    priority: Option<Priority>,
    componentId: Option<Option<string>>,
    labels: Option<seq<string>>,
    assignee: Option<Option<Person>>,
    author: Option<Person>,
    createdAt: Option<string>,
    comments: Option<seq<IssueComment>>)

  const NO_CHANGES: IssuePatch := IssuePatch(None, None, None, None, None, None, None, None, None, None, None, None)

  /** `{ status }`. */
  function StatusPatch(status: IssueStatus): IssuePatch {
    NO_CHANGES.(status := Some(status))
  }

  /** `{ assignee }`: the property is present even when its value is
      `undefined`. */
  function AssigneePatch(assignee: Option<Person>): IssuePatch {
    NO_CHANGES.(assignee := Some(assignee))
  }

  /** The filter refs; a falsy component filter or query does not filter. */
  datatype IssueFilters = IssueFilters(
    issueType: Option<IssueType>,
    status: Option<IssueStatus>,
    priority: Option<Priority>,
    component: Option<string>,
    search: string)

  const NO_FILTERS: IssueFilters := IssueFilters(None, None, None, None, "")

  // ---------------------------------------------------------------------------
  // Getters

  /** `query` (already lower-cased) occurs in the title, the description or
      a label, compared in lower case. */
  predicate MatchesQuery(query: string, i: Issue) {
    Includes(ToLower(i.title), query) || Includes(ToLower(i.description), query)
    || exists k :: 0 <= k < |i.labels| && Includes(ToLower(i.labels[k]), query)
  }

  predicate Passes(f: IssueFilters, i: Issue) {
    (f.issueType.None? || i.issueType == f.issueType.value)
    && (f.status.None? || i.status == f.status.value)
    && (f.priority.None? || i.priority == f.priority.value)
    && (f.component.None? || f.component.value == "" || i.componentId == f.component)
    && (f.search == "" || MatchesQuery(ToLower(f.search), i))
  }

  /** `filteredIssues`: the issues that pass every filter, in list order. */
  function FilteredIssues(list: seq<Issue>, f: IssueFilters): (r: seq<Issue>)
    ensures Subsequence(r, list)
    ensures forall i :: i in r <==> i in list && Passes(f, i)
  {
    Filter((i: Issue) => Passes(f, i), list)
  }

  lemma UnfilteredIsAll(list: seq<Issue>)
    ensures FilteredIssues(list, NO_FILTERS) == list
  {
    FilterAll((i: Issue) => Passes(NO_FILTERS, i), list);
  }

  function StatusIs(status: IssueStatus): Issue -> bool {
    (i: Issue) => i.status == status
  }

  /** `issuesByStatus`, one status at a time. */
  function ByStatus(list: seq<Issue>, status: IssueStatus): (r: seq<Issue>)
    ensures Subsequence(r, list)
    ensures forall i :: i in r <==> i in list && i.status == status
  {
    Filter(StatusIs(status), list)
  }

  /** Every issue has exactly one status. */
  lemma {:induction false} StatusPartition(list: seq<Issue>)
    ensures |ByStatus(list, Open)| + |ByStatus(list, InProgress)| + |ByStatus(list, Resolved)| + |ByStatus(list, Closed)| == |list|
    decreases |list|
  {
    if |list| > 0 {
      StatusPartition(list[1..]);
    }
  }

  /** Issues of type `t` that are not closed. */
  function ActiveOfType(t: IssueType): Issue -> bool {
    (i: Issue) => i.issueType == t && i.status != Closed
  }

  predicate ActiveCritical(i: Issue) {
    i.priority == PriorityCritical && i.status != Closed
  }

  /** The open bugs and enhancements, and the open critical issues, are
      among the issues that are not closed. */
  lemma {:induction false} ActiveBounds(list: seq<Issue>)
    ensures |Filter(ActiveOfType(Bug), list)| + |Filter(ActiveOfType(Enhancement), list)| + |ByStatus(list, Closed)| <= |list|
    ensures |Filter(ActiveCritical, list)| + |ByStatus(list, Closed)| <= |list|
    decreases |list|
  {
    if |list| > 0 {
      ActiveBounds(list[1..]);
    }
  }

  /** `stats`: the list's size, its count per status, and the bugs,
      enhancements and critical issues that are not closed. */
  function Stats(list: seq<Issue>): (s: IssueStats)
    ensures s.total == |list| && s.open + s.inProgress + s.resolved + s.closed == s.total
    ensures s.open == |ByStatus(list, Open)| && s.inProgress == |ByStatus(list, InProgress)|
    ensures s.resolved == |ByStatus(list, Resolved)| && s.closed == |ByStatus(list, Closed)|
    ensures s.bugs == |Filter(ActiveOfType(Bug), list)| && s.enhancements == |Filter(ActiveOfType(Enhancement), list)|
    ensures s.critical == |Filter(ActiveCritical, list)|
    ensures s.bugs + s.enhancements <= s.total - s.closed && s.critical <= s.total - s.closed
  {
    StatusPartition(list);
    ActiveBounds(list);
    IssueStats(|list|, |ByStatus(list, Open)|, |ByStatus(list, InProgress)|, |ByStatus(list, Resolved)|,
               |ByStatus(list, Closed)|, |Filter(ActiveOfType(Bug), list)|,
               |Filter(ActiveOfType(Enhancement), list)|, |Filter(ActiveCritical, list)|)
  }

  function ForComponent(componentId: string): Issue -> bool {
    (i: Issue) => i.componentId == Some(componentId)
  }

  /** `getIssuesForComponent`. */
  function IssuesForComponent(list: seq<Issue>, componentId: string): (r: seq<Issue>)
    ensures Subsequence(r, list)
    ensures forall i :: i in r <==> i in list && i.componentId == Some(componentId)
  {
    Filter(ForComponent(componentId), list)
  }

  /** The issue names a component (its id is truthy). */
  predicate HasComponent(i: Issue) {
    i.componentId.Some? && i.componentId.value != ""
  }

  function ComponentOf(i: Issue): string {
    if i.componentId.Some? then i.componentId.value else ""
  }

  function EntryKeys(entries: seq<(string, seq<Issue>)>): (r: seq<string>)
    ensures |r| == |entries| && forall j :: 0 <= j < |r| ==> r[j] == entries[j].0
  {
    seq(|entries|, j requires 0 <= j < |entries| => entries[j].0)
  }

  /** The record the map holds once the issues of `list` were added. */
  function ComponentRecord(list: seq<Issue>): seq<(string, seq<Issue>)> {
    Tallied(Filter(HasComponent, list), ComponentOf, [], Append)
  }

  /** The record's keys are the components the issues name, each once. */
  lemma ComponentRecordKeys(list: seq<Issue>)
    ensures Distinct(EntryKeys(ComponentRecord(list)))
    ensures forall j :: 0 <= j < |ComponentRecord(list)| ==> ComponentRecord(list)[j].0 != ""
    ensures forall i :: i in list && HasComponent(i) ==> ComponentOf(i) in EntryKeys(ComponentRecord(list))
  {
    var named := Filter(HasComponent, list);
    var r := ComponentRecord(list);
    var ks := FirstKeys(named, ComponentOf);
    assert EntryKeys(r) == ks;
    forall j | 0 <= j < |r|
      ensures r[j].0 != ""
    {
      assert ks[j] in ks;
      var k :| 0 <= k < |named| && ComponentOf(named[k]) == ks[j];
      assert named[k] in named;
    }
    forall i | i in list && HasComponent(i)
      ensures ComponentOf(i) in EntryKeys(r)
    {
      assert i in named;
      var k :| 0 <= k < |named| && named[k] == i;
    }
  }

  /** `issuesByComponent`: one entry per component named by an issue, in
      order of first mention. */
  function IssuesByComponent(list: seq<Issue>): (r: seq<(string, seq<Issue>)>)
    ensures Distinct(EntryKeys(r))
    ensures forall j :: 0 <= j < |r| ==> r[j].0 != ""
    ensures forall i :: i in list && HasComponent(i) ==> ComponentOf(i) in EntryKeys(r)
  {
    ComponentRecordKeys(list);
    ComponentRecord(list)
  }

  /** Each entry lists exactly the issues `getIssuesForComponent` returns
      for its component. */
  lemma ByComponentEntry(list: seq<Issue>, j: nat)
    requires j < |IssuesByComponent(list)|
    ensures IssuesByComponent(list)[j].1 == IssuesForComponent(list, IssuesByComponent(list)[j].0)
  {
    var named := Filter(HasComponent, list);
    var k := IssuesByComponent(list)[j].0;
    var g := Group(named, ComponentOf, k);
    FoldAppend(g);
    FilterTwice(HasComponent, KeyIs(ComponentOf, k), ForComponent(k), list);
  }

  /** One more issue adds to the record only when it names a component. */
  lemma ComponentRecordSnoc(list: seq<Issue>, n: nat)
    requires n < |list|
    ensures ComponentRecord(list[..n + 1])
         == if HasComponent(list[n]) then Upsert(ComponentRecord(list[..n]), ComponentOf(list[n]), list[n], [], Append)
            else ComponentRecord(list[..n])
  {
    var i := list[n];
    var before := Filter(HasComponent, list[..n]);
    assert list[..n + 1] == list[..n] + [i];
    FilterSnoc(HasComponent, list[..n], i);
    if HasComponent(i) {
      assert Filter(HasComponent, list[..n + 1]) == before + [i];
      TalliedSnoc(before, i, ComponentOf, [], Append);
    } else {
      assert Filter(HasComponent, list[..n + 1]) == before;
    }
  }

  /** Builds the map entry by entry, as `forEach` does. */
  method GroupByComponent(list: seq<Issue>) returns (entries: seq<(string, seq<Issue>)>)
    ensures entries == IssuesByComponent(list)
  {
    entries := [];
    for n := 0 to |list|
      invariant entries == ComponentRecord(list[..n])
    {
      ComponentRecordSnoc(list, n);
      if HasComponent(list[n]) {
        entries := Upsert(entries, ComponentOf(list[n]), list[n], [], Append);
      }
    }
    assert list[..|list|] == list;
  }

  // ---------------------------------------------------------------------------
  // Changes to the list

  function HasIssueId(id: string): Issue -> bool {
    (i: Issue) => i.id == id
  }

  /** No two issues share an id. */
  predicate IdsDistinct(list: seq<Issue>) {
    forall j, k :: 0 <= j < k < |list| ==> list[j].id != list[k].id
  }

  /** `find` by id. */
  function IssueById(list: seq<Issue>, id: string): (r: Option<Issue>)
    ensures r.None? <==> forall i :: i in list ==> i.id != id
    ensures r.Some? ==> r.value in list && r.value.id == id
    ensures r.Some? ==> exists k :: 0 <= k < |list| && r.value == list[k]
                          && forall j :: 0 <= j < k ==> list[j].id != id
  {
    match FindIndex(HasIssueId(id), list)
    case None => None
    case Some(k) => Some(list[k])
  }

  function IssueId(millis: nat): string {
    "issue-" + NatToString(millis)
  }

  /** Ids made at different instants differ. */
  lemma IssueIdInjective(a: nat, b: nat)
    requires IssueId(a) == IssueId(b)
    ensures a == b
  {
    assert NatToString(a) == IssueId(a)[6..];
    assert NatToString(b) == IssueId(b)[6..];
    NatToStringInjective(a, b);
  }

  /** The issue `createIssue` makes: the input with a fresh id, both dates
      set to the creation time and no comments. */
  function NewIssue(data: IssueInput, millis: nat, now: string): (r: Issue)
    ensures r.id == IssueId(millis) && r.createdAt == now && r.updatedAt == now && r.comments == []
    ensures r.title == data.title && r.description == data.description && r.issueType == data.issueType
    ensures r.status == data.status && r.priority == data.priority && r.componentId == data.componentId
    ensures r.labels == data.labels && r.assignee == data.assignee && r.author == data.author
  {
    Issue(IssueId(millis), data.title, data.description, data.issueType, data.status, data.priority,
          data.componentId, data.labels, data.assignee, data.author, now, now, [])
  }

  /** `{ ...issue, ...updates, updatedAt: now }`. */
  function Patched(i: Issue, p: IssuePatch, now: string): (r: Issue)
    ensures r.updatedAt == now
    ensures p.id.None? ==> r.id == i.id
    ensures p.title.None? ==> r.title == i.title
    ensures p.description.None? ==> r.description == i.description
    ensures p.issueType.None? ==> r.issueType == i.issueType
    ensures p.status.None? ==> r.status == i.status
    ensures p.priority.None? ==> r.priority == i.priority
    ensures p.componentId.None? ==> r.componentId == i.componentId
    ensures p.labels.None? ==> r.labels == i.labels
    ensures p.assignee.None? ==> r.assignee == i.assignee
    ensures p.author.None? ==> r.author == i.author
    ensures p.createdAt.None? ==> r.createdAt == i.createdAt
    ensures p.comments.None? ==> r.comments == i.comments
    ensures p.status.Some? ==> r.status == p.status.value
    ensures p.assignee.Some? ==> r.assignee == p.assignee.value
  {
    Issue(Or(p.id, i.id), Or(p.title, i.title), Or(p.description, i.description), Or(p.issueType, i.issueType),
          Or(p.status, i.status), Or(p.priority, i.priority), Or(p.componentId, i.componentId),
          Or(p.labels, i.labels), Or(p.assignee, i.assignee), Or(p.author, i.author),
          Or(p.createdAt, i.createdAt), now, Or(p.comments, i.comments))
  }

  /** An empty update only touches the update time. */
  lemma PatchNothing(i: Issue, now: string)
    ensures Patched(i, NO_CHANGES, now) == i.(updatedAt := now)
  {
  }

  /** A status update changes the status and the update time, nothing else. */
  lemma PatchStatus(i: Issue, status: IssueStatus, now: string)
    ensures Patched(i, StatusPatch(status), now) == i.(status := status, updatedAt := now)
  {
  }

  /** Applying the same update twice is applying it once. */
  lemma PatchTwice(i: Issue, p: IssuePatch, t1: string, t2: string)
    ensures Patched(Patched(i, p, t1), p, t2) == Patched(i, p, t2)
  {
  }

  /** The list after `updateIssue`: the first issue with the id updated. */
  function UpdatedIn(list: seq<Issue>, id: string, p: IssuePatch, now: string): (r: seq<Issue>)
    ensures |r| == |list|
    ensures FindIndex(HasIssueId(id), list).None? ==> r == list
    ensures FindIndex(HasIssueId(id), list).Some? ==>
              r == list[FindIndex(HasIssueId(id), list).value := Patched(list[FindIndex(HasIssueId(id), list).value], p, now)]
    ensures forall k :: 0 <= k < |list| && list[k].id != id ==> r[k] == list[k]
  {
    match FindIndex(HasIssueId(id), list)
    case None => list
    case Some(k) => list[k := Patched(list[k], p, now)]
  }

  /** Closing an issue that is not yet closed moves it from its status to
      `closed`; the size of the list is unchanged. */
  lemma CloseCounts(list: seq<Issue>, id: string, now: string)
    requires FindIndex(HasIssueId(id), list).Some?
    ensures var before := Stats(list);
            var after := Stats(UpdatedIn(list, id, StatusPatch(Closed), now));
            var moved := if list[FindIndex(HasIssueId(id), list).value].status == Closed then 0 else 1;
            after.total == before.total && after.closed == before.closed + moved
            && after.open + after.inProgress + after.resolved == before.open + before.inProgress + before.resolved - moved
  {
    var k := FindIndex(HasIssueId(id), list).value;
    var y := Patched(list[k], StatusPatch(Closed), now);
    PatchStatus(list[k], Closed, now);
    FilterUpdateCount(StatusIs(Closed), list, k, y);
    var after := UpdatedIn(list, id, StatusPatch(Closed), now);
    StatusPartition(list);
    StatusPartition(after);
  }

  /** `issue.comments.push(comment); issue.updatedAt = now`. */
  function WithComment(i: Issue, c: IssueComment, now: string): (r: Issue)
    ensures r.comments == i.comments + [c] && r.updatedAt == now
    ensures r.(comments := i.comments, updatedAt := i.updatedAt) == i
  {
    i.(comments := i.comments + [c], updatedAt := now)
  }

  function IssueCommentId(millis: nat): string {
    "comment-" + NatToString(millis)
  }

  /** The list after `addComment`: one more comment on the first issue with
      the id, and every other issue as it was. */
  function CommentedIn(list: seq<Issue>, id: string, c: IssueComment, now: string): (r: seq<Issue>)
    ensures |r| == |list|
    ensures FindIndex(HasIssueId(id), list).None? ==> r == list
    ensures FindIndex(HasIssueId(id), list).Some? ==>
              r == list[FindIndex(HasIssueId(id), list).value := WithComment(list[FindIndex(HasIssueId(id), list).value], c, now)]
    ensures forall k :: 0 <= k < |list| ==> r[k].id == list[k].id && r[k].comments[..|list[k].comments|] == list[k].comments
  {
    match FindIndex(HasIssueId(id), list)
    case None => list
    case Some(k) => list[k := WithComment(list[k], c, now)]
  }

  function CommentCount(i: Issue): int {
    |i.comments|
  }

  /** A comment on an existing issue adds exactly one comment to the list's
      total. */
  lemma CommentAddsOne(list: seq<Issue>, id: string, c: IssueComment, now: string)
    ensures SumOf(CommentedIn(list, id, c, now), CommentCount)
         == SumOf(list, CommentCount) + if FindIndex(HasIssueId(id), list).Some? then 1 else 0
  {
    match FindIndex(HasIssueId(id), list)
    case None =>
    case Some(k) =>
      SumUpdate(list, k, WithComment(list[k], c, now), CommentCount);
  }

  /** The list after `deleteIssue`: the first issue with the id removed. */
  function DeletedIn(list: seq<Issue>, id: string): (r: seq<Issue>)
    ensures FindIndex(HasIssueId(id), list).None? ==> r == list
    ensures FindIndex(HasIssueId(id), list).Some? ==>
              |r| == |list| - 1 && r == RemoveAt(list, FindIndex(HasIssueId(id), list).value)
    ensures forall i :: i in list && i.id != id ==> i in r
  {
    match FindIndex(HasIssueId(id), list)
    case None => list
    case Some(k) =>
      forall i | i in list && i.id != id
        ensures i in RemoveAt(list, k)
      {
        var j :| 0 <= j < |list| && list[j] == i;
        if j < k {
          assert RemoveAt(list, k)[j] == i;
        } else {
          assert RemoveAt(list, k)[j - 1] == i;
        }
      }
      RemoveAt(list, k)
  }

  /** With distinct ids, a deleted issue's id is gone from the list. */
  lemma DeleteRemovesId(list: seq<Issue>, id: string)
    requires IdsDistinct(list)
    ensures forall i :: i in DeletedIn(list, id) ==> i.id != id
    ensures IdsDistinct(DeletedIn(list, id))
  {
    match FindIndex(HasIssueId(id), list)
    case None =>
    case Some(k) =>
      var r := DeletedIn(list, id);
      forall i | i in r
        ensures i.id != id
      {
        var j :| 0 <= j < |r| && r[j] == i;
        if j >= k {
          assert r[j] == list[j + 1];
        }
      }
  }

  // ---------------------------------------------------------------------------
  // The selected issue

  /** The selected issue is one of the listed issues. */
  predicate SelectionListed(list: seq<Issue>, selected: Option<Issue>) {
    selected.Some? ==> selected.value in list
  }

  /** What the selection becomes when the issue with `id` is replaced by
      `y`: the new issue when the selected one has that id. */
  function Resynced(selected: Option<Issue>, id: string, y: Issue): Option<Issue> {
    if selected.Some? && selected.value.id == id then Some(y) else selected
  }

  /** Replacing the issue at `k` by one with the same id keeps the ids
      distinct and the resynced selection listed. */
  lemma ReplaceKeepsSelection(list: seq<Issue>, k: nat, y: Issue, selected: Option<Issue>)
    requires k < |list| && y.id == list[k].id
    requires IdsDistinct(list) && SelectionListed(list, selected)
    ensures IdsDistinct(list[k := y])
    ensures SelectionListed(list[k := y], Resynced(selected, y.id, y))
  {
    if selected.Some? && selected.value.id != y.id {
      var j :| 0 <= j < |list| && list[j] == selected.value;
      assert list[k := y][j] == selected.value;
    } else {
      assert list[k := y][k] == y;
    }
  }

  /** Removing the issue at `k` keeps the ids distinct, and a selection with
      another id stays listed. */
  lemma RemoveKeepsSelection(list: seq<Issue>, k: nat, selected: Option<Issue>)
    requires k < |list|
    requires IdsDistinct(list) && SelectionListed(list, selected)
    ensures IdsDistinct(RemoveAt(list, k))
    ensures selected.Some? && selected.value.id != list[k].id ==> selected.value in RemoveAt(list, k)
  {
    if selected.Some? && selected.value.id != list[k].id {
      var j :| 0 <= j < |list| && list[j] == selected.value;
      if j < k {
        assert RemoveAt(list, k)[j] == selected.value;
      } else {
        assert RemoveAt(list, k)[j - 1] == selected.value;
      }
    }
  }

  // ---------------------------------------------------------------------------
  // The store

  class IssueStore {
    const storage: Storage.PersistentStorage<Saved>
    var issues: seq<Issue>
    var selectedIssue: Option<Issue>
    var typeFilter: Option<IssueType>
    var statusFilter: Option<IssueStatus>
    var priorityFilter: Option<Priority>
    var componentFilter: Option<string>
    var searchQuery: string

    /** The store as the application creates it: the saved list, or the
        fixture `fixtures` when none is saved. */
    constructor (storage: Storage.PersistentStorage<Saved>, fixtures: seq<Issue>)
      ensures this.storage == storage
      ensures issues == LoadIssues(storage.store.items, fixtures)
      ensures selectedIssue.None? && Filters() == NO_FILTERS
    {
      this.storage := storage;
      issues := LoadIssues(storage.store.items, fixtures);
      selectedIssue := None;
      typeFilter := None;
      statusFilter := None;
      priorityFilter := None;
      componentFilter := None;
      searchQuery := "";
    }

    function Filters(): IssueFilters
      reads this
    {
      IssueFilters(typeFilter, statusFilter, priorityFilter, componentFilter, searchQuery)
    }

    function Listed(): seq<Issue>
      reads this
    {
      FilteredIssues(issues, Filters())
    }

    /** The ids are distinct and the selection is a listed issue. */
    predicate Coherent()
      reads this
    {
      IdsDistinct(issues) && SelectionListed(issues, selectedIssue)
    }

    /** `saveIssues`. */
    method SaveIssues(writable: bool)
      modifies storage.store
      ensures storage.store.items == WrittenIf(old(storage.store.items), ISSUES_KEY, SavedIssues(issues), writable)
    {
      storage.Set(ISSUES_KEY, SavedIssues(issues), writable);
    }

    method SetTypeFilter(t: Option<IssueType>)
      modifies this
      ensures Filters() == old(Filters()).(issueType := t)
      ensures issues == old(issues) && selectedIssue == old(selectedIssue)
    {
      typeFilter := t;
    }

    method SetStatusFilter(status: Option<IssueStatus>)
      modifies this
      ensures Filters() == old(Filters()).(status := status)
      ensures issues == old(issues) && selectedIssue == old(selectedIssue)
    {
      statusFilter := status;
    }

    method SetPriorityFilter(priority: Option<Priority>)
      modifies this
      ensures Filters() == old(Filters()).(priority := priority)
      ensures issues == old(issues) && selectedIssue == old(selectedIssue)
    {
      priorityFilter := priority;
    }

    method SetComponentFilter(componentId: Option<string>)
      modifies this
      ensures Filters() == old(Filters()).(component := componentId)
      ensures issues == old(issues) && selectedIssue == old(selectedIssue)
    {
      componentFilter := componentId;
    }

    method SetSearch(query: string)
      modifies this
      ensures Filters() == old(Filters()).(search := query)
      ensures issues == old(issues) && selectedIssue == old(selectedIssue)
    {
      searchQuery := query;
    }

    method ClearFilters()
      modifies this
      ensures Filters() == NO_FILTERS && Listed() == issues
      ensures issues == old(issues) && selectedIssue == old(selectedIssue)
    {
      typeFilter := None;
      statusFilter := None;
      priorityFilter := None;
      componentFilter := None;
      searchQuery := "";
      UnfilteredIsAll(issues);
    }

    /** Opens the first issue with the id; a missing or empty id, or one no
        issue has, closes the detail view. */
    method SelectIssue(issueId: Option<string>)
      modifies this
      ensures issueId.None? || issueId.value == "" ==> selectedIssue.None?
      ensures issueId.Some? && issueId.value != "" ==> selectedIssue == IssueById(issues, issueId.value)
      ensures SelectionListed(issues, selectedIssue)
      ensures issues == old(issues) && Filters() == old(Filters())
    {
      if issueId.None? || issueId.value == "" {
        selectedIssue := None;
      } else {
        selectedIssue := IssueById(issues, issueId.value);
      }
    }

    /** Adds a new issue at the head of the list and saves the list. */
    method CreateIssue(data: IssueInput, millis: nat, now: string, writable: bool) returns (created: Issue)
      modifies this, storage.store
      ensures created == NewIssue(data, millis, now) && issues == [created] + old(issues)
      ensures storage.store.items == WrittenIf(old(storage.store.items), ISSUES_KEY, SavedIssues(issues), writable)
      ensures selectedIssue == old(selectedIssue) && Filters() == old(Filters())
      ensures old(Coherent()) && IssueById(old(issues), IssueId(millis)).None? ==> Coherent()
    {
      created := NewIssue(data, millis, now);
      issues := [created] + issues;
      SaveIssues(writable);
    }

    /** Updates the first issue with the id, refreshes the open issue when it
        has that id, and saves; nothing happens when no issue has it. */
    method UpdateIssue(issueId: string, updates: IssuePatch, now: string, writable: bool)
      modifies this, storage.store
      ensures issues == UpdatedIn(old(issues), issueId, updates, now)
      ensures FindIndex(HasIssueId(issueId), old(issues)).None? ==>
                selectedIssue == old(selectedIssue) && storage.store.items == old(storage.store.items)
      ensures FindIndex(HasIssueId(issueId), old(issues)).Some? ==>
                selectedIssue == Resynced(old(selectedIssue), issueId, issues[FindIndex(HasIssueId(issueId), old(issues)).value])
                && storage.store.items == WrittenIf(old(storage.store.items), ISSUES_KEY, SavedIssues(issues), writable)
      ensures Filters() == old(Filters())
      ensures old(Coherent()) && updates.id.None? ==> Coherent()
    {
      var index := FindIndex(HasIssueId(issueId), issues);
      if index.Some? {
        var k := index.value;
        var y := Patched(issues[k], updates, now);
        if Coherent() && updates.id.None? {
          ReplaceKeepsSelection(issues, k, y, selectedIssue);
        }
        issues := issues[k := y];
        selectedIssue := Resynced(selectedIssue, issueId, y);
        SaveIssues(writable);
      }
    }

    method UpdateStatus(issueId: string, status: IssueStatus, now: string, writable: bool)
      modifies this, storage.store
      ensures issues == UpdatedIn(old(issues), issueId, StatusPatch(status), now)
      ensures FindIndex(HasIssueId(issueId), old(issues)).None? ==>
                selectedIssue == old(selectedIssue) && storage.store.items == old(storage.store.items)
      ensures FindIndex(HasIssueId(issueId), old(issues)).Some? ==>
                selectedIssue == Resynced(old(selectedIssue), issueId, issues[FindIndex(HasIssueId(issueId), old(issues)).value])
                && storage.store.items == WrittenIf(old(storage.store.items), ISSUES_KEY, SavedIssues(issues), writable)
      ensures Filters() == old(Filters())
      ensures old(Coherent()) ==> Coherent()
    {
      UpdateIssue(issueId, StatusPatch(status), now, writable);
    }

    /** Sets or, with `None`, clears the assignee. */
    method AssignIssue(issueId: string, assignee: Option<Person>, now: string, writable: bool)
      modifies this, storage.store
      ensures issues == UpdatedIn(old(issues), issueId, AssigneePatch(assignee), now)
      ensures FindIndex(HasIssueId(issueId), old(issues)).None? ==>
                selectedIssue == old(selectedIssue) && storage.store.items == old(storage.store.items)
      ensures FindIndex(HasIssueId(issueId), old(issues)).Some? ==>
                selectedIssue == Resynced(old(selectedIssue), issueId, issues[FindIndex(HasIssueId(issueId), old(issues)).value])
                && storage.store.items == WrittenIf(old(storage.store.items), ISSUES_KEY, SavedIssues(issues), writable)
      ensures Filters() == old(Filters())
      ensures old(Coherent()) ==> Coherent()
    {
      UpdateIssue(issueId, AssigneePatch(assignee), now, writable);
    }

    method CloseIssue(issueId: string, now: string, writable: bool)
      modifies this, storage.store
      ensures issues == UpdatedIn(old(issues), issueId, StatusPatch(Closed), now)
      ensures FindIndex(HasIssueId(issueId), old(issues)).None? ==>
                selectedIssue == old(selectedIssue) && storage.store.items == old(storage.store.items)
      ensures FindIndex(HasIssueId(issueId), old(issues)).Some? ==>
                selectedIssue == Resynced(old(selectedIssue), issueId, issues[FindIndex(HasIssueId(issueId), old(issues)).value])
                && storage.store.items == WrittenIf(old(storage.store.items), ISSUES_KEY, SavedIssues(issues), writable)
      ensures Filters() == old(Filters())
      ensures old(Coherent()) ==> Coherent()
    {
      UpdateStatus(issueId, Closed, now, writable);
    }

    method ReopenIssue(issueId: string, now: string, writable: bool)
      modifies this, storage.store
      ensures issues == UpdatedIn(old(issues), issueId, StatusPatch(Open), now)
      ensures FindIndex(HasIssueId(issueId), old(issues)).None? ==>
                selectedIssue == old(selectedIssue) && storage.store.items == old(storage.store.items)
      ensures FindIndex(HasIssueId(issueId), old(issues)).Some? ==>
                selectedIssue == Resynced(old(selectedIssue), issueId, issues[FindIndex(HasIssueId(issueId), old(issues)).value])
                && storage.store.items == WrittenIf(old(storage.store.items), ISSUES_KEY, SavedIssues(issues), writable)
      ensures Filters() == old(Filters())
      ensures old(Coherent()) ==> Coherent()
    {
      UpdateStatus(issueId, Open, now, writable);
    }

    /** Appends a comment to the first issue with the id and saves; the
        comment is stamped `commentedAt`, the issue `updatedAt` (two clock
        readings). The open issue shows the comment when it has that id. */
    method AddComment(issueId: string, content: string, author: Person, millis: nat, commentedAt: string, updatedAt: string, writable: bool)
      modifies this, storage.store
      ensures issues == CommentedIn(old(issues), issueId, IssueComment(IssueCommentId(millis), author, content, commentedAt), updatedAt)
      ensures FindIndex(HasIssueId(issueId), old(issues)).None? ==>
                selectedIssue == old(selectedIssue) && storage.store.items == old(storage.store.items)
      ensures FindIndex(HasIssueId(issueId), old(issues)).Some? ==>
                selectedIssue == Resynced(old(selectedIssue), issueId, issues[FindIndex(HasIssueId(issueId), old(issues)).value])
                && storage.store.items == WrittenIf(old(storage.store.items), ISSUES_KEY, SavedIssues(issues), writable)
      ensures Filters() == old(Filters())
      ensures old(Coherent()) ==> Coherent()
    {
      var index := FindIndex(HasIssueId(issueId), issues);
      if index.Some? {
        var k := index.value;
        var comment := IssueComment(IssueCommentId(millis), author, content, commentedAt);
        var y := WithComment(issues[k], comment, updatedAt);
        if Coherent() {
          ReplaceKeepsSelection(issues, k, y, selectedIssue);
        }
        issues := issues[k := y];
        selectedIssue := Resynced(selectedIssue, issueId, y);
        SaveIssues(writable);
      }
    }

    /** Removes the first issue with the id, closes the detail view when the
        open issue has it, and saves; nothing happens when no issue has it. */
    method DeleteIssue(issueId: string, writable: bool)
      modifies this, storage.store
      ensures issues == DeletedIn(old(issues), issueId)
      ensures FindIndex(HasIssueId(issueId), old(issues)).None? ==>
                selectedIssue == old(selectedIssue) && storage.store.items == old(storage.store.items)
      ensures FindIndex(HasIssueId(issueId), old(issues)).Some? ==>
                selectedIssue == (if old(selectedIssue).Some? && old(selectedIssue).value.id == issueId then None else old(selectedIssue))
                && storage.store.items == WrittenIf(old(storage.store.items), ISSUES_KEY, SavedIssues(issues), writable)
      ensures Filters() == old(Filters())
      ensures old(Coherent()) ==> Coherent()
    {
      var index := FindIndex(HasIssueId(issueId), issues);
      if index.Some? {
        var k := index.value;
        if Coherent() {
          RemoveKeepsSelection(issues, k, selectedIssue);
        }
        issues := RemoveAt(issues, k);
        if selectedIssue.Some? && selectedIssue.value.id == issueId {
          selectedIssue := None;
        }
        SaveIssues(writable);
      }
    }

    /** `issuesByComponent`. */
    method ByComponent() returns (entries: seq<(string, seq<Issue>)>)
      ensures entries == IssuesByComponent(issues)
    {
      entries := GroupByComponent(issues);
    }
  }
}

=== FILE: localstore.dfy ===
/** The browser's `localStorage`, shared by the TTL cache and the persisted
    state store. Values are JSON text; a JSON round trip is the identity, so
    a stored text is either the empty string, text `JSON.parse` rejects, or a
    parsed document. */
module LocalStore {
  import opened Common

  /** What `JSON.parse` yields for a stored text: an entry written by the
      cache (`{ data, timestamp, expiresAt }`) or any other value. */
  datatype Doc<D> =
    | Plain(value: D)
    | CacheRecord(data: D, timestamp: int, expiresAt: int)

  /** A stored string. `Blank` is the empty string, the one falsy string. */
  datatype Stored<D> =
    | Blank
    | Garbled
    | Json(doc: Doc<D>)

  /** One physical store; every service that writes to `localStorage` holds a
      reference to the same object. */
  class Store<D> {
    var items: map<string, Stored<D>>

    constructor (initial: map<string, Stored<D>>)
      ensures items == initial
    {
      items := initial;
    }
  }

  /** The keys of `items` that start with `prefix`. */
  function Prefixed<D>(items: map<string, Stored<D>>, prefix: string): (r: set<string>)
    ensures forall k :: k in r <==> k in items && StartsWith(k, prefix)
  {
    set k | k in items && StartsWith(k, prefix)
  }

  /** The entries whose key does not start with `prefix`. */
  function Unprefixed<D>(items: map<string, Stored<D>>, prefix: string): (r: map<string, Stored<D>>)
    ensures forall k :: k in r <==> k in items && !StartsWith(k, prefix)
    ensures forall k :: k in r ==> r[k] == items[k]
  {
    items - Prefixed(items, prefix)
  }
}

=== FILE: npm.dfy ===
/** `npmService`: reads of the `antd` package from the npm registry and its
    download counts, cached for ten minutes in the same cache as the GitHub
    client. */
module Npm {
  import opened Common
  import opened LocalStore
  import opened ApiTypes
  import Cache
  import Remote
  import GitHub

  /** Ten minutes, in milliseconds. */
  const CACHE_TTL: int := 10 * 60 * 1000

  const DEFAULT_COUNT: int := 10

  datatype Query =
    | GetPackageInfo
    | GetDownloadStats
    | GetDailyDownloads
    | GetWeeklyDownloads

  function CacheKey(q: Query): (k: string)
    ensures StartsWith(k, "npm_")
  {
    match q
    case GetPackageInfo => "npm_package_info"
    case GetDownloadStats => "npm_downloads_month"
    case GetDailyDownloads => "npm_downloads_daily"
    case GetWeeklyDownloads => "npm_downloads_week"
  }

  /** How the client reads a response: any status outside 200-299 is a
      generic error carrying the status; 403 is not singled out. */
  function Interpret(resp: Response): (r: Outcome<ApiData>)
    ensures r.Success? <==> resp.Reply? && IsOk(resp.status)
    ensures r.Success? ==> r.value == resp.body
    ensures resp.Reply? && !IsOk(resp.status) ==> r == Failure(HttpError(resp.status, resp.statusText))
    ensures resp.Unreachable? ==> r == Failure(NetworkError)
    ensures r != Failure(RateLimited)
  {
    match resp
    case Unreachable => Failure(NetworkError)
    case Reply(status, statusText, body) =>
      if IsOk(status) then Success(body) else Failure(HttpError(status, statusText))
  }

  /** `fetchNpm`: the same cache-through protocol as the GitHub client. */
  method Fetch(cache: Cache.CacheService<ApiData>, net: Query -> Response, q: Query, now: int, writable: bool)
    returns (r: Outcome<ApiData>, requested: bool)
    modifies cache.store
    ensures requested <==> Remote.Served(old(cache.store.items), cache.Key(CacheKey(q)), now).None?
    ensures r == Remote.FetchOutcome(old(cache.store.items), cache.Key(CacheKey(q)), now, Interpret(net(q)))
    ensures cache.store.items ==
              Remote.FetchStore(old(cache.store.items), cache.Key(CacheKey(q)), now, Interpret(net(q)), CACHE_TTL, writable)
  {
    var cached := cache.Get(CacheKey(q), now);
    if cached.Some? && Truthy(cached.value) {
      return Success(cached.value), false;
    }
    requested := true;
    r := Interpret(net(q));
    if r.Success? {
      cache.Set(CacheKey(q), r.value, now, writable, CACHE_TTL);
    }
  }

  /** The package document a fetch outcome yields. */
  function PackageOf(o: Outcome<ApiData>): (r: Outcome<NpmPackageInfo>)
    ensures o.Success? && o.value.PackageInfo? ==> r == Success(o.value.pkg)
    ensures o.Success? && !o.value.PackageInfo? ==> r == Failure(Malformed)
    ensures o.Failure? ==> r == Failure(o.error)
  {
    match o
    case Failure(e) => Failure(e)
    case Success(PackageInfo(p)) => Success(p)
    case Success(_) => Failure(Malformed)
  }

  /** `getLatestVersion`: the `latest` dist-tag of the package document. */
  method LatestVersion(cache: Cache.CacheService<ApiData>, net: Query -> Response, now: int, writable: bool)
    returns (r: Outcome<string>)
    modifies cache.store
    ensures var p := PackageOf(Remote.FetchOutcome(old(cache.store.items), cache.Key(CacheKey(GetPackageInfo)), now,
                                                   Interpret(net(GetPackageInfo))));
            r == if p.Success? then Success(p.value.latest) else Failure(p.error)
    ensures cache.store.items ==
              Remote.FetchStore(old(cache.store.items), cache.Key(CacheKey(GetPackageInfo)), now,
                                Interpret(net(GetPackageInfo)), CACHE_TTL, writable)
  {
    var o, _ := Fetch(cache, net, GetPackageInfo, now, writable);
    match PackageOf(o)
    case Success(p) => r := Success(p.latest);
    case Failure(e) => r := Failure(e);
  }

  datatype VersionDate = VersionDate(version: string, date: string)

  /** The versions, in document order, that have a `time` entry. */
  function Dated(info: NpmPackageInfo): (r: seq<string>)
    ensures forall v :: v in r <==> v in info.versions && v in info.time
  {
    Filter(v => v in info.time, info.versions)
  }

  /** Pairs each dated version with its time entry. */
  function WithTimes(info: NpmPackageInfo, vs: seq<string>): (r: seq<(string, NpmTime)>)
    requires forall v :: v in vs ==> v in info.time
    ensures |r| == |vs|
    ensures forall i :: 0 <= i < |r| ==> r[i] == (vs[i], info.time[vs[i]])
  {
    seq(|vs|, i requires 0 <= i < |vs| => (vs[i], info.time[vs[i]]))
  }

  function Millis(e: (string, NpmTime)): int {
    e.1.millis
  }

  /** The dated versions with their times, newest first, ties in document
      order. */
  function NewestFirst(info: NpmPackageInfo): (s: seq<(string, NpmTime)>)
    ensures |s| == |Dated(info)|
    ensures SortedDesc(s, Millis)
    ensures multiset(s) == multiset(WithTimes(info, Dated(info)))
    ensures forall i :: 0 <= i < |s| ==> s[i].0 in info.versions && s[i].0 in info.time && s[i].1 == info.time[s[i].0]
  {
    var all := WithTimes(info, Dated(info));
    var sorted := SortDesc(all, Millis);
    MultisetMembers(sorted, all);
    assert forall i :: 0 <= i < |sorted| ==> sorted[i] in all;
    sorted
  }

  /** `getRecentVersions(count)` on a package document: the dated versions,
      newest first (ties in document order), cut to `count`. */
  function RecentVersions(info: NpmPackageInfo, count: int): (r: seq<VersionDate>)
    ensures |r| <= |Dated(info)|
    ensures count >= 0 ==> |r| <= count
    ensures count >= |Dated(info)| ==> |r| == |Dated(info)|
    ensures forall i :: 0 <= i < |r| ==>
              r[i].version in info.versions && r[i].version in info.time && r[i].date == info.time[r[i].version].text
    ensures forall i, j :: 0 <= i < j < |r| ==> info.time[r[i].version].millis >= info.time[r[j].version].millis
  {
    var sorted := NewestFirst(info);
    var taken := Take(sorted, SliceEnd(|sorted|, count));
    seq(|taken|, i requires 0 <= i < |taken| => VersionDate(taken[i].0, taken[i].1.text))
  }

  /** The list holds the `count` newest dated versions: as many as asked
      for, and no dated version left out is newer than one listed. */
  lemma {:induction false} RecentVersionsNewest(info: NpmPackageInfo, count: int)
    ensures 0 <= count <= |Dated(info)| ==> |RecentVersions(info, count)| == count
    ensures var r := RecentVersions(info, count);
            forall i, v :: 0 <= i < |r| && v in Dated(info) && (forall j :: 0 <= j < |r| ==> r[j].version != v) ==>
              info.time[v].millis <= info.time[r[i].version].millis
  {
    var r := RecentVersions(info, count);
    var sorted := NewestFirst(info);
    assert |r| <= |sorted|;
    assert forall j :: 0 <= j < |r| ==> r[j].version == sorted[j].0 && info.time[r[j].version] == sorted[j].1;
    NewestFirstCut(info, |r|);
  }

  /** No dated version left out of the first `n` newest is newer than one
      kept. */
  lemma {:induction false} NewestFirstCut(info: NpmPackageInfo, n: nat)
    requires n <= |NewestFirst(info)|
    ensures forall i, v :: 0 <= i < n && v in Dated(info) && (forall j :: 0 <= j < n ==> NewestFirst(info)[j].0 != v) ==>
              info.time[v].millis <= NewestFirst(info)[i].1.millis
  {
    var sorted := NewestFirst(info);
    var all := WithTimes(info, Dated(info));
    forall i, v | 0 <= i < n && v in Dated(info) && (forall j :: 0 <= j < n ==> sorted[j].0 != v)
      ensures info.time[v].millis <= sorted[i].1.millis
    {
      var d := PositionOf(Dated(info), v);
      var p := PermutedIndex(all, sorted, d);
      assert sorted[p].0 == v;
      assert Millis(sorted[i]) >= Millis(sorted[p]);
    }
  }

  /** When `count` covers them all, every dated version is listed. */
  lemma {:induction false} RecentVersionsComplete(info: NpmPackageInfo, count: int, v: string)
    requires count >= |Dated(info)|
    requires v in info.versions && v in info.time
    ensures exists i :: 0 <= i < |RecentVersions(info, count)| && RecentVersions(info, count)[i].version == v
  {
    var dated := Dated(info);
    var sorted := NewestFirst(info);
    MultisetMembers(sorted, WithTimes(info, dated));
    var j :| 0 <= j < |dated| && dated[j] == v;
    assert WithTimes(info, dated)[j] in sorted;
    var i :| 0 <= i < |sorted| && sorted[i] == WithTimes(info, dated)[j];
    assert RecentVersions(info, count)[i].version == v;
  }

  /** `getRecentVersions`: fetches the package document and lists it. */
  method RecentVersionsOf(cache: Cache.CacheService<ApiData>, net: Query -> Response, now: int, writable: bool,
                          count: int := DEFAULT_COUNT)
    returns (r: Outcome<seq<VersionDate>>)
    modifies cache.store
    ensures var p := PackageOf(Remote.FetchOutcome(old(cache.store.items), cache.Key(CacheKey(GetPackageInfo)), now,
                                                   Interpret(net(GetPackageInfo))));
            r == if p.Success? then Success(RecentVersions(p.value, count)) else Failure(p.error)
    ensures cache.store.items ==
              Remote.FetchStore(old(cache.store.items), cache.Key(CacheKey(GetPackageInfo)), now,
                                Interpret(net(GetPackageInfo)), CACHE_TTL, writable)
  {
    var o, _ := Fetch(cache, net, GetPackageInfo, now, writable);
    match PackageOf(o)
    case Success(p) => r := Success(RecentVersions(p, count));
    case Failure(e) => r := Failure(e);
  }

  const CLEARED_KEYS: seq<string> :=
    ["npm_package_info", "npm_downloads_month", "npm_downloads_daily", "npm_downloads_week"]

  /** `clearCache`: removes the four fixed keys, one after the other, and
      nothing else. */
  method ClearCache(cache: Cache.CacheService<ApiData>)
    modifies cache.store
    ensures cache.store.items == old(cache.store.items) - Cache.PhysicalKeys(cache.prefix, CLEARED_KEYS)
  {
    for i := 0 to |CLEARED_KEYS|
      invariant cache.store.items == old(cache.store.items) - Cache.PhysicalKeys(cache.prefix, CLEARED_KEYS[..i])
    {
      Cache.RemoveNext(old(cache.store.items), cache.prefix, CLEARED_KEYS, i);
      cache.Remove(CLEARED_KEYS[i]);
    }
    assert CLEARED_KEYS[..|CLEARED_KEYS|] == CLEARED_KEYS;
  }

  /** The cleared keys are the keys of all four queries. */
  lemma ClearedAreAllQueries(q: Query)
    ensures CacheKey(q) in CLEARED_KEYS
  {
  }

  /** The two clients share one cache without sharing a key. */
  lemma NoCrossClientCollision(q: Query, g: GitHub.Query)
    ensures CacheKey(q) != GitHub.CacheKey(g)
  {
    assert CacheKey(q)[0] == 'n' && GitHub.CacheKey(g)[0] == 'g';
  }
}

=== FILE: persistence.dfy ===
/** The lists the issue tracker and the contribution workflow persist in the
    "dsm_" namespace of the browser store, and the keys they use.

    The stores name their keys through the key table of `storage`
    (`STORAGE_KEYS.ISSUES`, `.BRANCHES`, `.CONTRIBUTIONS`), but the table
    declares only four keys, none of them these three. Reading an undeclared
    property yields `undefined`, and "dsm_" + `undefined` is the text
    "dsm_undefined": the three lists share one physical slot. `KeyAsWritten`
    and the two lemmas after it show that; the stores of this model use
    three distinct keys instead (`ISSUES_KEY`, `BRANCHES_KEY`,
    `CONTRIBUTIONS_KEY`), for which saving one list leaves the others'
    loads unchanged. */
module Persistence {
  import opened Common
  import opened LocalStore
  import opened Types
  import Storage

  /** A persisted list. */
  datatype Saved =
    | SavedIssues(issues: seq<Issue>)
    | SavedBranches(branches: seq<Branch>)
    | SavedContributions(contributions: seq<Contribution>)

  /** The physical key of logical key `key`. */
  function Slot(key: string): (k: string)
    ensures |k| == |Storage.PREFIX| + |key| && k[..|Storage.PREFIX|] == Storage.PREFIX && k[|Storage.PREFIX|..] == key
  {
    Storage.PREFIX + key
  }

  /** A `storage.set(key, value)` that succeeds. */
  function Written(items: map<string, Stored<Saved>>, key: string, value: Saved): map<string, Stored<Saved>> {
    items[Slot(key) := Json(Plain(value))]
  }

  /** The store after `storage.set(key, value)` when the browser accepts the
      write exactly if `writable`: a refused write is caught and logged and
      leaves the store as it was. */
  function WrittenIf(items: map<string, Stored<Saved>>, key: string, value: Saved, writable: bool): map<string, Stored<Saved>> {
    if writable then Written(items, key, value) else items
  }

  // ---------------------------------------------------------------------------
  // The keys as written

  /** The key table as declared, property name to key. */
  const DECLARED_KEYS: map<string, string> :=
    map["REQUESTS" := "requests", "AUDIT_ISSUES" := "audit_issues",
        "DISMISSED_ALERTS" := "dismissed_alerts", "USER_VOTES" := "user_votes"]

  /** The key a store passes when it names table property `name`: the
      declared key, or the text of `undefined` for a property the table
      lacks. */
  function KeyAsWritten(name: string): (k: string)
    ensures name in DECLARED_KEYS ==> k in Storage.STORAGE_KEYS
    ensures name !in DECLARED_KEYS ==> k == "undefined"
  {
    if name in DECLARED_KEYS then DECLARED_KEYS[name] else "undefined"
  }

  /** The three lists are read and written under one physical key. */
  lemma SharedSlot()
    ensures Slot(KeyAsWritten("ISSUES")) == "dsm_undefined"
    ensures Slot(KeyAsWritten("BRANCHES")) == "dsm_undefined"
    ensures Slot(KeyAsWritten("CONTRIBUTIONS")) == "dsm_undefined"
  {
  }

  /** So saving the issue list after the branch list loses the branches: the
      branch loader then reads the issue list. */
  lemma IssueSaveOverwritesBranches(items: map<string, Stored<Saved>>, branches: seq<Branch>, issues: seq<Issue>)
    ensures var after := Written(Written(items, KeyAsWritten("BRANCHES"), SavedBranches(branches)),
                                 KeyAsWritten("ISSUES"), SavedIssues(issues));
            Storage.Read(after, Slot(KeyAsWritten("BRANCHES")), None) == Some(Plain(SavedIssues(issues)))
  {
    SharedSlot();
  }

  // ---------------------------------------------------------------------------
  // The keys of this model

  const ISSUES_KEY: string := "issues"
  const BRANCHES_KEY: string := "branches"
  const CONTRIBUTIONS_KEY: string := "contributions"

  /** Every persisted key, the declared ones and the three list keys. */
  const PERSISTED_KEYS: seq<string> := Storage.STORAGE_KEYS + [ISSUES_KEY, BRANCHES_KEY, CONTRIBUTIONS_KEY]

  lemma PersistedKeysDistinct()
    ensures Distinct(PERSISTED_KEYS)
  {
  }

  /** Distinct keys have distinct physical keys. */
  lemma SlotInjective(a: string, b: string)
    requires a != b
    ensures Slot(a) != Slot(b)
  {
  }

  /** `loadIssues`: the saved issue list, or a copy of the fixture when
      nothing usable is saved. */
  function LoadIssues(items: map<string, Stored<Saved>>, fixtures: seq<Issue>): (r: seq<Issue>)
    ensures Storage.Read(items, Slot(ISSUES_KEY), None) == Some(Plain(SavedIssues(r))) || r == fixtures
    ensures Slot(ISSUES_KEY) !in items ==> r == fixtures
  {
    var doc: Option<Doc<Saved>> := Storage.Read(items, Slot(ISSUES_KEY), None);
    match doc
    case Some(Plain(SavedIssues(saved))) => saved
    case _ => fixtures
  }

  /** `loadBranches`. */
  function LoadBranches(items: map<string, Stored<Saved>>, fixtures: seq<Branch>): (r: seq<Branch>)
    ensures Storage.Read(items, Slot(BRANCHES_KEY), None) == Some(Plain(SavedBranches(r))) || r == fixtures
    ensures Slot(BRANCHES_KEY) !in items ==> r == fixtures
  {
    var doc: Option<Doc<Saved>> := Storage.Read(items, Slot(BRANCHES_KEY), None);
    match doc
    case Some(Plain(SavedBranches(saved))) => saved
    case _ => fixtures
  }

  /** `loadContributions`. */
  function LoadContributions(items: map<string, Stored<Saved>>, fixtures: seq<Contribution>): (r: seq<Contribution>)
    ensures Storage.Read(items, Slot(CONTRIBUTIONS_KEY), None) == Some(Plain(SavedContributions(r))) || r == fixtures
    ensures Slot(CONTRIBUTIONS_KEY) !in items ==> r == fixtures
  {
    var doc: Option<Doc<Saved>> := Storage.Read(items, Slot(CONTRIBUTIONS_KEY), None);
    match doc
    case Some(Plain(SavedContributions(saved))) => saved
    case _ => fixtures
  }

  /** A saved issue list loads back as saved and leaves the other two lists'
      loads as they were. */
  lemma IssuesRoundTrip(items: map<string, Stored<Saved>>, issues: seq<Issue>,
                        fi: seq<Issue>, fb: seq<Branch>, fc: seq<Contribution>)
    ensures LoadIssues(Written(items, ISSUES_KEY, SavedIssues(issues)), fi) == issues
    ensures LoadBranches(Written(items, ISSUES_KEY, SavedIssues(issues)), fb) == LoadBranches(items, fb)
    ensures LoadContributions(Written(items, ISSUES_KEY, SavedIssues(issues)), fc) == LoadContributions(items, fc)
  {
    SlotInjective(ISSUES_KEY, BRANCHES_KEY);
    SlotInjective(ISSUES_KEY, CONTRIBUTIONS_KEY);
  }

  lemma BranchesRoundTrip(items: map<string, Stored<Saved>>, branches: seq<Branch>,
                          fi: seq<Issue>, fb: seq<Branch>, fc: seq<Contribution>)
    ensures LoadBranches(Written(items, BRANCHES_KEY, SavedBranches(branches)), fb) == branches
    ensures LoadIssues(Written(items, BRANCHES_KEY, SavedBranches(branches)), fi) == LoadIssues(items, fi)
    ensures LoadContributions(Written(items, BRANCHES_KEY, SavedBranches(branches)), fc) == LoadContributions(items, fc)
  {
    SlotInjective(BRANCHES_KEY, ISSUES_KEY);
    SlotInjective(BRANCHES_KEY, CONTRIBUTIONS_KEY);
  }

  lemma ContributionsRoundTrip(items: map<string, Stored<Saved>>, contributions: seq<Contribution>,
                               fi: seq<Issue>, fb: seq<Branch>, fc: seq<Contribution>)
    ensures LoadContributions(Written(items, CONTRIBUTIONS_KEY, SavedContributions(contributions)), fc) == contributions
    ensures LoadIssues(Written(items, CONTRIBUTIONS_KEY, SavedContributions(contributions)), fi) == LoadIssues(items, fi)
    ensures LoadBranches(Written(items, CONTRIBUTIONS_KEY, SavedContributions(contributions)), fb) == LoadBranches(items, fb)
  {
    SlotInjective(CONTRIBUTIONS_KEY, ISSUES_KEY);
    SlotInjective(CONTRIBUTIONS_KEY, BRANCHES_KEY);
  }
}

=== FILE: remote.dfy ===
/** The cache-through protocol shared by the GitHub and npm clients: a
    truthy cached body answers without a request; otherwise the request is
    issued, and only a successful answer is written back to the cache with
    the client's time-to-live. */
module Remote {
  import opened Common
  import opened LocalStore
  import opened ApiTypes
  import Cache

  /** The body a read of physical key `k` at `now` serves from the cache, if
      it is truthy. */
  function Served(items: map<string, Stored<ApiData>>, k: string, now: int): (r: Option<ApiData>)
    ensures r.Some? <==> Cache.Lookup(items, k, now).Some? && Truthy(Cache.Lookup(items, k, now).value)
    ensures r.Some? ==> r == Cache.Lookup(items, k, now)
  {
    var hit := Cache.Lookup(items, k, now);
    if hit.Some? && Truthy(hit.value) then hit else None
  }

  /** What the call answers, given what the request would answer. */
  function FetchOutcome(items: map<string, Stored<ApiData>>, k: string, now: int, answer: Outcome<ApiData>): (r: Outcome<ApiData>)
    ensures Served(items, k, now).Some? ==> r == Success(Served(items, k, now).value)
    ensures Served(items, k, now).None? ==> r == answer
  {
    match Served(items, k, now)
    case Some(d) => Success(d)
    case None => answer
  }

  /** The store after the call: the read may have evicted an expired entry,
      and a successful request writes its body (unless the write fails). */
  function FetchStore(items: map<string, Stored<ApiData>>, k: string, now: int, answer: Outcome<ApiData>,
                      ttl: int, writable: bool): (r: map<string, Stored<ApiData>>)
  {
    var afterRead := Cache.AfterLookup(items, k, now);
    if Served(items, k, now).None? && answer.Success? && writable
    then Cache.Put(afterRead, k, answer.value, now, ttl)
    else afterRead
  }

  /** A hit answers with the cached body and leaves the store as it was. */
  lemma HitShortCircuits(items: map<string, Stored<ApiData>>, k: string, now: int, answer: Outcome<ApiData>,
                         ttl: int, writable: bool)
    requires Served(items, k, now).Some?
    ensures FetchOutcome(items, k, now, answer) == Success(Cache.Lookup(items, k, now).value)
    ensures FetchStore(items, k, now, answer, ttl, writable) == items
  {
  }

  /** A failed request never writes: every entry afterwards was there before,
      unchanged. */
  lemma FailureNeverWrites(items: map<string, Stored<ApiData>>, k: string, now: int, answer: Outcome<ApiData>,
                           ttl: int, writable: bool)
    requires answer.Failure?
    ensures forall j :: j in FetchStore(items, k, now, answer, ttl, writable) ==>
              j in items && FetchStore(items, k, now, answer, ttl, writable)[j] == items[j]
  {
  }

  /** A successful, truthy answer is cached: any call for the same key up to
      `ttl` milliseconds later is answered from the cache without a
      request, and with the same body. */
  lemma SuccessThenHit(items: map<string, Stored<ApiData>>, k: string, now: int, answer: Outcome<ApiData>,
                       ttl: int, later: int, answer2: Outcome<ApiData>)
    requires Served(items, k, now).None? && answer.Success? && Truthy(answer.value)
    requires later <= now + ttl
    ensures Served(FetchStore(items, k, now, answer, ttl, true), k, later) == Some(answer.value)
    ensures FetchOutcome(FetchStore(items, k, now, answer, ttl, true), k, later, answer2) == answer
  {
    Cache.PutThenLookup(Cache.AfterLookup(items, k, now), k, answer.value, now, ttl, later);
  }

  /** The call touches no other key. */
  lemma FetchIsolated(items: map<string, Stored<ApiData>>, k: string, j: string, now: int, answer: Outcome<ApiData>,
                      ttl: int, writable: bool)
    requires j != k
    ensures j in FetchStore(items, k, now, answer, ttl, writable) <==> j in items
    ensures j in items ==> FetchStore(items, k, now, answer, ttl, writable)[j] == items[j]
  {
  }
}

=== FILE: requests.dfy ===
/** `useRequestsStore`: the component-request board. It holds the requests,
    a status and a priority selection, the request wizard's step and the
    request being drafted in it. Voting changes a request in place. */
module Requests {
  import opened Common
  import opened Types

  /** The user every vote and submission of this page is made as. */
  const CURRENT_USER: string := "current-user"

  /** The wizard's steps are numbered 0 to 3. */
  const LAST_STEP: int := 3

  /** How many requests `topVoted` shows. */
  const TOP_COUNT: nat := 5

  datatype RequestStats = RequestStats(total: int, submitted: int, underReview: int, inDevelopment: int, ready: int)

  /** The wizard's partial request: the fields `submitRequest` reads, each
      absent until entered. */
  datatype RequestDraft = RequestDraft(
    title: Option<string>,
    description: Option<string>,
    userStory: Option<string>,
    priority: Option<Priority>,
    attachments: Option<seq<string>>,
    similarComponents: Option<seq<string>>,
    affectedProjects: Option<int>)

  const EMPTY_DRAFT: RequestDraft := RequestDraft(None, None, None, None, None, None, None)

  // ---------------------------------------------------------------------------
  // Getters

  predicate Matches(status: Option<RequestStatus>, priority: Option<Priority>, r: ComponentRequest) {
    (status.None? || r.status == status.value) && (priority.None? || r.priority == priority.value)
  }

  /** `filteredRequests`: the requests that pass both selections, in order. */
  function FilteredRequests(rs: seq<ComponentRequest>, status: Option<RequestStatus>, priority: Option<Priority>)
    : (r: seq<ComponentRequest>)
    ensures Subsequence(r, rs)
    ensures forall x :: x in r <==> x in rs && Matches(status, priority, x)
  {
    Filter((x: ComponentRequest) => Matches(status, priority, x), rs)
  }

  /** Without a selection every request is listed. */
  lemma UnfilteredIsAll(rs: seq<ComponentRequest>)
    ensures FilteredRequests(rs, None, None) == rs
  {
    FilterAll((x: ComponentRequest) => Matches(None, None, x), rs);
  }

  function StatusIs(status: RequestStatus): ComponentRequest -> bool {
    (r: ComponentRequest) => r.status == status
  }

  /** `requestsByStatus[status]`: the requests in that status, in order. */
  function ByStatus(rs: seq<ComponentRequest>, status: RequestStatus): (r: seq<ComponentRequest>)
    ensures Subsequence(r, rs)
    ensures forall x :: x in r <==> x in rs && x.status == status
  {
    Filter(StatusIs(status), rs)
  }

  /** Every request is in exactly one of the four columns. */
  lemma {:induction false} StatusPartition(rs: seq<ComponentRequest>)
    ensures |ByStatus(rs, Submitted)| + |ByStatus(rs, UnderReview)| + |ByStatus(rs, InDevelopment)| + |ByStatus(rs, Ready)|
         == |rs|
    decreases |rs|
  {
    if |rs| > 0 {
      StatusPartition(rs[1..]);
    }
  }

  /** `stats`: the number of requests and the size of each column (every
      field of the fixture module's totals is overridden). */
  function Stats(rs: seq<ComponentRequest>): (s: RequestStats)
    ensures s.total == |rs|
    ensures s.submitted + s.underReview + s.inDevelopment + s.ready == s.total
    ensures s.submitted == |ByStatus(rs, Submitted)| && s.underReview == |ByStatus(rs, UnderReview)|
    ensures s.inDevelopment == |ByStatus(rs, InDevelopment)| && s.ready == |ByStatus(rs, Ready)|
  {
    StatusPartition(rs);
    RequestStats(|rs|, |ByStatus(rs, Submitted)|, |ByStatus(rs, UnderReview)|,
                 |ByStatus(rs, InDevelopment)|, |ByStatus(rs, Ready)|)
  }

  function Votes(r: ComponentRequest): int {
    r.votes
  }

  /** `topVoted`: a copy sorted by votes, most first (ties keep their order),
      cut to five. The requests themselves keep their order. */
  function TopVoted(rs: seq<ComponentRequest>): (r: seq<ComponentRequest>)
    ensures |r| == if |rs| < TOP_COUNT then |rs| else TOP_COUNT
    ensures SortedDesc(r, Votes)
    ensures multiset(r) <= multiset(rs)
    ensures forall i, x :: 0 <= i < |r| && x in multiset(rs) - multiset(r) ==> Votes(x) <= Votes(r[i])
  {
    var sorted := SortDesc(rs, Votes);
    TakeSortedDesc(sorted, TOP_COUNT, Votes);
    TakeIsTop(sorted, TOP_COUNT, Votes);
    Take(sorted, TOP_COUNT)
  }

  // ---------------------------------------------------------------------------
  // Votes

  function HasRequestId(id: string): ComponentRequest -> bool {
    (r: ComponentRequest) => r.id == id
  }

  /** `votes - votedBy.length`: fixture requests carry more votes than named
      voters, so this is what voting keeps, not a zero. */
  function Balance(r: ComponentRequest): int {
    r.votes - |r.votedBy|
  }

  /** A request after `user` votes for it: unchanged when they already
      have. */
  function AddVoter(r: ComponentRequest, user: string): (v: ComponentRequest)
    ensures user in v.votedBy
    ensures user in r.votedBy ==> v == r
    ensures user !in r.votedBy ==> v == r.(votes := r.votes + 1, votedBy := r.votedBy + [user])
  {
    if user in r.votedBy then r else r.(votes := r.votes + 1, votedBy := r.votedBy + [user])
  }

  /** Every id but `user`'s, in order. */
  function Without(voters: seq<string>, user: string): (r: seq<string>)
    ensures user !in r
    ensures forall v :: v in r <==> v in voters && v != user
  {
    Filter((v: string) => v != user, voters)
  }

  /** A request after `user` withdraws their vote: unchanged when they had
      not voted. */
  function DropVoter(r: ComponentRequest, user: string): (v: ComponentRequest)
    ensures user !in v.votedBy
    ensures user !in r.votedBy ==> v == r
    ensures user in r.votedBy ==> v == r.(votes := r.votes - 1, votedBy := Without(r.votedBy, user))
  {
    if user in r.votedBy then r.(votes := r.votes - 1, votedBy := Without(r.votedBy, user)) else r
  }

  /** The requests after a change `f` to the first one with `id`; no request
      has it, nothing changes. */
  function UpdateFirst(rs: seq<ComponentRequest>, id: string, f: ComponentRequest -> ComponentRequest)
    : (r: seq<ComponentRequest>)
    ensures |r| == |rs|
    ensures FindIndex(HasRequestId(id), rs).None? ==> r == rs
    ensures FindIndex(HasRequestId(id), rs).Some? ==>
              var k := FindIndex(HasRequestId(id), rs).value;
              r == rs[k := f(rs[k])]
  {
    match FindIndex(HasRequestId(id), rs)
    case None => rs
    case Some(k) => rs[k := f(rs[k])]
  }

  /** The requests after `voteForRequest(id, user)`. */
  function VoteIn(rs: seq<ComponentRequest>, id: string, user: string): (r: seq<ComponentRequest>)
    ensures |r| == |rs|
    ensures forall i :: 0 <= i < |r| ==> r[i].id == rs[i].id
  {
    var r := UpdateFirst(rs, id, (x: ComponentRequest) => AddVoter(x, user));
    assert forall i :: 0 <= i < |r| ==> r[i] == rs[i] || r[i] == AddVoter(rs[i], user);
    r
  }

  /** The requests after `removeVote(id, user)`. */
  function RemoveVoteIn(rs: seq<ComponentRequest>, id: string, user: string): (r: seq<ComponentRequest>)
    ensures |r| == |rs|
    ensures forall i :: 0 <= i < |r| ==> r[i].id == rs[i].id
  {
    var r := UpdateFirst(rs, id, (x: ComponentRequest) => DropVoter(x, user));
    assert forall i :: 0 <= i < |r| ==> r[i] == rs[i] || r[i] == DropVoter(rs[i], user);
    r
  }

  /** A vote changes the first request with `id`, by one vote and one
      voter, and only when the user has not voted for it yet. */
  lemma VoteEffect(rs: seq<ComponentRequest>, id: string, user: string, i: nat)
    requires i < |rs|
    ensures FindIndex(HasRequestId(id), rs) == Some(i) && user !in rs[i].votedBy ==>
              var r := VoteIn(rs, id, user)[i];
              r.votes == rs[i].votes + 1 && r.votedBy == rs[i].votedBy + [user] && r.id == id
              && r == rs[i].(votes := r.votes, votedBy := r.votedBy)
    ensures FindIndex(HasRequestId(id), rs) != Some(i) || user in rs[i].votedBy ==> VoteIn(rs, id, user)[i] == rs[i]
  {
  }

  /** Voting twice is voting once. */
  lemma VoteIdempotent(rs: seq<ComponentRequest>, id: string, user: string)
    ensures VoteIn(VoteIn(rs, id, user), id, user) == VoteIn(rs, id, user)
  {
    var k := FindIndex(HasRequestId(id), rs);
    if k.Some? {
      var once := VoteIn(rs, id, user);
      assert forall j :: 0 <= j < |rs| ==> once[j].id == rs[j].id;
      assert FindIndex(HasRequestId(id), once) == k by {
        FindIndexSameIds(rs, once, id);
      }
    }
  }

  /** The first match depends on the ids alone. */
  lemma {:induction false} FindIndexSameIds(a: seq<ComponentRequest>, b: seq<ComponentRequest>, id: string)
    requires |a| == |b| && forall j :: 0 <= j < |a| ==> a[j].id == b[j].id
    ensures FindIndex(HasRequestId(id), a) == FindIndex(HasRequestId(id), b)
    decreases |a|
  {
    if |a| > 0 && a[0].id != id {
      FindIndexSameIds(a[1..], b[1..], id);
    }
  }

  /** Removing an id that is not among the voters leaves the list as it
      is. */
  lemma {:induction false} WithoutAbsent(voters: seq<string>, user: string)
    requires user !in voters
    ensures Without(voters, user) == voters
  {
    FilterAll((v: string) => v != user, voters);
  }

  /** A vote withdrawn right after it was cast leaves the requests as they
      were, when the user had not voted for that request before. */
  lemma VoteThenRemove(rs: seq<ComponentRequest>, id: string, user: string)
    requires forall j :: 0 <= j < |rs| && rs[j].id == id ==> user !in rs[j].votedBy
    ensures RemoveVoteIn(VoteIn(rs, id, user), id, user) == rs
  {
    var k := FindIndex(HasRequestId(id), rs);
    if k.Some? {
      var once := VoteIn(rs, id, user);
      FindIndexSameIds(rs, once, id);
      var x := rs[k.value];
      FilterConcat((v: string) => v != user, x.votedBy, [user]);
      WithoutAbsent(x.votedBy, user);
      assert DropVoter(AddVoter(x, user), user) == x;
    }
  }

  /** Removing a voter listed once shortens the list by one. */
  lemma {:induction false} WithoutDistinct(voters: seq<string>, user: string)
    requires Distinct(voters) && user in voters
    ensures |Without(voters, user)| == |voters| - 1
    ensures Distinct(Without(voters, user))
    decreases |voters|
  {
    WithoutCons(voters, user);
    if voters[0] == user {
      assert user !in voters[1..];
      WithoutAbsent(voters[1..], user);
    } else {
      WithoutDistinct(voters[1..], user);
      assert voters[0] !in voters[1..];
      DistinctConcat([voters[0]], Without(voters[1..], user));
    }
  }

  /** Withdrawing from a list of voters, one voter at a time. */
  lemma {:induction false} WithoutCons(voters: seq<string>, user: string)
    requires |voters| > 0
    ensures Without(voters, user) == (if voters[0] == user then [] else [voters[0]]) + Without(voters[1..], user)
  {
  }

  /** No request lists a voter twice. */
  predicate VotersDistinct(rs: seq<ComponentRequest>) {
    forall j :: 0 <= j < |rs| ==> Distinct(rs[j].votedBy)
  }

  /** While no request lists a voter twice, voting and withdrawing keep
      every request's votes minus voters, and keep the voters distinct. */
  lemma VotesKeepBalance(rs: seq<ComponentRequest>, id: string, user: string)
    requires VotersDistinct(rs)
    ensures VotersDistinct(VoteIn(rs, id, user)) && VotersDistinct(RemoveVoteIn(rs, id, user))
    ensures forall j :: 0 <= j < |rs| ==> Balance(VoteIn(rs, id, user)[j]) == Balance(rs[j])
    ensures forall j :: 0 <= j < |rs| ==> Balance(RemoveVoteIn(rs, id, user)[j]) == Balance(rs[j])
  {
    var k := FindIndex(HasRequestId(id), rs);
    if k.Some? {
      var x := rs[k.value];
      if user in x.votedBy {
        WithoutDistinct(x.votedBy, user);
      }
    }
  }

  // ---------------------------------------------------------------------------
  // Submission

  /** `req-` and the number, at least three digits. */
  function RequestId(n: nat): (id: string)
    ensures |id| >= 7 && id[..4] == "req-"
  {
    "req-" + PadStart(NatToString(n), 3, '0')
  }

  /** A positive number prints without a leading zero. */
  lemma {:induction false} NoLeadingZero(n: nat)
    requires n >= 1
    ensures NatToString(n)[0] != '0'
  {
    if n >= 10 {
      NoLeadingZero(n / 10);
      assert NatToString(n)[0] == NatToString(n / 10)[0];
    }
  }

  /** Different request numbers give different ids. */
  lemma RequestIdInjective(a: nat, b: nat)
    requires a >= 1 && b >= 1 && RequestId(a) == RequestId(b)
    ensures a == b
  {
    var sa, sb := NatToString(a), NatToString(b);
    var pa, pb := PadStart(sa, 3, '0'), PadStart(sb, 3, '0');
    assert pa == RequestId(a)[4..] && pb == RequestId(b)[4..];
    NoLeadingZero(a);
    NoLeadingZero(b);
    if |sa| == |sb| {
      assert sa == pa[|pa| - |sa|..] == pb[|pb| - |sb|..] == sb;
      NatToStringInjective(a, b);
    }
  }

  /** `x || d` on an optional string: the empty string is falsy. */
  function TextOr(x: Option<string>, d: string): string {
    if x.Some? && x.value != "" then x.value else d
  }

  /** The request `submitRequest` builds from a draft, the number of
      requests already on the board and today's date. */
  function NewRequest(draft: RequestDraft, count: nat, today: string): (r: ComponentRequest)
    ensures r.id == RequestId(count + 1)
    ensures r.status == Submitted && r.votes == 1 && r.votedBy == [CURRENT_USER] && Balance(r) == 0
    ensures r.createdAt == today && r.updatedAt == today && r.comments == []
    ensures r.title == (if draft.title.Some? then draft.title.value else "")
    ensures r.priority == (if draft.priority.Some? then draft.priority.value else PriorityMedium)
    ensures r.affectedProjects != 0
    ensures draft.affectedProjects.Some? && draft.affectedProjects.value != 0 ==> r.affectedProjects == draft.affectedProjects.value
  {
    ComponentRequest(
      RequestId(count + 1),
      TextOr(draft.title, ""),
      TextOr(draft.description, ""),
      TextOr(draft.userStory, ""),
      Submitted,
      if draft.priority.Some? then draft.priority.value else PriorityMedium,
      1,
      [CURRENT_USER],
      today,
      today,
      Person("Current User", "https://i.pravatar.cc/40?img=25"),
      if draft.attachments.Some? then draft.attachments.value else [],
      if draft.similarComponents.Some? then draft.similarComponents.value else [],
      if draft.affectedProjects.Some? && draft.affectedProjects.value != 0 then draft.affectedProjects.value else 1,
      [])
  }

  /** `nums` numbers the requests: each id is `RequestId` of its number,
      the numbers are distinct and run from 1 to the number of requests, as
      the fixture's `req-001` to `req-008` do. */
  ghost predicate NumberedBy(rs: seq<ComponentRequest>, nums: seq<nat>) {
    |nums| == |rs| && Distinct(nums)
    && forall i :: 0 <= i < |rs| ==> 1 <= nums[i] <= |rs| && rs[i].id == RequestId(nums[i])
  }

  /** Numbered requests have distinct ids. */
  lemma NumberedIdsDistinct(rs: seq<ComponentRequest>, nums: seq<nat>)
    requires NumberedBy(rs, nums)
    ensures forall i, j :: 0 <= i < j < |rs| ==> rs[i].id != rs[j].id
  {
    forall i, j | 0 <= i < j < |rs|
      ensures rs[i].id != rs[j].id
    {
      if rs[i].id == rs[j].id {
        RequestIdInjective(nums[i], nums[j]);
      }
    }
  }

  /** A number past the last is not yet taken. */
  lemma NextNumberFree(rs: seq<ComponentRequest>, nums: seq<nat>, n: nat)
    requires NumberedBy(rs, nums) && n > |rs|
    ensures forall i :: 0 <= i < |rs| ==> rs[i].id != RequestId(n)
  {
    forall i | 0 <= i < |rs|
      ensures rs[i].id != RequestId(n)
    {
      if rs[i].id == RequestId(n) {
        RequestIdInjective(nums[i], n);
      }
    }
  }

  /** Putting a request numbered one past the last in front keeps the
      numbering. */
  lemma PrependNext(rs: seq<ComponentRequest>, nums: seq<nat>, r: ComponentRequest)
    requires NumberedBy(rs, nums) && r.id == RequestId(|rs| + 1)
    ensures NumberedBy([r] + rs, [|rs| + 1] + nums)
  {
    var t, tn := [r] + rs, [|rs| + 1] + nums;
    assert |rs| + 1 !in nums;
    DistinctConcat([|rs| + 1], nums);
    forall i | 0 <= i < |t|
      ensures 1 <= tn[i] <= |t| && t[i].id == RequestId(tn[i])
    {
      if i > 0 {
        assert t[i] == rs[i - 1] && tn[i] == nums[i - 1];
      }
    }
  }

  /** While the requests are numbered, a submission's id is new, and the
      requests stay numbered after it. */
  lemma SubmitKeepsNumbering(rs: seq<ComponentRequest>, nums: seq<nat>, draft: RequestDraft, today: string)
    requires NumberedBy(rs, nums)
    ensures forall i :: 0 <= i < |rs| ==> rs[i].id != NewRequest(draft, |rs|, today).id
    ensures NumberedBy([NewRequest(draft, |rs|, today)] + rs, [|rs| + 1] + nums)
  {
    NextNumberFree(rs, nums, |rs| + 1);
    PrependNext(rs, nums, NewRequest(draft, |rs|, today));
  }

  /** Votes keep every id where it is. */
  lemma VotesKeepNumbering(rs: seq<ComponentRequest>, nums: seq<nat>, id: string, user: string)
    requires NumberedBy(rs, nums)
    ensures NumberedBy(VoteIn(rs, id, user), nums) && NumberedBy(RemoveVoteIn(rs, id, user), nums)
  {
  }

  /** `updateNewRequest(data)`: the fields `data` carries replace the
      draft's. */
  function Merge(draft: RequestDraft, data: RequestDraft): (r: RequestDraft)
    ensures data == EMPTY_DRAFT ==> r == draft
    ensures data.title.Some? ==> r.title == data.title
    ensures data.title.None? ==> r.title == draft.title
    ensures data.description.Some? ==> r.description == data.description
    ensures data.description.None? ==> r.description == draft.description
    ensures data.userStory.Some? ==> r.userStory == data.userStory
    ensures data.userStory.None? ==> r.userStory == draft.userStory
    ensures data.priority.Some? ==> r.priority == data.priority
    ensures data.priority.None? ==> r.priority == draft.priority
    ensures data.attachments.Some? ==> r.attachments == data.attachments
    ensures data.attachments.None? ==> r.attachments == draft.attachments
    ensures data.similarComponents.Some? ==> r.similarComponents == data.similarComponents
    ensures data.similarComponents.None? ==> r.similarComponents == draft.similarComponents
    ensures data.affectedProjects.Some? ==> r.affectedProjects == data.affectedProjects
    ensures data.affectedProjects.None? ==> r.affectedProjects == draft.affectedProjects
  {
    RequestDraft(
      if data.title.Some? then data.title else draft.title,
      if data.description.Some? then data.description else draft.description,
      if data.userStory.Some? then data.userStory else draft.userStory,
      if data.priority.Some? then data.priority else draft.priority,
      if data.attachments.Some? then data.attachments else draft.attachments,
      if data.similarComponents.Some? then data.similarComponents else draft.similarComponents,
      if data.affectedProjects.Some? then data.affectedProjects else draft.affectedProjects)
  }

  /** Two updates in a row are one update with the later fields winning. */
  lemma MergeTwice(draft: RequestDraft, a: RequestDraft, b: RequestDraft)
    ensures Merge(Merge(draft, a), b) == Merge(draft, Merge(a, b))
  {
  }

  // ---------------------------------------------------------------------------
  // The store

  class RequestStore {
    var requests: seq<ComponentRequest>
    var statusFilter: Option<RequestStatus>
    var priorityFilter: Option<Priority>
    var currentWizardStep: int
    var newRequest: RequestDraft

    constructor (fixtures: seq<ComponentRequest>)
      ensures requests == fixtures
      ensures statusFilter.None? && priorityFilter.None?
      ensures currentWizardStep == 0 && newRequest == EMPTY_DRAFT
    {
      requests := fixtures;
      statusFilter := None;
      priorityFilter := None;
      currentWizardStep := 0;
      newRequest := EMPTY_DRAFT;
    }

    /** The wizard's step is one of its four. */
    predicate StepInRange()
      reads this
    {
      0 <= currentWizardStep <= LAST_STEP
    }

    function Listed(): seq<ComponentRequest>
      reads this
    {
      FilteredRequests(requests, statusFilter, priorityFilter)
    }

    method SetStatusFilter(status: Option<RequestStatus>)
      modifies this
      ensures statusFilter == status
      ensures requests == old(requests) && priorityFilter == old(priorityFilter)
      ensures currentWizardStep == old(currentWizardStep) && newRequest == old(newRequest)
    {
      statusFilter := status;
    }

    method SetPriorityFilter(priority: Option<Priority>)
      modifies this
      ensures priorityFilter == priority
      ensures requests == old(requests) && statusFilter == old(statusFilter)
      ensures currentWizardStep == old(currentWizardStep) && newRequest == old(newRequest)
    {
      priorityFilter := priority;
    }

    method VoteForRequest(id: string, user: string)
      modifies this
      ensures requests == VoteIn(old(requests), id, user)
      ensures statusFilter == old(statusFilter) && priorityFilter == old(priorityFilter)
      ensures currentWizardStep == old(currentWizardStep) && newRequest == old(newRequest)
    {
      var k := FindIndex(HasRequestId(id), requests);
      if k.Some? && user !in requests[k.value].votedBy {
        var r := requests[k.value];
        requests := requests[k.value := r.(votes := r.votes + 1, votedBy := r.votedBy + [user])];
      }
    }

    method RemoveVote(id: string, user: string)
      modifies this
      ensures requests == RemoveVoteIn(old(requests), id, user)
      ensures statusFilter == old(statusFilter) && priorityFilter == old(priorityFilter)
      ensures currentWizardStep == old(currentWizardStep) && newRequest == old(newRequest)
    {
      var k := FindIndex(HasRequestId(id), requests);
      if k.Some? && user in requests[k.value].votedBy {
        var r := requests[k.value];
        requests := requests[k.value := r.(votes := r.votes - 1, votedBy := Without(r.votedBy, user))];
      }
    }

    /** One step on, but not past the last. */
    method NextWizardStep()
      modifies this
      ensures StepInRange() <== old(StepInRange())
      ensures currentWizardStep == if old(currentWizardStep) < LAST_STEP then old(currentWizardStep) + 1
                                   else old(currentWizardStep)
      ensures requests == old(requests) && newRequest == old(newRequest)
      ensures statusFilter == old(statusFilter) && priorityFilter == old(priorityFilter)
    {
      if currentWizardStep < LAST_STEP {
        currentWizardStep := currentWizardStep + 1;
      }
    }

    /** One step back, but not before the first. */
    method PrevWizardStep()
      modifies this
      ensures StepInRange() <== old(StepInRange())
      ensures currentWizardStep == if old(currentWizardStep) > 0 then old(currentWizardStep) - 1
                                   else old(currentWizardStep)
      ensures requests == old(requests) && newRequest == old(newRequest)
      ensures statusFilter == old(statusFilter) && priorityFilter == old(priorityFilter)
    {
      if currentWizardStep > 0 {
        currentWizardStep := currentWizardStep - 1;
      }
    }

    method ResetWizard()
      modifies this
      ensures currentWizardStep == 0 && StepInRange() && newRequest == EMPTY_DRAFT
      ensures requests == old(requests)
      ensures statusFilter == old(statusFilter) && priorityFilter == old(priorityFilter)
    {
      currentWizardStep := 0;
      newRequest := EMPTY_DRAFT;
    }

    method UpdateNewRequest(data: RequestDraft)
      modifies this
      ensures newRequest == Merge(old(newRequest), data)
      ensures requests == old(requests) && currentWizardStep == old(currentWizardStep)
      ensures statusFilter == old(statusFilter) && priorityFilter == old(priorityFilter)
    {
      newRequest := Merge(newRequest, data);
    }

    /** Puts the drafted request first on the board and starts the wizard
        over. `today` is the date part of the clock's ISO time. */
    method SubmitRequest(today: string)
      modifies this
      ensures requests == [NewRequest(old(newRequest), |old(requests)|, today)] + old(requests)
      ensures |requests| == |old(requests)| + 1
      ensures currentWizardStep == 0 && newRequest == EMPTY_DRAFT
      ensures statusFilter == old(statusFilter) && priorityFilter == old(priorityFilter)
    {
      var r := NewRequest(newRequest, |requests|, today);
      requests := [r] + requests;
      ResetWizard();
    }

    method ClearFilters()
      modifies this
      ensures statusFilter.None? && priorityFilter.None?
      ensures requests == old(requests)
      ensures currentWizardStep == old(currentWizardStep) && newRequest == old(newRequest)
    {
      statusFilter := None;
      priorityFilter := None;
    }
  }

  /** Whatever sequence of forward and back moves the page makes, the
      wizard's step stays within its four steps. */
  method WizardWalk(store: RequestStore, moves: seq<bool>)
    requires store.StepInRange()
    modifies store
    ensures store.StepInRange()
    ensures store.requests == old(store.requests)
  {
    for i := 0 to |moves|
      invariant store.StepInRange()
      invariant store.requests == old(store.requests)
    {
      if moves[i] {
        store.NextWizardStep();
      } else {
        store.PrevWizardStep();
      }
    }
  }
}

=== FILE: storage.dfy ===
/** `storage`: the persisted application state, a second namespace in the
    same browser store, under the prefix "dsm_" and without expiry. Every
    failure is swallowed: reads fall back to a default value, writes and
    removals that fail leave the store as it was. */
module Storage {
  import opened Common
  import opened LocalStore
  import Cache

  const PREFIX: string := "dsm_"

  /** The keys the application persists under. */
  const STORAGE_KEYS: seq<string> := ["requests", "audit_issues", "dismissed_alerts", "user_votes"]

  /** The key the theme store writes directly, outside this namespace. */
  const THEME_KEY: string := "dsm-theme"

  /** What a read of physical key `k` answers: the parsed document of a
      non-empty, parsable text, and `defaultValue` otherwise. */
  function Read<D>(items: map<string, Stored<D>>, k: string, defaultValue: Option<Doc<D>>): (r: Option<Doc<D>>)
    ensures k in items && items[k].Json? ==> r == Some(items[k].doc)
    ensures k !in items || items[k].Blank? || items[k].Garbled? ==> r == defaultValue
  {
    if k in items && items[k].Json? then Some(items[k].doc) else defaultValue
  }

  class PersistentStorage<D> {
    const store: Store<D>

    constructor (store: Store<D>)
      ensures this.store == store
    {
      this.store := store;
    }

    /** The value stored under "dsm_" + `key`, or `defaultValue` (null when
        the caller gives none) when it is absent, empty or unparsable. */
    function Get(key: string, defaultValue: Option<Doc<D>> := None): (r: Option<Doc<D>>)
      reads store
      ensures r == Read(store.items, PREFIX + key, defaultValue)
    {
      var k := PREFIX + key;
      if k !in store.items then defaultValue
      else match store.items[k]
        case Json(doc) => Some(doc)
        case _ => defaultValue
    }

    /** Stores `value`; a refused write is swallowed. */
    method Set(key: string, value: D, writable: bool)
      modifies store
      ensures store.items == if writable then old(store.items)[PREFIX + key := Json(Plain(value))] else old(store.items)
    {
      if writable {
        store.items := store.items[PREFIX + key := Json(Plain(value))];
      }
    }

    method Remove(key: string)
      modifies store
      ensures store.items == old(store.items) - {PREFIX + key}
    {
      store.items := store.items - {PREFIX + key};
    }

    /** Removes every key that starts with "dsm_", one by one. */
    method Clear()
      modifies store
      ensures store.items == Unprefixed(old(store.items), PREFIX)
    {
      var keys := Prefixed(store.items, PREFIX);
      ghost var all := keys;
      while keys != {}
        invariant keys <= all
        invariant store.items == old(store.items) - (all - keys)
        decreases keys
      {
        var k :| k in keys;
        store.items := store.items - {k};
        keys := keys - {k};
      }
    }
  }

  /** A written value reads back unchanged, whatever the default. */
  lemma SetThenGet<D>(items: map<string, Stored<D>>, key: string, value: D, defaultValue: Option<Doc<D>>)
    ensures Read(items[PREFIX + key := Json(Plain(value))], PREFIX + key, defaultValue) == Some(Plain(value))
  {
  }

  /** Removing one key leaves the reading of every other key unchanged. */
  lemma RemoveIsolated<D>(items: map<string, Stored<D>>, key: string, other: string, defaultValue: Option<Doc<D>>)
    requires other != key
    ensures Read(items - {PREFIX + key}, PREFIX + other, defaultValue) == Read(items, PREFIX + other, defaultValue)
  {
    assert PREFIX + other != PREFIX + key by {
      if PREFIX + other == PREFIX + key {
        Cache.KeyInjective(PREFIX, other, key);
      }
    }
  }

  /** The storage prefix is a prefix of the cache's default prefix. */
  lemma CachePrefixUnderStorage()
    ensures StartsWith(Cache.DEFAULT_PREFIX, PREFIX)
  {
  }

  /** So clearing the storage wipes every cache entry ... */
  lemma StorageClearWipesCache<D>(items: map<string, Stored<D>>, key: string, now: int)
    ensures Cache.PhysicalKey(Cache.DEFAULT_PREFIX, key) !in Unprefixed(items, PREFIX)
    ensures Cache.Lookup(Unprefixed(items, PREFIX), Cache.PhysicalKey(Cache.DEFAULT_PREFIX, key), now) == None
  {
    var k := Cache.PhysicalKey(Cache.DEFAULT_PREFIX, key);
    assert k[..|PREFIX|] == PREFIX by {
      assert k[..|PREFIX|] == Cache.DEFAULT_PREFIX[..|PREFIX|];
    }
  }

  /** ... while clearing the cache keeps every storage key that does not
      itself begin with "cache_", which includes all of STORAGE_KEYS. */
  lemma CacheClearKeepsStorage<D>(items: map<string, Stored<D>>, key: string, defaultValue: Option<Doc<D>>)
    requires !StartsWith(key, "cache_")
    ensures Read(Unprefixed(items, Cache.DEFAULT_PREFIX), PREFIX + key, defaultValue) == Read(items, PREFIX + key, defaultValue)
  {
    var k := PREFIX + key;
    if |key| >= 6 {
      assert k[..10][4..] == key[..6];
      assert Cache.DEFAULT_PREFIX[4..] == "cache_";
    }
    assert !StartsWith(k, Cache.DEFAULT_PREFIX);
  }

  lemma StorageKeysSurviveCacheClear<D>(items: map<string, Stored<D>>, i: nat, defaultValue: Option<Doc<D>>)
    requires i < |STORAGE_KEYS|
    ensures Read(Unprefixed(items, Cache.DEFAULT_PREFIX), PREFIX + STORAGE_KEYS[i], defaultValue)
         == Read(items, PREFIX + STORAGE_KEYS[i], defaultValue)
  {
    assert STORAGE_KEYS[i][0] != "cache_"[0];
    CacheClearKeepsStorage(items, STORAGE_KEYS[i], defaultValue);
  }

  /** The theme key uses a hyphen, not the prefix, and survives `Clear`. */
  lemma ThemeSurvivesClear<D>(items: map<string, Stored<D>>)
    ensures THEME_KEY in Unprefixed(items, PREFIX) <==> THEME_KEY in items
  {
    assert THEME_KEY[3] != PREFIX[3];
  }
}

=== FILE: types.dfy ===
/** The application's view-model records: what the pages display and the
    stores hold. Optional properties are `Option`s; an optional boolean or
    list that is falsy when absent is modelled by its falsy value. */
module Types {
  import opened Common

  // ---------------------------------------------------------------------------
  // Components

  datatype ComponentCategory = Foundations | Components | Patterns | Templates
  datatype ComponentStatus = Stable | Beta | Deprecated
  datatype Platform = IOS | Android | Web

  datatype DesignComponent = DesignComponent(
    id: string,
    name: string,
    description: string,
    category: ComponentCategory,
    version: string,
    status: ComponentStatus,
    platforms: seq<Platform>,
    lastUpdated: string,
    usageCount: int,
    needsUpdate: bool,
    preview: Option<string>,
    tags: seq<string>)

  datatype ComponentVariant = ComponentVariant(id: string, name: string, description: string)

  datatype ComponentProp = ComponentProp(
    name: string,
    propType: string,
    defaultValue: Option<string>,
    required: bool,
    description: string)

  datatype ComponentVersion = ComponentVersion(version: string, date: string, changes: seq<string>, author: string)

  /** A discussion entry; an entry without replies has `replies == []`. */
  datatype ComponentComment = ComponentComment(
    id: string,
    author: string,
    avatar: string,
    content: string,
    date: string,
    replies: seq<ComponentComment>)

  datatype UsageGuide = UsageGuide(doList: seq<string>, dontList: seq<string>)

  datatype AccessibilityInfo = AccessibilityInfo(wcagLevel: string, keyboardNav: seq<string>, screenReader: seq<string>)

  datatype CodeSnippet = CodeSnippet(platform: Platform, code: string, language: string)

  /** A component with its documentation. `base` holds the fields it shares
      with `DesignComponent`. */
  datatype ComponentDetail = ComponentDetail(
    base: DesignComponent,
    variants: seq<ComponentVariant>,
    props: seq<ComponentProp>,
    versions: seq<ComponentVersion>,
    comments: seq<ComponentComment>,
    usage: UsageGuide,
    accessibility: AccessibilityInfo,
    codeSnippets: seq<CodeSnippet>)

  /** The component library's filter panel. */
  datatype FilterState = FilterState(
    search: string,
    platforms: seq<Platform>,
    categories: seq<ComponentCategory>,
    statuses: seq<ComponentStatus>)

  // ---------------------------------------------------------------------------
  // Audit

  datatype IssueSeverity = Critical | High | Medium

  datatype IssueLocation = IssueLocation(file: string, page: string, frame: string)

  /** An audit finding; `fixed` is false when the source leaves it unset. */
  datatype AuditIssue = AuditIssue(
    id: string,
    severity: IssueSeverity,
    issueType: string,
    title: string,
    description: string,
    location: IssueLocation,
    suggestion: string,
    autoFixable: bool,
    screenshot: Option<string>,
    fixed: bool)

  datatype AuditProject = AuditProject(id: string, name: string, coverage: int, issues: int, lastAudit: string)

  // ---------------------------------------------------------------------------
  // Component requests

  datatype RequestStatus = Submitted | UnderReview | InDevelopment | Ready

  /** The priority scale shared by component requests and tracker issues. */
  datatype Priority = PriorityLow | PriorityMedium | PriorityHigh | PriorityCritical

  datatype Person = Person(name: string, avatar: string)

  datatype ComponentRequest = ComponentRequest(
    id: string,
    title: string,
    description: string,
    userStory: string,
    status: RequestStatus,
    priority: Priority,
    votes: int,
    votedBy: seq<string>,
    createdAt: string,
    updatedAt: string,
    author: Person,
    attachments: seq<string>,
    similarComponents: seq<string>,
    affectedProjects: int,
    comments: seq<ComponentComment>)

  // ---------------------------------------------------------------------------
  // Analytics

  /** A point of a chart series. */
  datatype UsageMetric = UsageMetric(date: string, value: int)

  /** `trend` is `None` where the source computes `NaN`. */
  datatype ComponentUsage = ComponentUsage(componentId: string, componentName: string, usageCount: int, trend: Option<int>)

  datatype ProjectCoverage = ProjectCoverage(
    projectId: string,
    projectName: string,
    coverage: int,
    totalComponents: int,
    adoptedComponents: int)

  datatype PlatformUsage = PlatformUsage(platform: Platform, components: seq<string>, usage: int)

  datatype AlertType = WarningAlert | InfoAlert | SuccessAlert

  datatype Alert = Alert(id: string, alertType: AlertType, message: string, componentId: Option<string>, date: string)

  datatype RecommendationType = Deprecate | Update | Promote

  datatype Recommendation = Recommendation(
    id: string,
    recType: RecommendationType,
    componentId: string,
    componentName: string,
    reason: string,
    metric: string)

  // ---------------------------------------------------------------------------
  // Issue tracker

  datatype IssueType = Bug | Enhancement | Documentation | Question
  datatype IssueStatus = Open | InProgress | Resolved | Closed

  datatype IssueComment = IssueComment(id: string, author: Person, content: string, createdAt: string)

  datatype Issue = Issue(
    id: string,
    title: string,
    description: string,
    issueType: IssueType,
    status: IssueStatus,
    priority: Priority,
    componentId: Option<string>,
    labels: seq<string>,
    assignee: Option<Person>,
    author: Person,
    createdAt: string,
    updatedAt: string,
    comments: seq<IssueComment>)

  // ---------------------------------------------------------------------------
  // Contributions

  datatype ContributionStatus = Draft | PendingReview | Approved | Rejected | Merged
  datatype ReviewStatus = ReviewApproved | ChangesRequested | Commented

  datatype Branch = Branch(
    id: string,
    name: string,
    componentId: string,
    basedOn: string,
    author: Person,
    createdAt: string,
    isDefault: bool)

  datatype ComponentChange = ComponentChange(field: string, before: string, after: string, description: string)

  datatype Review = Review(id: string, author: Person, status: ReviewStatus, comment: string, createdAt: string)

  datatype Contribution = Contribution(
    id: string,
    title: string,
    description: string,
    branchId: string,
    componentId: string,
    status: ContributionStatus,
    author: Person,
    changes: seq<ComponentChange>,
    reviews: seq<Review>,
    createdAt: string,
    updatedAt: string)
}
